=== FILE: README.md ===
# Timsort for two arrays sorted in lockstep, modelled in Dafny

This project models the generic sorting engine of `lib/timsort.c`, which sorts a key array
and a bound array together. It covers five parts:

- the minimum run length (`clzll`, `compute_minrun`);
- binary insertion sort (`binary_insertion_find`, `binary_insertion_sort_start`,
  `binary_insertion_sort`);
- the fixed sorting networks for 2 to 16 elements and their dispatcher `bitonic_sort`;
- run detection (`reverse_elements`, `count_run`);
- the merge driver (`check_invariant`, `tim_sort_resize`, `tim_sort_merge`,
  `tim_sort_collapse`, `push_next`, `tim_sort`).

The two arrays become one sequence of `Pair(key, bound)`. The bound value therefore
travels with its key by construction. Every operation is a function or method from
sequences to sequences. "In place" is stated as: the result equals the input outside
the range the operation may touch.

Properties are stated against independent reference definitions in `reference.dfy`:

- `Merge` is the front-to-back stable merge, where the left run wins ties.
- `Insert` places an element after every element with an equal key.
- `StableSort` is insertion sort built from `Insert`.
- `StablePerm(s, t)` says that for every key, the elements carrying that key appear in
  `t` exactly as, and in the same order as, in `s`. It implies a multiset permutation.
  Together with sortedness it determines the result uniquely
  (`SortedStableIsStableSort`).

The end-to-end result is `TimSorting.TimSort`:

- the output is sorted and a permutation of the input;
- zero or one element is left alone;
- 2 to 16 elements get exactly the conditional swaps of that size's network;
- above 16 elements the output is the stable sort of the input;
- sorted input always comes back unchanged.

The networks' sortedness is proved with the 0-1 principle, by a per-layer case analysis
over Boolean sequences (`network_proofs.dfy`).

Two properties of the code are worth stating up front:

- The networks for 2 to 16 elements (`lib/timsort.c:224-672`) are not stable.
  `Bitonic.Network4NotStable` exhibits an input whose equal keys swap their order.
- The early exit of `binary_insertion_find` (`lib/timsort.c:144`) fires only when the
  inserted key is strictly greater than the last one. An equal key goes through the
  search loop.

## Model

| member | source | states |
|---|---|---|
| MinRun.ClzIsLeadingZeros | lib/timsort.c:77-104 | the five halving steps and the final bit test count exactly the zero bits above the highest set bit, 64 minus the bit length, so zero gives 64 |
| MinRun.MinrunIsCeiling | lib/timsort.c:114-121 | minrun is `size` divided by 2^shift rounded up, where the shift keeps the six leading bits: (minrun - 1) * 2^shift < size <= minrun * 2^shift |
| MinRun.MinrunRange | lib/timsort.c:114-121 | below 64 the minimum run is the size itself; from 64 on it lies in [32, 64] |
| MinRun.ShiftedBounds | lib/timsort.c:114-121 | from 64 on, the shift keeps exactly six bits: `size` lies in [32 * 2^shift, 64 * 2^shift) |
| MinRun.MinrunLarge | lib/timsort.c:114-121 | from 64 on, the rounded-up quotient lies in [32, 64] |
| Insertion.Find | lib/timsort.c:139-158 | when the last key of the sorted prefix exceeds the inserted key, the answer is the first position whose key exceeds it, so the element lands after every equal key; when the last key is not larger the answer is `size - 1`, except for one element whose key equals the inserted one, where the loop answers 1; a smaller single key gives 0 |
| Insertion.ShiftUp | lib/timsort.c:183-186 | positions `loc..i-1` move up by one and every other position is untouched, including the edge case at position 0 |
| Insertion.InsertNext | lib/timsort.c:177-187 | one outer step: the range grown by the next element equals the reference `Insert` of that element into the sorted range, whether it is skipped or shifted in, and nothing outside moves |
| Insertion.InsertFrom | lib/timsort.c:175-188 | the passes from `i` up to `size`, started with the first `i` elements in reference order, leave the first `size` elements as the stable sort of the input's and everything else as the input |
| Insertion.SortStart | lib/timsort.c:171-189 | with a sorted prefix of `start` elements, the range `[offset, offset+size)` becomes its stable sort (sorted, and a stable rearrangement) and nothing outside changes; nothing changes when `size <= start` |
| Insertion.InsertionSort | lib/timsort.c:199-203 | the result is the stable sort of the input; sizes 0 and 1 are left alone |
| Networks.CSwapPermutation | lib/timsort.c:43-45 | a conditional swap loses and invents no pair |
| Networks.ApplyNetSorted | lib/timsort.c:43-45 | a network whose comparators all name the lower position first never fires on sorted input, so it leaves it unchanged |
| NetworkProofs.NetworkSortsBits | lib/timsort.c:224-672 | each of the fifteen networks sorts every 0-1 sequence of its size |
| NetworkProofs.NetworkOriented | lib/timsort.c:224-672 | every comparator of every network names the lower position first |
| Networks.ZeroOnePrinciple | lib/timsort.c:224-672 | a network that sorts every 0-1 sequence of a length sorts every key sequence of that length |
| Bitonic.NetworkSorts | lib/timsort.c:224-672 | every network sorts its input and is a permutation |
| Bitonic.NetworkKeepsSorted | lib/timsort.c:224-672 | every network leaves sorted input exactly as it is |
| Bitonic.Network4NotStable | lib/timsort.c:234-240 | on keys 1, 2, 1, 0 the four-element network puts the second 1 before the first, so the networks are not stable |
| Bitonic.BitonicSort | lib/timsort.c:683-722 | the result is sorted and a permutation; sizes 0 and 1 are left alone; sizes 2 to 16 apply exactly their network; larger sizes give the stable sort; sorted input is unchanged |
| Runs.ReverseElements | lib/timsort.c:741-748 | the closed range `[lo, hi]` is reversed and every other position is unchanged; an empty or one-element range leaves the sequence alone |
| Runs.ReversedDescending | lib/timsort.c:777-785 | reversing a strictly descending run sorts it stably (no two keys are equal) and gives exactly its stable sort |
| Runs.AscendingRun | lib/timsort.c:770-776 | the ascending scan returns a run of at least 2 that is non-decreasing and stops at the first drop or one position before the end |
| Runs.DescendingRun | lib/timsort.c:777-781 | the descending scan returns a run of at least 2 that is strictly decreasing and stops at the first non-drop or one position before the end |
| Runs.LastTwo | lib/timsort.c:764-767 | with two elements left, one conditional swap orders them stably |
| Runs.CountRun | lib/timsort.c:761-786 | the run has length 1 to `size - start`, at least 2 when two remain, and never reaches the last element when three or more remain; it becomes its stable sort and nothing outside it changes; an ascending run is left in place, a descending one is strictly decreasing and reversed |
| Collapsing.CheckInvariant | lib/timsort.c:797-808 | true exactly when fewer than two runs are stacked, or the top two lengths strictly decrease and, with three or more runs, the third from the top exceeds the sum of the top two |
| Merging.Resize | lib/timsort.c:817-828 | afterwards a buffer is held with room for `size`; a held buffer never shrinks and is kept when it is large enough; otherwise the capacity becomes exactly `size` |
| Merging.MergeBackLeft | lib/timsort.c:884-888 | when the left run's last key is strictly larger, that pair is the last element of the stable merge |
| Merging.MergeBackRight | lib/timsort.c:889-897 | when the left run's last key is not larger, the right run's last pair is the last element of the stable merge |
| Merging.LowStep | lib/timsort.c:857-870 | one step of the left merge while buffered pairs remain writes the next pair of the stable merge at `k`: the output so far, followed by the stable merge of what is left, is still the whole merge, and every position outside the output written so far still holds the input |
| Merging.MergeLow | lib/timsort.c:848-873 | the front-to-back merge that buffers the left run, taking the buffered pair on ties, writes exactly the stable merge of the two runs, and nothing outside the range changes |
| Merging.HighStep | lib/timsort.c:884-897 | one step of the right merge while buffered pairs remain writes the next pair of the stable merge, from the back, at `k - 1`: the stable merge of what is left, followed by the output, is still the whole merge, and every position outside the output written so far still holds the input |
| Merging.MergeHigh | lib/timsort.c:874-900 | the back-to-front merge that buffers the right run, taking the left pair only when strictly larger, writes exactly the stable merge of two sorted runs, and nothing outside the range changes |
| Merging.MergedRange | lib/timsort.c:840-901 | a range holding the stable merge of two sorted runs is sorted, and the whole array is a stable rearrangement of the input |
| Merging.MergeAt | lib/timsort.c:840-901 | merging two adjacent sorted runs makes their range the stable merge, sorted, with nothing else moved; the buffer then has room for the shorter run and has not shrunk |
| Collapsing.TilingTotal | lib/timsort.c:993-996 | runs pushed side by side from 0 to `curr` have lengths adding up to `curr` |
| Collapsing.MergeRunsTiling | lib/timsort.c:951-960 | replacing two adjacent runs by their union keeps the stack tiling the same range |
| Collapsing.MergeRunsAdjacent | lib/timsort.c:951-960 | after merging two adjacent runs every run still starts where the one below it ends |
| Collapsing.MergeRunsOrdered | lib/timsort.c:951-960 | after merging two adjacent runs no run reaches past the start of a later one |
| Collapsing.MergeRunsTotal | lib/timsort.c:951-960 | merging two adjacent runs leaves the total length of the stack unchanged |
| Collapsing.MergeRunsWellFormed | lib/timsort.c:951-960 | after a merge every run on the new stack is still sorted in place |
| Collapsing.MergeAndPop | lib/timsort.c:951-960 | one merge-and-pop keeps the stack well formed over the same range and the array a stable rearrangement; nothing from `curr` on moves |
| Collapsing.CollapseChoice | lib/timsort.c:920-961 | each round of the collapse either merges the top two runs, merges the middle pair, or stops; it stops only when the stack is balanced |
| Collapsing.CollapseRound | lib/timsort.c:920-960 | one round either finds the stack balanced and changes nothing, or merges the pair it picks, so the stack loses exactly one run while staying well formed over a stable rearrangement |
| Collapsing.Collapse | lib/timsort.c:916-964 | the result never has more runs and is nonempty when the input was; it tiles the same range with sorted runs and keeps a stable rearrangement; it ends balanced; an unbalanced stack loses at least one run; when no merge happens nothing changes |
| TimSorting.SortedFrontSameSort | lib/timsort.c:984-991 | replacing the front of a slice by its stable sort leaves the stable sort of the whole slice unchanged, which is why extending a run keeps it stable |
| TimSorting.ExtendRun | lib/timsort.c:988-991 | extending a sorted run to `run` elements by binary insertion makes those elements the stable sort of the original ones |
| TimSorting.NextRun | lib/timsort.c:984-991 | the pushed run has between 1 and `size - curr` elements and at least `min(minrun, size - curr)`; it is the stable sort of the input's elements there, and nothing else moves |
| TimSorting.PushWellFormed | lib/timsort.c:993-996 | pushing a sorted run that starts where the stack ends keeps the stack well formed |
| TimSorting.MergeAll | lib/timsort.c:999-1004 | once everything is pushed, repeated merges of the top two runs leave the single run `[0, size)`, sorted, and a stable rearrangement of the input |
| TimSorting.PushNext | lib/timsort.c:981-1014 | the position advances, by at least `min(minrun, size - curr)`; the answer is "more" exactly when the end is not reached; the stack stays well formed over a stable rearrangement; while more remains, the new run is the stable sort of its input elements, with nothing else moved; otherwise one sorted run covers everything and the buffer is released |
| TimSorting.TimSort | lib/timsort.c:1030-1060 | the output is sorted and a permutation; sizes 0 and 1 are left alone; sizes 2 to 16 apply exactly their network; above 16 the output is the stable sort; sorted input is unchanged |

## Left out

- Everything outside `lib/timsort.c` is not part of this model. That includes the I/O
  code that calls the sort.
- Allocation failure in `tim_sort_resize` is not modelled. The source prints a message
  and exits the process there. In the model the resize always succeeds.
- `realloc` and `free` are reduced to the `Storage` record, which tracks whether a buffer
  is held and its capacity. The buffer's contents are the copied run, held as a sequence
  inside the merge. Freeing keeps the recorded capacity, as the source does.
- The macros that make the engine generic are not modelled. The model fixes one
  instantiation: an integer key, a natural-number bound value, and comparison by key.
- The fixed run stack of `TIM_SORT_STACK_SIZE` (128) entries is modelled as an unbounded
  sequence. It is not proved that 128 entries always suffice.
- `size_t` and `int` arithmetic is unbounded in the model. `TimSorting.TimSort` requires
  a size below 2^64, the range of `size_t` and of the `uint64_t` input of
  `compute_minrun`. The source has three unsigned countdowns; each is a natural number
  in the model:
  - the inner loop of `binary_insertion_sort_start` (`lib/timsort.c:183-186`) leaves
    explicitly after moving position 0, which is what keeps its index from wrapping; in
    `Insertion.ShiftUp` that exit is what keeps the counter from going below zero;
  - `end -= 1` in `reverse_elements` (`lib/timsort.c:746`) runs only while `start < end`,
    so it never goes below zero (`Runs.ReverseElements`);
  - `while (k-- > curr)` in the right merge (`lib/timsort.c:883`) does wrap: when the
    loop ends by its own test with `curr == 0`, the post-decrement turns `k` from 0 into
    `SIZE_MAX`. That is harmless, because `k` is not read after the loop.
    `Merging.MergeHigh` tests `k > lo`, writes at `k - 1` and only then decrements, so
    its counter never goes below `lo`; the wrapped value is not modelled.

=== FILE: bitonic.dfy ===
/** `bitonic_sort`: the dispatcher for arrays of fewer than 64 elements. Sizes 2 to 16 run
    the fixed network of that size, larger ones binary insertion sort, and 0 or 1 elements
    are left alone. */
module Bitonic {
  import opened Pairs
  import opened Reference
  import opened Insertion
  import opened Networks
  import opened NetworkProofs

  /** Every network of `bitonic_sort` sorts its input and keeps its pairs. */
  lemma NetworkSorts(s: seq<Pair>)
    requires 2 <= |s| <= 16
    ensures Sorted(ApplyNet(Network(|s|), 0, s))
    ensures multiset(ApplyNet(Network(|s|), 0, s)) == multiset(s)
  {
    forall v: seq<bool> | |v| == |s|
      ensures SortedBits(ApplyNetBits(Network(|s|), 0, v))
    {
      NetworkSortsBits(|s|, v);
    }
    ZeroOnePrinciple(Network(|s|), s);
    ApplyNetPermutation(Network(|s|), 0, s);
  }

  /** A network leaves sorted input exactly as it is. */
  lemma NetworkKeepsSorted(s: seq<Pair>)
    requires 2 <= |s| <= 16 && Sorted(s)
    ensures ApplyNet(Network(|s|), 0, s) == s
  {
    NetworkOriented(|s|);
    ApplyNetSorted(Network(|s|), 0, s);
  }

  /** The networks are not stable: on keys 1, 2, 1, 0 the 4-element network puts the
      second 1 before the first. */
  lemma Network4NotStable()
    ensures var s := [Pair(1, 0), Pair(2, 1), Pair(1, 2), Pair(0, 3)];
            var r := ApplyNet(Network4, 0, s);
            r == [Pair(0, 3), Pair(1, 2), Pair(1, 0), Pair(2, 1)] && !StablePerm(s, r)
  {
    var s := [Pair(1, 0), Pair(2, 1), Pair(1, 2), Pair(0, 3)];
    var s1 := [Pair(1, 0), Pair(2, 1), Pair(0, 3), Pair(1, 2)];
    var s2 := [Pair(0, 3), Pair(1, 2), Pair(1, 0), Pair(2, 1)];
    assert ApplyLayer(Network4[0], 0, s) == s1 by {
      assert CSwap(s, C(0, 1)) == s;
      assert CSwap(s, C(2, 3)) == s1;
      assert ApplyLayer(Network4[0], 1, s) == ApplyLayer(Network4[0], 2, s1);
    }
    assert ApplyLayer(Network4[1], 0, s1) == s2 by {
      var t := [Pair(0, 3), Pair(2, 1), Pair(1, 0), Pair(1, 2)];
      assert CSwap(s1, C(0, 2)) == t;
      assert CSwap(t, C(1, 3)) == s2;
      assert ApplyLayer(Network4[1], 1, t) == ApplyLayer(Network4[1], 2, s2);
    }
    assert ApplyLayer(Network4[2], 0, s2) == s2 by {
      assert CSwap(s2, C(1, 2)) == s2;
    }
    assert ApplyNet(Network4, 0, s) == ApplyNet(Network4, 1, s1) == ApplyNet(Network4, 2, s2);
    assert KeyFilter(s, 1) == [Pair(1, 0), Pair(1, 2)] by {
      var a, b, c := s[..3], s[..2], s[..1];
      assert a == [Pair(1, 0), Pair(2, 1), Pair(1, 2)] && a[..2] == b && b[..1] == c;
      assert KeyFilter(c, 1) == KeyFilter([], 1) + [Pair(1, 0)] by { assert c[..0] == []; }
      assert KeyFilter(s, 1) == KeyFilter(a, 1) == KeyFilter(b, 1) + [Pair(1, 2)];
      assert KeyFilter(b, 1) == KeyFilter(c, 1);
    }
    assert KeyFilter(s2, 1) == [Pair(1, 2), Pair(1, 0)] by {
      var a, b, c := s2[..3], s2[..2], s2[..1];
      assert a == [Pair(0, 3), Pair(1, 2), Pair(1, 0)] && a[..2] == b && b[..1] == c;
      assert KeyFilter(c, 1) == [] by { assert c[..0] == []; }
      assert KeyFilter(s2, 1) == KeyFilter(a, 1) == KeyFilter(b, 1) + [Pair(1, 0)];
      assert KeyFilter(b, 1) == KeyFilter(c, 1) + [Pair(1, 2)];
    }
  }

  /** `bitonic_sort`: the first `|s|` pairs end with non-decreasing keys, and the pairs are
      only rearranged. Sizes 2 to 16 run nothing but their network's conditional swaps;
      larger sizes are sorted stably. */
  method BitonicSort(s: seq<Pair>) returns (r: seq<Pair>)
    ensures Sorted(r) && multiset(r) == multiset(s)
    ensures |s| <= 1 ==> r == s
    ensures 2 <= |s| <= 16 ==> r == ApplyNet(Network(|s|), 0, s)
    ensures |s| > 16 ==> r == StableSort(s)
    ensures Sorted(s) ==> r == s
  {
    if |s| <= 1 {
      r := s;
      assert Sorted(r);
    } else if |s| <= 16 {
      r := ApplyNet(Network(|s|), 0, s);
      NetworkSorts(s);
      if Sorted(s) {
        NetworkKeepsSorted(s);
      }
    } else {
      r := InsertionSort(s);
      StablePermIsPermutation(s, r);
      if Sorted(s) {
        SortedIsFixpoint(s);
      }
    }
  }
}

=== FILE: collapse.dfy ===
/** The run stack of the sort and `tim_sort_collapse`, which merges runs on it until the
    balance conditions checked by `check_invariant` hold at the top. */
module Collapsing {
  import opened Pairs
  import opened Reference
  import opened Merging

  /** The runs lie side by side: the first starts at 0, each starts where the one below
      ends, the last ends at `curr`, and no run reaches past a later one's start. */
  predicate Tiling(stack: seq<Run>, curr: nat)
  {
    && (stack == [] ==> curr == 0)
    && (stack != [] ==> stack[0].start == 0 && End(stack[|stack| - 1]) == curr)
    && (forall i :: 0 <= i < |stack| - 1 ==> End(stack[i]) == stack[i + 1].start)
    && (forall i, j :: 0 <= i < j < |stack| ==> End(stack[i]) <= stack[j].start)
  }

  /** Every run on the stack lies inside `x` and is sorted there. */
  predicate RunsSorted(x: seq<Pair>, stack: seq<Run>)
  {
    forall i :: 0 <= i < |stack| ==> End(stack[i]) <= |x| && SortedRange(x, stack[i].start, End(stack[i]))
  }

  /** What the sort keeps true between its steps: `x[0..curr)` is covered by the stack's
      runs, in order, and each of them is sorted. */
  predicate WellFormed(x: seq<Pair>, stack: seq<Run>, curr: nat)
  {
    curr <= |x| && Tiling(stack, curr) && RunsSorted(x, stack)
  }

  /** The sum of the run lengths. */
  function TotalLength(stack: seq<Run>): nat
  {
    if stack == [] then 0 else TotalLength(stack[..|stack| - 1]) + stack[|stack| - 1].length
  }

  /** Runs that tile `[0, curr)` have lengths adding up to `curr`. */
  lemma {:induction false} TilingTotal(stack: seq<Run>, curr: nat)
    requires Tiling(stack, curr)
    ensures TotalLength(stack) == curr
    decreases |stack|
  {
    if stack != [] {
      var n := |stack| - 1;
      var below := stack[..n];
      assert Tiling(below, stack[n].start) by {
        if below != [] {
          assert End(below[|below| - 1]) == stack[n].start;
        }
      }
      TilingTotal(below, stack[n].start);
    }
  }

  /** `check_invariant`: fewer than two runs are always balanced; two runs are when the
      lower is strictly longer; three or more when, for the top three lengths A, B, C,
      A exceeds B + C and B exceeds C. */
  function CheckInvariant(stack: seq<Run>): (ok: bool)
    ensures ok && |stack| >= 2 ==> stack[|stack| - 2].length > stack[|stack| - 1].length
    ensures ok && |stack| >= 3 ==>
              stack[|stack| - 3].length > stack[|stack| - 2].length + stack[|stack| - 1].length
    ensures !ok ==>
              && |stack| >= 2
              && (|| stack[|stack| - 2].length <= stack[|stack| - 1].length
                  || (|stack| >= 3 && stack[|stack| - 3].length <= stack[|stack| - 2].length + stack[|stack| - 1].length))
  {
    if |stack| < 2 then true
    else if |stack| == 2 then stack[0].length > stack[1].length
    else
      var a, b, c := stack[|stack| - 3].length, stack[|stack| - 2].length, stack[|stack| - 1].length;
      a > b + c && b > c
  }

  /** The stack after merging its runs `n - 2` and `n - 1`: one run from the start of the
      lower to the end of the upper, with every other run kept in place. */
  function MergeRuns(stack: seq<Run>, n: nat): (r: seq<Run>)
    requires 2 <= n <= |stack|
    ensures |r| == |stack| - 1
  {
    stack[..n - 2] + [Run(stack[n - 2].start, stack[n - 2].length + stack[n - 1].length)] + stack[n..]
  }

  /** Merging two adjacent runs keeps the runs tiling the same range. */
  lemma MergeRunsTiling(stack: seq<Run>, n: nat, curr: nat)
    requires Tiling(stack, curr) && 2 <= n <= |stack|
    ensures Tiling(MergeRuns(stack, n), curr)
  {
    var r := MergeRuns(stack, n);
    MergeRunsAdjacent(stack, n, curr);
    MergeRunsOrdered(stack, n, curr);
    assert r[0].start == 0 && End(r[|r| - 1]) == curr by {
      if n == 2 {
        assert r[0].start == stack[0].start;
      } else {
        assert r[0] == stack[0];
      }
      if n == |stack| {
        assert End(r[|r| - 1]) == End(stack[n - 1]);
      } else {
        assert r[|r| - 1] == stack[|stack| - 1];
      }
    }
  }

  /** After merging two adjacent runs, each run still starts where the one below ends. */
  lemma MergeRunsAdjacent(stack: seq<Run>, n: nat, curr: nat)
    requires Tiling(stack, curr) && 2 <= n <= |stack|
    ensures forall i :: 0 <= i < |MergeRuns(stack, n)| - 1 ==>
              End(MergeRuns(stack, n)[i]) == MergeRuns(stack, n)[i + 1].start
  {
    var r := MergeRuns(stack, n);
    assert End(stack[n - 2]) == stack[n - 1].start;
    forall i | 0 <= i < |r| - 1
      ensures End(r[i]) == r[i + 1].start
    {
      if i + 1 < n - 2 {
        assert r[i] == stack[i] && r[i + 1] == stack[i + 1];
      } else if i + 1 == n - 2 {
        assert r[i] == stack[i] && r[i + 1].start == stack[i + 1].start;
      } else if i == n - 2 {
        assert End(r[i]) == End(stack[i + 1]) && r[i + 1] == stack[i + 2];
      } else {
        assert r[i] == stack[i + 1] && r[i + 1] == stack[i + 2];
      }
    }
  }

  /** After merging two adjacent runs, no run reaches past a later one's start. */
  lemma MergeRunsOrdered(stack: seq<Run>, n: nat, curr: nat)
    requires Tiling(stack, curr) && 2 <= n <= |stack|
    ensures forall i, j :: 0 <= i < j < |MergeRuns(stack, n)| ==>
              End(MergeRuns(stack, n)[i]) <= MergeRuns(stack, n)[j].start
  {
    var r := MergeRuns(stack, n);
    assert End(stack[n - 2]) == stack[n - 1].start;
    forall i, j | 0 <= i < j < |r|
      ensures End(r[i]) <= r[j].start
    {
      var i' := if i < n - 2 then i else i + 1;
      var j' := if j <= n - 2 then j else j + 1;
      assert End(r[i]) == End(stack[i']);
      assert r[j].start == stack[j'].start;
    }
  }

  /** Merging two adjacent runs leaves the total length unchanged. */
  lemma MergeRunsTotal(stack: seq<Run>, n: nat, curr: nat)
    requires Tiling(stack, curr) && 2 <= n <= |stack|
    ensures TotalLength(MergeRuns(stack, n)) == TotalLength(stack)
  {
    MergeRunsTiling(stack, n, curr);
    TilingTotal(stack, curr);
    TilingTotal(MergeRuns(stack, n), curr);
  }

  /** A sorted range that a change outside it does not touch stays sorted. */
  lemma SortedRangeKept(x: seq<Pair>, r: seq<Pair>, a: nat, b: nat, lo: nat, hi: nat)
    requires a <= b <= |x| == |r| && lo <= hi <= |x|
    requires r[..lo] == x[..lo] && r[hi..] == x[hi..]
    requires b <= lo || hi <= a
    requires SortedRange(x, a, b)
    ensures SortedRange(r, a, b)
  {
    forall m | a <= m < b
      ensures r[m] == x[m]
    {
      if b <= lo {
        assert r[m] == r[..lo][m];
      } else {
        assert r[m] == r[hi..][m - hi];
      }
    }
  }

  /** Merging two adjacent runs of a well-formed stack, with the merged range sorted and
      nothing else changed, gives a well-formed stack again. */
  lemma MergeRunsWellFormed(x: seq<Pair>, r: seq<Pair>, stack: seq<Run>, n: nat, curr: nat)
    requires WellFormed(x, stack, curr) && 2 <= n <= |stack| && |r| == |x|
    requires var lo, hi := stack[n - 2].start, End(stack[n - 1]);
             r[..lo] == x[..lo] && r[hi..] == x[hi..] && lo <= hi <= |x| && SortedRange(r, lo, hi)
    ensures WellFormed(r, MergeRuns(stack, n), curr)
  {
    var lo, hi := stack[n - 2].start, End(stack[n - 1]);
    var s := MergeRuns(stack, n);
    MergeRunsTiling(stack, n, curr);
    forall i | 0 <= i < |s|
      ensures End(s[i]) <= |r| && SortedRange(r, s[i].start, End(s[i]))
    {
      if i < n - 2 {
        assert s[i] == stack[i];
        assert End(stack[i]) <= stack[n - 2].start;
        SortedRangeKept(x, r, stack[i].start, End(stack[i]), lo, hi);
      } else if i > n - 2 {
        assert s[i] == stack[i + 1];
        assert End(stack[n - 1]) <= stack[i + 1].start;
        SortedRangeKept(x, r, stack[i + 1].start, End(stack[i + 1]), lo, hi);
      }
    }
  }

  /** An unchanged suffix stays unchanged from any later position. */
  lemma SuffixKept(x: seq<Pair>, r: seq<Pair>, hi: nat, curr: nat)
    requires hi <= curr <= |x| == |r| && r[hi..] == x[hi..]
    ensures r[curr..] == x[curr..]
  {
    assert r[curr..] == r[hi..][curr - hi..];
    assert x[curr..] == x[hi..][curr - hi..];
  }

  /** One merge of the collapse or of the final clean-up: runs `n - 2` and `n - 1` are
      merged and replaced by their union on the stack. */
  method MergeAndPop(x: seq<Pair>, stack: seq<Run>, n: nat, curr: nat, store: Storage)
    returns (r: seq<Pair>, stack': seq<Run>, store': Storage)
    requires WellFormed(x, stack, curr) && 2 <= n <= |stack|
    ensures WellFormed(r, stack', curr)
    ensures stack' == MergeRuns(stack, n)
    ensures StablePerm(x, r) && r[curr..] == x[curr..]
    ensures store'.held && (store.held ==> store.alloc <= store'.alloc)
  {
    assert End(stack[n - 2]) == stack[n - 1].start;
    assert End(stack[n - 1]) <= curr by {
      if n < |stack| {
        assert End(stack[n - 1]) <= stack[|stack| - 1].start;
      }
    }
    r, store' := MergeAt(x, stack, n, store);
    stack' := MergeRuns(stack, n);
    MergeRunsWellFormed(x, r, stack, n, curr);
    SuffixKept(x, r, End(stack[n - 1]), curr);
  }

  /** The decision of one round of `tim_sort_collapse`, given the array size: 0 to stop,
      otherwise the `n` whose runs `n - 2` and `n - 1` are to be merged. Two runs are
      merged when they cover the whole array or the lower is not longer. With three or
      more, for the top lengths B, C, D (and A below them): nothing happens when
      B > C + D, A > B + C and C > D; when only C > D holds the middle pair is merged;
      otherwise the top two are. */
  function CollapseChoice(stack: seq<Run>, size: nat): (n: nat)
    requires |stack| >= 2
    ensures n == 0 || n == |stack| || (n == |stack| - 1 && |stack| >= 3)
    ensures n == 0 ==> CheckInvariant(stack)
  {
    var n := |stack|;
    if n == 2 then
      if stack[0].length + stack[1].length == size || stack[0].length <= stack[1].length then 2 else 0
    else
      var b, c, d := stack[n - 3].length, stack[n - 2].length, stack[n - 1].length;
      var abc := n >= 4 && stack[n - 4].length <= b + c;
      var bcd := b <= c + d || abc;
      var cd := c <= d;
      if !bcd && !cd then 0
      else if bcd && !cd then n - 1
      else n
  }

  /** What the collapse loop keeps: the stack still covers `[0, curr)` with sorted runs,
      the array is a stable rearrangement of the input, nothing from `curr` on moved,
      and if no merge has happened yet nothing has changed at all. */
  ghost predicate CollapseState(x: seq<Pair>, stack: seq<Run>, curr: nat, store: Storage,
                                r: seq<Pair>, stack': seq<Run>, store': Storage)
  {
    && WellFormed(r, stack', curr)
    && StablePerm(x, r) && |r| == |x| && r[curr..] == x[curr..]
    && |stack'| <= |stack| && (stack != [] ==> stack' != [])
    && (|stack'| == |stack| ==> r == x && stack' == stack && store' == store)
    && (store.held ==> store'.held && store.alloc <= store'.alloc)
    && (|stack'| < |stack| ==> store'.held)
  }

  /** A merge keeps the collapse state. */
  lemma CollapseStep(x: seq<Pair>, stack: seq<Run>, curr: nat, store: Storage,
                     r: seq<Pair>, st: seq<Run>, sto: Storage,
                     r': seq<Pair>, st': seq<Run>, sto': Storage, n: nat)
    requires CollapseState(x, stack, curr, store, r, st, sto) && 2 <= n <= |st|
    requires WellFormed(r', st', curr) && st' == MergeRuns(st, n)
    requires StablePerm(r, r') && |r'| == |r| && r'[curr..] == r[curr..]
    requires sto'.held && (sto.held ==> sto.alloc <= sto'.alloc)
    ensures CollapseState(x, stack, curr, store, r', st', sto')
  {
    StablePermTrans(x, r, r');
  }

  /** `tim_sort_collapse`: merges runs at the top of the stack, as `CollapseChoice`
      decides, until the top is balanced; a merge of the last two runs ends it. */
  method Collapse(x: seq<Pair>, stack: seq<Run>, curr: nat, store: Storage)
    returns (r: seq<Pair>, stack': seq<Run>, store': Storage)
    requires WellFormed(x, stack, curr)
    ensures WellFormed(r, stack', curr)
    ensures StablePerm(x, r) && r[curr..] == x[curr..]
    ensures |stack'| <= |stack| && (stack != [] ==> stack' != [])
    ensures CheckInvariant(stack')
    ensures !CheckInvariant(stack) ==> |stack'| < |stack|
    ensures |stack'| == |stack| ==> r == x && stack' == stack && store' == store
    ensures store.held ==> store'.held && store.alloc <= store'.alloc
    ensures |stack'| < |stack| ==> store'.held
  {
    r, stack', store' := CollapseLoop(x, stack, curr, store);
  }

  /** The loop of `tim_sort_collapse`. */
  method CollapseLoop(x: seq<Pair>, stack: seq<Run>, curr: nat, store: Storage)
    returns (r: seq<Pair>, stack': seq<Run>, store': Storage)
    requires WellFormed(x, stack, curr)
    ensures CollapseState(x, stack, curr, store, r, stack', store')
    ensures CheckInvariant(stack')
  {
    r, stack', store' := x, stack, store;
    while |stack'| > 1
      invariant CollapseState(x, stack, curr, store, r, stack', store')
      decreases |stack'|
    {
      var n;
      n, r, stack', store' := CollapseRound(x, stack, curr, store, r, stack', store');
      if n == 0 {
        break;
      }
    }
  }

  /** One round of `tim_sort_collapse`: either the top is balanced and nothing happens
      (answer 0), or the pair of runs `CollapseChoice` picks is merged (answer `n`, the
      upper run's position plus one) and the stack loses one run. */
  method CollapseRound(x: seq<Pair>, stack: seq<Run>, curr: nat, store: Storage,
                       r: seq<Pair>, st: seq<Run>, sto: Storage)
    returns (n: nat, r': seq<Pair>, st': seq<Run>, sto': Storage)
    requires CollapseState(x, stack, curr, store, r, st, sto) && |st| > 1
    ensures n == 0 ==> CheckInvariant(st) && r' == r && st' == st && sto' == sto
    ensures n != 0 ==> |st'| == |st| - 1
    ensures CollapseState(x, stack, curr, store, r', st', sto')
  {
    n := CollapseChoice(st, |x|);
    if n == 0 {
      r', st', sto' := r, st, sto;
      return;
    }
    r', st', sto' := MergeAndPop(r, st, n, curr, sto);
    CollapseStep(x, stack, curr, store, r, st, sto, r', st', sto', n);
  }
}

=== FILE: insertion.dfy ===
/** Binary insertion sort (`binary_insertion_find`, `binary_insertion_sort_start`,
    `binary_insertion_sort`): the engine for short ranges, and the way a natural run that
    is shorter than the minimum run length is extended. */
module Insertion {
  import opened Pairs
  import opened Reference

  /** `binary_insertion_find`: where to insert `v` into the sorted `x[0..size)`.

      When the last key exceeds `v`'s (the only way the sort calls it) the answer is the
      first position whose key exceeds `v`'s, so `v` lands after every equal key. Outside
      that case the answer is `size - 1`, one short of the end: directly from the early
      `x[size-1] < v` exit, or from the search loop when the last key equals `v`'s. The
      one exception is a single element whose key equals `v`'s: the loop then answers 1. */
  method Find(x: seq<Pair>, v: Pair, size: nat) returns (loc: nat)
    requires 1 <= size <= |x|
    requires SortedRange(x, 0, size)
    ensures loc <= size
    ensures x[size - 1].key > v.key ==>
              loc < size
              && (forall m :: 0 <= m < loc ==> x[m].key <= v.key)
              && (forall m :: loc <= m < size ==> x[m].key > v.key)
    ensures size >= 2 && x[size - 1].key <= v.key ==> loc == size - 1
    ensures size == 1 && x[0].key == v.key ==> loc == 1
    ensures size == 1 && x[0].key < v.key ==> loc == 0
  {
    var r := size - 1;
    if x[0].key > v.key {
      return 0;
    } else if x[r].key < v.key {
      return r;
    }
    var l := 0;
    var c := r / 2;
    while true
      invariant 0 <= l <= c <= r < size && c == l + (r - l) / 2
      invariant x[l].key <= v.key
      invariant r == size - 1 || x[r].key > v.key
      invariant x[size - 1].key <= v.key ==> r == size - 1 && (size >= 2 ==> c < r)
      decreases r - l
    {
      if x[c].key > v.key {
        if c - l <= 1 {
          return c;
        }
        r := c;
      } else {
        if r - c <= 1 {
          return c + 1;
        }
        l := c;
      }
      c := l + (r - l) / 2;
    }
  }

  /** The inner loop of `binary_insertion_sort_start`: positions `loc..i-1` of the range
      starting at `offset` move up by one, from the top down. The index is unsigned, as in
      the source, so the loop must leave explicitly once it has moved position 0. */
  method ShiftUp(t: seq<Pair>, offset: nat, loc: nat, i: nat) returns (r: seq<Pair>)
    requires loc < i && offset + i < |t|
    ensures |r| == |t|
    ensures forall m :: offset + loc < m <= offset + i ==> r[m] == t[m - 1]
    ensures forall m :: 0 <= m < |t| && !(offset + loc < m <= offset + i) ==> r[m] == t[m]
  {
    r := t;
    var j: nat := i - 1;
    while j >= loc
      invariant loc - 1 <= j <= i - 1
      invariant |r| == |t|
      invariant forall m :: offset + j + 1 < m <= offset + i ==> r[m] == t[m - 1]
      invariant forall m :: 0 <= m < |t| && !(offset + j + 1 < m <= offset + i) ==> r[m] == t[m]
      decreases j
    {
      r := r[offset + j + 1 := r[offset + j]];
      if j == 0 {
        break;
      }
      j := j - 1;
    }
  }

  /** Writing `v` at `loc` after shifting `p[loc..]` up by one is the reference
      insertion when `loc` is the first position of `p` whose key exceeds `v`'s. */
  lemma PlaceIsInsert(p: seq<Pair>, q: seq<Pair>, loc: nat, v: Pair)
    requires loc < |p| && |q| == |p| + 1
    requires forall m :: 0 <= m < loc ==> p[m].key <= v.key
    requires forall m :: loc <= m < |p| ==> p[m].key > v.key
    requires q[loc] == v
    requires forall m :: 0 <= m < loc ==> q[m] == p[m]
    requires forall m :: loc < m < |q| ==> q[m] == p[m - 1]
    ensures q == Insert(p, v)
  {
    InsertAt(p, v, loc);
    assert q == p[..loc] + [v] + p[loc..];
  }

  /** One pass of the outer loop of `binary_insertion_sort_start`: the element at
      `offset + i` joins the sorted `i` elements before it. When it is not below its left
      neighbour it stays; otherwise `Find` picks its place, the larger elements move up and
      it is written there. Either way the range becomes the reference insertion. */
  method InsertNext(t: seq<Pair>, offset: nat, i: nat) returns (r: seq<Pair>)
    requires 1 <= i && offset + i < |t|
    requires Sorted(t[offset..offset + i])
    ensures |r| == |t|
    ensures r[..offset] == t[..offset] && r[offset + i + 1..] == t[offset + i + 1..]
    ensures r[offset..offset + i + 1] == Insert(t[offset..offset + i], t[offset + i])
  {
    ghost var p := t[offset..offset + i];
    var v := t[offset + i];
    r := t;
    if t[offset + i - 1].key > v.key {
      SortedRangeSlice(t[offset..], 0, i);
      assert t[offset..][..i] == p;
      var loc := Find(t[offset..], v, i);
      r := ShiftUp(t, offset, loc, i);
      r := r[offset + loc := v];
      PlaceIsInsert(p, r[offset..offset + i + 1], loc, v);
      assert r[..offset] == t[..offset];
      assert forall m :: offset + i + 1 <= m < |t| ==> r[m] == t[m];
      assert r[offset + i + 1..] == t[offset + i + 1..];
    } else {
      assert p[i - 1] == t[offset + i - 1];
      assert r[offset..offset + i + 1] == p + [v];
    }
  }

  /** The state between outer passes: the first `done` elements of the range are the
      reference sort of the input's first `done`, and everything else is still the input. */
  ghost predicate InsertedUpTo(s: seq<Pair>, r: seq<Pair>, offset: nat, done: nat)
  {
    && offset + done <= |s| == |r|
    && r[..offset] == s[..offset] && r[offset + done..] == s[offset + done..]
    && r[offset..offset + done] == StableSort(s[offset..offset + done])
  }

  /** The bookkeeping of one outer pass: after `InsertNext` one more element of the range
      is in its reference place, and everything beyond is still the input. */
  lemma SortStartStep(s: seq<Pair>, t: seq<Pair>, r: seq<Pair>, offset: nat, i: nat)
    requires 1 <= i && offset + i < |s| && InsertedUpTo(s, t, offset, i) && |r| == |t|
    requires r[..offset] == t[..offset] && r[offset + i + 1..] == t[offset + i + 1..]
    requires r[offset..offset + i + 1] == Insert(t[offset..offset + i], t[offset + i])
    ensures InsertedUpTo(s, r, offset, i + 1)
  {
    assert s[offset..offset + i + 1][..i] == s[offset..offset + i];
    assert t[offset + i] == t[offset + i..][0] == s[offset + i];
    assert t[offset + i..][1..] == t[offset + i + 1..];
    assert s[offset + i..][1..] == s[offset + i + 1..];
  }

  /** Unfolds `InsertedUpTo` into its conjuncts. Unfolding it once, in a lemma of its own,
      keeps the proof of `SortStart` within the solver's budget. */
  lemma InsertedUpToFacts(s: seq<Pair>, r: seq<Pair>, offset: nat, done: nat)
    requires InsertedUpTo(s, r, offset, done)
    ensures |r| == |s| && r[..offset] == s[..offset] && r[offset + done..] == s[offset + done..]
    ensures r[offset..offset + done] == StableSort(s[offset..offset + done])
  {
  }

  /** The outer loop of `binary_insertion_sort_start` from position `i` on: each pass
      inserts one more element, until the first `size` elements of the range are the
      reference sort of the input's. */
  method InsertFrom(s: seq<Pair>, t: seq<Pair>, offset: nat, i: nat, size: nat)
    returns (r: seq<Pair>)
    requires 1 <= i <= size && offset + size <= |s| && InsertedUpTo(s, t, offset, i)
    ensures InsertedUpTo(s, r, offset, size)
  {
    r := t;
    var k := i;
    while k < size
      invariant i <= k <= size && InsertedUpTo(s, r, offset, k)
      decreases size - k
    {
      StableSortCorrect(s[offset..offset + k]);
      ghost var t' := r;
      r := InsertNext(r, offset, k);
      SortStartStep(s, t', r, offset, k);
      k := k + 1;
    }
  }

  /** `binary_insertion_sort_start`: sorts the `size` elements starting at `offset`,
      given that the first `start` of them are sorted already. The result is exactly the
      reference stable sort of the range, and nothing outside the range changes. The
      source's loop runs only when `start < size`; otherwise nothing changes. */
  method SortStart(s: seq<Pair>, offset: nat, start: nat, size: nat) returns (r: seq<Pair>)
    requires 1 <= start
    requires offset + size <= |s|
    requires SortedRange(s, offset, offset + Min(start, size))
    ensures |r| == |s|
    ensures r[..offset] == s[..offset] && r[offset + size..] == s[offset + size..]
    ensures r[offset..offset + size] == StableSort(s[offset..offset + size])
    ensures Sorted(r[offset..offset + size])
    ensures StablePerm(s[offset..offset + size], r[offset..offset + size])
    ensures size <= start ==> r == s
  {
    ghost var done := Min(start, size);
    SortedRangeSlice(s, offset, offset + done);
    SortedIsFixpoint(s[offset..offset + done]);
    assert InsertedUpTo(s, s, offset, done);
    r := s;
    if start < size {
      r := InsertFrom(s, s, offset, start, size);
    }
    InsertedUpToFacts(s, r, offset, size);
    StableSortCorrect(s[offset..offset + size]);
  }

  /** `binary_insertion_sort`: the whole sequence, sorted stably; sequences of length 0
      and 1 are returned as they are. */
  method InsertionSort(s: seq<Pair>) returns (r: seq<Pair>)
    ensures r == StableSort(s)
    ensures Sorted(r) && StablePerm(s, r)
    ensures |s| <= 1 ==> r == s
  {
    if |s| <= 1 {
      SortedIsFixpoint(s);
      return s;
    }
    r := SortStart(s, 0, 1, |s|);
    assert s[0..|s|] == s && r[0..|s|] == r;
  }
}

=== FILE: merge.dfy ===
/** Merging two adjacent runs (`tim_sort_merge`) through a temporary buffer whose
    capacity `tim_sort_resize` manages. */
module Merging {
  import opened Pairs
  import opened Reference

  /** `tim_sort_run_t`: a run on the stack, `length` pairs from position `start`. */
  datatype Run = Run(start: nat, length: nat)

  /** `temp_storage_t`: whether a buffer is held (the `storage` pointer is not null) and
      how many pairs it has room for. Its contents live only inside one merge. */
  datatype Storage = Storage(held: bool, alloc: nat)

  /** `tim_sort_resize`: afterwards a buffer is held with room for `size` pairs. A held
      buffer that is large enough is kept as it is; otherwise the capacity becomes exactly
      `size`, so a held buffer never shrinks. */
  function Resize(store: Storage, size: nat): (r: Storage)
    ensures r.held && size <= r.alloc
    ensures store.held ==> store.alloc <= r.alloc
    ensures store.held && size <= store.alloc ==> r == store
    ensures r == store || r.alloc == size
  {
    if !store.held || store.alloc < size then Storage(true, size) else store
  }

  /** Taking the first pair of either remaining part is one step of the front-to-back
      merge: the smaller key first, the left part on ties. */
  lemma MergeFront(a: seq<Pair>, b: seq<Pair>, i: nat, j: nat)
    requires i <= |a| && j <= |b|
    ensures i < |a| && (j == |b| || a[i].key <= b[j].key) ==>
              Merge(a[i..], b[j..]) == [a[i]] + Merge(a[i + 1..], b[j..])
    ensures j < |b| && i < |a| && b[j].key < a[i].key ==>
              Merge(a[i..], b[j..]) == [b[j]] + Merge(a[i..], b[j + 1..])
  {
    if i < |a| {
      assert a[i..][1..] == a[i + 1..];
      if j == |b| {
        assert Merge(a[i..], b[j..]) == a[i..];
        assert Merge(a[i + 1..], b[j..]) == a[i + 1..];
      }
    }
    if j < |b| {
      assert b[j..][1..] == b[j + 1..];
    }
  }

  /** Every key of `s` is at most `k`. */
  predicate AllAtMost(s: seq<Pair>, k: int)
  {
    forall p :: 0 <= p < |s| ==> s[p].key <= k
  }

  /** An upper bound of both runs bounds their merge. */
  lemma {:induction false} MergeAtMost(a: seq<Pair>, b: seq<Pair>, k: int)
    requires AllAtMost(a, k) && AllAtMost(b, k)
    ensures AllAtMost(Merge(a, b), k)
    decreases |a| + |b|
  {
    if a != [] && b != [] {
      if b[0].key < a[0].key {
        MergeAtMost(a, b[1..], k);
      } else {
        MergeAtMost(a[1..], b, k);
      }
    }
  }

  /** A pair whose key exceeds every key of `b` may move from before `b` to after it
      without disturbing any key's order. */
  lemma MovePastLarger(a: seq<Pair>, x: Pair, b: seq<Pair>, m: seq<Pair>)
    requires forall p :: 0 <= p < |b| ==> b[p].key < x.key
    requires StablePerm(a + b, m)
    ensures StablePerm((a + [x]) + b, m + [x])
  {
    SwapDisjointParts([x], b);
    StablePermAppend(a, [x] + b, a, b + [x]);
    assert (a + [x]) + b == a + ([x] + b);
    assert a + (b + [x]) == (a + b) + [x];
    StablePermAppend(a + b, [x], m, [x]);
    StablePermTrans(a + ([x] + b), (a + b) + [x], m + [x]);
  }

  /** A pair that stays last keeps a stable rearrangement stable. */
  lemma KeepLast(a: seq<Pair>, b: seq<Pair>, y: Pair, m: seq<Pair>)
    requires StablePerm(a + b, m)
    ensures StablePerm(a + (b + [y]), m + [y])
  {
    StablePermAppend(a + b, [y], m, [y]);
    assert a + (b + [y]) == (a + b) + [y];
  }

  /** Stable rearrangement is transitive. */
  lemma StablePermTrans(s: seq<Pair>, t: seq<Pair>, u: seq<Pair>)
    requires StablePerm(s, t) && StablePerm(t, u)
    ensures StablePerm(s, u)
  {
  }

  /** The back-to-back view of the merge of sorted runs, when the last pair of `a` has
      the larger key: it comes last. */
  lemma MergeBackLeft(a: seq<Pair>, b: seq<Pair>)
    requires Sorted(a) && Sorted(b) && a != [] && b != []
    requires a[|a| - 1].key > b[|b| - 1].key
    ensures Merge(a, b) == Merge(a[..|a| - 1], b) + [a[|a| - 1]]
  {
    var a', x := a[..|a| - 1], a[|a| - 1];
    SortedFront(a);
    SortedFront(b);
    var m := Merge(a', b);
    MergeAtMost(a', b, x.key);
    MergeSorted(a', b);
    SortedAppend(m, x);
    MergeStable(a', b);
    MovePastLarger(a', x, b, m);
    SortedStableIsStableSort(a + b, m + [x]);
    MergeIsStableSort(a, b);
  }

  /** The back-to-back view of the merge of sorted runs, when the last pair of `b` has
      the larger or the same key: it comes last. */
  lemma MergeBackRight(a: seq<Pair>, b: seq<Pair>)
    requires Sorted(a) && Sorted(b) && a != [] && b != []
    requires a[|a| - 1].key <= b[|b| - 1].key
    ensures Merge(a, b) == Merge(a, b[..|b| - 1]) + [b[|b| - 1]]
  {
    var b', y := b[..|b| - 1], b[|b| - 1];
    SortedFront(a);
    SortedFront(b);
    var m := Merge(a, b');
    MergeAtMost(a, b', y.key);
    MergeSorted(a, b');
    SortedAppend(m, y);
    MergeStable(a, b');
    KeepLast(a, b', y, m);
    SortedStableIsStableSort(a + b, m + [y]);
    MergeIsStableSort(a, b);
  }

  /** A non-empty sorted sequence is its sorted front followed by its largest element. */
  lemma SortedFront(s: seq<Pair>)
    requires Sorted(s) && s != []
    ensures s[..|s| - 1] + [s[|s| - 1]] == s
    ensures Sorted(s[..|s| - 1])
    ensures AllAtMost(s, s[|s| - 1].key) && AllAtMost(s[..|s| - 1], s[|s| - 1].key)
  {
    var f := s[..|s| - 1];
    assert forall p :: 0 <= p < |f| ==> f[p] == s[p];
  }

  /** A sorted sequence stays sorted when an element no smaller than all of it is put at
      the end. */
  lemma SortedAppend(m: seq<Pair>, x: Pair)
    requires Sorted(m) && AllAtMost(m, x.key)
    ensures Sorted(m + [x])
  {
    var t := m + [x];
    forall p, q | 0 <= p < q < |t|
      ensures t[p].key <= t[q].key
    {
      assert t[p] == m[p];
    }
  }

  /** A prefix of a sorted sequence is sorted. */
  lemma SortedPrefix(s: seq<Pair>, n: nat)
    requires Sorted(s) && n <= |s|
    ensures Sorted(s[..n])
  {
    assert forall p :: 0 <= p < n ==> s[..n][p] == s[p];
  }

  /** The bookkeeping of one step of the left merge that takes the left run's pair. */
  lemma MergeLowTakeLeft(a: seq<Pair>, b: seq<Pair>, i: nat, j: nat, out: seq<Pair>)
    requires i < |a| && j <= |b| && (j == |b| || a[i].key <= b[j].key)
    requires out + Merge(a[i..], b[j..]) == Merge(a, b)
    ensures (out + [a[i]]) + Merge(a[i + 1..], b[j..]) == Merge(a, b)
  {
    MergeFront(a, b, i, j);
    assert (out + [a[i]]) + Merge(a[i + 1..], b[j..]) == out + ([a[i]] + Merge(a[i + 1..], b[j..]));
  }

  /** The bookkeeping of one step of the left merge that takes the right run's pair. */
  lemma MergeLowTakeRight(a: seq<Pair>, b: seq<Pair>, i: nat, j: nat, out: seq<Pair>)
    requires i < |a| && j < |b| && b[j].key < a[i].key
    requires out + Merge(a[i..], b[j..]) == Merge(a, b)
    ensures (out + [b[j]]) + Merge(a[i..], b[j + 1..]) == Merge(a, b)
  {
    MergeFront(a, b, i, j);
    assert (out + [b[j]]) + Merge(a[i..], b[j + 1..]) == out + ([b[j]] + Merge(a[i..], b[j + 1..]));
  }

  /** Where the left merge stands in the array: `out` fills `lo..k`, and every other
      position still holds the input (the merge writes only below `k`). */
  ghost predicate LowFrame(x: seq<Pair>, r: seq<Pair>, lo: nat, k: nat, out: seq<Pair>)
  {
    lo <= k <= |x| && |out| == k - lo && r == x[..lo] + out + x[k..]
  }

  /** Writing the next output pair at `k`. */
  lemma LowWrite(x: seq<Pair>, r: seq<Pair>, lo: nat, k: nat, out: seq<Pair>, v: Pair)
    requires LowFrame(x, r, lo, k, out) && k < |x|
    ensures LowFrame(x, r[k := v], lo, k + 1, out + [v])
  {
    assert r[k := v] == x[..lo] + (out + [v]) + x[k + 1..];
  }

  /** Positions from `k` on still hold the input. */
  lemma LowFrameAt(x: seq<Pair>, r: seq<Pair>, lo: nat, k: nat, out: seq<Pair>, m: nat)
    requires LowFrame(x, r, lo, k, out) && k <= m < |x|
    ensures r[m] == x[m]
  {
    assert r[m] == x[k..][m - k];
  }

  /** The left merge's frame as slices. */
  lemma LowFrameSlices(x: seq<Pair>, r: seq<Pair>, lo: nat, k: nat, out: seq<Pair>)
    requires LowFrame(x, r, lo, k, out)
    ensures |r| == |x| && r[..lo] == x[..lo] && r[lo..k] == out && r[k..] == x[k..]
  {
  }

  /** Where the right merge stands in the array: `out` fills `k..hi`, and every other
      position still holds the input (the merge writes only from `k` on). */
  ghost predicate HighFrame(x: seq<Pair>, r: seq<Pair>, k: nat, hi: nat, out: seq<Pair>)
  {
    k <= hi <= |x| && |out| == hi - k && r == x[..k] + out + x[hi..]
  }

  /** Writing the next output pair at `k - 1`. */
  lemma HighWrite(x: seq<Pair>, r: seq<Pair>, k: nat, hi: nat, out: seq<Pair>, v: Pair)
    requires HighFrame(x, r, k, hi, out) && 0 < k
    ensures HighFrame(x, r[k - 1 := v], k - 1, hi, [v] + out)
  {
    assert r[k - 1 := v] == x[..k - 1] + ([v] + out) + x[hi..];
  }

  /** Positions below `k` still hold the input. */
  lemma HighFrameAt(x: seq<Pair>, r: seq<Pair>, k: nat, hi: nat, out: seq<Pair>, m: nat)
    requires HighFrame(x, r, k, hi, out) && m < k
    ensures r[m] == x[m]
  {
    assert r[m] == x[..k][m];
  }

  /** The right merge's frame as slices. */
  lemma HighFrameSlices(x: seq<Pair>, r: seq<Pair>, k: nat, hi: nat, out: seq<Pair>)
    requires HighFrame(x, r, k, hi, out)
    ensures |r| == |x| && r[..k] == x[..k] && r[k..hi] == out && r[hi..] == x[hi..]
  {
  }

  /** The state of the left merge between two steps: `i` buffered pairs and
      `j - mid` pairs of the right run are written to `lo..k`, as `out`, which followed by
      the merge of what remains is the whole merge; positions below `lo` and from `j` on
      still hold the input. */
  ghost predicate LowState(x: seq<Pair>, r: seq<Pair>, lo: nat, mid: nat, hi: nat,
                           buf: seq<Pair>, i: nat, j: nat, k: nat, out: seq<Pair>)
  {
    && lo <= mid <= hi <= |x| == |r| && buf == x[lo..mid]
    && i <= |buf| && mid <= j <= hi && k == lo + i + (j - mid)
    && LowFrame(x, r, lo, k, out)
    && out + Merge(buf[i..], x[mid..hi][j - mid..]) == Merge(x[lo..mid], x[mid..hi])
  }

  /** A left-merge step that writes the buffered pair keeps the state. */
  method LowTakeBuffered(x: seq<Pair>, r: seq<Pair>, lo: nat, mid: nat, hi: nat,
                        buf: seq<Pair>, i: nat, j: nat, k: nat, out: seq<Pair>)
    returns (r': seq<Pair>, out': seq<Pair>)
    requires LowState(x, r, lo, mid, hi, buf, i, j, k, out)
    requires i < |buf| && (j == hi || r[j].key >= buf[i].key)
    ensures out' == out + [buf[i]] && LowState(x, r', lo, mid, hi, buf, i + 1, j, k + 1, out')
  {
    ghost var b := x[mid..hi];
    if j < hi {
      LowFrameAt(x, r, lo, k, out, j);
      assert r[j] == b[j - mid];
    }
    LowWrite(x, r, lo, k, out, buf[i]);
    MergeLowTakeLeft(buf, b, i, j - mid, out);
    r', out' := r[k := buf[i]], out + [buf[i]];
  }

  /** A left-merge step that moves the right run's pair down keeps the state. */
  method LowTakeRight(x: seq<Pair>, r: seq<Pair>, lo: nat, mid: nat, hi: nat,
                     buf: seq<Pair>, i: nat, j: nat, k: nat, out: seq<Pair>)
    returns (r': seq<Pair>, out': seq<Pair>)
    requires LowState(x, r, lo, mid, hi, buf, i, j, k, out)
    requires i < |buf| && j < hi && r[j].key < buf[i].key
    ensures out' == out + [r[j]] && LowState(x, r', lo, mid, hi, buf, i, j + 1, k + 1, out')
  {
    ghost var b := x[mid..hi];
    LowFrameAt(x, r, lo, k, out, j);
    assert r[j] == b[j - mid];
    LowWrite(x, r, lo, k, out, r[j]);
    MergeLowTakeRight(buf, b, i, j - mid, out);
    r', out' := r[k := r[j]], out + [r[j]];
  }

  /** One step of the left merge while buffered pairs remain: the buffered pair is
      written when the right run is used up or its next key is not smaller; otherwise
      the right run's pair moves down. */
  method LowStep(x: seq<Pair>, r: seq<Pair>, lo: nat, mid: nat, hi: nat,
                 buf: seq<Pair>, i: nat, j: nat, k: nat, out: seq<Pair>)
    returns (r': seq<Pair>, i': nat, j': nat, out': seq<Pair>)
    requires LowState(x, r, lo, mid, hi, buf, i, j, k, out) && i < |buf|
    ensures LowState(x, r', lo, mid, hi, buf, i', j', k + 1, out')
  {
    if j < hi {
      if r[j].key >= buf[i].key {
        r', out' := LowTakeBuffered(x, r, lo, mid, hi, buf, i, j, k, out);
        i', j' := i + 1, j;
      } else {
        r', out' := LowTakeRight(x, r, lo, mid, hi, buf, i, j, k, out);
        i', j' := i, j + 1;
      }
    } else {
      r', out' := LowTakeBuffered(x, r, lo, mid, hi, buf, i, j, k, out);
      i', j' := i + 1, j;
    }
  }

  /** Before the left merge starts nothing is written and the whole merge lies ahead. */
  lemma LowStart(x: seq<Pair>, lo: nat, mid: nat, hi: nat, buf: seq<Pair>)
    requires lo <= mid <= hi <= |x| && buf == x[lo..mid]
    ensures LowState(x, x, lo, mid, hi, buf, 0, mid, lo, [])
  {
    assert buf[0..] == buf && x[mid..hi][0..] == x[mid..hi];
  }

  /** Once the buffer is used up the merge is complete. */
  lemma LowDone(x: seq<Pair>, r: seq<Pair>, lo: nat, mid: nat, hi: nat,
                buf: seq<Pair>, i: nat, j: nat, k: nat, out: seq<Pair>)
    requires LowState(x, r, lo, mid, hi, buf, i, j, k, out) && i == |buf|
    ensures r[..lo] == x[..lo] && r[hi..] == x[hi..]
    ensures r[lo..hi] == Merge(x[lo..mid], x[mid..hi])
  {
    var b := x[mid..hi];
    LowFrameSlices(x, r, lo, k, out);
    assert buf[i..] == [];
    assert r[k..hi] == r[j..][..hi - j] == x[j..][..hi - j] == b[j - mid..];
    assert r[hi..] == r[j..][hi - j..];
    assert r[lo..hi] == r[lo..k] + r[k..hi];
  }

  /** The left merge of `tim_sort_merge`, used when the left run is the shorter one: the
      left run waits in the buffer `buf` and the output is written from the front, taking
      the buffered pair whenever the right run's next key is not smaller. Once the buffer
      is used up, the rest of the right run is already in place. */
  method MergeLow(x: seq<Pair>, lo: nat, mid: nat, hi: nat, buf: seq<Pair>) returns (r: seq<Pair>)
    requires lo <= mid <= hi <= |x| && buf == x[lo..mid]
    ensures |r| == |x|
    ensures r[..lo] == x[..lo] && r[hi..] == x[hi..]
    ensures r[lo..hi] == Merge(x[lo..mid], x[mid..hi])
  {
    r := x;
    var i: nat, j: nat, k: nat := 0, mid, lo;
    var out: seq<Pair> := [];
    LowStart(x, lo, mid, hi, buf);
    while k < hi
      invariant LowState(x, r, lo, mid, hi, buf, i, j, k, out)
      decreases hi - k
    {
      if i < |buf| {
        r, i, j, out := LowStep(x, r, lo, mid, hi, buf, i, j, k, out);
      } else {
        break;
      }
      k := k + 1;
    }
    LowDone(x, r, lo, mid, hi, buf, i, j, k, out);
  }

  /** The bookkeeping of one step of the right merge that takes the left run's last
      pair: it goes in front of the output. */
  lemma MergeHighTakeLeft(a: seq<Pair>, b: seq<Pair>, out: seq<Pair>, whole: seq<Pair>)
    requires Sorted(a) && Sorted(b) && a != [] && b != []
    requires a[|a| - 1].key > b[|b| - 1].key
    requires Merge(a, b) + out == whole
    ensures Merge(a[..|a| - 1], b) + ([a[|a| - 1]] + out) == whole
  {
    MergeBackLeft(a, b);
    Regroup(Merge(a[..|a| - 1], b), a[|a| - 1], out, whole);
  }

  /** The bookkeeping of one step of the right merge that takes the buffer's last pair:
      it goes in front of the output. */
  lemma MergeHighTakeRight(a: seq<Pair>, b: seq<Pair>, out: seq<Pair>, whole: seq<Pair>)
    requires Sorted(a) && Sorted(b) && b != []
    requires a == [] || a[|a| - 1].key <= b[|b| - 1].key
    requires Merge(a, b) + out == whole
    ensures Merge(a, b[..|b| - 1]) + ([b[|b| - 1]] + out) == whole
  {
    var y := b[|b| - 1];
    if a == [] {
      assert b[..|b| - 1] + [y] == b;
    } else {
      MergeBackRight(a, b);
    }
    assert Merge(a, b) == Merge(a, b[..|b| - 1]) + [y];
    Regroup(Merge(a, b[..|b| - 1]), y, out, whole);
  }

  /** Moving the boundary of a concatenation by one element. */
  lemma Regroup(m: seq<Pair>, y: Pair, out: seq<Pair>, whole: seq<Pair>)
    requires (m + [y]) + out == whole
    ensures m + ([y] + out) == whole
  {
  }

  /** The state of the right merge between two steps: the output `out` fills `k..hi`,
      and the merge of the left run's first `j - lo` pairs with the buffer's first `i`
      pairs, followed by `out`, is the whole merge; positions below `j` and from `hi` on
      still hold the input. */
  ghost predicate HighState(x: seq<Pair>, r: seq<Pair>, lo: nat, mid: nat, hi: nat,
                            buf: seq<Pair>, i: nat, j: nat, k: nat, out: seq<Pair>)
  {
    && lo <= mid <= hi <= |x| == |r| && buf == x[mid..hi]
    && Sorted(x[lo..mid]) && Sorted(buf)
    && i <= |buf| && lo <= j <= mid && k == j + i
    && HighFrame(x, r, k, hi, out)
    && Merge(x[lo..j], buf[..i]) + out == Merge(x[lo..mid], x[mid..hi])
  }

  /** A right-merge step that moves the left run's pair up keeps the state. */
  method HighTakeLeft(x: seq<Pair>, r: seq<Pair>, lo: nat, mid: nat, hi: nat,
                     buf: seq<Pair>, i: nat, j: nat, k: nat, out: seq<Pair>)
    returns (r': seq<Pair>, out': seq<Pair>)
    requires HighState(x, r, lo, mid, hi, buf, i, j, k, out)
    requires 0 < i && lo < j && r[j - 1].key > buf[i - 1].key
    ensures out' == [r[j - 1]] + out && HighState(x, r', lo, mid, hi, buf, i, j - 1, k - 1, out')
  {
    ghost var a, b := x[lo..j], buf[..i];
    HighFrameAt(x, r, k, hi, out, j - 1);
    assert a == x[lo..mid][..j - lo] && a[..|a| - 1] == x[lo..j - 1] && a[|a| - 1] == r[j - 1];
    assert b[|b| - 1] == buf[i - 1];
    SortedPrefix(x[lo..mid], j - lo);
    SortedPrefix(buf, i);
    HighWrite(x, r, k, hi, out, r[j - 1]);
    MergeHighTakeLeft(a, b, out, Merge(x[lo..mid], x[mid..hi]));
    r', out' := r[k - 1 := r[j - 1]], [r[j - 1]] + out;
  }

  /** A right-merge step that writes the buffered pair keeps the state. */
  method HighTakeBuffered(x: seq<Pair>, r: seq<Pair>, lo: nat, mid: nat, hi: nat,
                         buf: seq<Pair>, i: nat, j: nat, k: nat, out: seq<Pair>)
    returns (r': seq<Pair>, out': seq<Pair>)
    requires HighState(x, r, lo, mid, hi, buf, i, j, k, out)
    requires 0 < i && (j == lo || r[j - 1].key <= buf[i - 1].key)
    ensures out' == [buf[i - 1]] + out && HighState(x, r', lo, mid, hi, buf, i - 1, j, k - 1, out')
  {
    ghost var a, b := x[lo..j], buf[..i];
    assert a == x[lo..mid][..j - lo] && b[..|b| - 1] == buf[..i - 1] && b[|b| - 1] == buf[i - 1];
    if j > lo {
      HighFrameAt(x, r, k, hi, out, j - 1);
      assert a[|a| - 1] == r[j - 1];
    }
    SortedPrefix(x[lo..mid], j - lo);
    SortedPrefix(buf, i);
    HighWrite(x, r, k, hi, out, buf[i - 1]);
    MergeHighTakeRight(a, b, out, Merge(x[lo..mid], x[mid..hi]));
    r', out' := r[k - 1 := buf[i - 1]], [buf[i - 1]] + out;
  }

  /** One step of the right merge while buffered pairs remain: the left run's pair moves
      up when its key is strictly larger than the buffered one; otherwise, or when the
      left run is used up, the buffered pair is written. */
  method HighStep(x: seq<Pair>, r: seq<Pair>, lo: nat, mid: nat, hi: nat,
                  buf: seq<Pair>, i: nat, j: nat, k: nat, out: seq<Pair>)
    returns (r': seq<Pair>, i': nat, j': nat, out': seq<Pair>)
    requires HighState(x, r, lo, mid, hi, buf, i, j, k, out) && 0 < i
    ensures HighState(x, r', lo, mid, hi, buf, i', j', k - 1, out')
  {
    if j > lo {
      if r[j - 1].key > buf[i - 1].key {
        r', out' := HighTakeLeft(x, r, lo, mid, hi, buf, i, j, k, out);
        i', j' := i, j - 1;
      } else {
        r', out' := HighTakeBuffered(x, r, lo, mid, hi, buf, i, j, k, out);
        i', j' := i - 1, j;
      }
    } else {
      r', out' := HighTakeBuffered(x, r, lo, mid, hi, buf, i, j, k, out);
      i', j' := i - 1, j;
    }
  }

  /** Before the right merge starts nothing is written and the whole merge lies ahead. */
  lemma HighStart(x: seq<Pair>, lo: nat, mid: nat, hi: nat, buf: seq<Pair>)
    requires lo <= mid <= hi <= |x| && buf == x[mid..hi]
    requires Sorted(x[lo..mid]) && Sorted(x[mid..hi])
    ensures HighState(x, x, lo, mid, hi, buf, |buf|, mid, hi, [])
  {
    assert buf[..|buf|] == buf;
    assert x == x[..hi] + [] + x[hi..];
  }

  /** Once the buffer is used up the merge is complete. */
  lemma HighDone(x: seq<Pair>, r: seq<Pair>, lo: nat, mid: nat, hi: nat,
                 buf: seq<Pair>, i: nat, j: nat, k: nat, out: seq<Pair>)
    requires HighState(x, r, lo, mid, hi, buf, i, j, k, out) && i == 0
    ensures r[..lo] == x[..lo] && r[hi..] == x[hi..]
    ensures r[lo..hi] == Merge(x[lo..mid], x[mid..hi])
  {
    HighFrameSlices(x, r, k, hi, out);
    assert buf[..i] == [];
    assert r[lo..j] == r[..j][lo..] == x[..j][lo..] == x[lo..j];
    assert r[lo..hi] == r[lo..j] + r[j..hi];
  }

  /** The right merge of `tim_sort_merge`, used when the right run is not longer: the
      right run waits in the buffer `buf` and the output is written from the back, taking
      the left run's pair only when its key is strictly larger. Once the buffer is used
      up, the rest of the left run is already in place. */
  method MergeHigh(x: seq<Pair>, lo: nat, mid: nat, hi: nat, buf: seq<Pair>) returns (r: seq<Pair>)
    requires lo <= mid <= hi <= |x| && buf == x[mid..hi]
    requires Sorted(x[lo..mid]) && Sorted(x[mid..hi])
    ensures |r| == |x|
    ensures r[..lo] == x[..lo] && r[hi..] == x[hi..]
    ensures r[lo..hi] == Merge(x[lo..mid], x[mid..hi])
  {
    r := x;
    var i: nat, j: nat, k: nat := |buf|, mid, hi;
    var out: seq<Pair> := [];
    HighStart(x, lo, mid, hi, buf);
    while k > lo
      invariant HighState(x, r, lo, mid, hi, buf, i, j, k, out)
      decreases k
    {
      if i > 0 {
        r, i, j, out := HighStep(x, r, lo, mid, hi, buf, i, j, k, out);
      } else {
        break;
      }
      k := k - 1;
    }
    HighDone(x, r, lo, mid, hi, buf, i, j, k, out);
  }

  /** One past the last position of a run. */
  function End(run: Run): nat
  {
    run.start + run.length
  }

  /** The merged range of `tim_sort_merge` is sorted and holds a stable rearrangement of
      the two runs, so the whole sequence is a stable rearrangement of the input. */
  lemma MergedRange(x: seq<Pair>, r: seq<Pair>, lo: nat, mid: nat, hi: nat)
    requires lo <= mid <= hi <= |x| == |r|
    requires Sorted(x[lo..mid]) && Sorted(x[mid..hi])
    requires r[..lo] == x[..lo] && r[hi..] == x[hi..]
    requires r[lo..hi] == Merge(x[lo..mid], x[mid..hi])
    ensures SortedRange(r, lo, hi)
    ensures StablePerm(x, r)
  {
    MergeSorted(x[lo..mid], x[mid..hi]);
    SortedRangeSlice(r, lo, hi);
    MergeStable(x[lo..mid], x[mid..hi]);
    assert x[lo..mid] + x[mid..hi] == x[lo..hi];
    StablePermSplice(x, r, lo, hi);
  }

  /** `tim_sort_merge`: merges the adjacent runs `stack[n - 2]` and `stack[n - 1]`. The
      buffer is first resized to the shorter run; a shorter left run is merged from the
      front, otherwise from the back. Either way the two runs become their stable merge,
      and nothing else moves. */
  method MergeAt(x: seq<Pair>, stack: seq<Run>, n: nat, store: Storage)
    returns (r: seq<Pair>, store': Storage)
    requires 2 <= n <= |stack|
    requires End(stack[n - 2]) == stack[n - 1].start && End(stack[n - 1]) <= |x|
    requires SortedRange(x, stack[n - 2].start, End(stack[n - 2]))
    requires SortedRange(x, stack[n - 1].start, End(stack[n - 1]))
    ensures |r| == |x|
    ensures var lo, hi := stack[n - 2].start, End(stack[n - 1]);
            r[..lo] == x[..lo] && r[hi..] == x[hi..]
    ensures var lo, mid, hi := stack[n - 2].start, stack[n - 1].start, End(stack[n - 1]);
            r[lo..hi] == Merge(x[lo..mid], x[mid..hi])
    ensures SortedRange(r, stack[n - 2].start, End(stack[n - 1]))
    ensures StablePerm(x, r)
    ensures store'.held && Min(stack[n - 2].length, stack[n - 1].length) <= store'.alloc
    ensures store.held ==> store.alloc <= store'.alloc
  {
    var a, b := stack[n - 2].length, stack[n - 1].length;
    var lo, mid, hi := stack[n - 2].start, stack[n - 1].start, End(stack[n - 1]);
    store' := Resize(store, Min(a, b));
    SortedRangeSlice(x, lo, mid);
    SortedRangeSlice(x, mid, hi);
    if a < b {
      var buf := x[lo..mid];
      assert |buf| <= store'.alloc;
      r := MergeLow(x, lo, mid, hi, buf);
    } else {
      var buf := x[mid..hi];
      assert |buf| <= store'.alloc;
      r := MergeHigh(x, lo, mid, hi, buf);
    }
    MergedRange(x, r, lo, mid, hi);
  }
}

=== FILE: minrun.dfy ===
/** Choosing the minimum run length: `clzll` (leading-zero count of a 64-bit word) and
    `compute_minrun`, which keeps the six most significant bits of the array size and
    rounds up when any lower bit is set. */
module MinRun {

  /** 2^64: every `uint64_t` value is below it. */
  const U64: nat := 0x1_0000_0000_0000_0000

  function Pow2(k: nat): (p: nat)
    ensures p >= 1
  {
    if k == 0 then 1 else 2 * Pow2(k - 1)
  }

  lemma {:induction false} Pow2Add(a: nat, b: nat)
    ensures Pow2(a + b) == Pow2(a) * Pow2(b)
    decreases a
  {
    if a > 0 {
      Pow2Add(a - 1, b);
    }
  }

  /** The small powers of two the bit tricks below use, as the literals the source writes. */
  lemma Pow2Small()
    ensures Pow2(1) == 2 && Pow2(2) == 4 && Pow2(4) == 0x10 && Pow2(5) == 32
    ensures Pow2(6) == 64 && Pow2(8) == 0x100 && Pow2(16) == 0x1_0000
  {
    assert Pow2(4) == 0x10;
    Pow2Add(4, 4);
    Pow2Add(8, 8);
  }

  /** The large powers of two the bit tricks below use, as the literals the source writes. */
  lemma Pow2Large()
    ensures Pow2(32) == 0x1_0000_0000
    ensures Pow2(48) == 0x1_0000_0000_0000 && Pow2(56) == 0x100_0000_0000_0000
    ensures Pow2(60) == 0x1000_0000_0000_0000 && Pow2(62) == 0x4000_0000_0000_0000
    ensures Pow2(63) == 0x8000_0000_0000_0000 && Pow2(64) == U64
  {
    Pow2Small();
    Pow2Add(16, 16);
    Pow2Add(32, 16);
    Pow2Add(48, 8);
    Pow2Add(56, 4);
    Pow2Add(60, 2);
    Pow2Add(62, 1);
    Pow2Add(32, 32);
  }

  /** Number of binary digits of `x` (zero has none): the reference the bit tricks are
      measured against. */
  function BitLength(x: nat): nat
  {
    if x == 0 then 0 else 1 + BitLength(x / 2)
  }

  /** `x` has at most `k` binary digits exactly when it is below 2^k. */
  lemma {:induction false} BitLengthBound(x: nat, k: nat)
    ensures BitLength(x) <= k <==> x < Pow2(k)
    decreases k
  {
    if k > 0 && x > 0 {
      BitLengthBound(x / 2, k - 1);
    }
  }

  /** Shifting left by `k` adds `k` digits to a non-zero number. */
  lemma {:induction false} BitLengthShift(x: nat, k: nat)
    requires x > 0
    ensures BitLength(x * Pow2(k)) == BitLength(x) + k
    decreases k
  {
    if k > 0 {
      BitLengthShift(x, k - 1);
      var y := x * Pow2(k - 1);
      assert x * Pow2(k) == 2 * y;
      assert (2 * y) / 2 == y;
    }
  }

  /** One halving step of `clzll`: a word no larger than `limit` has its top `k` bits
      clear; they are counted and the word is shifted left past them. */
  function Halve(n: nat, x: nat, limit: nat, k: nat, mult: nat): (nat, nat)
  {
    if x <= limit then (n + k, x * mult) else (n, x)
  }

  /** On digit counts, a halving step by `k` takes a word with more than `64 - 2k` digits
      to one with more than `64 - k`, counting exactly the digits it adds. */
  lemma HalveDigits(n: nat, x: nat, limit: nat, k: nat, mult: nat, b: nat)
    requires 0 < k <= 32 && limit + 1 == Pow2(64 - k) && mult == Pow2(k)
    requires x > 0 && 64 - 2 * k < BitLength(x) <= 64 && BitLength(x) == b + n
    ensures var (n', x') := Halve(n, x, limit, k, mult);
            x' > 0 && 64 - k < BitLength(x') <= 64 && BitLength(x') == b + n'
  {
    BitLengthBound(x, 64 - k);
    BitLengthShift(x, k);
  }

  /** `clzll`: the number of leading zero bits of the 64-bit word `x`, found by five
      halving steps (32, 16, 8, 4, 2 bits) and a final one-bit test; zero has 64. Each
      shift is applied only to a value small enough that it cannot overflow 64 bits, so
      the `uint64_t` shift is a plain multiplication. */
  function Clz(x: nat): nat
    requires x < U64
  {
    if x == 0 then 64
    else
      var (n1, x1) := Halve(0, x, 0x0000_0000_FFFF_FFFF, 32, 0x1_0000_0000);
      var (n2, x2) := Halve(n1, x1, 0x0000_FFFF_FFFF_FFFF, 16, 0x1_0000);
      var (n3, x3) := Halve(n2, x2, 0x00FF_FFFF_FFFF_FFFF, 8, 0x100);
      var (n4, x4) := Halve(n3, x3, 0x0FFF_FFFF_FFFF_FFFF, 4, 0x10);
      var (n5, x5) := Halve(n4, x4, 0x3FFF_FFFF_FFFF_FFFF, 2, 4);
      if x5 <= 0x7FFF_FFFF_FFFF_FFFF then n5 + 1 else n5
  }

  /** The leading zeros of a 64-bit word are the bits above its highest set bit. */
  lemma ClzIsLeadingZeros(x: nat)
    requires x < U64
    ensures Clz(x) == 64 - BitLength(x)
  {
    if x > 0 {
      var b := BitLength(x);
      Pow2Small();
      Pow2Large();
      BitLengthBound(x, 64);
      BitLengthBound(x, 0);
      HalveDigits(0, x, 0x0000_0000_FFFF_FFFF, 32, 0x1_0000_0000, b);
      var (n1, x1) := Halve(0, x, 0x0000_0000_FFFF_FFFF, 32, 0x1_0000_0000);
      HalveDigits(n1, x1, 0x0000_FFFF_FFFF_FFFF, 16, 0x1_0000, b);
      var (n2, x2) := Halve(n1, x1, 0x0000_FFFF_FFFF_FFFF, 16, 0x1_0000);
      HalveDigits(n2, x2, 0x00FF_FFFF_FFFF_FFFF, 8, 0x100, b);
      var (n3, x3) := Halve(n2, x2, 0x00FF_FFFF_FFFF_FFFF, 8, 0x100);
      HalveDigits(n3, x3, 0x0FFF_FFFF_FFFF_FFFF, 4, 0x10, b);
      var (n4, x4) := Halve(n3, x3, 0x0FFF_FFFF_FFFF_FFFF, 4, 0x10);
      HalveDigits(n4, x4, 0x3FFF_FFFF_FFFF_FFFF, 2, 4, b);
      var (n5, x5) := Halve(n4, x4, 0x3FFF_FFFF_FFFF_FFFF, 2, 4);
      BitLengthBound(x5, 63);
    }
  }

  /** The shift `compute_minrun` applies: all but the six leading bits are dropped. */
  function MinrunShift(size: nat): nat
  {
    if BitLength(size) > 6 then BitLength(size) - 6 else 0
  }

  /** `compute_minrun`: `size >> shift`, plus one when a shifted-out bit is set. The test
      `((1 << shift) - 1) & size` is the remainder of `size` modulo 2^shift. */
  function ComputeMinrun(size: nat): int
    requires size < U64
  {
    var topBit: int := 64 - Clz(size);
    var shift: nat := if topBit > 6 then topBit - 6 else 0;
    var minrun := size / Pow2(shift);
    if size % Pow2(shift) != 0 then minrun + 1 else minrun
  }

  /** `size` divided by `p`, rounded up, in terms of multiplication only. */
  lemma CeilingDivision(size: nat, p: nat)
    requires p > 0
    ensures var q := size / p;
            var m := if size % p != 0 then q + 1 else q;
            (m - 1) * p < size <= m * p
  {
    var q, r := size / p, size % p;
    assert size == q * p + r && 0 <= r < p;
    assert (q + 1) * p == q * p + p;
    assert (q - 1) * p == q * p - p;
  }

  /** The minimum run length is `size` divided by 2^shift, rounded up: splitting the
      array into pieces of length `minrun` needs at most 2^shift pieces, a power of two,
      which keeps the final merges balanced. */
  lemma MinrunIsCeiling(size: nat)
    requires size < U64
    ensures var m, p := ComputeMinrun(size), Pow2(MinrunShift(size));
            (m - 1) * p < size <= m * p
  {
    ClzIsLeadingZeros(size);
    CeilingDivision(size, Pow2(MinrunShift(size)));
  }

  /** Multiplying by a positive number is monotone in both directions. */
  lemma MulLess(a: int, b: int, p: nat)
    requires p > 0
    ensures a < b <==> a * p < b * p
  {
    if a < b {
      assert b * p == a * p + (b - a) * p;
    } else {
      assert a * p == b * p + (a - b) * p;
    }
  }

  /** Small arrays are one run; from 64 elements on, the run length lies in [32, 64]. */
  lemma MinrunRange(size: nat)
    requires size < U64
    ensures size < 64 ==> ComputeMinrun(size) == size
    ensures size >= 64 ==> 32 <= ComputeMinrun(size) <= 64
  {
    ClzIsLeadingZeros(size);
    Pow2Small();
    BitLengthBound(size, 6);
    if size >= 64 {
      MinrunLarge(size);
    }
  }

  /** From 64 elements on, `size` lies in [32 * 2^shift, 64 * 2^shift), so its rounded-up
      quotient lies in [32, 64]. */
  lemma MinrunLarge(size: nat)
    requires 64 <= size < U64
    ensures 32 <= ComputeMinrun(size) <= 64
  {
    var p := Pow2(MinrunShift(size));
    ShiftedBounds(size);
    MinrunIsCeiling(size);
    CeilingBounds(size, ComputeMinrun(size), p);
  }

  /** From 64 elements on, the shift keeps six bits: 32 * 2^shift <= size < 64 * 2^shift. */
  lemma ShiftedBounds(size: nat)
    requires 64 <= size
    ensures var p := Pow2(MinrunShift(size)); 32 * p <= size < 64 * p
  {
    Pow2Small();
    var b := BitLength(size);
    BitLengthBound(size, 6);
    var k := b - 6;
    BitLengthBound(size, b);
    BitLengthBound(size, b - 1);
    Pow2Add(5, k);
    Pow2Add(6, k);
  }

  /** A rounded-up quotient of a size in [32p, 64p) lies in [32, 64]. */
  lemma CeilingBounds(size: nat, m: int, p: nat)
    requires p > 0 && (m - 1) * p < size <= m * p && 32 * p <= size < 64 * p
    ensures 32 <= m <= 64
  {
    MulLess(m - 1, 64, p);
    MulLess(31, m, p);
    assert 32 * p == 31 * p + p;
  }
}

=== FILE: network_proofs.dfy ===
/** Each network of `bitonic_sort` sorts every 0-1 input of its size.

    For a network of `n` elements with layers `0..K-1` the argument has four steps:
    `Step` spells out, position by position, what layer `k` does to 0-1 values;
    `Layer` shows that running the layer does exactly that; `Circuit` is the purely
    propositional fact that `K` such steps leave the values ordered; `SortsBits` strings
    the layers together. The per-network members are written out because every network
    has its own wiring. */
module NetworkProofs {
  import opened Pairs
  import opened Networks

  // ---- `bitonic_sort_2` ----

  lemma Network2Oriented()
    ensures Oriented(Network2)
  {
    assert forall q :: 0 <= q < |Network2[0]| ==> Network2[0][q].i < Network2[0][q].j;
  }

  predicate Network2Step0(v: seq<bool>, w: seq<bool>)
  {
    |v| == 2 && |w| == 2 && w[0] == (v[0] && v[1]) && w[1] == (v[0] || v[1])
  }

  lemma Network2Layer0Bits(w0: seq<bool>, w1: seq<bool>)
    requires |w0| == 2
    requires Swapped(w0, w1, C(0, 1))
    ensures Network2Step0(w0, w1)
  {
  }

  lemma Network2Layer0(layer: seq<Comparator>, v: seq<bool>)
    requires |v| == 2 && layer == [C(0, 1)]
    ensures Network2Step0(v, ApplyLayerBits(layer, 0, v))
  {
    var w1 := CSwapBits(v, C(0, 1));
    CSwapBitsAt(v, C(0, 1));
    assert ApplyLayerBits(layer, 0, v) == ApplyLayerBits(layer, 1, w1);
    Network2Layer0Bits(v, w1);
  }

  lemma Network2Circuit(v0: seq<bool>, v1: seq<bool>)
    requires Network2Step0(v0, v1)
    ensures SortedBits(v1)
  {
  }

  lemma Network2SortsBits(v: seq<bool>)
    requires |v| == 2
    ensures SortedBits(ApplyNetBits(Network2, 0, v))
  {
    var v1 := ApplyLayerBits(Network2[0], 0, v);
    Network2Layer0(Network2[0], v);
    Network2Circuit(v, v1);
    assert ApplyNetBits(Network2, 0, v) == ApplyNetBits(Network2, 1, v1);
  }

  // ---- `bitonic_sort_3` ----

  lemma Network3Oriented()
    ensures Oriented(Network3)
  {
    assert forall q :: 0 <= q < |Network3[0]| ==> Network3[0][q].i < Network3[0][q].j;
    assert forall q :: 0 <= q < |Network3[1]| ==> Network3[1][q].i < Network3[1][q].j;
    assert forall q :: 0 <= q < |Network3[2]| ==> Network3[2][q].i < Network3[2][q].j;
  }

  predicate Network3Step0(v: seq<bool>, w: seq<bool>)
  {
    |v| == 3 && |w| == 3 && w[0] == v[0] && w[1] == (v[1] && v[2]) &&
    w[2] == (v[1] || v[2])
  }

  lemma Network3Layer0Bits(w0: seq<bool>, w1: seq<bool>)
    requires |w0| == 3
    requires Swapped(w0, w1, C(1, 2))
    ensures Network3Step0(w0, w1)
  {
  }

  lemma Network3Layer0(layer: seq<Comparator>, v: seq<bool>)
    requires |v| == 3 && layer == [C(1, 2)]
    ensures Network3Step0(v, ApplyLayerBits(layer, 0, v))
  {
    var w1 := CSwapBits(v, C(1, 2));
    CSwapBitsAt(v, C(1, 2));
    assert ApplyLayerBits(layer, 0, v) == ApplyLayerBits(layer, 1, w1);
    Network3Layer0Bits(v, w1);
  }

  predicate Network3Step1(v: seq<bool>, w: seq<bool>)
  {
    |v| == 3 && |w| == 3 && w[0] == (v[0] && v[2]) && w[1] == v[1] &&
    w[2] == (v[0] || v[2])
  }

  lemma Network3Layer1Bits(w0: seq<bool>, w1: seq<bool>)
    requires |w0| == 3
    requires Swapped(w0, w1, C(0, 2))
    ensures Network3Step1(w0, w1)
  {
  }

  lemma Network3Layer1(layer: seq<Comparator>, v: seq<bool>)
    requires |v| == 3 && layer == [C(0, 2)]
    ensures Network3Step1(v, ApplyLayerBits(layer, 0, v))
  {
    var w1 := CSwapBits(v, C(0, 2));
    CSwapBitsAt(v, C(0, 2));
    assert ApplyLayerBits(layer, 0, v) == ApplyLayerBits(layer, 1, w1);
    Network3Layer1Bits(v, w1);
  }

  predicate Network3Step2(v: seq<bool>, w: seq<bool>)
  {
    |v| == 3 && |w| == 3 && w[0] == (v[0] && v[1]) && w[1] == (v[0] || v[1]) &&
    w[2] == v[2]
  }

  lemma Network3Layer2Bits(w0: seq<bool>, w1: seq<bool>)
    requires |w0| == 3
    requires Swapped(w0, w1, C(0, 1))
    ensures Network3Step2(w0, w1)
  {
  }

  lemma Network3Layer2(layer: seq<Comparator>, v: seq<bool>)
    requires |v| == 3 && layer == [C(0, 1)]
    ensures Network3Step2(v, ApplyLayerBits(layer, 0, v))
  {
    var w1 := CSwapBits(v, C(0, 1));
    CSwapBitsAt(v, C(0, 1));
    assert ApplyLayerBits(layer, 0, v) == ApplyLayerBits(layer, 1, w1);
    Network3Layer2Bits(v, w1);
  }

  lemma Network3Circuit(v0: seq<bool>, v1: seq<bool>, v2: seq<bool>, v3: seq<bool>)
    requires Network3Step0(v0, v1)
    requires Network3Step1(v1, v2)
    requires Network3Step2(v2, v3)
    ensures SortedBits(v3)
  {
  }

  lemma Network3SortsBits(v: seq<bool>)
    requires |v| == 3
    ensures SortedBits(ApplyNetBits(Network3, 0, v))
  {
    var v1 := ApplyLayerBits(Network3[0], 0, v);
    Network3Layer0(Network3[0], v);
    var v2 := ApplyLayerBits(Network3[1], 0, v1);
    Network3Layer1(Network3[1], v1);
    var v3 := ApplyLayerBits(Network3[2], 0, v2);
    Network3Layer2(Network3[2], v2);
    Network3Circuit(v, v1, v2, v3);
    assert ApplyNetBits(Network3, 0, v) == ApplyNetBits(Network3, 1, v1);
    assert ApplyNetBits(Network3, 1, v1) == ApplyNetBits(Network3, 2, v2);
    assert ApplyNetBits(Network3, 2, v2) == ApplyNetBits(Network3, 3, v3);
  }

  // ---- `bitonic_sort_4` ----

  lemma Network4Oriented()
    ensures Oriented(Network4)
  {
    assert forall q :: 0 <= q < |Network4[0]| ==> Network4[0][q].i < Network4[0][q].j;
    assert forall q :: 0 <= q < |Network4[1]| ==> Network4[1][q].i < Network4[1][q].j;
    assert forall q :: 0 <= q < |Network4[2]| ==> Network4[2][q].i < Network4[2][q].j;
  }

  predicate Network4Step0(v: seq<bool>, w: seq<bool>)
  {
    |v| == 4 && |w| == 4 && w[0] == (v[0] && v[1]) && w[1] == (v[0] || v[1]) &&
    w[2] == (v[2] && v[3]) && w[3] == (v[2] || v[3])
  }

  lemma Network4Layer0Bits(w0: seq<bool>, w1: seq<bool>, w2: seq<bool>)
    requires |w0| == 4
    requires Swapped(w0, w1, C(0, 1))
    requires Swapped(w1, w2, C(2, 3))
    ensures Network4Step0(w0, w2)
  {
  }

  lemma Network4Layer0(layer: seq<Comparator>, v: seq<bool>)
    requires |v| == 4 && layer == [C(0, 1), C(2, 3)]
    ensures Network4Step0(v, ApplyLayerBits(layer, 0, v))
  {
    var w1 := CSwapBits(v, C(0, 1));
    CSwapBitsAt(v, C(0, 1));
    assert ApplyLayerBits(layer, 0, v) == ApplyLayerBits(layer, 1, w1);
    var w2 := CSwapBits(w1, C(2, 3));
    CSwapBitsAt(w1, C(2, 3));
    assert ApplyLayerBits(layer, 1, w1) == ApplyLayerBits(layer, 2, w2);
    Network4Layer0Bits(v, w1, w2);
  }

  predicate Network4Step1(v: seq<bool>, w: seq<bool>)
  {
    |v| == 4 && |w| == 4 && w[0] == (v[0] && v[2]) && w[1] == (v[1] && v[3]) &&
    w[2] == (v[0] || v[2]) && w[3] == (v[1] || v[3])
  }

  lemma Network4Layer1Bits(w0: seq<bool>, w1: seq<bool>, w2: seq<bool>)
    requires |w0| == 4
    requires Swapped(w0, w1, C(0, 2))
    requires Swapped(w1, w2, C(1, 3))
    ensures Network4Step1(w0, w2)
  {
  }

  lemma Network4Layer1(layer: seq<Comparator>, v: seq<bool>)
    requires |v| == 4 && layer == [C(0, 2), C(1, 3)]
    ensures Network4Step1(v, ApplyLayerBits(layer, 0, v))
  {
    var w1 := CSwapBits(v, C(0, 2));
    CSwapBitsAt(v, C(0, 2));
    assert ApplyLayerBits(layer, 0, v) == ApplyLayerBits(layer, 1, w1);
    var w2 := CSwapBits(w1, C(1, 3));
    CSwapBitsAt(w1, C(1, 3));
    assert ApplyLayerBits(layer, 1, w1) == ApplyLayerBits(layer, 2, w2);
    Network4Layer1Bits(v, w1, w2);
  }

  predicate Network4Step2(v: seq<bool>, w: seq<bool>)
  {
    |v| == 4 && |w| == 4 && w[0] == v[0] && w[1] == (v[1] && v[2]) &&
    w[2] == (v[1] || v[2]) && w[3] == v[3]
  }

  lemma Network4Layer2Bits(w0: seq<bool>, w1: seq<bool>)
    requires |w0| == 4
    requires Swapped(w0, w1, C(1, 2))
    ensures Network4Step2(w0, w1)
  {
  }

  lemma Network4Layer2(layer: seq<Comparator>, v: seq<bool>)
    requires |v| == 4 && layer == [C(1, 2)]
    ensures Network4Step2(v, ApplyLayerBits(layer, 0, v))
  {
    var w1 := CSwapBits(v, C(1, 2));
    CSwapBitsAt(v, C(1, 2));
    assert ApplyLayerBits(layer, 0, v) == ApplyLayerBits(layer, 1, w1);
    Network4Layer2Bits(v, w1);
  }

  lemma Network4Circuit(v0: seq<bool>, v1: seq<bool>, v2: seq<bool>, v3: seq<bool>)
    requires Network4Step0(v0, v1)
    requires Network4Step1(v1, v2)
    requires Network4Step2(v2, v3)
    ensures SortedBits(v3)
  {
  }

  lemma Network4SortsBits(v: seq<bool>)
    requires |v| == 4
    ensures SortedBits(ApplyNetBits(Network4, 0, v))
  {
    var v1 := ApplyLayerBits(Network4[0], 0, v);
    Network4Layer0(Network4[0], v);
    var v2 := ApplyLayerBits(Network4[1], 0, v1);
    Network4Layer1(Network4[1], v1);
    var v3 := ApplyLayerBits(Network4[2], 0, v2);
    Network4Layer2(Network4[2], v2);
    Network4Circuit(v, v1, v2, v3);
    assert ApplyNetBits(Network4, 0, v) == ApplyNetBits(Network4, 1, v1);
    assert ApplyNetBits(Network4, 1, v1) == ApplyNetBits(Network4, 2, v2);
    assert ApplyNetBits(Network4, 2, v2) == ApplyNetBits(Network4, 3, v3);
  }

  // ---- `bitonic_sort_5` ----

  lemma Network5Oriented()
    ensures Oriented(Network5)
  {
    assert forall q :: 0 <= q < |Network5[0]| ==> Network5[0][q].i < Network5[0][q].j;
    assert forall q :: 0 <= q < |Network5[1]| ==> Network5[1][q].i < Network5[1][q].j;
    assert forall q :: 0 <= q < |Network5[2]| ==> Network5[2][q].i < Network5[2][q].j;
    assert forall q :: 0 <= q < |Network5[3]| ==> Network5[3][q].i < Network5[3][q].j;
    assert forall q :: 0 <= q < |Network5[4]| ==> Network5[4][q].i < Network5[4][q].j;
    assert forall q :: 0 <= q < |Network5[5]| ==> Network5[5][q].i < Network5[5][q].j;
  }

  predicate Network5Step0(v: seq<bool>, w: seq<bool>)
  {
    |v| == 5 && |w| == 5 && w[0] == (v[0] && v[1]) && w[1] == (v[0] || v[1]) &&
    w[2] == v[2] && w[3] == (v[3] && v[4]) && w[4] == (v[3] || v[4])
  }

  lemma Network5Layer0Bits(w0: seq<bool>, w1: seq<bool>, w2: seq<bool>)
    requires |w0| == 5
    requires Swapped(w0, w1, C(0, 1))
    requires Swapped(w1, w2, C(3, 4))
    ensures Network5Step0(w0, w2)
  {
  }

  lemma Network5Layer0(layer: seq<Comparator>, v: seq<bool>)
    requires |v| == 5 && layer == [C(0, 1), C(3, 4)]
    ensures Network5Step0(v, ApplyLayerBits(layer, 0, v))
  {
    var w1 := CSwapBits(v, C(0, 1));
    CSwapBitsAt(v, C(0, 1));
    assert ApplyLayerBits(layer, 0, v) == ApplyLayerBits(layer, 1, w1);
    var w2 := CSwapBits(w1, C(3, 4));
    CSwapBitsAt(w1, C(3, 4));
    assert ApplyLayerBits(layer, 1, w1) == ApplyLayerBits(layer, 2, w2);
    Network5Layer0Bits(v, w1, w2);
  }

  predicate Network5Step1(v: seq<bool>, w: seq<bool>)
  {
    |v| == 5 && |w| == 5 && w[0] == v[0] && w[1] == v[1] &&
    w[2] == (v[2] && v[4]) && w[3] == v[3] && w[4] == (v[2] || v[4])
  }

  lemma Network5Layer1Bits(w0: seq<bool>, w1: seq<bool>)
    requires |w0| == 5
    requires Swapped(w0, w1, C(2, 4))
    ensures Network5Step1(w0, w1)
  {
  }

  lemma Network5Layer1(layer: seq<Comparator>, v: seq<bool>)
    requires |v| == 5 && layer == [C(2, 4)]
    ensures Network5Step1(v, ApplyLayerBits(layer, 0, v))
  {
    var w1 := CSwapBits(v, C(2, 4));
    CSwapBitsAt(v, C(2, 4));
    assert ApplyLayerBits(layer, 0, v) == ApplyLayerBits(layer, 1, w1);
    Network5Layer1Bits(v, w1);
  }

  predicate Network5Step2(v: seq<bool>, w: seq<bool>)
  {
    |v| == 5 && |w| == 5 && w[0] == v[0] && w[1] == (v[1] && v[4]) &&
    w[2] == (v[2] && v[3]) && w[3] == (v[2] || v[3]) && w[4] == (v[1] || v[4])
  }

  lemma Network5Layer2Bits(w0: seq<bool>, w1: seq<bool>, w2: seq<bool>)
    requires |w0| == 5
    requires Swapped(w0, w1, C(2, 3))
    requires Swapped(w1, w2, C(1, 4))
    ensures Network5Step2(w0, w2)
  {
  }

  lemma Network5Layer2(layer: seq<Comparator>, v: seq<bool>)
    requires |v| == 5 && layer == [C(2, 3), C(1, 4)]
    ensures Network5Step2(v, ApplyLayerBits(layer, 0, v))
  {
    var w1 := CSwapBits(v, C(2, 3));
    CSwapBitsAt(v, C(2, 3));
    assert ApplyLayerBits(layer, 0, v) == ApplyLayerBits(layer, 1, w1);
    var w2 := CSwapBits(w1, C(1, 4));
    CSwapBitsAt(w1, C(1, 4));
    assert ApplyLayerBits(layer, 1, w1) == ApplyLayerBits(layer, 2, w2);
    Network5Layer2Bits(v, w1, w2);
  }

  predicate Network5Step3(v: seq<bool>, w: seq<bool>)
  {
    |v| == 5 && |w| == 5 && w[0] == (v[0] && v[3]) && w[1] == v[1] &&
    w[2] == v[2] && w[3] == (v[0] || v[3]) && w[4] == v[4]
  }

  lemma Network5Layer3Bits(w0: seq<bool>, w1: seq<bool>)
    requires |w0| == 5
    requires Swapped(w0, w1, C(0, 3))
    ensures Network5Step3(w0, w1)
  {
  }

  lemma Network5Layer3(layer: seq<Comparator>, v: seq<bool>)
    requires |v| == 5 && layer == [C(0, 3)]
    ensures Network5Step3(v, ApplyLayerBits(layer, 0, v))
  {
    var w1 := CSwapBits(v, C(0, 3));
    CSwapBitsAt(v, C(0, 3));
    assert ApplyLayerBits(layer, 0, v) == ApplyLayerBits(layer, 1, w1);
    Network5Layer3Bits(v, w1);
  }

  predicate Network5Step4(v: seq<bool>, w: seq<bool>)
  {
    |v| == 5 && |w| == 5 && w[0] == (v[0] && v[2]) && w[1] == (v[1] && v[3]) &&
    w[2] == (v[0] || v[2]) && w[3] == (v[1] || v[3]) && w[4] == v[4]
  }

  lemma Network5Layer4Bits(w0: seq<bool>, w1: seq<bool>, w2: seq<bool>)
    requires |w0| == 5
    requires Swapped(w0, w1, C(0, 2))
    requires Swapped(w1, w2, C(1, 3))
    ensures Network5Step4(w0, w2)
  {
  }

  lemma Network5Layer4(layer: seq<Comparator>, v: seq<bool>)
    requires |v| == 5 && layer == [C(0, 2), C(1, 3)]
    ensures Network5Step4(v, ApplyLayerBits(layer, 0, v))
  {
    var w1 := CSwapBits(v, C(0, 2));
    CSwapBitsAt(v, C(0, 2));
    assert ApplyLayerBits(layer, 0, v) == ApplyLayerBits(layer, 1, w1);
    var w2 := CSwapBits(w1, C(1, 3));
    CSwapBitsAt(w1, C(1, 3));
    assert ApplyLayerBits(layer, 1, w1) == ApplyLayerBits(layer, 2, w2);
    Network5Layer4Bits(v, w1, w2);
  }

  predicate Network5Step5(v: seq<bool>, w: seq<bool>)
  {
    |v| == 5 && |w| == 5 && w[0] == v[0] && w[1] == (v[1] && v[2]) &&
    w[2] == (v[1] || v[2]) && w[3] == v[3] && w[4] == v[4]
  }

  lemma Network5Layer5Bits(w0: seq<bool>, w1: seq<bool>)
    requires |w0| == 5
    requires Swapped(w0, w1, C(1, 2))
    ensures Network5Step5(w0, w1)
  {
  }

  lemma Network5Layer5(layer: seq<Comparator>, v: seq<bool>)
    requires |v| == 5 && layer == [C(1, 2)]
    ensures Network5Step5(v, ApplyLayerBits(layer, 0, v))
  {
    var w1 := CSwapBits(v, C(1, 2));
    CSwapBitsAt(v, C(1, 2));
    assert ApplyLayerBits(layer, 0, v) == ApplyLayerBits(layer, 1, w1);
    Network5Layer5Bits(v, w1);
  }

  lemma Network5Circuit(v0: seq<bool>, v1: seq<bool>, v2: seq<bool>, v3: seq<bool>, v4: seq<bool>, v5: seq<bool>, v6: seq<bool>)
    requires Network5Step0(v0, v1)
    requires Network5Step1(v1, v2)
    requires Network5Step2(v2, v3)
    requires Network5Step3(v3, v4)
    requires Network5Step4(v4, v5)
    requires Network5Step5(v5, v6)
    ensures SortedBits(v6)
  {
  }

  lemma Network5SortsBits(v: seq<bool>)
    requires |v| == 5
    ensures SortedBits(ApplyNetBits(Network5, 0, v))
  {
    var v1 := ApplyLayerBits(Network5[0], 0, v);
    Network5Layer0(Network5[0], v);
    var v2 := ApplyLayerBits(Network5[1], 0, v1);
    Network5Layer1(Network5[1], v1);
    var v3 := ApplyLayerBits(Network5[2], 0, v2);
    Network5Layer2(Network5[2], v2);
    var v4 := ApplyLayerBits(Network5[3], 0, v3);
    Network5Layer3(Network5[3], v3);
    var v5 := ApplyLayerBits(Network5[4], 0, v4);
    Network5Layer4(Network5[4], v4);
    var v6 := ApplyLayerBits(Network5[5], 0, v5);
    Network5Layer5(Network5[5], v5);
    Network5Circuit(v, v1, v2, v3, v4, v5, v6);
    assert ApplyNetBits(Network5, 0, v) == ApplyNetBits(Network5, 1, v1);
    assert ApplyNetBits(Network5, 1, v1) == ApplyNetBits(Network5, 2, v2);
    assert ApplyNetBits(Network5, 2, v2) == ApplyNetBits(Network5, 3, v3);
    assert ApplyNetBits(Network5, 3, v3) == ApplyNetBits(Network5, 4, v4);
    assert ApplyNetBits(Network5, 4, v4) == ApplyNetBits(Network5, 5, v5);
    assert ApplyNetBits(Network5, 5, v5) == ApplyNetBits(Network5, 6, v6);
  }

  // ---- `bitonic_sort_6` ----

  lemma Network6Oriented()
    ensures Oriented(Network6)
  {
    assert forall q :: 0 <= q < |Network6[0]| ==> Network6[0][q].i < Network6[0][q].j;
    assert forall q :: 0 <= q < |Network6[1]| ==> Network6[1][q].i < Network6[1][q].j;
    assert forall q :: 0 <= q < |Network6[2]| ==> Network6[2][q].i < Network6[2][q].j;
    assert forall q :: 0 <= q < |Network6[3]| ==> Network6[3][q].i < Network6[3][q].j;
    assert forall q :: 0 <= q < |Network6[4]| ==> Network6[4][q].i < Network6[4][q].j;
    assert forall q :: 0 <= q < |Network6[5]| ==> Network6[5][q].i < Network6[5][q].j;
  }

  predicate Network6Step0(v: seq<bool>, w: seq<bool>)
  {
    |v| == 6 && |w| == 6 && w[0] == v[0] && w[1] == (v[1] && v[2]) &&
    w[2] == (v[1] || v[2]) && w[3] == v[3] && w[4] == (v[4] && v[5]) && w[5] == (v[4] || v[5])
  }

  lemma Network6Layer0Bits(w0: seq<bool>, w1: seq<bool>, w2: seq<bool>)
    requires |w0| == 6
    requires Swapped(w0, w1, C(1, 2))
    requires Swapped(w1, w2, C(4, 5))
    ensures Network6Step0(w0, w2)
  {
  }

  lemma Network6Layer0(layer: seq<Comparator>, v: seq<bool>)
    requires |v| == 6 && layer == [C(1, 2), C(4, 5)]
    ensures Network6Step0(v, ApplyLayerBits(layer, 0, v))
  {
    var w1 := CSwapBits(v, C(1, 2));
    CSwapBitsAt(v, C(1, 2));
    assert ApplyLayerBits(layer, 0, v) == ApplyLayerBits(layer, 1, w1);
    var w2 := CSwapBits(w1, C(4, 5));
    CSwapBitsAt(w1, C(4, 5));
    assert ApplyLayerBits(layer, 1, w1) == ApplyLayerBits(layer, 2, w2);
    Network6Layer0Bits(v, w1, w2);
  }

  predicate Network6Step1(v: seq<bool>, w: seq<bool>)
  {
    |v| == 6 && |w| == 6 && w[0] == (v[0] && v[2]) && w[1] == v[1] &&
    w[2] == (v[0] || v[2]) && w[3] == (v[3] && v[5]) && w[4] == v[4] && w[5] == (v[3] || v[5])
  }

  lemma Network6Layer1Bits(w0: seq<bool>, w1: seq<bool>, w2: seq<bool>)
    requires |w0| == 6
    requires Swapped(w0, w1, C(0, 2))
    requires Swapped(w1, w2, C(3, 5))
    ensures Network6Step1(w0, w2)
  {
  }

  lemma Network6Layer1(layer: seq<Comparator>, v: seq<bool>)
    requires |v| == 6 && layer == [C(0, 2), C(3, 5)]
    ensures Network6Step1(v, ApplyLayerBits(layer, 0, v))
  {
    var w1 := CSwapBits(v, C(0, 2));
    CSwapBitsAt(v, C(0, 2));
    assert ApplyLayerBits(layer, 0, v) == ApplyLayerBits(layer, 1, w1);
    var w2 := CSwapBits(w1, C(3, 5));
    CSwapBitsAt(w1, C(3, 5));
    assert ApplyLayerBits(layer, 1, w1) == ApplyLayerBits(layer, 2, w2);
    Network6Layer1Bits(v, w1, w2);
  }

  predicate Network6Step2(v: seq<bool>, w: seq<bool>)
  {
    |v| == 6 && |w| == 6 && w[0] == (v[0] && v[1]) && w[1] == (v[0] || v[1]) &&
    w[2] == (v[2] && v[5]) && w[3] == (v[3] && v[4]) && w[4] == (v[3] || v[4]) && w[5] == (v[2] || v[5])
  }

  lemma Network6Layer2Bits(w0: seq<bool>, w1: seq<bool>, w2: seq<bool>, w3: seq<bool>)
    requires |w0| == 6
    requires Swapped(w0, w1, C(0, 1))
    requires Swapped(w1, w2, C(3, 4))
    requires Swapped(w2, w3, C(2, 5))
    ensures Network6Step2(w0, w3)
  {
  }

  lemma Network6Layer2(layer: seq<Comparator>, v: seq<bool>)
    requires |v| == 6 && layer == [C(0, 1), C(3, 4), C(2, 5)]
    ensures Network6Step2(v, ApplyLayerBits(layer, 0, v))
  {
    var w1 := CSwapBits(v, C(0, 1));
    CSwapBitsAt(v, C(0, 1));
    assert ApplyLayerBits(layer, 0, v) == ApplyLayerBits(layer, 1, w1);
    var w2 := CSwapBits(w1, C(3, 4));
    CSwapBitsAt(w1, C(3, 4));
    assert ApplyLayerBits(layer, 1, w1) == ApplyLayerBits(layer, 2, w2);
    var w3 := CSwapBits(w2, C(2, 5));
    CSwapBitsAt(w2, C(2, 5));
    assert ApplyLayerBits(layer, 2, w2) == ApplyLayerBits(layer, 3, w3);
    Network6Layer2Bits(v, w1, w2, w3);
  }

  predicate Network6Step3(v: seq<bool>, w: seq<bool>)
  {
    |v| == 6 && |w| == 6 && w[0] == (v[0] && v[3]) && w[1] == (v[1] && v[4]) &&
    w[2] == v[2] && w[3] == (v[0] || v[3]) && w[4] == (v[1] || v[4]) && w[5] == v[5]
  }

  lemma Network6Layer3Bits(w0: seq<bool>, w1: seq<bool>, w2: seq<bool>)
    requires |w0| == 6
    requires Swapped(w0, w1, C(0, 3))
    requires Swapped(w1, w2, C(1, 4))
    ensures Network6Step3(w0, w2)
  {
  }

  lemma Network6Layer3(layer: seq<Comparator>, v: seq<bool>)
    requires |v| == 6 && layer == [C(0, 3), C(1, 4)]
    ensures Network6Step3(v, ApplyLayerBits(layer, 0, v))
  {
    var w1 := CSwapBits(v, C(0, 3));
    CSwapBitsAt(v, C(0, 3));
    assert ApplyLayerBits(layer, 0, v) == ApplyLayerBits(layer, 1, w1);
    var w2 := CSwapBits(w1, C(1, 4));
    CSwapBitsAt(w1, C(1, 4));
    assert ApplyLayerBits(layer, 1, w1) == ApplyLayerBits(layer, 2, w2);
    Network6Layer3Bits(v, w1, w2);
  }

  predicate Network6Step4(v: seq<bool>, w: seq<bool>)
  {
    |v| == 6 && |w| == 6 && w[0] == v[0] && w[1] == (v[1] && v[3]) &&
    w[2] == (v[2] && v[4]) && w[3] == (v[1] || v[3]) && w[4] == (v[2] || v[4]) && w[5] == v[5]
  }

  lemma Network6Layer4Bits(w0: seq<bool>, w1: seq<bool>, w2: seq<bool>)
    requires |w0| == 6
    requires Swapped(w0, w1, C(2, 4))
    requires Swapped(w1, w2, C(1, 3))
    ensures Network6Step4(w0, w2)
  {
  }

  lemma Network6Layer4(layer: seq<Comparator>, v: seq<bool>)
    requires |v| == 6 && layer == [C(2, 4), C(1, 3)]
    ensures Network6Step4(v, ApplyLayerBits(layer, 0, v))
  {
    var w1 := CSwapBits(v, C(2, 4));
    CSwapBitsAt(v, C(2, 4));
    assert ApplyLayerBits(layer, 0, v) == ApplyLayerBits(layer, 1, w1);
    var w2 := CSwapBits(w1, C(1, 3));
    CSwapBitsAt(w1, C(1, 3));
    assert ApplyLayerBits(layer, 1, w1) == ApplyLayerBits(layer, 2, w2);
    Network6Layer4Bits(v, w1, w2);
  }

  predicate Network6Step5(v: seq<bool>, w: seq<bool>)
  {
    |v| == 6 && |w| == 6 && w[0] == v[0] && w[1] == v[1] &&
    w[2] == (v[2] && v[3]) && w[3] == (v[2] || v[3]) && w[4] == v[4] && w[5] == v[5]
  }

  lemma Network6Layer5Bits(w0: seq<bool>, w1: seq<bool>)
    requires |w0| == 6
    requires Swapped(w0, w1, C(2, 3))
    ensures Network6Step5(w0, w1)
  {
  }

  lemma Network6Layer5(layer: seq<Comparator>, v: seq<bool>)
    requires |v| == 6 && layer == [C(2, 3)]
    ensures Network6Step5(v, ApplyLayerBits(layer, 0, v))
  {
    var w1 := CSwapBits(v, C(2, 3));
    CSwapBitsAt(v, C(2, 3));
    assert ApplyLayerBits(layer, 0, v) == ApplyLayerBits(layer, 1, w1);
    Network6Layer5Bits(v, w1);
  }

  lemma Network6Circuit(v0: seq<bool>, v1: seq<bool>, v2: seq<bool>, v3: seq<bool>, v4: seq<bool>, v5: seq<bool>, v6: seq<bool>)
    requires Network6Step0(v0, v1)
    requires Network6Step1(v1, v2)
    requires Network6Step2(v2, v3)
    requires Network6Step3(v3, v4)
    requires Network6Step4(v4, v5)
    requires Network6Step5(v5, v6)
    ensures SortedBits(v6)
  {
  }

  lemma Network6SortsBits(v: seq<bool>)
    requires |v| == 6
    ensures SortedBits(ApplyNetBits(Network6, 0, v))
  {
    var v1 := ApplyLayerBits(Network6[0], 0, v);
    Network6Layer0(Network6[0], v);
    var v2 := ApplyLayerBits(Network6[1], 0, v1);
    Network6Layer1(Network6[1], v1);
    var v3 := ApplyLayerBits(Network6[2], 0, v2);
    Network6Layer2(Network6[2], v2);
    var v4 := ApplyLayerBits(Network6[3], 0, v3);
    Network6Layer3(Network6[3], v3);
    var v5 := ApplyLayerBits(Network6[4], 0, v4);
    Network6Layer4(Network6[4], v4);
    var v6 := ApplyLayerBits(Network6[5], 0, v5);
    Network6Layer5(Network6[5], v5);
    Network6Circuit(v, v1, v2, v3, v4, v5, v6);
    assert ApplyNetBits(Network6, 0, v) == ApplyNetBits(Network6, 1, v1);
    assert ApplyNetBits(Network6, 1, v1) == ApplyNetBits(Network6, 2, v2);
    assert ApplyNetBits(Network6, 2, v2) == ApplyNetBits(Network6, 3, v3);
    assert ApplyNetBits(Network6, 3, v3) == ApplyNetBits(Network6, 4, v4);
    assert ApplyNetBits(Network6, 4, v4) == ApplyNetBits(Network6, 5, v5);
    assert ApplyNetBits(Network6, 5, v5) == ApplyNetBits(Network6, 6, v6);
  }

  // ---- `bitonic_sort_7` ----

  lemma Network7Oriented()
    ensures Oriented(Network7)
  {
    assert forall q :: 0 <= q < |Network7[0]| ==> Network7[0][q].i < Network7[0][q].j;
    assert forall q :: 0 <= q < |Network7[1]| ==> Network7[1][q].i < Network7[1][q].j;
    assert forall q :: 0 <= q < |Network7[2]| ==> Network7[2][q].i < Network7[2][q].j;
    assert forall q :: 0 <= q < |Network7[3]| ==> Network7[3][q].i < Network7[3][q].j;
    assert forall q :: 0 <= q < |Network7[4]| ==> Network7[4][q].i < Network7[4][q].j;
    assert forall q :: 0 <= q < |Network7[5]| ==> Network7[5][q].i < Network7[5][q].j;
    assert forall q :: 0 <= q < |Network7[6]| ==> Network7[6][q].i < Network7[6][q].j;
  }

  predicate Network7Step0(v: seq<bool>, w: seq<bool>)
  {
    |v| == 7 && |w| == 7 && w[0] == v[0] && w[1] == (v[1] && v[2]) &&
    w[2] == (v[1] || v[2]) && w[3] == (v[3] && v[4]) && w[4] == (v[3] || v[4]) && w[5] == (v[5] && v[6]) &&
    w[6] == (v[5] || v[6])
  }

  lemma Network7Layer0Bits(w0: seq<bool>, w1: seq<bool>, w2: seq<bool>, w3: seq<bool>)
    requires |w0| == 7
    requires Swapped(w0, w1, C(1, 2))
    requires Swapped(w1, w2, C(3, 4))
    requires Swapped(w2, w3, C(5, 6))
    ensures Network7Step0(w0, w3)
  {
  }

  lemma Network7Layer0(layer: seq<Comparator>, v: seq<bool>)
    requires |v| == 7 && layer == [C(1, 2), C(3, 4), C(5, 6)]
    ensures Network7Step0(v, ApplyLayerBits(layer, 0, v))
  {
    var w1 := CSwapBits(v, C(1, 2));
    CSwapBitsAt(v, C(1, 2));
    assert ApplyLayerBits(layer, 0, v) == ApplyLayerBits(layer, 1, w1);
    var w2 := CSwapBits(w1, C(3, 4));
    CSwapBitsAt(w1, C(3, 4));
    assert ApplyLayerBits(layer, 1, w1) == ApplyLayerBits(layer, 2, w2);
    var w3 := CSwapBits(w2, C(5, 6));
    CSwapBitsAt(w2, C(5, 6));
    assert ApplyLayerBits(layer, 2, w2) == ApplyLayerBits(layer, 3, w3);
    Network7Layer0Bits(v, w1, w2, w3);
  }

  predicate Network7Step1(v: seq<bool>, w: seq<bool>)
  {
    |v| == 7 && |w| == 7 && w[0] == (v[0] && v[2]) && w[1] == v[1] &&
    w[2] == (v[0] || v[2]) && w[3] == (v[3] && v[5]) && w[4] == (v[4] && v[6]) && w[5] == (v[3] || v[5]) &&
    w[6] == (v[4] || v[6])
  }

  lemma Network7Layer1Bits(w0: seq<bool>, w1: seq<bool>, w2: seq<bool>, w3: seq<bool>)
    requires |w0| == 7
    requires Swapped(w0, w1, C(0, 2))
    requires Swapped(w1, w2, C(3, 5))
    requires Swapped(w2, w3, C(4, 6))
    ensures Network7Step1(w0, w3)
  {
  }

  lemma Network7Layer1(layer: seq<Comparator>, v: seq<bool>)
    requires |v| == 7 && layer == [C(0, 2), C(3, 5), C(4, 6)]
    ensures Network7Step1(v, ApplyLayerBits(layer, 0, v))
  {
    var w1 := CSwapBits(v, C(0, 2));
    CSwapBitsAt(v, C(0, 2));
    assert ApplyLayerBits(layer, 0, v) == ApplyLayerBits(layer, 1, w1);
    var w2 := CSwapBits(w1, C(3, 5));
    CSwapBitsAt(w1, C(3, 5));
    assert ApplyLayerBits(layer, 1, w1) == ApplyLayerBits(layer, 2, w2);
    var w3 := CSwapBits(w2, C(4, 6));
    CSwapBitsAt(w2, C(4, 6));
    assert ApplyLayerBits(layer, 2, w2) == ApplyLayerBits(layer, 3, w3);
    Network7Layer1Bits(v, w1, w2, w3);
  }

  predicate Network7Step2(v: seq<bool>, w: seq<bool>)
  {
    |v| == 7 && |w| == 7 && w[0] == (v[0] && v[1]) && w[1] == (v[0] || v[1]) &&
    w[2] == (v[2] && v[6]) && w[3] == v[3] && w[4] == (v[4] && v[5]) && w[5] == (v[4] || v[5]) &&
    w[6] == (v[2] || v[6])
  }

  lemma Network7Layer2Bits(w0: seq<bool>, w1: seq<bool>, w2: seq<bool>, w3: seq<bool>)
    requires |w0| == 7
    requires Swapped(w0, w1, C(0, 1))
    requires Swapped(w1, w2, C(4, 5))
    requires Swapped(w2, w3, C(2, 6))
    ensures Network7Step2(w0, w3)
  {
  }

  lemma Network7Layer2(layer: seq<Comparator>, v: seq<bool>)
    requires |v| == 7 && layer == [C(0, 1), C(4, 5), C(2, 6)]
    ensures Network7Step2(v, ApplyLayerBits(layer, 0, v))
  {
    var w1 := CSwapBits(v, C(0, 1));
    CSwapBitsAt(v, C(0, 1));
    assert ApplyLayerBits(layer, 0, v) == ApplyLayerBits(layer, 1, w1);
    var w2 := CSwapBits(w1, C(4, 5));
    CSwapBitsAt(w1, C(4, 5));
    assert ApplyLayerBits(layer, 1, w1) == ApplyLayerBits(layer, 2, w2);
    var w3 := CSwapBits(w2, C(2, 6));
    CSwapBitsAt(w2, C(2, 6));
    assert ApplyLayerBits(layer, 2, w2) == ApplyLayerBits(layer, 3, w3);
    Network7Layer2Bits(v, w1, w2, w3);
  }

  predicate Network7Step3(v: seq<bool>, w: seq<bool>)
  {
    |v| == 7 && |w| == 7 && w[0] == (v[0] && v[4]) && w[1] == (v[1] && v[5]) &&
    w[2] == v[2] && w[3] == v[3] && w[4] == (v[0] || v[4]) && w[5] == (v[1] || v[5]) &&
    w[6] == v[6]
  }

  lemma Network7Layer3Bits(w0: seq<bool>, w1: seq<bool>, w2: seq<bool>)
    requires |w0| == 7
    requires Swapped(w0, w1, C(0, 4))
    requires Swapped(w1, w2, C(1, 5))
    ensures Network7Step3(w0, w2)
  {
  }

  lemma Network7Layer3(layer: seq<Comparator>, v: seq<bool>)
    requires |v| == 7 && layer == [C(0, 4), C(1, 5)]
    ensures Network7Step3(v, ApplyLayerBits(layer, 0, v))
  {
    var w1 := CSwapBits(v, C(0, 4));
    CSwapBitsAt(v, C(0, 4));
    assert ApplyLayerBits(layer, 0, v) == ApplyLayerBits(layer, 1, w1);
    var w2 := CSwapBits(w1, C(1, 5));
    CSwapBitsAt(w1, C(1, 5));
    assert ApplyLayerBits(layer, 1, w1) == ApplyLayerBits(layer, 2, w2);
    Network7Layer3Bits(v, w1, w2);
  }

  predicate Network7Step4(v: seq<bool>, w: seq<bool>)
  {
    |v| == 7 && |w| == 7 && w[0] == (v[0] && v[3]) && w[1] == v[1] &&
    w[2] == (v[2] && v[5]) && w[3] == (v[0] || v[3]) && w[4] == v[4] && w[5] == (v[2] || v[5]) &&
    w[6] == v[6]
  }

  lemma Network7Layer4Bits(w0: seq<bool>, w1: seq<bool>, w2: seq<bool>)
    requires |w0| == 7
    requires Swapped(w0, w1, C(0, 3))
    requires Swapped(w1, w2, C(2, 5))
    ensures Network7Step4(w0, w2)
  {
  }

  lemma Network7Layer4(layer: seq<Comparator>, v: seq<bool>)
    requires |v| == 7 && layer == [C(0, 3), C(2, 5)]
    ensures Network7Step4(v, ApplyLayerBits(layer, 0, v))
  {
    var w1 := CSwapBits(v, C(0, 3));
    CSwapBitsAt(v, C(0, 3));
    assert ApplyLayerBits(layer, 0, v) == ApplyLayerBits(layer, 1, w1);
    var w2 := CSwapBits(w1, C(2, 5));
    CSwapBitsAt(w1, C(2, 5));
    assert ApplyLayerBits(layer, 1, w1) == ApplyLayerBits(layer, 2, w2);
    Network7Layer4Bits(v, w1, w2);
  }

  predicate Network7Step5(v: seq<bool>, w: seq<bool>)
  {
    |v| == 7 && |w| == 7 && w[0] == v[0] && w[1] == (v[1] && v[3]) &&
    w[2] == (v[2] && v[4]) && w[3] == (v[1] || v[3]) && w[4] == (v[2] || v[4]) && w[5] == v[5] &&
    w[6] == v[6]
  }

  lemma Network7Layer5Bits(w0: seq<bool>, w1: seq<bool>, w2: seq<bool>)
    requires |w0| == 7
    requires Swapped(w0, w1, C(1, 3))
    requires Swapped(w1, w2, C(2, 4))
    ensures Network7Step5(w0, w2)
  {
  }

  lemma Network7Layer5(layer: seq<Comparator>, v: seq<bool>)
    requires |v| == 7 && layer == [C(1, 3), C(2, 4)]
    ensures Network7Step5(v, ApplyLayerBits(layer, 0, v))
  {
    var w1 := CSwapBits(v, C(1, 3));
    CSwapBitsAt(v, C(1, 3));
    assert ApplyLayerBits(layer, 0, v) == ApplyLayerBits(layer, 1, w1);
    var w2 := CSwapBits(w1, C(2, 4));
    CSwapBitsAt(w1, C(2, 4));
    assert ApplyLayerBits(layer, 1, w1) == ApplyLayerBits(layer, 2, w2);
    Network7Layer5Bits(v, w1, w2);
  }

  predicate Network7Step6(v: seq<bool>, w: seq<bool>)
  {
    |v| == 7 && |w| == 7 && w[0] == v[0] && w[1] == v[1] &&
    w[2] == (v[2] && v[3]) && w[3] == (v[2] || v[3]) && w[4] == v[4] && w[5] == v[5] &&
    w[6] == v[6]
  }

  lemma Network7Layer6Bits(w0: seq<bool>, w1: seq<bool>)
    requires |w0| == 7
    requires Swapped(w0, w1, C(2, 3))
    ensures Network7Step6(w0, w1)
  {
  }

  lemma Network7Layer6(layer: seq<Comparator>, v: seq<bool>)
    requires |v| == 7 && layer == [C(2, 3)]
    ensures Network7Step6(v, ApplyLayerBits(layer, 0, v))
  {
    var w1 := CSwapBits(v, C(2, 3));
    CSwapBitsAt(v, C(2, 3));
    assert ApplyLayerBits(layer, 0, v) == ApplyLayerBits(layer, 1, w1);
    Network7Layer6Bits(v, w1);
  }

  lemma Network7Circuit(v0: seq<bool>, v1: seq<bool>, v2: seq<bool>, v3: seq<bool>, v4: seq<bool>, v5: seq<bool>, v6: seq<bool>, v7: seq<bool>)
    requires Network7Step0(v0, v1)
    requires Network7Step1(v1, v2)
    requires Network7Step2(v2, v3)
    requires Network7Step3(v3, v4)
    requires Network7Step4(v4, v5)
    requires Network7Step5(v5, v6)
    requires Network7Step6(v6, v7)
    ensures SortedBits(v7)
  {
  }

  lemma Network7SortsBits(v: seq<bool>)
    requires |v| == 7
    ensures SortedBits(ApplyNetBits(Network7, 0, v))
  {
    var v1 := ApplyLayerBits(Network7[0], 0, v);
    Network7Layer0(Network7[0], v);
    var v2 := ApplyLayerBits(Network7[1], 0, v1);
    Network7Layer1(Network7[1], v1);
    var v3 := ApplyLayerBits(Network7[2], 0, v2);
    Network7Layer2(Network7[2], v2);
    var v4 := ApplyLayerBits(Network7[3], 0, v3);
    Network7Layer3(Network7[3], v3);
    var v5 := ApplyLayerBits(Network7[4], 0, v4);
    Network7Layer4(Network7[4], v4);
    var v6 := ApplyLayerBits(Network7[5], 0, v5);
    Network7Layer5(Network7[5], v5);
    var v7 := ApplyLayerBits(Network7[6], 0, v6);
    Network7Layer6(Network7[6], v6);
    Network7Circuit(v, v1, v2, v3, v4, v5, v6, v7);
    assert ApplyNetBits(Network7, 0, v) == ApplyNetBits(Network7, 1, v1);
    assert ApplyNetBits(Network7, 1, v1) == ApplyNetBits(Network7, 2, v2);
    assert ApplyNetBits(Network7, 2, v2) == ApplyNetBits(Network7, 3, v3);
    assert ApplyNetBits(Network7, 3, v3) == ApplyNetBits(Network7, 4, v4);
    assert ApplyNetBits(Network7, 4, v4) == ApplyNetBits(Network7, 5, v5);
    assert ApplyNetBits(Network7, 5, v5) == ApplyNetBits(Network7, 6, v6);
    assert ApplyNetBits(Network7, 6, v6) == ApplyNetBits(Network7, 7, v7);
  }

  // ---- `bitonic_sort_8` ----

  lemma Network8Oriented()
    ensures Oriented(Network8)
  {
    assert forall q :: 0 <= q < |Network8[0]| ==> Network8[0][q].i < Network8[0][q].j;
    assert forall q :: 0 <= q < |Network8[1]| ==> Network8[1][q].i < Network8[1][q].j;
    assert forall q :: 0 <= q < |Network8[2]| ==> Network8[2][q].i < Network8[2][q].j;
    assert forall q :: 0 <= q < |Network8[3]| ==> Network8[3][q].i < Network8[3][q].j;
    assert forall q :: 0 <= q < |Network8[4]| ==> Network8[4][q].i < Network8[4][q].j;
    assert forall q :: 0 <= q < |Network8[5]| ==> Network8[5][q].i < Network8[5][q].j;
    assert forall q :: 0 <= q < |Network8[6]| ==> Network8[6][q].i < Network8[6][q].j;
  }

  predicate Network8Step0(v: seq<bool>, w: seq<bool>)
  {
    |v| == 8 && |w| == 8 && w[0] == (v[0] && v[1]) && w[1] == (v[0] || v[1]) &&
    w[2] == (v[2] && v[3]) && w[3] == (v[2] || v[3]) && w[4] == (v[4] && v[5]) && w[5] == (v[4] || v[5]) &&
    w[6] == (v[6] && v[7]) && w[7] == (v[6] || v[7])
  }

  lemma Network8Layer0Bits(w0: seq<bool>, w1: seq<bool>, w2: seq<bool>, w3: seq<bool>, w4: seq<bool>)
    requires |w0| == 8
    requires Swapped(w0, w1, C(0, 1))
    requires Swapped(w1, w2, C(2, 3))
    requires Swapped(w2, w3, C(4, 5))
    requires Swapped(w3, w4, C(6, 7))
    ensures Network8Step0(w0, w4)
  {
  }

  lemma Network8Layer0(layer: seq<Comparator>, v: seq<bool>)
    requires |v| == 8 && layer == [C(0, 1), C(2, 3), C(4, 5), C(6, 7)]
    ensures Network8Step0(v, ApplyLayerBits(layer, 0, v))
  {
    var w1 := CSwapBits(v, C(0, 1));
    CSwapBitsAt(v, C(0, 1));
    assert ApplyLayerBits(layer, 0, v) == ApplyLayerBits(layer, 1, w1);
    var w2 := CSwapBits(w1, C(2, 3));
    CSwapBitsAt(w1, C(2, 3));
    assert ApplyLayerBits(layer, 1, w1) == ApplyLayerBits(layer, 2, w2);
    var w3 := CSwapBits(w2, C(4, 5));
    CSwapBitsAt(w2, C(4, 5));
    assert ApplyLayerBits(layer, 2, w2) == ApplyLayerBits(layer, 3, w3);
    var w4 := CSwapBits(w3, C(6, 7));
    CSwapBitsAt(w3, C(6, 7));
    assert ApplyLayerBits(layer, 3, w3) == ApplyLayerBits(layer, 4, w4);
    Network8Layer0Bits(v, w1, w2, w3, w4);
  }

  predicate Network8Step1(v: seq<bool>, w: seq<bool>)
  {
    |v| == 8 && |w| == 8 && w[0] == (v[0] && v[2]) && w[1] == (v[1] && v[3]) &&
    w[2] == (v[0] || v[2]) && w[3] == (v[1] || v[3]) && w[4] == (v[4] && v[6]) && w[5] == (v[5] && v[7]) &&
    w[6] == (v[4] || v[6]) && w[7] == (v[5] || v[7])
  }

  lemma Network8Layer1Bits(w0: seq<bool>, w1: seq<bool>, w2: seq<bool>, w3: seq<bool>, w4: seq<bool>)
    requires |w0| == 8
    requires Swapped(w0, w1, C(0, 2))
    requires Swapped(w1, w2, C(1, 3))
    requires Swapped(w2, w3, C(4, 6))
    requires Swapped(w3, w4, C(5, 7))
    ensures Network8Step1(w0, w4)
  {
  }

  lemma Network8Layer1(layer: seq<Comparator>, v: seq<bool>)
    requires |v| == 8 && layer == [C(0, 2), C(1, 3), C(4, 6), C(5, 7)]
    ensures Network8Step1(v, ApplyLayerBits(layer, 0, v))
  {
    var w1 := CSwapBits(v, C(0, 2));
    CSwapBitsAt(v, C(0, 2));
    assert ApplyLayerBits(layer, 0, v) == ApplyLayerBits(layer, 1, w1);
    var w2 := CSwapBits(w1, C(1, 3));
    CSwapBitsAt(w1, C(1, 3));
    assert ApplyLayerBits(layer, 1, w1) == ApplyLayerBits(layer, 2, w2);
    var w3 := CSwapBits(w2, C(4, 6));
    CSwapBitsAt(w2, C(4, 6));
    assert ApplyLayerBits(layer, 2, w2) == ApplyLayerBits(layer, 3, w3);
    var w4 := CSwapBits(w3, C(5, 7));
    CSwapBitsAt(w3, C(5, 7));
    assert ApplyLayerBits(layer, 3, w3) == ApplyLayerBits(layer, 4, w4);
    Network8Layer1Bits(v, w1, w2, w3, w4);
  }

  predicate Network8Step2(v: seq<bool>, w: seq<bool>)
  {
    |v| == 8 && |w| == 8 && w[0] == (v[0] && v[4]) && w[1] == (v[1] && v[2]) &&
    w[2] == (v[1] || v[2]) && w[3] == (v[3] && v[7]) && w[4] == (v[0] || v[4]) && w[5] == (v[5] && v[6]) &&
    w[6] == (v[5] || v[6]) && w[7] == (v[3] || v[7])
  }

  lemma Network8Layer2Bits(w0: seq<bool>, w1: seq<bool>, w2: seq<bool>, w3: seq<bool>, w4: seq<bool>)
    requires |w0| == 8
    requires Swapped(w0, w1, C(1, 2))
    requires Swapped(w1, w2, C(5, 6))
    requires Swapped(w2, w3, C(0, 4))
    requires Swapped(w3, w4, C(3, 7))
    ensures Network8Step2(w0, w4)
  {
  }

  lemma Network8Layer2(layer: seq<Comparator>, v: seq<bool>)
    requires |v| == 8 && layer == [C(1, 2), C(5, 6), C(0, 4), C(3, 7)]
    ensures Network8Step2(v, ApplyLayerBits(layer, 0, v))
  {
    var w1 := CSwapBits(v, C(1, 2));
    CSwapBitsAt(v, C(1, 2));
    assert ApplyLayerBits(layer, 0, v) == ApplyLayerBits(layer, 1, w1);
    var w2 := CSwapBits(w1, C(5, 6));
    CSwapBitsAt(w1, C(5, 6));
    assert ApplyLayerBits(layer, 1, w1) == ApplyLayerBits(layer, 2, w2);
    var w3 := CSwapBits(w2, C(0, 4));
    CSwapBitsAt(w2, C(0, 4));
    assert ApplyLayerBits(layer, 2, w2) == ApplyLayerBits(layer, 3, w3);
    var w4 := CSwapBits(w3, C(3, 7));
    CSwapBitsAt(w3, C(3, 7));
    assert ApplyLayerBits(layer, 3, w3) == ApplyLayerBits(layer, 4, w4);
    Network8Layer2Bits(v, w1, w2, w3, w4);
  }

  predicate Network8Step3(v: seq<bool>, w: seq<bool>)
  {
    |v| == 8 && |w| == 8 && w[0] == v[0] && w[1] == (v[1] && v[5]) &&
    w[2] == (v[2] && v[6]) && w[3] == v[3] && w[4] == v[4] && w[5] == (v[1] || v[5]) &&
    w[6] == (v[2] || v[6]) && w[7] == v[7]
  }

  lemma Network8Layer3Bits(w0: seq<bool>, w1: seq<bool>, w2: seq<bool>)
    requires |w0| == 8
    requires Swapped(w0, w1, C(1, 5))
    requires Swapped(w1, w2, C(2, 6))
    ensures Network8Step3(w0, w2)
  {
  }

  lemma Network8Layer3(layer: seq<Comparator>, v: seq<bool>)
    requires |v| == 8 && layer == [C(1, 5), C(2, 6)]
    ensures Network8Step3(v, ApplyLayerBits(layer, 0, v))
  {
    var w1 := CSwapBits(v, C(1, 5));
    CSwapBitsAt(v, C(1, 5));
    assert ApplyLayerBits(layer, 0, v) == ApplyLayerBits(layer, 1, w1);
    var w2 := CSwapBits(w1, C(2, 6));
    CSwapBitsAt(w1, C(2, 6));
    assert ApplyLayerBits(layer, 1, w1) == ApplyLayerBits(layer, 2, w2);
    Network8Layer3Bits(v, w1, w2);
  }

  predicate Network8Step4(v: seq<bool>, w: seq<bool>)
  {
    |v| == 8 && |w| == 8 && w[0] == v[0] && w[1] == (v[1] && v[4]) &&
    w[2] == v[2] && w[3] == (v[3] && v[6]) && w[4] == (v[1] || v[4]) && w[5] == v[5] &&
    w[6] == (v[3] || v[6]) && w[7] == v[7]
  }

  lemma Network8Layer4Bits(w0: seq<bool>, w1: seq<bool>, w2: seq<bool>)
    requires |w0| == 8
    requires Swapped(w0, w1, C(1, 4))
    requires Swapped(w1, w2, C(3, 6))
    ensures Network8Step4(w0, w2)
  {
  }

  lemma Network8Layer4(layer: seq<Comparator>, v: seq<bool>)
    requires |v| == 8 && layer == [C(1, 4), C(3, 6)]
    ensures Network8Step4(v, ApplyLayerBits(layer, 0, v))
  {
    var w1 := CSwapBits(v, C(1, 4));
    CSwapBitsAt(v, C(1, 4));
    assert ApplyLayerBits(layer, 0, v) == ApplyLayerBits(layer, 1, w1);
    var w2 := CSwapBits(w1, C(3, 6));
    CSwapBitsAt(w1, C(3, 6));
    assert ApplyLayerBits(layer, 1, w1) == ApplyLayerBits(layer, 2, w2);
    Network8Layer4Bits(v, w1, w2);
  }

  predicate Network8Step5(v: seq<bool>, w: seq<bool>)
  {
    |v| == 8 && |w| == 8 && w[0] == v[0] && w[1] == v[1] &&
    w[2] == (v[2] && v[4]) && w[3] == (v[3] && v[5]) && w[4] == (v[2] || v[4]) && w[5] == (v[3] || v[5]) &&
    w[6] == v[6] && w[7] == v[7]
  }

  lemma Network8Layer5Bits(w0: seq<bool>, w1: seq<bool>, w2: seq<bool>)
    requires |w0| == 8
    requires Swapped(w0, w1, C(2, 4))
    requires Swapped(w1, w2, C(3, 5))
    ensures Network8Step5(w0, w2)
  {
  }

  lemma Network8Layer5(layer: seq<Comparator>, v: seq<bool>)
    requires |v| == 8 && layer == [C(2, 4), C(3, 5)]
    ensures Network8Step5(v, ApplyLayerBits(layer, 0, v))
  {
    var w1 := CSwapBits(v, C(2, 4));
    CSwapBitsAt(v, C(2, 4));
    assert ApplyLayerBits(layer, 0, v) == ApplyLayerBits(layer, 1, w1);
    var w2 := CSwapBits(w1, C(3, 5));
    CSwapBitsAt(w1, C(3, 5));
    assert ApplyLayerBits(layer, 1, w1) == ApplyLayerBits(layer, 2, w2);
    Network8Layer5Bits(v, w1, w2);
  }

  predicate Network8Step6(v: seq<bool>, w: seq<bool>)
  {
    |v| == 8 && |w| == 8 && w[0] == v[0] && w[1] == v[1] &&
    w[2] == v[2] && w[3] == (v[3] && v[4]) && w[4] == (v[3] || v[4]) && w[5] == v[5] &&
    w[6] == v[6] && w[7] == v[7]
  }

  lemma Network8Layer6Bits(w0: seq<bool>, w1: seq<bool>)
    requires |w0| == 8
    requires Swapped(w0, w1, C(3, 4))
    ensures Network8Step6(w0, w1)
  {
  }

  lemma Network8Layer6(layer: seq<Comparator>, v: seq<bool>)
    requires |v| == 8 && layer == [C(3, 4)]
    ensures Network8Step6(v, ApplyLayerBits(layer, 0, v))
  {
    var w1 := CSwapBits(v, C(3, 4));
    CSwapBitsAt(v, C(3, 4));
    assert ApplyLayerBits(layer, 0, v) == ApplyLayerBits(layer, 1, w1);
    Network8Layer6Bits(v, w1);
  }

  lemma Network8Circuit(v0: seq<bool>, v1: seq<bool>, v2: seq<bool>, v3: seq<bool>, v4: seq<bool>, v5: seq<bool>, v6: seq<bool>, v7: seq<bool>)
    requires Network8Step0(v0, v1)
    requires Network8Step1(v1, v2)
    requires Network8Step2(v2, v3)
    requires Network8Step3(v3, v4)
    requires Network8Step4(v4, v5)
    requires Network8Step5(v5, v6)
    requires Network8Step6(v6, v7)
    ensures SortedBits(v7)
  {
  }

  lemma Network8SortsBits(v: seq<bool>)
    requires |v| == 8
    ensures SortedBits(ApplyNetBits(Network8, 0, v))
  {
    var v1 := ApplyLayerBits(Network8[0], 0, v);
    Network8Layer0(Network8[0], v);
    var v2 := ApplyLayerBits(Network8[1], 0, v1);
    Network8Layer1(Network8[1], v1);
    var v3 := ApplyLayerBits(Network8[2], 0, v2);
    Network8Layer2(Network8[2], v2);
    var v4 := ApplyLayerBits(Network8[3], 0, v3);
    Network8Layer3(Network8[3], v3);
    var v5 := ApplyLayerBits(Network8[4], 0, v4);
    Network8Layer4(Network8[4], v4);
    var v6 := ApplyLayerBits(Network8[5], 0, v5);
    Network8Layer5(Network8[5], v5);
    var v7 := ApplyLayerBits(Network8[6], 0, v6);
    Network8Layer6(Network8[6], v6);
    Network8Circuit(v, v1, v2, v3, v4, v5, v6, v7);
    assert ApplyNetBits(Network8, 0, v) == ApplyNetBits(Network8, 1, v1);
    assert ApplyNetBits(Network8, 1, v1) == ApplyNetBits(Network8, 2, v2);
    assert ApplyNetBits(Network8, 2, v2) == ApplyNetBits(Network8, 3, v3);
    assert ApplyNetBits(Network8, 3, v3) == ApplyNetBits(Network8, 4, v4);
    assert ApplyNetBits(Network8, 4, v4) == ApplyNetBits(Network8, 5, v5);
    assert ApplyNetBits(Network8, 5, v5) == ApplyNetBits(Network8, 6, v6);
    assert ApplyNetBits(Network8, 6, v6) == ApplyNetBits(Network8, 7, v7);
  }

  // ---- `bitonic_sort_9` ----

  lemma Network9Oriented()
    ensures Oriented(Network9)
  {
    assert forall q :: 0 <= q < |Network9[0]| ==> Network9[0][q].i < Network9[0][q].j;
    assert forall q :: 0 <= q < |Network9[1]| ==> Network9[1][q].i < Network9[1][q].j;
    assert forall q :: 0 <= q < |Network9[2]| ==> Network9[2][q].i < Network9[2][q].j;
    assert forall q :: 0 <= q < |Network9[3]| ==> Network9[3][q].i < Network9[3][q].j;
    assert forall q :: 0 <= q < |Network9[4]| ==> Network9[4][q].i < Network9[4][q].j;
    assert forall q :: 0 <= q < |Network9[5]| ==> Network9[5][q].i < Network9[5][q].j;
    assert forall q :: 0 <= q < |Network9[6]| ==> Network9[6][q].i < Network9[6][q].j;
    assert forall q :: 0 <= q < |Network9[7]| ==> Network9[7][q].i < Network9[7][q].j;
    assert forall q :: 0 <= q < |Network9[8]| ==> Network9[8][q].i < Network9[8][q].j;
  }

  predicate Network9Step0(v: seq<bool>, w: seq<bool>)
  {
    |v| == 9 && |w| == 9 && w[0] == (v[0] && v[1]) && w[1] == (v[0] || v[1]) &&
    w[2] == v[2] && w[3] == (v[3] && v[4]) && w[4] == (v[3] || v[4]) && w[5] == v[5] &&
    w[6] == (v[6] && v[7]) && w[7] == (v[6] || v[7]) && w[8] == v[8]
  }

  lemma Network9Layer0Bits(w0: seq<bool>, w1: seq<bool>, w2: seq<bool>, w3: seq<bool>)
    requires |w0| == 9
    requires Swapped(w0, w1, C(0, 1))
    requires Swapped(w1, w2, C(3, 4))
    requires Swapped(w2, w3, C(6, 7))
    ensures Network9Step0(w0, w3)
  {
  }

  lemma Network9Layer0(layer: seq<Comparator>, v: seq<bool>)
    requires |v| == 9 && layer == [C(0, 1), C(3, 4), C(6, 7)]
    ensures Network9Step0(v, ApplyLayerBits(layer, 0, v))
  {
    var w1 := CSwapBits(v, C(0, 1));
    CSwapBitsAt(v, C(0, 1));
    assert ApplyLayerBits(layer, 0, v) == ApplyLayerBits(layer, 1, w1);
    var w2 := CSwapBits(w1, C(3, 4));
    CSwapBitsAt(w1, C(3, 4));
    assert ApplyLayerBits(layer, 1, w1) == ApplyLayerBits(layer, 2, w2);
    var w3 := CSwapBits(w2, C(6, 7));
    CSwapBitsAt(w2, C(6, 7));
    assert ApplyLayerBits(layer, 2, w2) == ApplyLayerBits(layer, 3, w3);
    Network9Layer0Bits(v, w1, w2, w3);
  }

  predicate Network9Step1(v: seq<bool>, w: seq<bool>)
  {
    |v| == 9 && |w| == 9 && w[0] == v[0] && w[1] == (v[1] && v[2]) &&
    w[2] == (v[1] || v[2]) && w[3] == v[3] && w[4] == (v[4] && v[5]) && w[5] == (v[4] || v[5]) &&
    w[6] == v[6] && w[7] == (v[7] && v[8]) && w[8] == (v[7] || v[8])
  }

  lemma Network9Layer1Bits(w0: seq<bool>, w1: seq<bool>, w2: seq<bool>, w3: seq<bool>)
    requires |w0| == 9
    requires Swapped(w0, w1, C(1, 2))
    requires Swapped(w1, w2, C(4, 5))
    requires Swapped(w2, w3, C(7, 8))
    ensures Network9Step1(w0, w3)
  {
  }

  lemma Network9Layer1(layer: seq<Comparator>, v: seq<bool>)
    requires |v| == 9 && layer == [C(1, 2), C(4, 5), C(7, 8)]
    ensures Network9Step1(v, ApplyLayerBits(layer, 0, v))
  {
    var w1 := CSwapBits(v, C(1, 2));
    CSwapBitsAt(v, C(1, 2));
    assert ApplyLayerBits(layer, 0, v) == ApplyLayerBits(layer, 1, w1);
    var w2 := CSwapBits(w1, C(4, 5));
    CSwapBitsAt(w1, C(4, 5));
    assert ApplyLayerBits(layer, 1, w1) == ApplyLayerBits(layer, 2, w2);
    var w3 := CSwapBits(w2, C(7, 8));
    CSwapBitsAt(w2, C(7, 8));
    assert ApplyLayerBits(layer, 2, w2) == ApplyLayerBits(layer, 3, w3);
    Network9Layer1Bits(v, w1, w2, w3);
  }

  predicate Network9Step2(v: seq<bool>, w: seq<bool>)
  {
    |v| == 9 && |w| == 9 && w[0] == (v[0] && v[1]) && w[1] == (v[0] || v[1]) &&
    w[2] == (v[2] && v[5]) && w[3] == (v[3] && v[4]) && w[4] == (v[3] || v[4]) && w[5] == (v[2] || v[5]) &&
    w[6] == (v[6] && v[7]) && w[7] == (v[6] || v[7]) && w[8] == v[8]
  }

  lemma Network9Layer2Bits(w0: seq<bool>, w1: seq<bool>, w2: seq<bool>, w3: seq<bool>, w4: seq<bool>)
    requires |w0| == 9
    requires Swapped(w0, w1, C(0, 1))
    requires Swapped(w1, w2, C(3, 4))
    requires Swapped(w2, w3, C(6, 7))
    requires Swapped(w3, w4, C(2, 5))
    ensures Network9Step2(w0, w4)
  {
  }

  lemma Network9Layer2(layer: seq<Comparator>, v: seq<bool>)
    requires |v| == 9 && layer == [C(0, 1), C(3, 4), C(6, 7), C(2, 5)]
    ensures Network9Step2(v, ApplyLayerBits(layer, 0, v))
  {
    var w1 := CSwapBits(v, C(0, 1));
    CSwapBitsAt(v, C(0, 1));
    assert ApplyLayerBits(layer, 0, v) == ApplyLayerBits(layer, 1, w1);
    var w2 := CSwapBits(w1, C(3, 4));
    CSwapBitsAt(w1, C(3, 4));
    assert ApplyLayerBits(layer, 1, w1) == ApplyLayerBits(layer, 2, w2);
    var w3 := CSwapBits(w2, C(6, 7));
    CSwapBitsAt(w2, C(6, 7));
    assert ApplyLayerBits(layer, 2, w2) == ApplyLayerBits(layer, 3, w3);
    var w4 := CSwapBits(w3, C(2, 5));
    CSwapBitsAt(w3, C(2, 5));
    assert ApplyLayerBits(layer, 3, w3) == ApplyLayerBits(layer, 4, w4);
    Network9Layer2Bits(v, w1, w2, w3, w4);
  }

  predicate Network9Step3(v: seq<bool>, w: seq<bool>)
  {
    |v| == 9 && |w| == 9 && w[0] == (v[0] && v[3]) && w[1] == (v[1] && v[4]) &&
    w[2] == v[2] && w[3] == (v[0] || v[3]) && w[4] == (v[1] || v[4]) && w[5] == (v[5] && v[8]) &&
    w[6] == v[6] && w[7] == v[7] && w[8] == (v[5] || v[8])
  }

  lemma Network9Layer3Bits(w0: seq<bool>, w1: seq<bool>, w2: seq<bool>, w3: seq<bool>)
    requires |w0| == 9
    requires Swapped(w0, w1, C(0, 3))
    requires Swapped(w1, w2, C(1, 4))
    requires Swapped(w2, w3, C(5, 8))
    ensures Network9Step3(w0, w3)
  {
  }

  lemma Network9Layer3(layer: seq<Comparator>, v: seq<bool>)
    requires |v| == 9 && layer == [C(0, 3), C(1, 4), C(5, 8)]
    ensures Network9Step3(v, ApplyLayerBits(layer, 0, v))
  {
    var w1 := CSwapBits(v, C(0, 3));
    CSwapBitsAt(v, C(0, 3));
    assert ApplyLayerBits(layer, 0, v) == ApplyLayerBits(layer, 1, w1);
    var w2 := CSwapBits(w1, C(1, 4));
    CSwapBitsAt(w1, C(1, 4));
    assert ApplyLayerBits(layer, 1, w1) == ApplyLayerBits(layer, 2, w2);
    var w3 := CSwapBits(w2, C(5, 8));
    CSwapBitsAt(w2, C(5, 8));
    assert ApplyLayerBits(layer, 2, w2) == ApplyLayerBits(layer, 3, w3);
    Network9Layer3Bits(v, w1, w2, w3);
  }

  predicate Network9Step4(v: seq<bool>, w: seq<bool>)
  {
    |v| == 9 && |w| == 9 && w[0] == v[0] && w[1] == v[1] &&
    w[2] == (v[2] && v[5]) && w[3] == (v[3] && v[6]) && w[4] == (v[4] && v[7]) && w[5] == (v[2] || v[5]) &&
    w[6] == (v[3] || v[6]) && w[7] == (v[4] || v[7]) && w[8] == v[8]
  }

  lemma Network9Layer4Bits(w0: seq<bool>, w1: seq<bool>, w2: seq<bool>, w3: seq<bool>)
    requires |w0| == 9
    requires Swapped(w0, w1, C(3, 6))
    requires Swapped(w1, w2, C(4, 7))
    requires Swapped(w2, w3, C(2, 5))
    ensures Network9Step4(w0, w3)
  {
  }

  lemma Network9Layer4(layer: seq<Comparator>, v: seq<bool>)
    requires |v| == 9 && layer == [C(3, 6), C(4, 7), C(2, 5)]
    ensures Network9Step4(v, ApplyLayerBits(layer, 0, v))
  {
    var w1 := CSwapBits(v, C(3, 6));
    CSwapBitsAt(v, C(3, 6));
    assert ApplyLayerBits(layer, 0, v) == ApplyLayerBits(layer, 1, w1);
    var w2 := CSwapBits(w1, C(4, 7));
    CSwapBitsAt(w1, C(4, 7));
    assert ApplyLayerBits(layer, 1, w1) == ApplyLayerBits(layer, 2, w2);
    var w3 := CSwapBits(w2, C(2, 5));
    CSwapBitsAt(w2, C(2, 5));
    assert ApplyLayerBits(layer, 2, w2) == ApplyLayerBits(layer, 3, w3);
    Network9Layer4Bits(v, w1, w2, w3);
  }

  predicate Network9Step5(v: seq<bool>, w: seq<bool>)
  {
    |v| == 9 && |w| == 9 && w[0] == (v[0] && v[3]) && w[1] == (v[1] && v[4]) &&
    w[2] == (v[2] && v[6]) && w[3] == (v[0] || v[3]) && w[4] == (v[1] || v[4]) && w[5] == (v[5] && v[7]) &&
    w[6] == (v[2] || v[6]) && w[7] == (v[5] || v[7]) && w[8] == v[8]
  }

  lemma Network9Layer5Bits(w0: seq<bool>, w1: seq<bool>, w2: seq<bool>, w3: seq<bool>, w4: seq<bool>)
    requires |w0| == 9
    requires Swapped(w0, w1, C(0, 3))
    requires Swapped(w1, w2, C(1, 4))
    requires Swapped(w2, w3, C(5, 7))
    requires Swapped(w3, w4, C(2, 6))
    ensures Network9Step5(w0, w4)
  {
  }

  lemma Network9Layer5(layer: seq<Comparator>, v: seq<bool>)
    requires |v| == 9 && layer == [C(0, 3), C(1, 4), C(5, 7), C(2, 6)]
    ensures Network9Step5(v, ApplyLayerBits(layer, 0, v))
  {
    var w1 := CSwapBits(v, C(0, 3));
    CSwapBitsAt(v, C(0, 3));
    assert ApplyLayerBits(layer, 0, v) == ApplyLayerBits(layer, 1, w1);
    var w2 := CSwapBits(w1, C(1, 4));
    CSwapBitsAt(w1, C(1, 4));
    assert ApplyLayerBits(layer, 1, w1) == ApplyLayerBits(layer, 2, w2);
    var w3 := CSwapBits(w2, C(5, 7));
    CSwapBitsAt(w2, C(5, 7));
    assert ApplyLayerBits(layer, 2, w2) == ApplyLayerBits(layer, 3, w3);
    var w4 := CSwapBits(w3, C(2, 6));
    CSwapBitsAt(w3, C(2, 6));
    assert ApplyLayerBits(layer, 3, w3) == ApplyLayerBits(layer, 4, w4);
    Network9Layer5Bits(v, w1, w2, w3, w4);
  }

  predicate Network9Step6(v: seq<bool>, w: seq<bool>)
  {
    |v| == 9 && |w| == 9 && w[0] == v[0] && w[1] == (v[1] && v[3]) &&
    w[2] == v[2] && w[3] == (v[1] || v[3]) && w[4] == (v[4] && v[6]) && w[5] == v[5] &&
    w[6] == (v[4] || v[6]) && w[7] == v[7] && w[8] == v[8]
  }

  lemma Network9Layer6Bits(w0: seq<bool>, w1: seq<bool>, w2: seq<bool>)
    requires |w0| == 9
    requires Swapped(w0, w1, C(1, 3))
    requires Swapped(w1, w2, C(4, 6))
    ensures Network9Step6(w0, w2)
  {
  }

  lemma Network9Layer6(layer: seq<Comparator>, v: seq<bool>)
    requires |v| == 9 && layer == [C(1, 3), C(4, 6)]
    ensures Network9Step6(v, ApplyLayerBits(layer, 0, v))
  {
    var w1 := CSwapBits(v, C(1, 3));
    CSwapBitsAt(v, C(1, 3));
    assert ApplyLayerBits(layer, 0, v) == ApplyLayerBits(layer, 1, w1);
    var w2 := CSwapBits(w1, C(4, 6));
    CSwapBitsAt(w1, C(4, 6));
    assert ApplyLayerBits(layer, 1, w1) == ApplyLayerBits(layer, 2, w2);
    Network9Layer6Bits(v, w1, w2);
  }

  predicate Network9Step7(v: seq<bool>, w: seq<bool>)
  {
    |v| == 9 && |w| == 9 && w[0] == v[0] && w[1] == v[1] &&
    w[2] == (v[2] && v[4]) && w[3] == v[3] && w[4] == (v[2] || v[4]) && w[5] == (v[5] && v[6]) &&
    w[6] == (v[5] || v[6]) && w[7] == v[7] && w[8] == v[8]
  }

  lemma Network9Layer7Bits(w0: seq<bool>, w1: seq<bool>, w2: seq<bool>)
    requires |w0| == 9
    requires Swapped(w0, w1, C(2, 4))
    requires Swapped(w1, w2, C(5, 6))
    ensures Network9Step7(w0, w2)
  {
  }

  lemma Network9Layer7(layer: seq<Comparator>, v: seq<bool>)
    requires |v| == 9 && layer == [C(2, 4), C(5, 6)]
    ensures Network9Step7(v, ApplyLayerBits(layer, 0, v))
  {
    var w1 := CSwapBits(v, C(2, 4));
    CSwapBitsAt(v, C(2, 4));
    assert ApplyLayerBits(layer, 0, v) == ApplyLayerBits(layer, 1, w1);
    var w2 := CSwapBits(w1, C(5, 6));
    CSwapBitsAt(w1, C(5, 6));
    assert ApplyLayerBits(layer, 1, w1) == ApplyLayerBits(layer, 2, w2);
    Network9Layer7Bits(v, w1, w2);
  }

  predicate Network9Step8(v: seq<bool>, w: seq<bool>)
  {
    |v| == 9 && |w| == 9 && w[0] == v[0] && w[1] == v[1] &&
    w[2] == (v[2] && v[3]) && w[3] == (v[2] || v[3]) && w[4] == v[4] && w[5] == v[5] &&
    w[6] == v[6] && w[7] == v[7] && w[8] == v[8]
  }

  lemma Network9Layer8Bits(w0: seq<bool>, w1: seq<bool>)
    requires |w0| == 9
    requires Swapped(w0, w1, C(2, 3))
    ensures Network9Step8(w0, w1)
  {
  }

  lemma Network9Layer8(layer: seq<Comparator>, v: seq<bool>)
    requires |v| == 9 && layer == [C(2, 3)]
    ensures Network9Step8(v, ApplyLayerBits(layer, 0, v))
  {
    var w1 := CSwapBits(v, C(2, 3));
    CSwapBitsAt(v, C(2, 3));
    assert ApplyLayerBits(layer, 0, v) == ApplyLayerBits(layer, 1, w1);
    Network9Layer8Bits(v, w1);
  }

  lemma Network9Circuit(v0: seq<bool>, v1: seq<bool>, v2: seq<bool>, v3: seq<bool>, v4: seq<bool>, v5: seq<bool>, v6: seq<bool>, v7: seq<bool>, v8: seq<bool>, v9: seq<bool>)
    requires Network9Step0(v0, v1)
    requires Network9Step1(v1, v2)
    requires Network9Step2(v2, v3)
    requires Network9Step3(v3, v4)
    requires Network9Step4(v4, v5)
    requires Network9Step5(v5, v6)
    requires Network9Step6(v6, v7)
    requires Network9Step7(v7, v8)
    requires Network9Step8(v8, v9)
    ensures SortedBits(v9)
  {
  }

  lemma Network9SortsBits(v: seq<bool>)
    requires |v| == 9
    ensures SortedBits(ApplyNetBits(Network9, 0, v))
  {
    var v1 := ApplyLayerBits(Network9[0], 0, v);
    Network9Layer0(Network9[0], v);
    var v2 := ApplyLayerBits(Network9[1], 0, v1);
    Network9Layer1(Network9[1], v1);
    var v3 := ApplyLayerBits(Network9[2], 0, v2);
    Network9Layer2(Network9[2], v2);
    var v4 := ApplyLayerBits(Network9[3], 0, v3);
    Network9Layer3(Network9[3], v3);
    var v5 := ApplyLayerBits(Network9[4], 0, v4);
    Network9Layer4(Network9[4], v4);
    var v6 := ApplyLayerBits(Network9[5], 0, v5);
    Network9Layer5(Network9[5], v5);
    var v7 := ApplyLayerBits(Network9[6], 0, v6);
    Network9Layer6(Network9[6], v6);
    var v8 := ApplyLayerBits(Network9[7], 0, v7);
    Network9Layer7(Network9[7], v7);
    var v9 := ApplyLayerBits(Network9[8], 0, v8);
    Network9Layer8(Network9[8], v8);
    Network9Circuit(v, v1, v2, v3, v4, v5, v6, v7, v8, v9);
    assert ApplyNetBits(Network9, 0, v) == ApplyNetBits(Network9, 1, v1);
    assert ApplyNetBits(Network9, 1, v1) == ApplyNetBits(Network9, 2, v2);
    assert ApplyNetBits(Network9, 2, v2) == ApplyNetBits(Network9, 3, v3);
    assert ApplyNetBits(Network9, 3, v3) == ApplyNetBits(Network9, 4, v4);
    assert ApplyNetBits(Network9, 4, v4) == ApplyNetBits(Network9, 5, v5);
    assert ApplyNetBits(Network9, 5, v5) == ApplyNetBits(Network9, 6, v6);
    assert ApplyNetBits(Network9, 6, v6) == ApplyNetBits(Network9, 7, v7);
    assert ApplyNetBits(Network9, 7, v7) == ApplyNetBits(Network9, 8, v8);
    assert ApplyNetBits(Network9, 8, v8) == ApplyNetBits(Network9, 9, v9);
  }

  // ---- `bitonic_sort_10` ----

  lemma Network10Oriented()
    ensures Oriented(Network10)
  {
    assert forall q :: 0 <= q < |Network10[0]| ==> Network10[0][q].i < Network10[0][q].j;
    assert forall q :: 0 <= q < |Network10[1]| ==> Network10[1][q].i < Network10[1][q].j;
    assert forall q :: 0 <= q < |Network10[2]| ==> Network10[2][q].i < Network10[2][q].j;
    assert forall q :: 0 <= q < |Network10[3]| ==> Network10[3][q].i < Network10[3][q].j;
    assert forall q :: 0 <= q < |Network10[4]| ==> Network10[4][q].i < Network10[4][q].j;
    assert forall q :: 0 <= q < |Network10[5]| ==> Network10[5][q].i < Network10[5][q].j;
    assert forall q :: 0 <= q < |Network10[6]| ==> Network10[6][q].i < Network10[6][q].j;
    assert forall q :: 0 <= q < |Network10[7]| ==> Network10[7][q].i < Network10[7][q].j;
    assert forall q :: 0 <= q < |Network10[8]| ==> Network10[8][q].i < Network10[8][q].j;
  }

  predicate Network10Step0(v: seq<bool>, w: seq<bool>)
  {
    |v| == 10 && |w| == 10 && w[0] == (v[0] && v[5]) && w[1] == (v[1] && v[6]) &&
    w[2] == (v[2] && v[7]) && w[3] == (v[3] && v[8]) && w[4] == (v[4] && v[9]) && w[5] == (v[0] || v[5]) &&
    w[6] == (v[1] || v[6]) && w[7] == (v[2] || v[7]) && w[8] == (v[3] || v[8]) && w[9] == (v[4] || v[9])
  }

  lemma Network10Layer0Bits(w0: seq<bool>, w1: seq<bool>, w2: seq<bool>, w3: seq<bool>, w4: seq<bool>, w5: seq<bool>)
    requires |w0| == 10
    requires Swapped(w0, w1, C(4, 9))
    requires Swapped(w1, w2, C(3, 8))
    requires Swapped(w2, w3, C(2, 7))
    requires Swapped(w3, w4, C(1, 6))
    requires Swapped(w4, w5, C(0, 5))
    ensures Network10Step0(w0, w5)
  {
  }

  lemma Network10Layer0(layer: seq<Comparator>, v: seq<bool>)
    requires |v| == 10 && layer == [C(4, 9), C(3, 8), C(2, 7), C(1, 6), C(0, 5)]
    ensures Network10Step0(v, ApplyLayerBits(layer, 0, v))
  {
    var w1 := CSwapBits(v, C(4, 9));
    CSwapBitsAt(v, C(4, 9));
    assert ApplyLayerBits(layer, 0, v) == ApplyLayerBits(layer, 1, w1);
    var w2 := CSwapBits(w1, C(3, 8));
    CSwapBitsAt(w1, C(3, 8));
    assert ApplyLayerBits(layer, 1, w1) == ApplyLayerBits(layer, 2, w2);
    var w3 := CSwapBits(w2, C(2, 7));
    CSwapBitsAt(w2, C(2, 7));
    assert ApplyLayerBits(layer, 2, w2) == ApplyLayerBits(layer, 3, w3);
    var w4 := CSwapBits(w3, C(1, 6));
    CSwapBitsAt(w3, C(1, 6));
    assert ApplyLayerBits(layer, 3, w3) == ApplyLayerBits(layer, 4, w4);
    var w5 := CSwapBits(w4, C(0, 5));
    CSwapBitsAt(w4, C(0, 5));
    assert ApplyLayerBits(layer, 4, w4) == ApplyLayerBits(layer, 5, w5);
    Network10Layer0Bits(v, w1, w2, w3, w4, w5);
  }

  predicate Network10Step1(v: seq<bool>, w: seq<bool>)
  {
    |v| == 10 && |w| == 10 && w[0] == (v[0] && v[3]) && w[1] == (v[1] && v[4]) &&
    w[2] == v[2] && w[3] == (v[0] || v[3]) && w[4] == (v[1] || v[4]) && w[5] == (v[5] && v[8]) &&
    w[6] == (v[6] && v[9]) && w[7] == v[7] && w[8] == (v[5] || v[8]) && w[9] == (v[6] || v[9])
  }

  lemma Network10Layer1Bits(w0: seq<bool>, w1: seq<bool>, w2: seq<bool>, w3: seq<bool>, w4: seq<bool>)
    requires |w0| == 10
    requires Swapped(w0, w1, C(1, 4))
    requires Swapped(w1, w2, C(6, 9))
    requires Swapped(w2, w3, C(0, 3))
    requires Swapped(w3, w4, C(5, 8))
    ensures Network10Step1(w0, w4)
  {
  }

  lemma Network10Layer1(layer: seq<Comparator>, v: seq<bool>)
    requires |v| == 10 && layer == [C(1, 4), C(6, 9), C(0, 3), C(5, 8)]
    ensures Network10Step1(v, ApplyLayerBits(layer, 0, v))
  {
    var w1 := CSwapBits(v, C(1, 4));
    CSwapBitsAt(v, C(1, 4));
    assert ApplyLayerBits(layer, 0, v) == ApplyLayerBits(layer, 1, w1);
    var w2 := CSwapBits(w1, C(6, 9));
    CSwapBitsAt(w1, C(6, 9));
    assert ApplyLayerBits(layer, 1, w1) == ApplyLayerBits(layer, 2, w2);
    var w3 := CSwapBits(w2, C(0, 3));
    CSwapBitsAt(w2, C(0, 3));
    assert ApplyLayerBits(layer, 2, w2) == ApplyLayerBits(layer, 3, w3);
    var w4 := CSwapBits(w3, C(5, 8));
    CSwapBitsAt(w3, C(5, 8));
    assert ApplyLayerBits(layer, 3, w3) == ApplyLayerBits(layer, 4, w4);
    Network10Layer1Bits(v, w1, w2, w3, w4);
  }

  predicate Network10Step2(v: seq<bool>, w: seq<bool>)
  {
    |v| == 10 && |w| == 10 && w[0] == (v[0] && v[2]) && w[1] == v[1] &&
    w[2] == (v[0] || v[2]) && w[3] == (v[3] && v[6]) && w[4] == v[4] && w[5] == v[5] &&
    w[6] == (v[3] || v[6]) && w[7] == (v[7] && v[9]) && w[8] == v[8] && w[9] == (v[7] || v[9])
  }

  lemma Network10Layer2Bits(w0: seq<bool>, w1: seq<bool>, w2: seq<bool>, w3: seq<bool>)
    requires |w0| == 10
    requires Swapped(w0, w1, C(0, 2))
    requires Swapped(w1, w2, C(3, 6))
    requires Swapped(w2, w3, C(7, 9))
    ensures Network10Step2(w0, w3)
  {
  }

  lemma Network10Layer2(layer: seq<Comparator>, v: seq<bool>)
    requires |v| == 10 && layer == [C(0, 2), C(3, 6), C(7, 9)]
    ensures Network10Step2(v, ApplyLayerBits(layer, 0, v))
  {
    var w1 := CSwapBits(v, C(0, 2));
    CSwapBitsAt(v, C(0, 2));
    assert ApplyLayerBits(layer, 0, v) == ApplyLayerBits(layer, 1, w1);
    var w2 := CSwapBits(w1, C(3, 6));
    CSwapBitsAt(w1, C(3, 6));
    assert ApplyLayerBits(layer, 1, w1) == ApplyLayerBits(layer, 2, w2);
    var w3 := CSwapBits(w2, C(7, 9));
    CSwapBitsAt(w2, C(7, 9));
    assert ApplyLayerBits(layer, 2, w2) == ApplyLayerBits(layer, 3, w3);
    Network10Layer2Bits(v, w1, w2, w3);
  }

  predicate Network10Step3(v: seq<bool>, w: seq<bool>)
  {
    |v| == 10 && |w| == 10 && w[0] == (v[0] && v[1]) && w[1] == (v[0] || v[1]) &&
    w[2] == (v[2] && v[4]) && w[3] == v[3] && w[4] == (v[2] || v[4]) && w[5] == (v[5] && v[7]) &&
    w[6] == v[6] && w[7] == (v[5] || v[7]) && w[8] == (v[8] && v[9]) && w[9] == (v[8] || v[9])
  }

  lemma Network10Layer3Bits(w0: seq<bool>, w1: seq<bool>, w2: seq<bool>, w3: seq<bool>, w4: seq<bool>)
    requires |w0| == 10
    requires Swapped(w0, w1, C(0, 1))
    requires Swapped(w1, w2, C(2, 4))
    requires Swapped(w2, w3, C(5, 7))
    requires Swapped(w3, w4, C(8, 9))
    ensures Network10Step3(w0, w4)
  {
  }

  lemma Network10Layer3(layer: seq<Comparator>, v: seq<bool>)
    requires |v| == 10 && layer == [C(0, 1), C(2, 4), C(5, 7), C(8, 9)]
    ensures Network10Step3(v, ApplyLayerBits(layer, 0, v))
  {
    var w1 := CSwapBits(v, C(0, 1));
    CSwapBitsAt(v, C(0, 1));
    assert ApplyLayerBits(layer, 0, v) == ApplyLayerBits(layer, 1, w1);
    var w2 := CSwapBits(w1, C(2, 4));
    CSwapBitsAt(w1, C(2, 4));
    assert ApplyLayerBits(layer, 1, w1) == ApplyLayerBits(layer, 2, w2);
    var w3 := CSwapBits(w2, C(5, 7));
    CSwapBitsAt(w2, C(5, 7));
    assert ApplyLayerBits(layer, 2, w2) == ApplyLayerBits(layer, 3, w3);
    var w4 := CSwapBits(w3, C(8, 9));
    CSwapBitsAt(w3, C(8, 9));
    assert ApplyLayerBits(layer, 3, w3) == ApplyLayerBits(layer, 4, w4);
    Network10Layer3Bits(v, w1, w2, w3, w4);
  }

  predicate Network10Step4(v: seq<bool>, w: seq<bool>)
  {
    |v| == 10 && |w| == 10 && w[0] == v[0] && w[1] == (v[1] && v[2]) &&
    w[2] == (v[1] || v[2]) && w[3] == (v[3] && v[5]) && w[4] == (v[4] && v[6]) && w[5] == (v[3] || v[5]) &&
    w[6] == (v[4] || v[6]) && w[7] == (v[7] && v[8]) && w[8] == (v[7] || v[8]) && w[9] == v[9]
  }

  lemma Network10Layer4Bits(w0: seq<bool>, w1: seq<bool>, w2: seq<bool>, w3: seq<bool>, w4: seq<bool>)
    requires |w0| == 10
    requires Swapped(w0, w1, C(1, 2))
    requires Swapped(w1, w2, C(4, 6))
    requires Swapped(w2, w3, C(7, 8))
    requires Swapped(w3, w4, C(3, 5))
    ensures Network10Step4(w0, w4)
  {
  }

  lemma Network10Layer4(layer: seq<Comparator>, v: seq<bool>)
    requires |v| == 10 && layer == [C(1, 2), C(4, 6), C(7, 8), C(3, 5)]
    ensures Network10Step4(v, ApplyLayerBits(layer, 0, v))
  {
    var w1 := CSwapBits(v, C(1, 2));
    CSwapBitsAt(v, C(1, 2));
    assert ApplyLayerBits(layer, 0, v) == ApplyLayerBits(layer, 1, w1);
    var w2 := CSwapBits(w1, C(4, 6));
    CSwapBitsAt(w1, C(4, 6));
    assert ApplyLayerBits(layer, 1, w1) == ApplyLayerBits(layer, 2, w2);
    var w3 := CSwapBits(w2, C(7, 8));
    CSwapBitsAt(w2, C(7, 8));
    assert ApplyLayerBits(layer, 2, w2) == ApplyLayerBits(layer, 3, w3);
    var w4 := CSwapBits(w3, C(3, 5));
    CSwapBitsAt(w3, C(3, 5));
    assert ApplyLayerBits(layer, 3, w3) == ApplyLayerBits(layer, 4, w4);
    Network10Layer4Bits(v, w1, w2, w3, w4);
  }

  predicate Network10Step5(v: seq<bool>, w: seq<bool>)
  {
    |v| == 10 && |w| == 10 && w[0] == v[0] && w[1] == (v[1] && v[3]) &&
    w[2] == (v[2] && v[5]) && w[3] == (v[1] || v[3]) && w[4] == (v[4] && v[7]) && w[5] == (v[2] || v[5]) &&
    w[6] == (v[6] && v[8]) && w[7] == (v[4] || v[7]) && w[8] == (v[6] || v[8]) && w[9] == v[9]
  }

  lemma Network10Layer5Bits(w0: seq<bool>, w1: seq<bool>, w2: seq<bool>, w3: seq<bool>, w4: seq<bool>)
    requires |w0| == 10
    requires Swapped(w0, w1, C(2, 5))
    requires Swapped(w1, w2, C(6, 8))
    requires Swapped(w2, w3, C(1, 3))
    requires Swapped(w3, w4, C(4, 7))
    ensures Network10Step5(w0, w4)
  {
  }

  lemma Network10Layer5(layer: seq<Comparator>, v: seq<bool>)
    requires |v| == 10 && layer == [C(2, 5), C(6, 8), C(1, 3), C(4, 7)]
    ensures Network10Step5(v, ApplyLayerBits(layer, 0, v))
  {
    var w1 := CSwapBits(v, C(2, 5));
    CSwapBitsAt(v, C(2, 5));
    assert ApplyLayerBits(layer, 0, v) == ApplyLayerBits(layer, 1, w1);
    var w2 := CSwapBits(w1, C(6, 8));
    CSwapBitsAt(w1, C(6, 8));
    assert ApplyLayerBits(layer, 1, w1) == ApplyLayerBits(layer, 2, w2);
    var w3 := CSwapBits(w2, C(1, 3));
    CSwapBitsAt(w2, C(1, 3));
    assert ApplyLayerBits(layer, 2, w2) == ApplyLayerBits(layer, 3, w3);
    var w4 := CSwapBits(w3, C(4, 7));
    CSwapBitsAt(w3, C(4, 7));
    assert ApplyLayerBits(layer, 3, w3) == ApplyLayerBits(layer, 4, w4);
    Network10Layer5Bits(v, w1, w2, w3, w4);
  }

  predicate Network10Step6(v: seq<bool>, w: seq<bool>)
  {
    |v| == 10 && |w| == 10 && w[0] == v[0] && w[1] == v[1] &&
    w[2] == (v[2] && v[3]) && w[3] == (v[2] || v[3]) && w[4] == v[4] && w[5] == v[5] &&
    w[6] == (v[6] && v[7]) && w[7] == (v[6] || v[7]) && w[8] == v[8] && w[9] == v[9]
  }

  lemma Network10Layer6Bits(w0: seq<bool>, w1: seq<bool>, w2: seq<bool>)
    requires |w0| == 10
    requires Swapped(w0, w1, C(2, 3))
    requires Swapped(w1, w2, C(6, 7))
    ensures Network10Step6(w0, w2)
  {
  }

  lemma Network10Layer6(layer: seq<Comparator>, v: seq<bool>)
    requires |v| == 10 && layer == [C(2, 3), C(6, 7)]
    ensures Network10Step6(v, ApplyLayerBits(layer, 0, v))
  {
    var w1 := CSwapBits(v, C(2, 3));
    CSwapBitsAt(v, C(2, 3));
    assert ApplyLayerBits(layer, 0, v) == ApplyLayerBits(layer, 1, w1);
    var w2 := CSwapBits(w1, C(6, 7));
    CSwapBitsAt(w1, C(6, 7));
    assert ApplyLayerBits(layer, 1, w1) == ApplyLayerBits(layer, 2, w2);
    Network10Layer6Bits(v, w1, w2);
  }

  predicate Network10Step7(v: seq<bool>, w: seq<bool>)
  {
    |v| == 10 && |w| == 10 && w[0] == v[0] && w[1] == v[1] &&
    w[2] == v[2] && w[3] == (v[3] && v[4]) && w[4] == (v[3] || v[4]) && w[5] == (v[5] && v[6]) &&
    w[6] == (v[5] || v[6]) && w[7] == v[7] && w[8] == v[8] && w[9] == v[9]
  }

  lemma Network10Layer7Bits(w0: seq<bool>, w1: seq<bool>, w2: seq<bool>)
    requires |w0| == 10
    requires Swapped(w0, w1, C(3, 4))
    requires Swapped(w1, w2, C(5, 6))
    ensures Network10Step7(w0, w2)
  {
  }

  lemma Network10Layer7(layer: seq<Comparator>, v: seq<bool>)
    requires |v| == 10 && layer == [C(3, 4), C(5, 6)]
    ensures Network10Step7(v, ApplyLayerBits(layer, 0, v))
  {
    var w1 := CSwapBits(v, C(3, 4));
    CSwapBitsAt(v, C(3, 4));
    assert ApplyLayerBits(layer, 0, v) == ApplyLayerBits(layer, 1, w1);
    var w2 := CSwapBits(w1, C(5, 6));
    CSwapBitsAt(w1, C(5, 6));
    assert ApplyLayerBits(layer, 1, w1) == ApplyLayerBits(layer, 2, w2);
    Network10Layer7Bits(v, w1, w2);
  }

  predicate Network10Step8(v: seq<bool>, w: seq<bool>)
  {
    |v| == 10 && |w| == 10 && w[0] == v[0] && w[1] == v[1] &&
    w[2] == v[2] && w[3] == v[3] && w[4] == (v[4] && v[5]) && w[5] == (v[4] || v[5]) &&
    w[6] == v[6] && w[7] == v[7] && w[8] == v[8] && w[9] == v[9]
  }

  lemma Network10Layer8Bits(w0: seq<bool>, w1: seq<bool>)
    requires |w0| == 10
    requires Swapped(w0, w1, C(4, 5))
    ensures Network10Step8(w0, w1)
  {
  }

  lemma Network10Layer8(layer: seq<Comparator>, v: seq<bool>)
    requires |v| == 10 && layer == [C(4, 5)]
    ensures Network10Step8(v, ApplyLayerBits(layer, 0, v))
  {
    var w1 := CSwapBits(v, C(4, 5));
    CSwapBitsAt(v, C(4, 5));
    assert ApplyLayerBits(layer, 0, v) == ApplyLayerBits(layer, 1, w1);
    Network10Layer8Bits(v, w1);
  }

  lemma Network10Circuit(v0: seq<bool>, v1: seq<bool>, v2: seq<bool>, v3: seq<bool>, v4: seq<bool>, v5: seq<bool>, v6: seq<bool>, v7: seq<bool>, v8: seq<bool>, v9: seq<bool>)
    requires Network10Step0(v0, v1)
    requires Network10Step1(v1, v2)
    requires Network10Step2(v2, v3)
    requires Network10Step3(v3, v4)
    requires Network10Step4(v4, v5)
    requires Network10Step5(v5, v6)
    requires Network10Step6(v6, v7)
    requires Network10Step7(v7, v8)
    requires Network10Step8(v8, v9)
    ensures SortedBits(v9)
  {
  }

  lemma Network10SortsBits(v: seq<bool>)
    requires |v| == 10
    ensures SortedBits(ApplyNetBits(Network10, 0, v))
  {
    var v1 := ApplyLayerBits(Network10[0], 0, v);
    Network10Layer0(Network10[0], v);
    var v2 := ApplyLayerBits(Network10[1], 0, v1);
    Network10Layer1(Network10[1], v1);
    var v3 := ApplyLayerBits(Network10[2], 0, v2);
    Network10Layer2(Network10[2], v2);
    var v4 := ApplyLayerBits(Network10[3], 0, v3);
    Network10Layer3(Network10[3], v3);
    var v5 := ApplyLayerBits(Network10[4], 0, v4);
    Network10Layer4(Network10[4], v4);
    var v6 := ApplyLayerBits(Network10[5], 0, v5);
    Network10Layer5(Network10[5], v5);
    var v7 := ApplyLayerBits(Network10[6], 0, v6);
    Network10Layer6(Network10[6], v6);
    var v8 := ApplyLayerBits(Network10[7], 0, v7);
    Network10Layer7(Network10[7], v7);
    var v9 := ApplyLayerBits(Network10[8], 0, v8);
    Network10Layer8(Network10[8], v8);
    Network10Circuit(v, v1, v2, v3, v4, v5, v6, v7, v8, v9);
    assert ApplyNetBits(Network10, 0, v) == ApplyNetBits(Network10, 1, v1);
    assert ApplyNetBits(Network10, 1, v1) == ApplyNetBits(Network10, 2, v2);
    assert ApplyNetBits(Network10, 2, v2) == ApplyNetBits(Network10, 3, v3);
    assert ApplyNetBits(Network10, 3, v3) == ApplyNetBits(Network10, 4, v4);
    assert ApplyNetBits(Network10, 4, v4) == ApplyNetBits(Network10, 5, v5);
    assert ApplyNetBits(Network10, 5, v5) == ApplyNetBits(Network10, 6, v6);
    assert ApplyNetBits(Network10, 6, v6) == ApplyNetBits(Network10, 7, v7);
    assert ApplyNetBits(Network10, 7, v7) == ApplyNetBits(Network10, 8, v8);
    assert ApplyNetBits(Network10, 8, v8) == ApplyNetBits(Network10, 9, v9);
  }

  // ---- `bitonic_sort_11` ----

  lemma Network11Oriented()
    ensures Oriented(Network11)
  {
    assert forall q :: 0 <= q < |Network11[0]| ==> Network11[0][q].i < Network11[0][q].j;
    assert forall q :: 0 <= q < |Network11[1]| ==> Network11[1][q].i < Network11[1][q].j;
    assert forall q :: 0 <= q < |Network11[2]| ==> Network11[2][q].i < Network11[2][q].j;
    assert forall q :: 0 <= q < |Network11[3]| ==> Network11[3][q].i < Network11[3][q].j;
    assert forall q :: 0 <= q < |Network11[4]| ==> Network11[4][q].i < Network11[4][q].j;
    assert forall q :: 0 <= q < |Network11[5]| ==> Network11[5][q].i < Network11[5][q].j;
    assert forall q :: 0 <= q < |Network11[6]| ==> Network11[6][q].i < Network11[6][q].j;
    assert forall q :: 0 <= q < |Network11[7]| ==> Network11[7][q].i < Network11[7][q].j;
    assert forall q :: 0 <= q < |Network11[8]| ==> Network11[8][q].i < Network11[8][q].j;
  }

  predicate Network11Step0(v: seq<bool>, w: seq<bool>)
  {
    |v| == 11 && |w| == 11 && w[0] == (v[0] && v[1]) && w[1] == (v[0] || v[1]) &&
    w[2] == (v[2] && v[3]) && w[3] == (v[2] || v[3]) && w[4] == (v[4] && v[5]) && w[5] == (v[4] || v[5]) &&
    w[6] == (v[6] && v[7]) && w[7] == (v[6] || v[7]) && w[8] == (v[8] && v[9]) && w[9] == (v[8] || v[9]) &&
    w[10] == v[10]
  }

  lemma Network11Layer0Bits(w0: seq<bool>, w1: seq<bool>, w2: seq<bool>, w3: seq<bool>, w4: seq<bool>, w5: seq<bool>)
    requires |w0| == 11
    requires Swapped(w0, w1, C(0, 1))
    requires Swapped(w1, w2, C(2, 3))
    requires Swapped(w2, w3, C(4, 5))
    requires Swapped(w3, w4, C(6, 7))
    requires Swapped(w4, w5, C(8, 9))
    ensures Network11Step0(w0, w5)
  {
  }

  lemma Network11Layer0(layer: seq<Comparator>, v: seq<bool>)
    requires |v| == 11 && layer == [C(0, 1), C(2, 3), C(4, 5), C(6, 7), C(8, 9)]
    ensures Network11Step0(v, ApplyLayerBits(layer, 0, v))
  {
    var w1 := CSwapBits(v, C(0, 1));
    CSwapBitsAt(v, C(0, 1));
    assert ApplyLayerBits(layer, 0, v) == ApplyLayerBits(layer, 1, w1);
    var w2 := CSwapBits(w1, C(2, 3));
    CSwapBitsAt(w1, C(2, 3));
    assert ApplyLayerBits(layer, 1, w1) == ApplyLayerBits(layer, 2, w2);
    var w3 := CSwapBits(w2, C(4, 5));
    CSwapBitsAt(w2, C(4, 5));
    assert ApplyLayerBits(layer, 2, w2) == ApplyLayerBits(layer, 3, w3);
    var w4 := CSwapBits(w3, C(6, 7));
    CSwapBitsAt(w3, C(6, 7));
    assert ApplyLayerBits(layer, 3, w3) == ApplyLayerBits(layer, 4, w4);
    var w5 := CSwapBits(w4, C(8, 9));
    CSwapBitsAt(w4, C(8, 9));
    assert ApplyLayerBits(layer, 4, w4) == ApplyLayerBits(layer, 5, w5);
    Network11Layer0Bits(v, w1, w2, w3, w4, w5);
  }

  predicate Network11Step1(v: seq<bool>, w: seq<bool>)
  {
    |v| == 11 && |w| == 11 && w[0] == (v[0] && v[2]) && w[1] == (v[1] && v[3]) &&
    w[2] == (v[0] || v[2]) && w[3] == (v[1] || v[3]) && w[4] == (v[4] && v[6]) && w[5] == (v[5] && v[7]) &&
    w[6] == (v[4] || v[6]) && w[7] == (v[5] || v[7]) && w[8] == (v[8] && v[10]) && w[9] == v[9] &&
    w[10] == (v[8] || v[10])
  }

  lemma Network11Layer1Bits(w0: seq<bool>, w1: seq<bool>, w2: seq<bool>, w3: seq<bool>, w4: seq<bool>, w5: seq<bool>)
    requires |w0| == 11
    requires Swapped(w0, w1, C(1, 3))
    requires Swapped(w1, w2, C(5, 7))
    requires Swapped(w2, w3, C(0, 2))
    requires Swapped(w3, w4, C(4, 6))
    requires Swapped(w4, w5, C(8, 10))
    ensures Network11Step1(w0, w5)
  {
  }

  lemma Network11Layer1(layer: seq<Comparator>, v: seq<bool>)
    requires |v| == 11 && layer == [C(1, 3), C(5, 7), C(0, 2), C(4, 6), C(8, 10)]
    ensures Network11Step1(v, ApplyLayerBits(layer, 0, v))
  {
    var w1 := CSwapBits(v, C(1, 3));
    CSwapBitsAt(v, C(1, 3));
    assert ApplyLayerBits(layer, 0, v) == ApplyLayerBits(layer, 1, w1);
    var w2 := CSwapBits(w1, C(5, 7));
    CSwapBitsAt(w1, C(5, 7));
    assert ApplyLayerBits(layer, 1, w1) == ApplyLayerBits(layer, 2, w2);
    var w3 := CSwapBits(w2, C(0, 2));
    CSwapBitsAt(w2, C(0, 2));
    assert ApplyLayerBits(layer, 2, w2) == ApplyLayerBits(layer, 3, w3);
    var w4 := CSwapBits(w3, C(4, 6));
    CSwapBitsAt(w3, C(4, 6));
    assert ApplyLayerBits(layer, 3, w3) == ApplyLayerBits(layer, 4, w4);
    var w5 := CSwapBits(w4, C(8, 10));
    CSwapBitsAt(w4, C(8, 10));
    assert ApplyLayerBits(layer, 4, w4) == ApplyLayerBits(layer, 5, w5);
    Network11Layer1Bits(v, w1, w2, w3, w4, w5);
  }

  predicate Network11Step2(v: seq<bool>, w: seq<bool>)
  {
    |v| == 11 && |w| == 11 && w[0] == (v[0] && v[4]) && w[1] == (v[1] && v[2]) &&
    w[2] == (v[1] || v[2]) && w[3] == (v[3] && v[7]) && w[4] == (v[0] || v[4]) && w[5] == (v[5] && v[6]) &&
    w[6] == (v[5] || v[6]) && w[7] == (v[3] || v[7]) && w[8] == v[8] && w[9] == (v[9] && v[10]) &&
    w[10] == (v[9] || v[10])
  }

  lemma Network11Layer2Bits(w0: seq<bool>, w1: seq<bool>, w2: seq<bool>, w3: seq<bool>, w4: seq<bool>, w5: seq<bool>)
    requires |w0| == 11
    requires Swapped(w0, w1, C(1, 2))
    requires Swapped(w1, w2, C(5, 6))
    requires Swapped(w2, w3, C(9, 10))
    requires Swapped(w3, w4, C(0, 4))
    requires Swapped(w4, w5, C(3, 7))
    ensures Network11Step2(w0, w5)
  {
  }

  lemma Network11Layer2(layer: seq<Comparator>, v: seq<bool>)
    requires |v| == 11 && layer == [C(1, 2), C(5, 6), C(9, 10), C(0, 4), C(3, 7)]
    ensures Network11Step2(v, ApplyLayerBits(layer, 0, v))
  {
    var w1 := CSwapBits(v, C(1, 2));
    CSwapBitsAt(v, C(1, 2));
    assert ApplyLayerBits(layer, 0, v) == ApplyLayerBits(layer, 1, w1);
    var w2 := CSwapBits(w1, C(5, 6));
    CSwapBitsAt(w1, C(5, 6));
    assert ApplyLayerBits(layer, 1, w1) == ApplyLayerBits(layer, 2, w2);
    var w3 := CSwapBits(w2, C(9, 10));
    CSwapBitsAt(w2, C(9, 10));
    assert ApplyLayerBits(layer, 2, w2) == ApplyLayerBits(layer, 3, w3);
    var w4 := CSwapBits(w3, C(0, 4));
    CSwapBitsAt(w3, C(0, 4));
    assert ApplyLayerBits(layer, 3, w3) == ApplyLayerBits(layer, 4, w4);
    var w5 := CSwapBits(w4, C(3, 7));
    CSwapBitsAt(w4, C(3, 7));
    assert ApplyLayerBits(layer, 4, w4) == ApplyLayerBits(layer, 5, w5);
    Network11Layer2Bits(v, w1, w2, w3, w4, w5);
  }

  predicate Network11Step3(v: seq<bool>, w: seq<bool>)
  {
    |v| == 11 && |w| == 11 && w[0] == v[0] && w[1] == (v[1] && v[5]) &&
    w[2] == v[2] && w[3] == v[3] && w[4] == (v[4] && v[8]) && w[5] == (v[1] || v[5]) &&
    w[6] == (v[6] && v[10]) && w[7] == v[7] && w[8] == (v[4] || v[8]) && w[9] == v[9] &&
    w[10] == (v[6] || v[10])
  }

  lemma Network11Layer3Bits(w0: seq<bool>, w1: seq<bool>, w2: seq<bool>, w3: seq<bool>)
    requires |w0| == 11
    requires Swapped(w0, w1, C(1, 5))
    requires Swapped(w1, w2, C(6, 10))
    requires Swapped(w2, w3, C(4, 8))
    ensures Network11Step3(w0, w3)
  {
  }

  lemma Network11Layer3(layer: seq<Comparator>, v: seq<bool>)
    requires |v| == 11 && layer == [C(1, 5), C(6, 10), C(4, 8)]
    ensures Network11Step3(v, ApplyLayerBits(layer, 0, v))
  {
    var w1 := CSwapBits(v, C(1, 5));
    CSwapBitsAt(v, C(1, 5));
    assert ApplyLayerBits(layer, 0, v) == ApplyLayerBits(layer, 1, w1);
    var w2 := CSwapBits(w1, C(6, 10));
    CSwapBitsAt(w1, C(6, 10));
    assert ApplyLayerBits(layer, 1, w1) == ApplyLayerBits(layer, 2, w2);
    var w3 := CSwapBits(w2, C(4, 8));
    CSwapBitsAt(w2, C(4, 8));
    assert ApplyLayerBits(layer, 2, w2) == ApplyLayerBits(layer, 3, w3);
    Network11Layer3Bits(v, w1, w2, w3);
  }

  predicate Network11Step4(v: seq<bool>, w: seq<bool>)
  {
    |v| == 11 && |w| == 11 && w[0] == (v[0] && v[4]) && w[1] == v[1] &&
    w[2] == (v[2] && v[6]) && w[3] == (v[3] && v[8]) && w[4] == (v[0] || v[4]) && w[5] == (v[5] && v[9]) &&
    w[6] == (v[2] || v[6]) && w[7] == v[7] && w[8] == (v[3] || v[8]) && w[9] == (v[5] || v[9]) &&
    w[10] == v[10]
  }

  lemma Network11Layer4Bits(w0: seq<bool>, w1: seq<bool>, w2: seq<bool>, w3: seq<bool>, w4: seq<bool>)
    requires |w0| == 11
    requires Swapped(w0, w1, C(5, 9))
    requires Swapped(w1, w2, C(2, 6))
    requires Swapped(w2, w3, C(0, 4))
    requires Swapped(w3, w4, C(3, 8))
    ensures Network11Step4(w0, w4)
  {
  }

  lemma Network11Layer4(layer: seq<Comparator>, v: seq<bool>)
    requires |v| == 11 && layer == [C(5, 9), C(2, 6), C(0, 4), C(3, 8)]
    ensures Network11Step4(v, ApplyLayerBits(layer, 0, v))
  {
    var w1 := CSwapBits(v, C(5, 9));
    CSwapBitsAt(v, C(5, 9));
    assert ApplyLayerBits(layer, 0, v) == ApplyLayerBits(layer, 1, w1);
    var w2 := CSwapBits(w1, C(2, 6));
    CSwapBitsAt(w1, C(2, 6));
    assert ApplyLayerBits(layer, 1, w1) == ApplyLayerBits(layer, 2, w2);
    var w3 := CSwapBits(w2, C(0, 4));
    CSwapBitsAt(w2, C(0, 4));
    assert ApplyLayerBits(layer, 2, w2) == ApplyLayerBits(layer, 3, w3);
    var w4 := CSwapBits(w3, C(3, 8));
    CSwapBitsAt(w3, C(3, 8));
    assert ApplyLayerBits(layer, 3, w3) == ApplyLayerBits(layer, 4, w4);
    Network11Layer4Bits(v, w1, w2, w3, w4);
  }

  predicate Network11Step5(v: seq<bool>, w: seq<bool>)
  {
    |v| == 11 && |w| == 11 && w[0] == v[0] && w[1] == (v[1] && v[5]) &&
    w[2] == (v[2] && v[3]) && w[3] == (v[2] || v[3]) && w[4] == v[4] && w[5] == (v[1] || v[5]) &&
    w[6] == (v[6] && v[10]) && w[7] == v[7] && w[8] == (v[8] && v[9]) && w[9] == (v[8] || v[9]) &&
    w[10] == (v[6] || v[10])
  }

  lemma Network11Layer5Bits(w0: seq<bool>, w1: seq<bool>, w2: seq<bool>, w3: seq<bool>, w4: seq<bool>)
    requires |w0| == 11
    requires Swapped(w0, w1, C(1, 5))
    requires Swapped(w1, w2, C(6, 10))
    requires Swapped(w2, w3, C(2, 3))
    requires Swapped(w3, w4, C(8, 9))
    ensures Network11Step5(w0, w4)
  {
  }

  lemma Network11Layer5(layer: seq<Comparator>, v: seq<bool>)
    requires |v| == 11 && layer == [C(1, 5), C(6, 10), C(2, 3), C(8, 9)]
    ensures Network11Step5(v, ApplyLayerBits(layer, 0, v))
  {
    var w1 := CSwapBits(v, C(1, 5));
    CSwapBitsAt(v, C(1, 5));
    assert ApplyLayerBits(layer, 0, v) == ApplyLayerBits(layer, 1, w1);
    var w2 := CSwapBits(w1, C(6, 10));
    CSwapBitsAt(w1, C(6, 10));
    assert ApplyLayerBits(layer, 1, w1) == ApplyLayerBits(layer, 2, w2);
    var w3 := CSwapBits(w2, C(2, 3));
    CSwapBitsAt(w2, C(2, 3));
    assert ApplyLayerBits(layer, 2, w2) == ApplyLayerBits(layer, 3, w3);
    var w4 := CSwapBits(w3, C(8, 9));
    CSwapBitsAt(w3, C(8, 9));
    assert ApplyLayerBits(layer, 3, w3) == ApplyLayerBits(layer, 4, w4);
    Network11Layer5Bits(v, w1, w2, w3, w4);
  }

  predicate Network11Step6(v: seq<bool>, w: seq<bool>)
  {
    |v| == 11 && |w| == 11 && w[0] == v[0] && w[1] == (v[1] && v[4]) &&
    w[2] == v[2] && w[3] == (v[3] && v[5]) && w[4] == (v[1] || v[4]) && w[5] == (v[3] || v[5]) &&
    w[6] == (v[6] && v[8]) && w[7] == (v[7] && v[10]) && w[8] == (v[6] || v[8]) && w[9] == v[9] &&
    w[10] == (v[7] || v[10])
  }

  lemma Network11Layer6Bits(w0: seq<bool>, w1: seq<bool>, w2: seq<bool>, w3: seq<bool>, w4: seq<bool>)
    requires |w0| == 11
    requires Swapped(w0, w1, C(1, 4))
    requires Swapped(w1, w2, C(7, 10))
    requires Swapped(w2, w3, C(3, 5))
    requires Swapped(w3, w4, C(6, 8))
    ensures Network11Step6(w0, w4)
  {
  }

  lemma Network11Layer6(layer: seq<Comparator>, v: seq<bool>)
    requires |v| == 11 && layer == [C(1, 4), C(7, 10), C(3, 5), C(6, 8)]
    ensures Network11Step6(v, ApplyLayerBits(layer, 0, v))
  {
    var w1 := CSwapBits(v, C(1, 4));
    CSwapBitsAt(v, C(1, 4));
    assert ApplyLayerBits(layer, 0, v) == ApplyLayerBits(layer, 1, w1);
    var w2 := CSwapBits(w1, C(7, 10));
    CSwapBitsAt(w1, C(7, 10));
    assert ApplyLayerBits(layer, 1, w1) == ApplyLayerBits(layer, 2, w2);
    var w3 := CSwapBits(w2, C(3, 5));
    CSwapBitsAt(w2, C(3, 5));
    assert ApplyLayerBits(layer, 2, w2) == ApplyLayerBits(layer, 3, w3);
    var w4 := CSwapBits(w3, C(6, 8));
    CSwapBitsAt(w3, C(6, 8));
    assert ApplyLayerBits(layer, 3, w3) == ApplyLayerBits(layer, 4, w4);
    Network11Layer6Bits(v, w1, w2, w3, w4);
  }

  predicate Network11Step7(v: seq<bool>, w: seq<bool>)
  {
    |v| == 11 && |w| == 11 && w[0] == v[0] && w[1] == v[1] &&
    w[2] == (v[2] && v[4]) && w[3] == v[3] && w[4] == (v[2] || v[4]) && w[5] == (v[5] && v[6]) &&
    w[6] == (v[5] || v[6]) && w[7] == (v[7] && v[9]) && w[8] == v[8] && w[9] == (v[7] || v[9]) &&
    w[10] == v[10]
  }

  lemma Network11Layer7Bits(w0: seq<bool>, w1: seq<bool>, w2: seq<bool>, w3: seq<bool>)
    requires |w0| == 11
    requires Swapped(w0, w1, C(2, 4))
    requires Swapped(w1, w2, C(7, 9))
    requires Swapped(w2, w3, C(5, 6))
    ensures Network11Step7(w0, w3)
  {
  }

  lemma Network11Layer7(layer: seq<Comparator>, v: seq<bool>)
    requires |v| == 11 && layer == [C(2, 4), C(7, 9), C(5, 6)]
    ensures Network11Step7(v, ApplyLayerBits(layer, 0, v))
  {
    var w1 := CSwapBits(v, C(2, 4));
    CSwapBitsAt(v, C(2, 4));
    assert ApplyLayerBits(layer, 0, v) == ApplyLayerBits(layer, 1, w1);
    var w2 := CSwapBits(w1, C(7, 9));
    CSwapBitsAt(w1, C(7, 9));
    assert ApplyLayerBits(layer, 1, w1) == ApplyLayerBits(layer, 2, w2);
    var w3 := CSwapBits(w2, C(5, 6));
    CSwapBitsAt(w2, C(5, 6));
    assert ApplyLayerBits(layer, 2, w2) == ApplyLayerBits(layer, 3, w3);
    Network11Layer7Bits(v, w1, w2, w3);
  }

  predicate Network11Step8(v: seq<bool>, w: seq<bool>)
  {
    |v| == 11 && |w| == 11 && w[0] == v[0] && w[1] == v[1] &&
    w[2] == v[2] && w[3] == (v[3] && v[4]) && w[4] == (v[3] || v[4]) && w[5] == v[5] &&
    w[6] == v[6] && w[7] == (v[7] && v[8]) && w[8] == (v[7] || v[8]) && w[9] == v[9] &&
    w[10] == v[10]
  }

  lemma Network11Layer8Bits(w0: seq<bool>, w1: seq<bool>, w2: seq<bool>)
    requires |w0| == 11
    requires Swapped(w0, w1, C(3, 4))
    requires Swapped(w1, w2, C(7, 8))
    ensures Network11Step8(w0, w2)
  {
  }

  lemma Network11Layer8(layer: seq<Comparator>, v: seq<bool>)
    requires |v| == 11 && layer == [C(3, 4), C(7, 8)]
    ensures Network11Step8(v, ApplyLayerBits(layer, 0, v))
  {
    var w1 := CSwapBits(v, C(3, 4));
    CSwapBitsAt(v, C(3, 4));
    assert ApplyLayerBits(layer, 0, v) == ApplyLayerBits(layer, 1, w1);
    var w2 := CSwapBits(w1, C(7, 8));
    CSwapBitsAt(w1, C(7, 8));
    assert ApplyLayerBits(layer, 1, w1) == ApplyLayerBits(layer, 2, w2);
    Network11Layer8Bits(v, w1, w2);
  }

  lemma Network11Circuit(v0: seq<bool>, v1: seq<bool>, v2: seq<bool>, v3: seq<bool>, v4: seq<bool>, v5: seq<bool>, v6: seq<bool>, v7: seq<bool>, v8: seq<bool>, v9: seq<bool>)
    requires Network11Step0(v0, v1)
    requires Network11Step1(v1, v2)
    requires Network11Step2(v2, v3)
    requires Network11Step3(v3, v4)
    requires Network11Step4(v4, v5)
    requires Network11Step5(v5, v6)
    requires Network11Step6(v6, v7)
    requires Network11Step7(v7, v8)
    requires Network11Step8(v8, v9)
    ensures SortedBits(v9)
  {
  }

  lemma Network11SortsBits(v: seq<bool>)
    requires |v| == 11
    ensures SortedBits(ApplyNetBits(Network11, 0, v))
  {
    var v1 := ApplyLayerBits(Network11[0], 0, v);
    Network11Layer0(Network11[0], v);
    var v2 := ApplyLayerBits(Network11[1], 0, v1);
    Network11Layer1(Network11[1], v1);
    var v3 := ApplyLayerBits(Network11[2], 0, v2);
    Network11Layer2(Network11[2], v2);
    var v4 := ApplyLayerBits(Network11[3], 0, v3);
    Network11Layer3(Network11[3], v3);
    var v5 := ApplyLayerBits(Network11[4], 0, v4);
    Network11Layer4(Network11[4], v4);
    var v6 := ApplyLayerBits(Network11[5], 0, v5);
    Network11Layer5(Network11[5], v5);
    var v7 := ApplyLayerBits(Network11[6], 0, v6);
    Network11Layer6(Network11[6], v6);
    var v8 := ApplyLayerBits(Network11[7], 0, v7);
    Network11Layer7(Network11[7], v7);
    var v9 := ApplyLayerBits(Network11[8], 0, v8);
    Network11Layer8(Network11[8], v8);
    Network11Circuit(v, v1, v2, v3, v4, v5, v6, v7, v8, v9);
    assert ApplyNetBits(Network11, 0, v) == ApplyNetBits(Network11, 1, v1);
    assert ApplyNetBits(Network11, 1, v1) == ApplyNetBits(Network11, 2, v2);
    assert ApplyNetBits(Network11, 2, v2) == ApplyNetBits(Network11, 3, v3);
    assert ApplyNetBits(Network11, 3, v3) == ApplyNetBits(Network11, 4, v4);
    assert ApplyNetBits(Network11, 4, v4) == ApplyNetBits(Network11, 5, v5);
    assert ApplyNetBits(Network11, 5, v5) == ApplyNetBits(Network11, 6, v6);
    assert ApplyNetBits(Network11, 6, v6) == ApplyNetBits(Network11, 7, v7);
    assert ApplyNetBits(Network11, 7, v7) == ApplyNetBits(Network11, 8, v8);
    assert ApplyNetBits(Network11, 8, v8) == ApplyNetBits(Network11, 9, v9);
  }

  // ---- `bitonic_sort_12` ----

  lemma Network12Oriented()
    ensures Oriented(Network12)
  {
    assert forall q :: 0 <= q < |Network12[0]| ==> Network12[0][q].i < Network12[0][q].j;
    assert forall q :: 0 <= q < |Network12[1]| ==> Network12[1][q].i < Network12[1][q].j;
    assert forall q :: 0 <= q < |Network12[2]| ==> Network12[2][q].i < Network12[2][q].j;
    assert forall q :: 0 <= q < |Network12[3]| ==> Network12[3][q].i < Network12[3][q].j;
    assert forall q :: 0 <= q < |Network12[4]| ==> Network12[4][q].i < Network12[4][q].j;
    assert forall q :: 0 <= q < |Network12[5]| ==> Network12[5][q].i < Network12[5][q].j;
    assert forall q :: 0 <= q < |Network12[6]| ==> Network12[6][q].i < Network12[6][q].j;
    assert forall q :: 0 <= q < |Network12[7]| ==> Network12[7][q].i < Network12[7][q].j;
    assert forall q :: 0 <= q < |Network12[8]| ==> Network12[8][q].i < Network12[8][q].j;
  }

  predicate Network12Step0(v: seq<bool>, w: seq<bool>)
  {
    |v| == 12 && |w| == 12 && w[0] == (v[0] && v[1]) && w[1] == (v[0] || v[1]) &&
    w[2] == (v[2] && v[3]) && w[3] == (v[2] || v[3]) && w[4] == (v[4] && v[5]) && w[5] == (v[4] || v[5]) &&
    w[6] == (v[6] && v[7]) && w[7] == (v[6] || v[7]) && w[8] == (v[8] && v[9]) && w[9] == (v[8] || v[9]) &&
    w[10] == (v[10] && v[11]) && w[11] == (v[10] || v[11])
  }

  lemma Network12Layer0Bits(w0: seq<bool>, w1: seq<bool>, w2: seq<bool>, w3: seq<bool>, w4: seq<bool>, w5: seq<bool>, w6: seq<bool>)
    requires |w0| == 12
    requires Swapped(w0, w1, C(0, 1))
    requires Swapped(w1, w2, C(2, 3))
    requires Swapped(w2, w3, C(4, 5))
    requires Swapped(w3, w4, C(6, 7))
    requires Swapped(w4, w5, C(8, 9))
    requires Swapped(w5, w6, C(10, 11))
    ensures Network12Step0(w0, w6)
  {
  }

  lemma Network12Layer0(layer: seq<Comparator>, v: seq<bool>)
    requires |v| == 12 && layer == [C(0, 1), C(2, 3), C(4, 5), C(6, 7), C(8, 9), C(10, 11)]
    ensures Network12Step0(v, ApplyLayerBits(layer, 0, v))
  {
    var w1 := CSwapBits(v, C(0, 1));
    CSwapBitsAt(v, C(0, 1));
    assert ApplyLayerBits(layer, 0, v) == ApplyLayerBits(layer, 1, w1);
    var w2 := CSwapBits(w1, C(2, 3));
    CSwapBitsAt(w1, C(2, 3));
    assert ApplyLayerBits(layer, 1, w1) == ApplyLayerBits(layer, 2, w2);
    var w3 := CSwapBits(w2, C(4, 5));
    CSwapBitsAt(w2, C(4, 5));
    assert ApplyLayerBits(layer, 2, w2) == ApplyLayerBits(layer, 3, w3);
    var w4 := CSwapBits(w3, C(6, 7));
    CSwapBitsAt(w3, C(6, 7));
    assert ApplyLayerBits(layer, 3, w3) == ApplyLayerBits(layer, 4, w4);
    var w5 := CSwapBits(w4, C(8, 9));
    CSwapBitsAt(w4, C(8, 9));
    assert ApplyLayerBits(layer, 4, w4) == ApplyLayerBits(layer, 5, w5);
    var w6 := CSwapBits(w5, C(10, 11));
    CSwapBitsAt(w5, C(10, 11));
    assert ApplyLayerBits(layer, 5, w5) == ApplyLayerBits(layer, 6, w6);
    Network12Layer0Bits(v, w1, w2, w3, w4, w5, w6);
  }

  predicate Network12Step1(v: seq<bool>, w: seq<bool>)
  {
    |v| == 12 && |w| == 12 && w[0] == (v[0] && v[2]) && w[1] == (v[1] && v[3]) &&
    w[2] == (v[0] || v[2]) && w[3] == (v[1] || v[3]) && w[4] == (v[4] && v[6]) && w[5] == (v[5] && v[7]) &&
    w[6] == (v[4] || v[6]) && w[7] == (v[5] || v[7]) && w[8] == (v[8] && v[10]) && w[9] == (v[9] && v[11]) &&
    w[10] == (v[8] || v[10]) && w[11] == (v[9] || v[11])
  }

  lemma Network12Layer1Bits(w0: seq<bool>, w1: seq<bool>, w2: seq<bool>, w3: seq<bool>, w4: seq<bool>, w5: seq<bool>, w6: seq<bool>)
    requires |w0| == 12
    requires Swapped(w0, w1, C(1, 3))
    requires Swapped(w1, w2, C(5, 7))
    requires Swapped(w2, w3, C(9, 11))
    requires Swapped(w3, w4, C(0, 2))
    requires Swapped(w4, w5, C(4, 6))
    requires Swapped(w5, w6, C(8, 10))
    ensures Network12Step1(w0, w6)
  {
  }

  lemma Network12Layer1(layer: seq<Comparator>, v: seq<bool>)
    requires |v| == 12 && layer == [C(1, 3), C(5, 7), C(9, 11), C(0, 2), C(4, 6), C(8, 10)]
    ensures Network12Step1(v, ApplyLayerBits(layer, 0, v))
  {
    var w1 := CSwapBits(v, C(1, 3));
    CSwapBitsAt(v, C(1, 3));
    assert ApplyLayerBits(layer, 0, v) == ApplyLayerBits(layer, 1, w1);
    var w2 := CSwapBits(w1, C(5, 7));
    CSwapBitsAt(w1, C(5, 7));
    assert ApplyLayerBits(layer, 1, w1) == ApplyLayerBits(layer, 2, w2);
    var w3 := CSwapBits(w2, C(9, 11));
    CSwapBitsAt(w2, C(9, 11));
    assert ApplyLayerBits(layer, 2, w2) == ApplyLayerBits(layer, 3, w3);
    var w4 := CSwapBits(w3, C(0, 2));
    CSwapBitsAt(w3, C(0, 2));
    assert ApplyLayerBits(layer, 3, w3) == ApplyLayerBits(layer, 4, w4);
    var w5 := CSwapBits(w4, C(4, 6));
    CSwapBitsAt(w4, C(4, 6));
    assert ApplyLayerBits(layer, 4, w4) == ApplyLayerBits(layer, 5, w5);
    var w6 := CSwapBits(w5, C(8, 10));
    CSwapBitsAt(w5, C(8, 10));
    assert ApplyLayerBits(layer, 5, w5) == ApplyLayerBits(layer, 6, w6);
    Network12Layer1Bits(v, w1, w2, w3, w4, w5, w6);
  }

  predicate Network12Step2(v: seq<bool>, w: seq<bool>)
  {
    |v| == 12 && |w| == 12 && w[0] == (v[0] && v[4]) && w[1] == (v[1] && v[2]) &&
    w[2] == (v[1] || v[2]) && w[3] == v[3] && w[4] == (v[0] || v[4]) && w[5] == (v[5] && v[6]) &&
    w[6] == (v[5] || v[6]) && w[7] == (v[7] && v[11]) && w[8] == v[8] && w[9] == (v[9] && v[10]) &&
    w[10] == (v[9] || v[10]) && w[11] == (v[7] || v[11])
  }

  lemma Network12Layer2Bits(w0: seq<bool>, w1: seq<bool>, w2: seq<bool>, w3: seq<bool>, w4: seq<bool>, w5: seq<bool>)
    requires |w0| == 12
    requires Swapped(w0, w1, C(1, 2))
    requires Swapped(w1, w2, C(5, 6))
    requires Swapped(w2, w3, C(9, 10))
    requires Swapped(w3, w4, C(0, 4))
    requires Swapped(w4, w5, C(7, 11))
    ensures Network12Step2(w0, w5)
  {
  }

  lemma Network12Layer2(layer: seq<Comparator>, v: seq<bool>)
    requires |v| == 12 && layer == [C(1, 2), C(5, 6), C(9, 10), C(0, 4), C(7, 11)]
    ensures Network12Step2(v, ApplyLayerBits(layer, 0, v))
  {
    var w1 := CSwapBits(v, C(1, 2));
    CSwapBitsAt(v, C(1, 2));
    assert ApplyLayerBits(layer, 0, v) == ApplyLayerBits(layer, 1, w1);
    var w2 := CSwapBits(w1, C(5, 6));
    CSwapBitsAt(w1, C(5, 6));
    assert ApplyLayerBits(layer, 1, w1) == ApplyLayerBits(layer, 2, w2);
    var w3 := CSwapBits(w2, C(9, 10));
    CSwapBitsAt(w2, C(9, 10));
    assert ApplyLayerBits(layer, 2, w2) == ApplyLayerBits(layer, 3, w3);
    var w4 := CSwapBits(w3, C(0, 4));
    CSwapBitsAt(w3, C(0, 4));
    assert ApplyLayerBits(layer, 3, w3) == ApplyLayerBits(layer, 4, w4);
    var w5 := CSwapBits(w4, C(7, 11));
    CSwapBitsAt(w4, C(7, 11));
    assert ApplyLayerBits(layer, 4, w4) == ApplyLayerBits(layer, 5, w5);
    Network12Layer2Bits(v, w1, w2, w3, w4, w5);
  }

  predicate Network12Step3(v: seq<bool>, w: seq<bool>)
  {
    |v| == 12 && |w| == 12 && w[0] == v[0] && w[1] == (v[1] && v[5]) &&
    w[2] == v[2] && w[3] == (v[3] && v[7]) && w[4] == (v[4] && v[8]) && w[5] == (v[1] || v[5]) &&
    w[6] == (v[6] && v[10]) && w[7] == (v[3] || v[7]) && w[8] == (v[4] || v[8]) && w[9] == v[9] &&
    w[10] == (v[6] || v[10]) && w[11] == v[11]
  }

  lemma Network12Layer3Bits(w0: seq<bool>, w1: seq<bool>, w2: seq<bool>, w3: seq<bool>, w4: seq<bool>)
    requires |w0| == 12
    requires Swapped(w0, w1, C(1, 5))
    requires Swapped(w1, w2, C(6, 10))
    requires Swapped(w2, w3, C(3, 7))
    requires Swapped(w3, w4, C(4, 8))
    ensures Network12Step3(w0, w4)
  {
  }

  lemma Network12Layer3(layer: seq<Comparator>, v: seq<bool>)
    requires |v| == 12 && layer == [C(1, 5), C(6, 10), C(3, 7), C(4, 8)]
    ensures Network12Step3(v, ApplyLayerBits(layer, 0, v))
  {
    var w1 := CSwapBits(v, C(1, 5));
    CSwapBitsAt(v, C(1, 5));
    assert ApplyLayerBits(layer, 0, v) == ApplyLayerBits(layer, 1, w1);
    var w2 := CSwapBits(w1, C(6, 10));
    CSwapBitsAt(w1, C(6, 10));
    assert ApplyLayerBits(layer, 1, w1) == ApplyLayerBits(layer, 2, w2);
    var w3 := CSwapBits(w2, C(3, 7));
    CSwapBitsAt(w2, C(3, 7));
    assert ApplyLayerBits(layer, 2, w2) == ApplyLayerBits(layer, 3, w3);
    var w4 := CSwapBits(w3, C(4, 8));
    CSwapBitsAt(w3, C(4, 8));
    assert ApplyLayerBits(layer, 3, w3) == ApplyLayerBits(layer, 4, w4);
    Network12Layer3Bits(v, w1, w2, w3, w4);
  }

  predicate Network12Step4(v: seq<bool>, w: seq<bool>)
  {
    |v| == 12 && |w| == 12 && w[0] == (v[0] && v[4]) && w[1] == v[1] &&
    w[2] == (v[2] && v[6]) && w[3] == (v[3] && v[8]) && w[4] == (v[0] || v[4]) && w[5] == (v[5] && v[9]) &&
    w[6] == (v[2] || v[6]) && w[7] == (v[7] && v[11]) && w[8] == (v[3] || v[8]) && w[9] == (v[5] || v[9]) &&
    w[10] == v[10] && w[11] == (v[7] || v[11])
  }

  lemma Network12Layer4Bits(w0: seq<bool>, w1: seq<bool>, w2: seq<bool>, w3: seq<bool>, w4: seq<bool>, w5: seq<bool>)
    requires |w0| == 12
    requires Swapped(w0, w1, C(5, 9))
    requires Swapped(w1, w2, C(2, 6))
    requires Swapped(w2, w3, C(0, 4))
    requires Swapped(w3, w4, C(7, 11))
    requires Swapped(w4, w5, C(3, 8))
    ensures Network12Step4(w0, w5)
  {
  }

  lemma Network12Layer4(layer: seq<Comparator>, v: seq<bool>)
    requires |v| == 12 && layer == [C(5, 9), C(2, 6), C(0, 4), C(7, 11), C(3, 8)]
    ensures Network12Step4(v, ApplyLayerBits(layer, 0, v))
  {
    var w1 := CSwapBits(v, C(5, 9));
    CSwapBitsAt(v, C(5, 9));
    assert ApplyLayerBits(layer, 0, v) == ApplyLayerBits(layer, 1, w1);
    var w2 := CSwapBits(w1, C(2, 6));
    CSwapBitsAt(w1, C(2, 6));
    assert ApplyLayerBits(layer, 1, w1) == ApplyLayerBits(layer, 2, w2);
    var w3 := CSwapBits(w2, C(0, 4));
    CSwapBitsAt(w2, C(0, 4));
    assert ApplyLayerBits(layer, 2, w2) == ApplyLayerBits(layer, 3, w3);
    var w4 := CSwapBits(w3, C(7, 11));
    CSwapBitsAt(w3, C(7, 11));
    assert ApplyLayerBits(layer, 3, w3) == ApplyLayerBits(layer, 4, w4);
    var w5 := CSwapBits(w4, C(3, 8));
    CSwapBitsAt(w4, C(3, 8));
    assert ApplyLayerBits(layer, 4, w4) == ApplyLayerBits(layer, 5, w5);
    Network12Layer4Bits(v, w1, w2, w3, w4, w5);
  }

  predicate Network12Step5(v: seq<bool>, w: seq<bool>)
  {
    |v| == 12 && |w| == 12 && w[0] == v[0] && w[1] == (v[1] && v[5]) &&
    w[2] == (v[2] && v[3]) && w[3] == (v[2] || v[3]) && w[4] == v[4] && w[5] == (v[1] || v[5]) &&
    w[6] == (v[6] && v[10]) && w[7] == v[7] && w[8] == (v[8] && v[9]) && w[9] == (v[8] || v[9]) &&
    w[10] == (v[6] || v[10]) && w[11] == v[11]
  }

  lemma Network12Layer5Bits(w0: seq<bool>, w1: seq<bool>, w2: seq<bool>, w3: seq<bool>, w4: seq<bool>)
    requires |w0| == 12
    requires Swapped(w0, w1, C(1, 5))
    requires Swapped(w1, w2, C(6, 10))
    requires Swapped(w2, w3, C(2, 3))
    requires Swapped(w3, w4, C(8, 9))
    ensures Network12Step5(w0, w4)
  {
  }

  lemma Network12Layer5(layer: seq<Comparator>, v: seq<bool>)
    requires |v| == 12 && layer == [C(1, 5), C(6, 10), C(2, 3), C(8, 9)]
    ensures Network12Step5(v, ApplyLayerBits(layer, 0, v))
  {
    var w1 := CSwapBits(v, C(1, 5));
    CSwapBitsAt(v, C(1, 5));
    assert ApplyLayerBits(layer, 0, v) == ApplyLayerBits(layer, 1, w1);
    var w2 := CSwapBits(w1, C(6, 10));
    CSwapBitsAt(w1, C(6, 10));
    assert ApplyLayerBits(layer, 1, w1) == ApplyLayerBits(layer, 2, w2);
    var w3 := CSwapBits(w2, C(2, 3));
    CSwapBitsAt(w2, C(2, 3));
    assert ApplyLayerBits(layer, 2, w2) == ApplyLayerBits(layer, 3, w3);
    var w4 := CSwapBits(w3, C(8, 9));
    CSwapBitsAt(w3, C(8, 9));
    assert ApplyLayerBits(layer, 3, w3) == ApplyLayerBits(layer, 4, w4);
    Network12Layer5Bits(v, w1, w2, w3, w4);
  }

  predicate Network12Step6(v: seq<bool>, w: seq<bool>)
  {
    |v| == 12 && |w| == 12 && w[0] == v[0] && w[1] == (v[1] && v[4]) &&
    w[2] == v[2] && w[3] == (v[3] && v[5]) && w[4] == (v[1] || v[4]) && w[5] == (v[3] || v[5]) &&
    w[6] == (v[6] && v[8]) && w[7] == (v[7] && v[10]) && w[8] == (v[6] || v[8]) && w[9] == v[9] &&
    w[10] == (v[7] || v[10]) && w[11] == v[11]
  }

  lemma Network12Layer6Bits(w0: seq<bool>, w1: seq<bool>, w2: seq<bool>, w3: seq<bool>, w4: seq<bool>)
    requires |w0| == 12
    requires Swapped(w0, w1, C(1, 4))
    requires Swapped(w1, w2, C(7, 10))
    requires Swapped(w2, w3, C(3, 5))
    requires Swapped(w3, w4, C(6, 8))
    ensures Network12Step6(w0, w4)
  {
  }

  lemma Network12Layer6(layer: seq<Comparator>, v: seq<bool>)
    requires |v| == 12 && layer == [C(1, 4), C(7, 10), C(3, 5), C(6, 8)]
    ensures Network12Step6(v, ApplyLayerBits(layer, 0, v))
  {
    var w1 := CSwapBits(v, C(1, 4));
    CSwapBitsAt(v, C(1, 4));
    assert ApplyLayerBits(layer, 0, v) == ApplyLayerBits(layer, 1, w1);
    var w2 := CSwapBits(w1, C(7, 10));
    CSwapBitsAt(w1, C(7, 10));
    assert ApplyLayerBits(layer, 1, w1) == ApplyLayerBits(layer, 2, w2);
    var w3 := CSwapBits(w2, C(3, 5));
    CSwapBitsAt(w2, C(3, 5));
    assert ApplyLayerBits(layer, 2, w2) == ApplyLayerBits(layer, 3, w3);
    var w4 := CSwapBits(w3, C(6, 8));
    CSwapBitsAt(w3, C(6, 8));
    assert ApplyLayerBits(layer, 3, w3) == ApplyLayerBits(layer, 4, w4);
    Network12Layer6Bits(v, w1, w2, w3, w4);
  }

  predicate Network12Step7(v: seq<bool>, w: seq<bool>)
  {
    |v| == 12 && |w| == 12 && w[0] == v[0] && w[1] == v[1] &&
    w[2] == (v[2] && v[4]) && w[3] == v[3] && w[4] == (v[2] || v[4]) && w[5] == (v[5] && v[6]) &&
    w[6] == (v[5] || v[6]) && w[7] == (v[7] && v[9]) && w[8] == v[8] && w[9] == (v[7] || v[9]) &&
    w[10] == v[10] && w[11] == v[11]
  }

  lemma Network12Layer7Bits(w0: seq<bool>, w1: seq<bool>, w2: seq<bool>, w3: seq<bool>)
    requires |w0| == 12
    requires Swapped(w0, w1, C(2, 4))
    requires Swapped(w1, w2, C(7, 9))
    requires Swapped(w2, w3, C(5, 6))
    ensures Network12Step7(w0, w3)
  {
  }

  lemma Network12Layer7(layer: seq<Comparator>, v: seq<bool>)
    requires |v| == 12 && layer == [C(2, 4), C(7, 9), C(5, 6)]
    ensures Network12Step7(v, ApplyLayerBits(layer, 0, v))
  {
    var w1 := CSwapBits(v, C(2, 4));
    CSwapBitsAt(v, C(2, 4));
    assert ApplyLayerBits(layer, 0, v) == ApplyLayerBits(layer, 1, w1);
    var w2 := CSwapBits(w1, C(7, 9));
    CSwapBitsAt(w1, C(7, 9));
    assert ApplyLayerBits(layer, 1, w1) == ApplyLayerBits(layer, 2, w2);
    var w3 := CSwapBits(w2, C(5, 6));
    CSwapBitsAt(w2, C(5, 6));
    assert ApplyLayerBits(layer, 2, w2) == ApplyLayerBits(layer, 3, w3);
    Network12Layer7Bits(v, w1, w2, w3);
  }

  predicate Network12Step8(v: seq<bool>, w: seq<bool>)
  {
    |v| == 12 && |w| == 12 && w[0] == v[0] && w[1] == v[1] &&
    w[2] == v[2] && w[3] == (v[3] && v[4]) && w[4] == (v[3] || v[4]) && w[5] == v[5] &&
    w[6] == v[6] && w[7] == (v[7] && v[8]) && w[8] == (v[7] || v[8]) && w[9] == v[9] &&
    w[10] == v[10] && w[11] == v[11]
  }

  lemma Network12Layer8Bits(w0: seq<bool>, w1: seq<bool>, w2: seq<bool>)
    requires |w0| == 12
    requires Swapped(w0, w1, C(3, 4))
    requires Swapped(w1, w2, C(7, 8))
    ensures Network12Step8(w0, w2)
  {
  }

  lemma Network12Layer8(layer: seq<Comparator>, v: seq<bool>)
    requires |v| == 12 && layer == [C(3, 4), C(7, 8)]
    ensures Network12Step8(v, ApplyLayerBits(layer, 0, v))
  {
    var w1 := CSwapBits(v, C(3, 4));
    CSwapBitsAt(v, C(3, 4));
    assert ApplyLayerBits(layer, 0, v) == ApplyLayerBits(layer, 1, w1);
    var w2 := CSwapBits(w1, C(7, 8));
    CSwapBitsAt(w1, C(7, 8));
    assert ApplyLayerBits(layer, 1, w1) == ApplyLayerBits(layer, 2, w2);
    Network12Layer8Bits(v, w1, w2);
  }

  lemma Network12Circuit(v0: seq<bool>, v1: seq<bool>, v2: seq<bool>, v3: seq<bool>, v4: seq<bool>, v5: seq<bool>, v6: seq<bool>, v7: seq<bool>, v8: seq<bool>, v9: seq<bool>)
    requires Network12Step0(v0, v1)
    requires Network12Step1(v1, v2)
    requires Network12Step2(v2, v3)
    requires Network12Step3(v3, v4)
    requires Network12Step4(v4, v5)
    requires Network12Step5(v5, v6)
    requires Network12Step6(v6, v7)
    requires Network12Step7(v7, v8)
    requires Network12Step8(v8, v9)
    ensures SortedBits(v9)
  {
  }

  lemma Network12SortsBits(v: seq<bool>)
    requires |v| == 12
    ensures SortedBits(ApplyNetBits(Network12, 0, v))
  {
    var v1 := ApplyLayerBits(Network12[0], 0, v);
    Network12Layer0(Network12[0], v);
    var v2 := ApplyLayerBits(Network12[1], 0, v1);
    Network12Layer1(Network12[1], v1);
    var v3 := ApplyLayerBits(Network12[2], 0, v2);
    Network12Layer2(Network12[2], v2);
    var v4 := ApplyLayerBits(Network12[3], 0, v3);
    Network12Layer3(Network12[3], v3);
    var v5 := ApplyLayerBits(Network12[4], 0, v4);
    Network12Layer4(Network12[4], v4);
    var v6 := ApplyLayerBits(Network12[5], 0, v5);
    Network12Layer5(Network12[5], v5);
    var v7 := ApplyLayerBits(Network12[6], 0, v6);
    Network12Layer6(Network12[6], v6);
    var v8 := ApplyLayerBits(Network12[7], 0, v7);
    Network12Layer7(Network12[7], v7);
    var v9 := ApplyLayerBits(Network12[8], 0, v8);
    Network12Layer8(Network12[8], v8);
    Network12Circuit(v, v1, v2, v3, v4, v5, v6, v7, v8, v9);
    assert ApplyNetBits(Network12, 0, v) == ApplyNetBits(Network12, 1, v1);
    assert ApplyNetBits(Network12, 1, v1) == ApplyNetBits(Network12, 2, v2);
    assert ApplyNetBits(Network12, 2, v2) == ApplyNetBits(Network12, 3, v3);
    assert ApplyNetBits(Network12, 3, v3) == ApplyNetBits(Network12, 4, v4);
    assert ApplyNetBits(Network12, 4, v4) == ApplyNetBits(Network12, 5, v5);
    assert ApplyNetBits(Network12, 5, v5) == ApplyNetBits(Network12, 6, v6);
    assert ApplyNetBits(Network12, 6, v6) == ApplyNetBits(Network12, 7, v7);
    assert ApplyNetBits(Network12, 7, v7) == ApplyNetBits(Network12, 8, v8);
    assert ApplyNetBits(Network12, 8, v8) == ApplyNetBits(Network12, 9, v9);
  }

  // ---- `bitonic_sort_13` ----

  lemma Network13Oriented()
    ensures Oriented(Network13)
  {
    assert forall q :: 0 <= q < |Network13[0]| ==> Network13[0][q].i < Network13[0][q].j;
    assert forall q :: 0 <= q < |Network13[1]| ==> Network13[1][q].i < Network13[1][q].j;
    assert forall q :: 0 <= q < |Network13[2]| ==> Network13[2][q].i < Network13[2][q].j;
    assert forall q :: 0 <= q < |Network13[3]| ==> Network13[3][q].i < Network13[3][q].j;
    assert forall q :: 0 <= q < |Network13[4]| ==> Network13[4][q].i < Network13[4][q].j;
    assert forall q :: 0 <= q < |Network13[5]| ==> Network13[5][q].i < Network13[5][q].j;
    assert forall q :: 0 <= q < |Network13[6]| ==> Network13[6][q].i < Network13[6][q].j;
    assert forall q :: 0 <= q < |Network13[7]| ==> Network13[7][q].i < Network13[7][q].j;
    assert forall q :: 0 <= q < |Network13[8]| ==> Network13[8][q].i < Network13[8][q].j;
    assert forall q :: 0 <= q < |Network13[9]| ==> Network13[9][q].i < Network13[9][q].j;
  }

  predicate Network13Step0(v: seq<bool>, w: seq<bool>)
  {
    |v| == 13 && |w| == 13 && w[0] == (v[0] && v[12]) && w[1] == (v[1] && v[7]) &&
    w[2] == (v[2] && v[6]) && w[3] == (v[3] && v[4]) && w[4] == (v[3] || v[4]) && w[5] == (v[5] && v[8]) &&
    w[6] == (v[2] || v[6]) && w[7] == (v[1] || v[7]) && w[8] == (v[5] || v[8]) && w[9] == (v[9] && v[11]) &&
    w[10] == v[10] && w[11] == (v[9] || v[11]) && w[12] == (v[0] || v[12])
  }

  lemma Network13Layer0Bits(w0: seq<bool>, w1: seq<bool>, w2: seq<bool>, w3: seq<bool>, w4: seq<bool>, w5: seq<bool>, w6: seq<bool>)
    requires |w0| == 13
    requires Swapped(w0, w1, C(1, 7))
    requires Swapped(w1, w2, C(9, 11))
    requires Swapped(w2, w3, C(3, 4))
    requires Swapped(w3, w4, C(5, 8))
    requires Swapped(w4, w5, C(0, 12))
    requires Swapped(w5, w6, C(2, 6))
    ensures Network13Step0(w0, w6)
  {
  }

  lemma Network13Layer0(layer: seq<Comparator>, v: seq<bool>)
    requires |v| == 13 && layer == [C(1, 7), C(9, 11), C(3, 4), C(5, 8), C(0, 12), C(2, 6)]
    ensures Network13Step0(v, ApplyLayerBits(layer, 0, v))
  {
    var w1 := CSwapBits(v, C(1, 7));
    CSwapBitsAt(v, C(1, 7));
    assert ApplyLayerBits(layer, 0, v) == ApplyLayerBits(layer, 1, w1);
    var w2 := CSwapBits(w1, C(9, 11));
    CSwapBitsAt(w1, C(9, 11));
    assert ApplyLayerBits(layer, 1, w1) == ApplyLayerBits(layer, 2, w2);
    var w3 := CSwapBits(w2, C(3, 4));
    CSwapBitsAt(w2, C(3, 4));
    assert ApplyLayerBits(layer, 2, w2) == ApplyLayerBits(layer, 3, w3);
    var w4 := CSwapBits(w3, C(5, 8));
    CSwapBitsAt(w3, C(5, 8));
    assert ApplyLayerBits(layer, 3, w3) == ApplyLayerBits(layer, 4, w4);
    var w5 := CSwapBits(w4, C(0, 12));
    CSwapBitsAt(w4, C(0, 12));
    assert ApplyLayerBits(layer, 4, w4) == ApplyLayerBits(layer, 5, w5);
    var w6 := CSwapBits(w5, C(2, 6));
    CSwapBitsAt(w5, C(2, 6));
    assert ApplyLayerBits(layer, 5, w5) == ApplyLayerBits(layer, 6, w6);
    Network13Layer0Bits(v, w1, w2, w3, w4, w5, w6);
  }

  predicate Network13Step1(v: seq<bool>, w: seq<bool>)
  {
    |v| == 13 && |w| == 13 && w[0] == (v[0] && v[1]) && w[1] == (v[0] || v[1]) &&
    w[2] == (v[2] && v[3]) && w[3] == (v[2] || v[3]) && w[4] == (v[4] && v[6]) && w[5] == (v[5] && v[9]) &&
    w[6] == (v[4] || v[6]) && w[7] == (v[7] && v[12]) && w[8] == (v[8] && v[11]) && w[9] == (v[5] || v[9]) &&
    w[10] == v[10] && w[11] == (v[8] || v[11]) && w[12] == (v[7] || v[12])
  }

  lemma Network13Layer1Bits(w0: seq<bool>, w1: seq<bool>, w2: seq<bool>, w3: seq<bool>, w4: seq<bool>, w5: seq<bool>, w6: seq<bool>)
    requires |w0| == 13
    requires Swapped(w0, w1, C(0, 1))
    requires Swapped(w1, w2, C(2, 3))
    requires Swapped(w2, w3, C(4, 6))
    requires Swapped(w3, w4, C(8, 11))
    requires Swapped(w4, w5, C(7, 12))
    requires Swapped(w5, w6, C(5, 9))
    ensures Network13Step1(w0, w6)
  {
  }

  lemma Network13Layer1(layer: seq<Comparator>, v: seq<bool>)
    requires |v| == 13 && layer == [C(0, 1), C(2, 3), C(4, 6), C(8, 11), C(7, 12), C(5, 9)]
    ensures Network13Step1(v, ApplyLayerBits(layer, 0, v))
  {
    var w1 := CSwapBits(v, C(0, 1));
    CSwapBitsAt(v, C(0, 1));
    assert ApplyLayerBits(layer, 0, v) == ApplyLayerBits(layer, 1, w1);
    var w2 := CSwapBits(w1, C(2, 3));
    CSwapBitsAt(w1, C(2, 3));
    assert ApplyLayerBits(layer, 1, w1) == ApplyLayerBits(layer, 2, w2);
    var w3 := CSwapBits(w2, C(4, 6));
    CSwapBitsAt(w2, C(4, 6));
    assert ApplyLayerBits(layer, 2, w2) == ApplyLayerBits(layer, 3, w3);
    var w4 := CSwapBits(w3, C(8, 11));
    CSwapBitsAt(w3, C(8, 11));
    assert ApplyLayerBits(layer, 3, w3) == ApplyLayerBits(layer, 4, w4);
    var w5 := CSwapBits(w4, C(7, 12));
    CSwapBitsAt(w4, C(7, 12));
    assert ApplyLayerBits(layer, 4, w4) == ApplyLayerBits(layer, 5, w5);
    var w6 := CSwapBits(w5, C(5, 9));
    CSwapBitsAt(w5, C(5, 9));
    assert ApplyLayerBits(layer, 5, w5) == ApplyLayerBits(layer, 6, w6);
    Network13Layer1Bits(v, w1, w2, w3, w4, w5, w6);
  }

  predicate Network13Step2(v: seq<bool>, w: seq<bool>)
  {
    |v| == 13 && |w| == 13 && w[0] == (v[0] && v[2]) && w[1] == (v[1] && v[4]) &&
    w[2] == (v[0] || v[2]) && w[3] == (v[3] && v[7]) && w[4] == (v[1] || v[4]) && w[5] == v[5] &&
    w[6] == (v[6] && v[12]) && w[7] == (v[3] || v[7]) && w[8] == v[8] && w[9] == v[9] &&
    w[10] == (v[10] && v[11]) && w[11] == (v[10] || v[11]) && w[12] == (v[6] || v[12])
  }

  lemma Network13Layer2Bits(w0: seq<bool>, w1: seq<bool>, w2: seq<bool>, w3: seq<bool>, w4: seq<bool>, w5: seq<bool>)
    requires |w0| == 13
    requires Swapped(w0, w1, C(0, 2))
    requires Swapped(w1, w2, C(3, 7))
    requires Swapped(w2, w3, C(10, 11))
    requires Swapped(w3, w4, C(1, 4))
    requires Swapped(w4, w5, C(6, 12))
    ensures Network13Step2(w0, w5)
  {
  }

  lemma Network13Layer2(layer: seq<Comparator>, v: seq<bool>)
    requires |v| == 13 && layer == [C(0, 2), C(3, 7), C(10, 11), C(1, 4), C(6, 12)]
    ensures Network13Step2(v, ApplyLayerBits(layer, 0, v))
  {
    var w1 := CSwapBits(v, C(0, 2));
    CSwapBitsAt(v, C(0, 2));
    assert ApplyLayerBits(layer, 0, v) == ApplyLayerBits(layer, 1, w1);
    var w2 := CSwapBits(w1, C(3, 7));
    CSwapBitsAt(w1, C(3, 7));
    assert ApplyLayerBits(layer, 1, w1) == ApplyLayerBits(layer, 2, w2);
    var w3 := CSwapBits(w2, C(10, 11));
    CSwapBitsAt(w2, C(10, 11));
    assert ApplyLayerBits(layer, 2, w2) == ApplyLayerBits(layer, 3, w3);
    var w4 := CSwapBits(w3, C(1, 4));
    CSwapBitsAt(w3, C(1, 4));
    assert ApplyLayerBits(layer, 3, w3) == ApplyLayerBits(layer, 4, w4);
    var w5 := CSwapBits(w4, C(6, 12));
    CSwapBitsAt(w4, C(6, 12));
    assert ApplyLayerBits(layer, 4, w4) == ApplyLayerBits(layer, 5, w5);
    Network13Layer2Bits(v, w1, w2, w3, w4, w5);
  }

  predicate Network13Step3(v: seq<bool>, w: seq<bool>)
  {
    |v| == 13 && |w| == 13 && w[0] == v[0] && w[1] == v[1] &&
    w[2] == v[2] && w[3] == v[3] && w[4] == (v[4] && v[9]) && w[5] == v[5] &&
    w[6] == (v[6] && v[10]) && w[7] == (v[7] && v[8]) && w[8] == (v[7] || v[8]) && w[9] == (v[4] || v[9]) &&
    w[10] == (v[6] || v[10]) && w[11] == (v[11] && v[12]) && w[12] == (v[11] || v[12])
  }

  lemma Network13Layer3Bits(w0: seq<bool>, w1: seq<bool>, w2: seq<bool>, w3: seq<bool>, w4: seq<bool>)
    requires |w0| == 13
    requires Swapped(w0, w1, C(7, 8))
    requires Swapped(w1, w2, C(11, 12))
    requires Swapped(w2, w3, C(4, 9))
    requires Swapped(w3, w4, C(6, 10))
    ensures Network13Step3(w0, w4)
  {
  }

  lemma Network13Layer3(layer: seq<Comparator>, v: seq<bool>)
    requires |v| == 13 && layer == [C(7, 8), C(11, 12), C(4, 9), C(6, 10)]
    ensures Network13Step3(v, ApplyLayerBits(layer, 0, v))
  {
    var w1 := CSwapBits(v, C(7, 8));
    CSwapBitsAt(v, C(7, 8));
    assert ApplyLayerBits(layer, 0, v) == ApplyLayerBits(layer, 1, w1);
    var w2 := CSwapBits(w1, C(11, 12));
    CSwapBitsAt(w1, C(11, 12));
    assert ApplyLayerBits(layer, 1, w1) == ApplyLayerBits(layer, 2, w2);
    var w3 := CSwapBits(w2, C(4, 9));
    CSwapBitsAt(w2, C(4, 9));
    assert ApplyLayerBits(layer, 2, w2) == ApplyLayerBits(layer, 3, w3);
    var w4 := CSwapBits(w3, C(6, 10));
    CSwapBitsAt(w3, C(6, 10));
    assert ApplyLayerBits(layer, 3, w3) == ApplyLayerBits(layer, 4, w4);
    Network13Layer3Bits(v, w1, w2, w3, w4);
  }

  predicate Network13Step4(v: seq<bool>, w: seq<bool>)
  {
    |v| == 13 && |w| == 13 && w[0] == v[0] && w[1] == (v[1] && v[7]) &&
    w[2] == v[2] && w[3] == (v[3] && v[4]) && w[4] == (v[3] || v[4]) && w[5] == (v[5] && v[6]) &&
    w[6] == (v[5] || v[6]) && w[7] == (v[1] || v[7]) && w[8] == (v[8] && v[9]) && w[9] == (v[8] || v[9]) &&
    w[10] == (v[10] && v[11]) && w[11] == (v[10] || v[11]) && w[12] == v[12]
  }

  lemma Network13Layer4Bits(w0: seq<bool>, w1: seq<bool>, w2: seq<bool>, w3: seq<bool>, w4: seq<bool>, w5: seq<bool>)
    requires |w0| == 13
    requires Swapped(w0, w1, C(3, 4))
    requires Swapped(w1, w2, C(5, 6))
    requires Swapped(w2, w3, C(8, 9))
    requires Swapped(w3, w4, C(10, 11))
    requires Swapped(w4, w5, C(1, 7))
    ensures Network13Step4(w0, w5)
  {
  }

  lemma Network13Layer4(layer: seq<Comparator>, v: seq<bool>)
    requires |v| == 13 && layer == [C(3, 4), C(5, 6), C(8, 9), C(10, 11), C(1, 7)]
    ensures Network13Step4(v, ApplyLayerBits(layer, 0, v))
  {
    var w1 := CSwapBits(v, C(3, 4));
    CSwapBitsAt(v, C(3, 4));
    assert ApplyLayerBits(layer, 0, v) == ApplyLayerBits(layer, 1, w1);
    var w2 := CSwapBits(w1, C(5, 6));
    CSwapBitsAt(w1, C(5, 6));
    assert ApplyLayerBits(layer, 1, w1) == ApplyLayerBits(layer, 2, w2);
    var w3 := CSwapBits(w2, C(8, 9));
    CSwapBitsAt(w2, C(8, 9));
    assert ApplyLayerBits(layer, 2, w2) == ApplyLayerBits(layer, 3, w3);
    var w4 := CSwapBits(w3, C(10, 11));
    CSwapBitsAt(w3, C(10, 11));
    assert ApplyLayerBits(layer, 3, w3) == ApplyLayerBits(layer, 4, w4);
    var w5 := CSwapBits(w4, C(1, 7));
    CSwapBitsAt(w4, C(1, 7));
    assert ApplyLayerBits(layer, 4, w4) == ApplyLayerBits(layer, 5, w5);
    Network13Layer4Bits(v, w1, w2, w3, w4, w5);
  }

  predicate Network13Step5(v: seq<bool>, w: seq<bool>)
  {
    |v| == 13 && |w| == 13 && w[0] == (v[0] && v[5]) && w[1] == (v[1] && v[3]) &&
    w[2] == (v[2] && v[6]) && w[3] == (v[1] || v[3]) && w[4] == (v[4] && v[7]) && w[5] == (v[0] || v[5]) &&
    w[6] == (v[2] || v[6]) && w[7] == (v[4] || v[7]) && w[8] == (v[8] && v[10]) && w[9] == (v[9] && v[11]) &&
    w[10] == (v[8] || v[10]) && w[11] == (v[9] || v[11]) && w[12] == v[12]
  }

  lemma Network13Layer5Bits(w0: seq<bool>, w1: seq<bool>, w2: seq<bool>, w3: seq<bool>, w4: seq<bool>, w5: seq<bool>, w6: seq<bool>)
    requires |w0| == 13
    requires Swapped(w0, w1, C(2, 6))
    requires Swapped(w1, w2, C(9, 11))
    requires Swapped(w2, w3, C(1, 3))
    requires Swapped(w3, w4, C(4, 7))
    requires Swapped(w4, w5, C(8, 10))
    requires Swapped(w5, w6, C(0, 5))
    ensures Network13Step5(w0, w6)
  {
  }

  lemma Network13Layer5(layer: seq<Comparator>, v: seq<bool>)
    requires |v| == 13 && layer == [C(2, 6), C(9, 11), C(1, 3), C(4, 7), C(8, 10), C(0, 5)]
    ensures Network13Step5(v, ApplyLayerBits(layer, 0, v))
  {
    var w1 := CSwapBits(v, C(2, 6));
    CSwapBitsAt(v, C(2, 6));
    assert ApplyLayerBits(layer, 0, v) == ApplyLayerBits(layer, 1, w1);
    var w2 := CSwapBits(w1, C(9, 11));
    CSwapBitsAt(w1, C(9, 11));
    assert ApplyLayerBits(layer, 1, w1) == ApplyLayerBits(layer, 2, w2);
    var w3 := CSwapBits(w2, C(1, 3));
    CSwapBitsAt(w2, C(1, 3));
    assert ApplyLayerBits(layer, 2, w2) == ApplyLayerBits(layer, 3, w3);
    var w4 := CSwapBits(w3, C(4, 7));
    CSwapBitsAt(w3, C(4, 7));
    assert ApplyLayerBits(layer, 3, w3) == ApplyLayerBits(layer, 4, w4);
    var w5 := CSwapBits(w4, C(8, 10));
    CSwapBitsAt(w4, C(8, 10));
    assert ApplyLayerBits(layer, 4, w4) == ApplyLayerBits(layer, 5, w5);
    var w6 := CSwapBits(w5, C(0, 5));
    CSwapBitsAt(w5, C(0, 5));
    assert ApplyLayerBits(layer, 5, w5) == ApplyLayerBits(layer, 6, w6);
    Network13Layer5Bits(v, w1, w2, w3, w4, w5, w6);
  }

  predicate Network13Step6(v: seq<bool>, w: seq<bool>)
  {
    |v| == 13 && |w| == 13 && w[0] == v[0] && w[1] == v[1] &&
    w[2] == (v[2] && v[5]) && w[3] == v[3] && w[4] == v[4] && w[5] == (v[2] || v[5]) &&
    w[6] == (v[6] && v[8]) && w[7] == v[7] && w[8] == (v[6] || v[8]) && w[9] == (v[9] && v[10]) &&
    w[10] == (v[9] || v[10]) && w[11] == v[11] && w[12] == v[12]
  }

  lemma Network13Layer6Bits(w0: seq<bool>, w1: seq<bool>, w2: seq<bool>, w3: seq<bool>)
    requires |w0| == 13
    requires Swapped(w0, w1, C(2, 5))
    requires Swapped(w1, w2, C(6, 8))
    requires Swapped(w2, w3, C(9, 10))
    ensures Network13Step6(w0, w3)
  {
  }

  lemma Network13Layer6(layer: seq<Comparator>, v: seq<bool>)
    requires |v| == 13 && layer == [C(2, 5), C(6, 8), C(9, 10)]
    ensures Network13Step6(v, ApplyLayerBits(layer, 0, v))
  {
    var w1 := CSwapBits(v, C(2, 5));
    CSwapBitsAt(v, C(2, 5));
    assert ApplyLayerBits(layer, 0, v) == ApplyLayerBits(layer, 1, w1);
    var w2 := CSwapBits(w1, C(6, 8));
    CSwapBitsAt(w1, C(6, 8));
    assert ApplyLayerBits(layer, 1, w1) == ApplyLayerBits(layer, 2, w2);
    var w3 := CSwapBits(w2, C(9, 10));
    CSwapBitsAt(w2, C(9, 10));
    assert ApplyLayerBits(layer, 2, w2) == ApplyLayerBits(layer, 3, w3);
    Network13Layer6Bits(v, w1, w2, w3);
  }

  predicate Network13Step7(v: seq<bool>, w: seq<bool>)
  {
    |v| == 13 && |w| == 13 && w[0] == v[0] && w[1] == (v[1] && v[2]) &&
    w[2] == (v[1] || v[2]) && w[3] == (v[3] && v[5]) && w[4] == (v[4] && v[6]) && w[5] == (v[3] || v[5]) &&
    w[6] == (v[4] || v[6]) && w[7] == (v[7] && v[8]) && w[8] == (v[7] || v[8]) && w[9] == v[9] &&
    w[10] == v[10] && w[11] == v[11] && w[12] == v[12]
  }

  lemma Network13Layer7Bits(w0: seq<bool>, w1: seq<bool>, w2: seq<bool>, w3: seq<bool>, w4: seq<bool>)
    requires |w0| == 13
    requires Swapped(w0, w1, C(1, 2))
    requires Swapped(w1, w2, C(3, 5))
    requires Swapped(w2, w3, C(7, 8))
    requires Swapped(w3, w4, C(4, 6))
    ensures Network13Step7(w0, w4)
  {
  }

  lemma Network13Layer7(layer: seq<Comparator>, v: seq<bool>)
    requires |v| == 13 && layer == [C(1, 2), C(3, 5), C(7, 8), C(4, 6)]
    ensures Network13Step7(v, ApplyLayerBits(layer, 0, v))
  {
    var w1 := CSwapBits(v, C(1, 2));
    CSwapBitsAt(v, C(1, 2));
    assert ApplyLayerBits(layer, 0, v) == ApplyLayerBits(layer, 1, w1);
    var w2 := CSwapBits(w1, C(3, 5));
    CSwapBitsAt(w1, C(3, 5));
    assert ApplyLayerBits(layer, 1, w1) == ApplyLayerBits(layer, 2, w2);
    var w3 := CSwapBits(w2, C(7, 8));
    CSwapBitsAt(w2, C(7, 8));
    assert ApplyLayerBits(layer, 2, w2) == ApplyLayerBits(layer, 3, w3);
    var w4 := CSwapBits(w3, C(4, 6));
    CSwapBitsAt(w3, C(4, 6));
    assert ApplyLayerBits(layer, 3, w3) == ApplyLayerBits(layer, 4, w4);
    Network13Layer7Bits(v, w1, w2, w3, w4);
  }

  predicate Network13Step8(v: seq<bool>, w: seq<bool>)
  {
    |v| == 13 && |w| == 13 && w[0] == v[0] && w[1] == v[1] &&
    w[2] == (v[2] && v[3]) && w[3] == (v[2] || v[3]) && w[4] == (v[4] && v[5]) && w[5] == (v[4] || v[5]) &&
    w[6] == (v[6] && v[7]) && w[7] == (v[6] || v[7]) && w[8] == (v[8] && v[9]) && w[9] == (v[8] || v[9]) &&
    w[10] == v[10] && w[11] == v[11] && w[12] == v[12]
  }

  lemma Network13Layer8Bits(w0: seq<bool>, w1: seq<bool>, w2: seq<bool>, w3: seq<bool>, w4: seq<bool>)
    requires |w0| == 13
    requires Swapped(w0, w1, C(2, 3))
    requires Swapped(w1, w2, C(4, 5))
    requires Swapped(w2, w3, C(6, 7))
    requires Swapped(w3, w4, C(8, 9))
    ensures Network13Step8(w0, w4)
  {
  }

  lemma Network13Layer8(layer: seq<Comparator>, v: seq<bool>)
    requires |v| == 13 && layer == [C(2, 3), C(4, 5), C(6, 7), C(8, 9)]
    ensures Network13Step8(v, ApplyLayerBits(layer, 0, v))
  {
    var w1 := CSwapBits(v, C(2, 3));
    CSwapBitsAt(v, C(2, 3));
    assert ApplyLayerBits(layer, 0, v) == ApplyLayerBits(layer, 1, w1);
    var w2 := CSwapBits(w1, C(4, 5));
    CSwapBitsAt(w1, C(4, 5));
    assert ApplyLayerBits(layer, 1, w1) == ApplyLayerBits(layer, 2, w2);
    var w3 := CSwapBits(w2, C(6, 7));
    CSwapBitsAt(w2, C(6, 7));
    assert ApplyLayerBits(layer, 2, w2) == ApplyLayerBits(layer, 3, w3);
    var w4 := CSwapBits(w3, C(8, 9));
    CSwapBitsAt(w3, C(8, 9));
    assert ApplyLayerBits(layer, 3, w3) == ApplyLayerBits(layer, 4, w4);
    Network13Layer8Bits(v, w1, w2, w3, w4);
  }

  predicate Network13Step9(v: seq<bool>, w: seq<bool>)
  {
    |v| == 13 && |w| == 13 && w[0] == v[0] && w[1] == v[1] &&
    w[2] == v[2] && w[3] == (v[3] && v[4]) && w[4] == (v[3] || v[4]) && w[5] == (v[5] && v[6]) &&
    w[6] == (v[5] || v[6]) && w[7] == v[7] && w[8] == v[8] && w[9] == v[9] &&
    w[10] == v[10] && w[11] == v[11] && w[12] == v[12]
  }

  lemma Network13Layer9Bits(w0: seq<bool>, w1: seq<bool>, w2: seq<bool>)
    requires |w0| == 13
    requires Swapped(w0, w1, C(3, 4))
    requires Swapped(w1, w2, C(5, 6))
    ensures Network13Step9(w0, w2)
  {
  }

  lemma Network13Layer9(layer: seq<Comparator>, v: seq<bool>)
    requires |v| == 13 && layer == [C(3, 4), C(5, 6)]
    ensures Network13Step9(v, ApplyLayerBits(layer, 0, v))
  {
    var w1 := CSwapBits(v, C(3, 4));
    CSwapBitsAt(v, C(3, 4));
    assert ApplyLayerBits(layer, 0, v) == ApplyLayerBits(layer, 1, w1);
    var w2 := CSwapBits(w1, C(5, 6));
    CSwapBitsAt(w1, C(5, 6));
    assert ApplyLayerBits(layer, 1, w1) == ApplyLayerBits(layer, 2, w2);
    Network13Layer9Bits(v, w1, w2);
  }

  lemma Network13Circuit(v0: seq<bool>, v1: seq<bool>, v2: seq<bool>, v3: seq<bool>, v4: seq<bool>, v5: seq<bool>, v6: seq<bool>, v7: seq<bool>, v8: seq<bool>, v9: seq<bool>, v10: seq<bool>)
    requires Network13Step0(v0, v1)
    requires Network13Step1(v1, v2)
    requires Network13Step2(v2, v3)
    requires Network13Step3(v3, v4)
    requires Network13Step4(v4, v5)
    requires Network13Step5(v5, v6)
    requires Network13Step6(v6, v7)
    requires Network13Step7(v7, v8)
    requires Network13Step8(v8, v9)
    requires Network13Step9(v9, v10)
    ensures SortedBits(v10)
  {
  }

  lemma Network13SortsBits(v: seq<bool>)
    requires |v| == 13
    ensures SortedBits(ApplyNetBits(Network13, 0, v))
  {
    var v1 := ApplyLayerBits(Network13[0], 0, v);
    Network13Layer0(Network13[0], v);
    var v2 := ApplyLayerBits(Network13[1], 0, v1);
    Network13Layer1(Network13[1], v1);
    var v3 := ApplyLayerBits(Network13[2], 0, v2);
    Network13Layer2(Network13[2], v2);
    var v4 := ApplyLayerBits(Network13[3], 0, v3);
    Network13Layer3(Network13[3], v3);
    var v5 := ApplyLayerBits(Network13[4], 0, v4);
    Network13Layer4(Network13[4], v4);
    var v6 := ApplyLayerBits(Network13[5], 0, v5);
    Network13Layer5(Network13[5], v5);
    var v7 := ApplyLayerBits(Network13[6], 0, v6);
    Network13Layer6(Network13[6], v6);
    var v8 := ApplyLayerBits(Network13[7], 0, v7);
    Network13Layer7(Network13[7], v7);
    var v9 := ApplyLayerBits(Network13[8], 0, v8);
    Network13Layer8(Network13[8], v8);
    var v10 := ApplyLayerBits(Network13[9], 0, v9);
    Network13Layer9(Network13[9], v9);
    Network13Circuit(v, v1, v2, v3, v4, v5, v6, v7, v8, v9, v10);
    assert ApplyNetBits(Network13, 0, v) == ApplyNetBits(Network13, 1, v1);
    assert ApplyNetBits(Network13, 1, v1) == ApplyNetBits(Network13, 2, v2);
    assert ApplyNetBits(Network13, 2, v2) == ApplyNetBits(Network13, 3, v3);
    assert ApplyNetBits(Network13, 3, v3) == ApplyNetBits(Network13, 4, v4);
    assert ApplyNetBits(Network13, 4, v4) == ApplyNetBits(Network13, 5, v5);
    assert ApplyNetBits(Network13, 5, v5) == ApplyNetBits(Network13, 6, v6);
    assert ApplyNetBits(Network13, 6, v6) == ApplyNetBits(Network13, 7, v7);
    assert ApplyNetBits(Network13, 7, v7) == ApplyNetBits(Network13, 8, v8);
    assert ApplyNetBits(Network13, 8, v8) == ApplyNetBits(Network13, 9, v9);
    assert ApplyNetBits(Network13, 9, v9) == ApplyNetBits(Network13, 10, v10);
  }

  // ---- `bitonic_sort_14` ----

  lemma Network14Oriented()
    ensures Oriented(Network14)
  {
    assert forall q :: 0 <= q < |Network14[0]| ==> Network14[0][q].i < Network14[0][q].j;
    assert forall q :: 0 <= q < |Network14[1]| ==> Network14[1][q].i < Network14[1][q].j;
    assert forall q :: 0 <= q < |Network14[2]| ==> Network14[2][q].i < Network14[2][q].j;
    assert forall q :: 0 <= q < |Network14[3]| ==> Network14[3][q].i < Network14[3][q].j;
    assert forall q :: 0 <= q < |Network14[4]| ==> Network14[4][q].i < Network14[4][q].j;
    assert forall q :: 0 <= q < |Network14[5]| ==> Network14[5][q].i < Network14[5][q].j;
    assert forall q :: 0 <= q < |Network14[6]| ==> Network14[6][q].i < Network14[6][q].j;
    assert forall q :: 0 <= q < |Network14[7]| ==> Network14[7][q].i < Network14[7][q].j;
    assert forall q :: 0 <= q < |Network14[8]| ==> Network14[8][q].i < Network14[8][q].j;
    assert forall q :: 0 <= q < |Network14[9]| ==> Network14[9][q].i < Network14[9][q].j;
  }

  predicate Network14Step0(v: seq<bool>, w: seq<bool>)
  {
    |v| == 14 && |w| == 14 && w[0] == (v[0] && v[1]) && w[1] == (v[0] || v[1]) &&
    w[2] == (v[2] && v[3]) && w[3] == (v[2] || v[3]) && w[4] == (v[4] && v[5]) && w[5] == (v[4] || v[5]) &&
    w[6] == (v[6] && v[7]) && w[7] == (v[6] || v[7]) && w[8] == (v[8] && v[9]) && w[9] == (v[8] || v[9]) &&
    w[10] == (v[10] && v[11]) && w[11] == (v[10] || v[11]) && w[12] == (v[12] && v[13]) && w[13] == (v[12] || v[13])
  }

  lemma Network14Layer0Bits(w0: seq<bool>, w1: seq<bool>, w2: seq<bool>, w3: seq<bool>, w4: seq<bool>, w5: seq<bool>, w6: seq<bool>, w7: seq<bool>)
    requires |w0| == 14
    requires Swapped(w0, w1, C(0, 1))
    requires Swapped(w1, w2, C(2, 3))
    requires Swapped(w2, w3, C(4, 5))
    requires Swapped(w3, w4, C(6, 7))
    requires Swapped(w4, w5, C(8, 9))
    requires Swapped(w5, w6, C(10, 11))
    requires Swapped(w6, w7, C(12, 13))
    ensures Network14Step0(w0, w7)
  {
  }

  lemma Network14Layer0(layer: seq<Comparator>, v: seq<bool>)
    requires |v| == 14 && layer == [C(0, 1), C(2, 3), C(4, 5), C(6, 7), C(8, 9), C(10, 11), C(12, 13)]
    ensures Network14Step0(v, ApplyLayerBits(layer, 0, v))
  {
    var w1 := CSwapBits(v, C(0, 1));
    CSwapBitsAt(v, C(0, 1));
    assert ApplyLayerBits(layer, 0, v) == ApplyLayerBits(layer, 1, w1);
    var w2 := CSwapBits(w1, C(2, 3));
    CSwapBitsAt(w1, C(2, 3));
    assert ApplyLayerBits(layer, 1, w1) == ApplyLayerBits(layer, 2, w2);
    var w3 := CSwapBits(w2, C(4, 5));
    CSwapBitsAt(w2, C(4, 5));
    assert ApplyLayerBits(layer, 2, w2) == ApplyLayerBits(layer, 3, w3);
    var w4 := CSwapBits(w3, C(6, 7));
    CSwapBitsAt(w3, C(6, 7));
    assert ApplyLayerBits(layer, 3, w3) == ApplyLayerBits(layer, 4, w4);
    var w5 := CSwapBits(w4, C(8, 9));
    CSwapBitsAt(w4, C(8, 9));
    assert ApplyLayerBits(layer, 4, w4) == ApplyLayerBits(layer, 5, w5);
    var w6 := CSwapBits(w5, C(10, 11));
    CSwapBitsAt(w5, C(10, 11));
    assert ApplyLayerBits(layer, 5, w5) == ApplyLayerBits(layer, 6, w6);
    var w7 := CSwapBits(w6, C(12, 13));
    CSwapBitsAt(w6, C(12, 13));
    assert ApplyLayerBits(layer, 6, w6) == ApplyLayerBits(layer, 7, w7);
    Network14Layer0Bits(v, w1, w2, w3, w4, w5, w6, w7);
  }

  predicate Network14Step1(v: seq<bool>, w: seq<bool>)
  {
    |v| == 14 && |w| == 14 && w[0] == (v[0] && v[2]) && w[1] == (v[1] && v[3]) &&
    w[2] == (v[0] || v[2]) && w[3] == (v[1] || v[3]) && w[4] == (v[4] && v[6]) && w[5] == (v[5] && v[7]) &&
    w[6] == (v[4] || v[6]) && w[7] == (v[5] || v[7]) && w[8] == (v[8] && v[10]) && w[9] == (v[9] && v[11]) &&
    w[10] == (v[8] || v[10]) && w[11] == (v[9] || v[11]) && w[12] == v[12] && w[13] == v[13]
  }

  lemma Network14Layer1Bits(w0: seq<bool>, w1: seq<bool>, w2: seq<bool>, w3: seq<bool>, w4: seq<bool>, w5: seq<bool>, w6: seq<bool>)
    requires |w0| == 14
    requires Swapped(w0, w1, C(0, 2))
    requires Swapped(w1, w2, C(4, 6))
    requires Swapped(w2, w3, C(8, 10))
    requires Swapped(w3, w4, C(1, 3))
    requires Swapped(w4, w5, C(5, 7))
    requires Swapped(w5, w6, C(9, 11))
    ensures Network14Step1(w0, w6)
  {
  }

  lemma Network14Layer1(layer: seq<Comparator>, v: seq<bool>)
    requires |v| == 14 && layer == [C(0, 2), C(4, 6), C(8, 10), C(1, 3), C(5, 7), C(9, 11)]
    ensures Network14Step1(v, ApplyLayerBits(layer, 0, v))
  {
    var w1 := CSwapBits(v, C(0, 2));
    CSwapBitsAt(v, C(0, 2));
    assert ApplyLayerBits(layer, 0, v) == ApplyLayerBits(layer, 1, w1);
    var w2 := CSwapBits(w1, C(4, 6));
    CSwapBitsAt(w1, C(4, 6));
    assert ApplyLayerBits(layer, 1, w1) == ApplyLayerBits(layer, 2, w2);
    var w3 := CSwapBits(w2, C(8, 10));
    CSwapBitsAt(w2, C(8, 10));
    assert ApplyLayerBits(layer, 2, w2) == ApplyLayerBits(layer, 3, w3);
    var w4 := CSwapBits(w3, C(1, 3));
    CSwapBitsAt(w3, C(1, 3));
    assert ApplyLayerBits(layer, 3, w3) == ApplyLayerBits(layer, 4, w4);
    var w5 := CSwapBits(w4, C(5, 7));
    CSwapBitsAt(w4, C(5, 7));
    assert ApplyLayerBits(layer, 4, w4) == ApplyLayerBits(layer, 5, w5);
    var w6 := CSwapBits(w5, C(9, 11));
    CSwapBitsAt(w5, C(9, 11));
    assert ApplyLayerBits(layer, 5, w5) == ApplyLayerBits(layer, 6, w6);
    Network14Layer1Bits(v, w1, w2, w3, w4, w5, w6);
  }

  predicate Network14Step2(v: seq<bool>, w: seq<bool>)
  {
    |v| == 14 && |w| == 14 && w[0] == (v[0] && v[4]) && w[1] == (v[1] && v[5]) &&
    w[2] == (v[2] && v[6]) && w[3] == (v[3] && v[7]) && w[4] == (v[0] || v[4]) && w[5] == (v[1] || v[5]) &&
    w[6] == (v[2] || v[6]) && w[7] == (v[3] || v[7]) && w[8] == (v[8] && v[12]) && w[9] == (v[9] && v[13]) &&
    w[10] == v[10] && w[11] == v[11] && w[12] == (v[8] || v[12]) && w[13] == (v[9] || v[13])
  }

  lemma Network14Layer2Bits(w0: seq<bool>, w1: seq<bool>, w2: seq<bool>, w3: seq<bool>, w4: seq<bool>, w5: seq<bool>, w6: seq<bool>)
    requires |w0| == 14
    requires Swapped(w0, w1, C(0, 4))
    requires Swapped(w1, w2, C(8, 12))
    requires Swapped(w2, w3, C(1, 5))
    requires Swapped(w3, w4, C(9, 13))
    requires Swapped(w4, w5, C(2, 6))
    requires Swapped(w5, w6, C(3, 7))
    ensures Network14Step2(w0, w6)
  {
  }

  lemma Network14Layer2(layer: seq<Comparator>, v: seq<bool>)
    requires |v| == 14 && layer == [C(0, 4), C(8, 12), C(1, 5), C(9, 13), C(2, 6), C(3, 7)]
    ensures Network14Step2(v, ApplyLayerBits(layer, 0, v))
  {
    var w1 := CSwapBits(v, C(0, 4));
    CSwapBitsAt(v, C(0, 4));
    assert ApplyLayerBits(layer, 0, v) == ApplyLayerBits(layer, 1, w1);
    var w2 := CSwapBits(w1, C(8, 12));
    CSwapBitsAt(w1, C(8, 12));
    assert ApplyLayerBits(layer, 1, w1) == ApplyLayerBits(layer, 2, w2);
    var w3 := CSwapBits(w2, C(1, 5));
    CSwapBitsAt(w2, C(1, 5));
    assert ApplyLayerBits(layer, 2, w2) == ApplyLayerBits(layer, 3, w3);
    var w4 := CSwapBits(w3, C(9, 13));
    CSwapBitsAt(w3, C(9, 13));
    assert ApplyLayerBits(layer, 3, w3) == ApplyLayerBits(layer, 4, w4);
    var w5 := CSwapBits(w4, C(2, 6));
    CSwapBitsAt(w4, C(2, 6));
    assert ApplyLayerBits(layer, 4, w4) == ApplyLayerBits(layer, 5, w5);
    var w6 := CSwapBits(w5, C(3, 7));
    CSwapBitsAt(w5, C(3, 7));
    assert ApplyLayerBits(layer, 5, w5) == ApplyLayerBits(layer, 6, w6);
    Network14Layer2Bits(v, w1, w2, w3, w4, w5, w6);
  }

  predicate Network14Step3(v: seq<bool>, w: seq<bool>)
  {
    |v| == 14 && |w| == 14 && w[0] == (v[0] && v[8]) && w[1] == (v[1] && v[9]) &&
    w[2] == (v[2] && v[10]) && w[3] == (v[3] && v[11]) && w[4] == (v[4] && v[12]) && w[5] == (v[5] && v[13]) &&
    w[6] == v[6] && w[7] == v[7] && w[8] == (v[0] || v[8]) && w[9] == (v[1] || v[9]) &&
    w[10] == (v[2] || v[10]) && w[11] == (v[3] || v[11]) && w[12] == (v[4] || v[12]) && w[13] == (v[5] || v[13])
  }

  lemma Network14Layer3Bits(w0: seq<bool>, w1: seq<bool>, w2: seq<bool>, w3: seq<bool>, w4: seq<bool>, w5: seq<bool>, w6: seq<bool>)
    requires |w0| == 14
    requires Swapped(w0, w1, C(0, 8))
    requires Swapped(w1, w2, C(1, 9))
    requires Swapped(w2, w3, C(2, 10))
    requires Swapped(w3, w4, C(3, 11))
    requires Swapped(w4, w5, C(4, 12))
    requires Swapped(w5, w6, C(5, 13))
    ensures Network14Step3(w0, w6)
  {
  }

  lemma Network14Layer3(layer: seq<Comparator>, v: seq<bool>)
    requires |v| == 14 && layer == [C(0, 8), C(1, 9), C(2, 10), C(3, 11), C(4, 12), C(5, 13)]
    ensures Network14Step3(v, ApplyLayerBits(layer, 0, v))
  {
    var w1 := CSwapBits(v, C(0, 8));
    CSwapBitsAt(v, C(0, 8));
    assert ApplyLayerBits(layer, 0, v) == ApplyLayerBits(layer, 1, w1);
    var w2 := CSwapBits(w1, C(1, 9));
    CSwapBitsAt(w1, C(1, 9));
    assert ApplyLayerBits(layer, 1, w1) == ApplyLayerBits(layer, 2, w2);
    var w3 := CSwapBits(w2, C(2, 10));
    CSwapBitsAt(w2, C(2, 10));
    assert ApplyLayerBits(layer, 2, w2) == ApplyLayerBits(layer, 3, w3);
    var w4 := CSwapBits(w3, C(3, 11));
    CSwapBitsAt(w3, C(3, 11));
    assert ApplyLayerBits(layer, 3, w3) == ApplyLayerBits(layer, 4, w4);
    var w5 := CSwapBits(w4, C(4, 12));
    CSwapBitsAt(w4, C(4, 12));
    assert ApplyLayerBits(layer, 4, w4) == ApplyLayerBits(layer, 5, w5);
    var w6 := CSwapBits(w5, C(5, 13));
    CSwapBitsAt(w5, C(5, 13));
    assert ApplyLayerBits(layer, 5, w5) == ApplyLayerBits(layer, 6, w6);
    Network14Layer3Bits(v, w1, w2, w3, w4, w5, w6);
  }

  predicate Network14Step4(v: seq<bool>, w: seq<bool>)
  {
    |v| == 14 && |w| == 14 && w[0] == v[0] && w[1] == (v[1] && v[2]) &&
    w[2] == (v[1] || v[2]) && w[3] == (v[3] && v[12]) && w[4] == (v[4] && v[8]) && w[5] == (v[5] && v[10]) &&
    w[6] == (v[6] && v[9]) && w[7] == (v[7] && v[11]) && w[8] == (v[4] || v[8]) && w[9] == (v[6] || v[9]) &&
    w[10] == (v[5] || v[10]) && w[11] == (v[7] || v[11]) && w[12] == (v[3] || v[12]) && w[13] == v[13]
  }

  lemma Network14Layer4Bits(w0: seq<bool>, w1: seq<bool>, w2: seq<bool>, w3: seq<bool>, w4: seq<bool>, w5: seq<bool>, w6: seq<bool>)
    requires |w0| == 14
    requires Swapped(w0, w1, C(5, 10))
    requires Swapped(w1, w2, C(6, 9))
    requires Swapped(w2, w3, C(3, 12))
    requires Swapped(w3, w4, C(7, 11))
    requires Swapped(w4, w5, C(1, 2))
    requires Swapped(w5, w6, C(4, 8))
    ensures Network14Step4(w0, w6)
  {
  }

  lemma Network14Layer4(layer: seq<Comparator>, v: seq<bool>)
    requires |v| == 14 && layer == [C(5, 10), C(6, 9), C(3, 12), C(7, 11), C(1, 2), C(4, 8)]
    ensures Network14Step4(v, ApplyLayerBits(layer, 0, v))
  {
    var w1 := CSwapBits(v, C(5, 10));
    CSwapBitsAt(v, C(5, 10));
    assert ApplyLayerBits(layer, 0, v) == ApplyLayerBits(layer, 1, w1);
    var w2 := CSwapBits(w1, C(6, 9));
    CSwapBitsAt(w1, C(6, 9));
    assert ApplyLayerBits(layer, 1, w1) == ApplyLayerBits(layer, 2, w2);
    var w3 := CSwapBits(w2, C(3, 12));
    CSwapBitsAt(w2, C(3, 12));
    assert ApplyLayerBits(layer, 2, w2) == ApplyLayerBits(layer, 3, w3);
    var w4 := CSwapBits(w3, C(7, 11));
    CSwapBitsAt(w3, C(7, 11));
    assert ApplyLayerBits(layer, 3, w3) == ApplyLayerBits(layer, 4, w4);
    var w5 := CSwapBits(w4, C(1, 2));
    CSwapBitsAt(w4, C(1, 2));
    assert ApplyLayerBits(layer, 4, w4) == ApplyLayerBits(layer, 5, w5);
    var w6 := CSwapBits(w5, C(4, 8));
    CSwapBitsAt(w5, C(4, 8));
    assert ApplyLayerBits(layer, 5, w5) == ApplyLayerBits(layer, 6, w6);
    Network14Layer4Bits(v, w1, w2, w3, w4, w5, w6);
  }

  predicate Network14Step5(v: seq<bool>, w: seq<bool>)
  {
    |v| == 14 && |w| == 14 && w[0] == v[0] && w[1] == (v[1] && v[4]) &&
    w[2] == (v[2] && v[8]) && w[3] == v[3] && w[4] == (v[1] || v[4]) && w[5] == (v[5] && v[6]) &&
    w[6] == (v[5] || v[6]) && w[7] == (v[7] && v[13]) && w[8] == (v[2] || v[8]) && w[9] == (v[9] && v[10]) &&
    w[10] == (v[9] || v[10]) && w[11] == v[11] && w[12] == v[12] && w[13] == (v[7] || v[13])
  }

  lemma Network14Layer5Bits(w0: seq<bool>, w1: seq<bool>, w2: seq<bool>, w3: seq<bool>, w4: seq<bool>, w5: seq<bool>)
    requires |w0| == 14
    requires Swapped(w0, w1, C(1, 4))
    requires Swapped(w1, w2, C(7, 13))
    requires Swapped(w2, w3, C(2, 8))
    requires Swapped(w3, w4, C(5, 6))
    requires Swapped(w4, w5, C(9, 10))
    ensures Network14Step5(w0, w5)
  {
  }

  lemma Network14Layer5(layer: seq<Comparator>, v: seq<bool>)
    requires |v| == 14 && layer == [C(1, 4), C(7, 13), C(2, 8), C(5, 6), C(9, 10)]
    ensures Network14Step5(v, ApplyLayerBits(layer, 0, v))
  {
    var w1 := CSwapBits(v, C(1, 4));
    CSwapBitsAt(v, C(1, 4));
    assert ApplyLayerBits(layer, 0, v) == ApplyLayerBits(layer, 1, w1);
    var w2 := CSwapBits(w1, C(7, 13));
    CSwapBitsAt(w1, C(7, 13));
    assert ApplyLayerBits(layer, 1, w1) == ApplyLayerBits(layer, 2, w2);
    var w3 := CSwapBits(w2, C(2, 8));
    CSwapBitsAt(w2, C(2, 8));
    assert ApplyLayerBits(layer, 2, w2) == ApplyLayerBits(layer, 3, w3);
    var w4 := CSwapBits(w3, C(5, 6));
    CSwapBitsAt(w3, C(5, 6));
    assert ApplyLayerBits(layer, 3, w3) == ApplyLayerBits(layer, 4, w4);
    var w5 := CSwapBits(w4, C(9, 10));
    CSwapBitsAt(w4, C(9, 10));
    assert ApplyLayerBits(layer, 4, w4) == ApplyLayerBits(layer, 5, w5);
    Network14Layer5Bits(v, w1, w2, w3, w4, w5);
  }

  predicate Network14Step6(v: seq<bool>, w: seq<bool>)
  {
    |v| == 14 && |w| == 14 && w[0] == v[0] && w[1] == v[1] &&
    w[2] == (v[2] && v[4]) && w[3] == (v[3] && v[8]) && w[4] == (v[2] || v[4]) && w[5] == v[5] &&
    w[6] == v[6] && w[7] == (v[7] && v[12]) && w[8] == (v[3] || v[8]) && w[9] == v[9] &&
    w[10] == v[10] && w[11] == (v[11] && v[13]) && w[12] == (v[7] || v[12]) && w[13] == (v[11] || v[13])
  }

  lemma Network14Layer6Bits(w0: seq<bool>, w1: seq<bool>, w2: seq<bool>, w3: seq<bool>, w4: seq<bool>)
    requires |w0| == 14
    requires Swapped(w0, w1, C(2, 4))
    requires Swapped(w1, w2, C(11, 13))
    requires Swapped(w2, w3, C(3, 8))
    requires Swapped(w3, w4, C(7, 12))
    ensures Network14Step6(w0, w4)
  {
  }

  lemma Network14Layer6(layer: seq<Comparator>, v: seq<bool>)
    requires |v| == 14 && layer == [C(2, 4), C(11, 13), C(3, 8), C(7, 12)]
    ensures Network14Step6(v, ApplyLayerBits(layer, 0, v))
  {
    var w1 := CSwapBits(v, C(2, 4));
    CSwapBitsAt(v, C(2, 4));
    assert ApplyLayerBits(layer, 0, v) == ApplyLayerBits(layer, 1, w1);
    var w2 := CSwapBits(w1, C(11, 13));
    CSwapBitsAt(w1, C(11, 13));
    assert ApplyLayerBits(layer, 1, w1) == ApplyLayerBits(layer, 2, w2);
    var w3 := CSwapBits(w2, C(3, 8));
    CSwapBitsAt(w2, C(3, 8));
    assert ApplyLayerBits(layer, 2, w2) == ApplyLayerBits(layer, 3, w3);
    var w4 := CSwapBits(w3, C(7, 12));
    CSwapBitsAt(w3, C(7, 12));
    assert ApplyLayerBits(layer, 3, w3) == ApplyLayerBits(layer, 4, w4);
    Network14Layer6Bits(v, w1, w2, w3, w4);
  }

  predicate Network14Step7(v: seq<bool>, w: seq<bool>)
  {
    |v| == 14 && |w| == 14 && w[0] == v[0] && w[1] == v[1] &&
    w[2] == v[2] && w[3] == (v[3] && v[5]) && w[4] == v[4] && w[5] == (v[3] || v[5]) &&
    w[6] == (v[6] && v[8]) && w[7] == (v[7] && v[9]) && w[8] == (v[6] || v[8]) && w[9] == (v[7] || v[9]) &&
    w[10] == (v[10] && v[12]) && w[11] == v[11] && w[12] == (v[10] || v[12]) && w[13] == v[13]
  }

  lemma Network14Layer7Bits(w0: seq<bool>, w1: seq<bool>, w2: seq<bool>, w3: seq<bool>, w4: seq<bool>)
    requires |w0| == 14
    requires Swapped(w0, w1, C(6, 8))
    requires Swapped(w1, w2, C(10, 12))
    requires Swapped(w2, w3, C(3, 5))
    requires Swapped(w3, w4, C(7, 9))
    ensures Network14Step7(w0, w4)
  {
  }

  lemma Network14Layer7(layer: seq<Comparator>, v: seq<bool>)
    requires |v| == 14 && layer == [C(6, 8), C(10, 12), C(3, 5), C(7, 9)]
    ensures Network14Step7(v, ApplyLayerBits(layer, 0, v))
  {
    var w1 := CSwapBits(v, C(6, 8));
    CSwapBitsAt(v, C(6, 8));
    assert ApplyLayerBits(layer, 0, v) == ApplyLayerBits(layer, 1, w1);
    var w2 := CSwapBits(w1, C(10, 12));
    CSwapBitsAt(w1, C(10, 12));
    assert ApplyLayerBits(layer, 1, w1) == ApplyLayerBits(layer, 2, w2);
    var w3 := CSwapBits(w2, C(3, 5));
    CSwapBitsAt(w2, C(3, 5));
    assert ApplyLayerBits(layer, 2, w2) == ApplyLayerBits(layer, 3, w3);
    var w4 := CSwapBits(w3, C(7, 9));
    CSwapBitsAt(w3, C(7, 9));
    assert ApplyLayerBits(layer, 3, w3) == ApplyLayerBits(layer, 4, w4);
    Network14Layer7Bits(v, w1, w2, w3, w4);
  }

  predicate Network14Step8(v: seq<bool>, w: seq<bool>)
  {
    |v| == 14 && |w| == 14 && w[0] == v[0] && w[1] == v[1] &&
    w[2] == v[2] && w[3] == (v[3] && v[4]) && w[4] == (v[3] || v[4]) && w[5] == (v[5] && v[6]) &&
    w[6] == (v[5] || v[6]) && w[7] == (v[7] && v[8]) && w[8] == (v[7] || v[8]) && w[9] == (v[9] && v[10]) &&
    w[10] == (v[9] || v[10]) && w[11] == (v[11] && v[12]) && w[12] == (v[11] || v[12]) && w[13] == v[13]
  }

  lemma Network14Layer8Bits(w0: seq<bool>, w1: seq<bool>, w2: seq<bool>, w3: seq<bool>, w4: seq<bool>, w5: seq<bool>)
    requires |w0| == 14
    requires Swapped(w0, w1, C(3, 4))
    requires Swapped(w1, w2, C(5, 6))
    requires Swapped(w2, w3, C(7, 8))
    requires Swapped(w3, w4, C(9, 10))
    requires Swapped(w4, w5, C(11, 12))
    ensures Network14Step8(w0, w5)
  {
  }

  lemma Network14Layer8(layer: seq<Comparator>, v: seq<bool>)
    requires |v| == 14 && layer == [C(3, 4), C(5, 6), C(7, 8), C(9, 10), C(11, 12)]
    ensures Network14Step8(v, ApplyLayerBits(layer, 0, v))
  {
    var w1 := CSwapBits(v, C(3, 4));
    CSwapBitsAt(v, C(3, 4));
    assert ApplyLayerBits(layer, 0, v) == ApplyLayerBits(layer, 1, w1);
    var w2 := CSwapBits(w1, C(5, 6));
    CSwapBitsAt(w1, C(5, 6));
    assert ApplyLayerBits(layer, 1, w1) == ApplyLayerBits(layer, 2, w2);
    var w3 := CSwapBits(w2, C(7, 8));
    CSwapBitsAt(w2, C(7, 8));
    assert ApplyLayerBits(layer, 2, w2) == ApplyLayerBits(layer, 3, w3);
    var w4 := CSwapBits(w3, C(9, 10));
    CSwapBitsAt(w3, C(9, 10));
    assert ApplyLayerBits(layer, 3, w3) == ApplyLayerBits(layer, 4, w4);
    var w5 := CSwapBits(w4, C(11, 12));
    CSwapBitsAt(w4, C(11, 12));
    assert ApplyLayerBits(layer, 4, w4) == ApplyLayerBits(layer, 5, w5);
    Network14Layer8Bits(v, w1, w2, w3, w4, w5);
  }

  predicate Network14Step9(v: seq<bool>, w: seq<bool>)
  {
    |v| == 14 && |w| == 14 && w[0] == v[0] && w[1] == v[1] &&
    w[2] == v[2] && w[3] == v[3] && w[4] == v[4] && w[5] == v[5] &&
    w[6] == (v[6] && v[7]) && w[7] == (v[6] || v[7]) && w[8] == (v[8] && v[9]) && w[9] == (v[8] || v[9]) &&
    w[10] == v[10] && w[11] == v[11] && w[12] == v[12] && w[13] == v[13]
  }

  lemma Network14Layer9Bits(w0: seq<bool>, w1: seq<bool>, w2: seq<bool>)
    requires |w0| == 14
    requires Swapped(w0, w1, C(6, 7))
    requires Swapped(w1, w2, C(8, 9))
    ensures Network14Step9(w0, w2)
  {
  }

  lemma Network14Layer9(layer: seq<Comparator>, v: seq<bool>)
    requires |v| == 14 && layer == [C(6, 7), C(8, 9)]
    ensures Network14Step9(v, ApplyLayerBits(layer, 0, v))
  {
    var w1 := CSwapBits(v, C(6, 7));
    CSwapBitsAt(v, C(6, 7));
    assert ApplyLayerBits(layer, 0, v) == ApplyLayerBits(layer, 1, w1);
    var w2 := CSwapBits(w1, C(8, 9));
    CSwapBitsAt(w1, C(8, 9));
    assert ApplyLayerBits(layer, 1, w1) == ApplyLayerBits(layer, 2, w2);
    Network14Layer9Bits(v, w1, w2);
  }

  lemma Network14Circuit(v0: seq<bool>, v1: seq<bool>, v2: seq<bool>, v3: seq<bool>, v4: seq<bool>, v5: seq<bool>, v6: seq<bool>, v7: seq<bool>, v8: seq<bool>, v9: seq<bool>, v10: seq<bool>)
    requires Network14Step0(v0, v1)
    requires Network14Step1(v1, v2)
    requires Network14Step2(v2, v3)
    requires Network14Step3(v3, v4)
    requires Network14Step4(v4, v5)
    requires Network14Step5(v5, v6)
    requires Network14Step6(v6, v7)
    requires Network14Step7(v7, v8)
    requires Network14Step8(v8, v9)
    requires Network14Step9(v9, v10)
    ensures SortedBits(v10)
  {
  }

  lemma Network14SortsBits(v: seq<bool>)
    requires |v| == 14
    ensures SortedBits(ApplyNetBits(Network14, 0, v))
  {
    var v1 := ApplyLayerBits(Network14[0], 0, v);
    Network14Layer0(Network14[0], v);
    var v2 := ApplyLayerBits(Network14[1], 0, v1);
    Network14Layer1(Network14[1], v1);
    var v3 := ApplyLayerBits(Network14[2], 0, v2);
    Network14Layer2(Network14[2], v2);
    var v4 := ApplyLayerBits(Network14[3], 0, v3);
    Network14Layer3(Network14[3], v3);
    var v5 := ApplyLayerBits(Network14[4], 0, v4);
    Network14Layer4(Network14[4], v4);
    var v6 := ApplyLayerBits(Network14[5], 0, v5);
    Network14Layer5(Network14[5], v5);
    var v7 := ApplyLayerBits(Network14[6], 0, v6);
    Network14Layer6(Network14[6], v6);
    var v8 := ApplyLayerBits(Network14[7], 0, v7);
    Network14Layer7(Network14[7], v7);
    var v9 := ApplyLayerBits(Network14[8], 0, v8);
    Network14Layer8(Network14[8], v8);
    var v10 := ApplyLayerBits(Network14[9], 0, v9);
    Network14Layer9(Network14[9], v9);
    Network14Circuit(v, v1, v2, v3, v4, v5, v6, v7, v8, v9, v10);
    assert ApplyNetBits(Network14, 0, v) == ApplyNetBits(Network14, 1, v1);
    assert ApplyNetBits(Network14, 1, v1) == ApplyNetBits(Network14, 2, v2);
    assert ApplyNetBits(Network14, 2, v2) == ApplyNetBits(Network14, 3, v3);
    assert ApplyNetBits(Network14, 3, v3) == ApplyNetBits(Network14, 4, v4);
    assert ApplyNetBits(Network14, 4, v4) == ApplyNetBits(Network14, 5, v5);
    assert ApplyNetBits(Network14, 5, v5) == ApplyNetBits(Network14, 6, v6);
    assert ApplyNetBits(Network14, 6, v6) == ApplyNetBits(Network14, 7, v7);
    assert ApplyNetBits(Network14, 7, v7) == ApplyNetBits(Network14, 8, v8);
    assert ApplyNetBits(Network14, 8, v8) == ApplyNetBits(Network14, 9, v9);
    assert ApplyNetBits(Network14, 9, v9) == ApplyNetBits(Network14, 10, v10);
  }

  // ---- `bitonic_sort_15` ----

  lemma Network15Oriented()
    ensures Oriented(Network15)
  {
    assert forall q :: 0 <= q < |Network15[0]| ==> Network15[0][q].i < Network15[0][q].j;
    assert forall q :: 0 <= q < |Network15[1]| ==> Network15[1][q].i < Network15[1][q].j;
    assert forall q :: 0 <= q < |Network15[2]| ==> Network15[2][q].i < Network15[2][q].j;
    assert forall q :: 0 <= q < |Network15[3]| ==> Network15[3][q].i < Network15[3][q].j;
    assert forall q :: 0 <= q < |Network15[4]| ==> Network15[4][q].i < Network15[4][q].j;
    assert forall q :: 0 <= q < |Network15[5]| ==> Network15[5][q].i < Network15[5][q].j;
    assert forall q :: 0 <= q < |Network15[6]| ==> Network15[6][q].i < Network15[6][q].j;
    assert forall q :: 0 <= q < |Network15[7]| ==> Network15[7][q].i < Network15[7][q].j;
    assert forall q :: 0 <= q < |Network15[8]| ==> Network15[8][q].i < Network15[8][q].j;
    assert forall q :: 0 <= q < |Network15[9]| ==> Network15[9][q].i < Network15[9][q].j;
  }

  predicate Network15Step0(v: seq<bool>, w: seq<bool>)
  {
    |v| == 15 && |w| == 15 && w[0] == (v[0] && v[1]) && w[1] == (v[0] || v[1]) &&
    w[2] == (v[2] && v[3]) && w[3] == (v[2] || v[3]) && w[4] == (v[4] && v[5]) && w[5] == (v[4] || v[5]) &&
    w[6] == (v[6] && v[7]) && w[7] == (v[6] || v[7]) && w[8] == (v[8] && v[9]) && w[9] == (v[8] || v[9]) &&
    w[10] == (v[10] && v[11]) && w[11] == (v[10] || v[11]) && w[12] == (v[12] && v[13]) && w[13] == (v[12] || v[13]) &&
    w[14] == v[14]
  }

  lemma Network15Layer0Bits(w0: seq<bool>, w1: seq<bool>, w2: seq<bool>, w3: seq<bool>, w4: seq<bool>, w5: seq<bool>, w6: seq<bool>, w7: seq<bool>)
    requires |w0| == 15
    requires Swapped(w0, w1, C(0, 1))
    requires Swapped(w1, w2, C(2, 3))
    requires Swapped(w2, w3, C(4, 5))
    requires Swapped(w3, w4, C(6, 7))
    requires Swapped(w4, w5, C(8, 9))
    requires Swapped(w5, w6, C(10, 11))
    requires Swapped(w6, w7, C(12, 13))
    ensures Network15Step0(w0, w7)
  {
  }

  lemma Network15Layer0(layer: seq<Comparator>, v: seq<bool>)
    requires |v| == 15 && layer == [C(0, 1), C(2, 3), C(4, 5), C(6, 7), C(8, 9), C(10, 11), C(12, 13)]
    ensures Network15Step0(v, ApplyLayerBits(layer, 0, v))
  {
    var w1 := CSwapBits(v, C(0, 1));
    CSwapBitsAt(v, C(0, 1));
    assert ApplyLayerBits(layer, 0, v) == ApplyLayerBits(layer, 1, w1);
    var w2 := CSwapBits(w1, C(2, 3));
    CSwapBitsAt(w1, C(2, 3));
    assert ApplyLayerBits(layer, 1, w1) == ApplyLayerBits(layer, 2, w2);
    var w3 := CSwapBits(w2, C(4, 5));
    CSwapBitsAt(w2, C(4, 5));
    assert ApplyLayerBits(layer, 2, w2) == ApplyLayerBits(layer, 3, w3);
    var w4 := CSwapBits(w3, C(6, 7));
    CSwapBitsAt(w3, C(6, 7));
    assert ApplyLayerBits(layer, 3, w3) == ApplyLayerBits(layer, 4, w4);
    var w5 := CSwapBits(w4, C(8, 9));
    CSwapBitsAt(w4, C(8, 9));
    assert ApplyLayerBits(layer, 4, w4) == ApplyLayerBits(layer, 5, w5);
    var w6 := CSwapBits(w5, C(10, 11));
    CSwapBitsAt(w5, C(10, 11));
    assert ApplyLayerBits(layer, 5, w5) == ApplyLayerBits(layer, 6, w6);
    var w7 := CSwapBits(w6, C(12, 13));
    CSwapBitsAt(w6, C(12, 13));
    assert ApplyLayerBits(layer, 6, w6) == ApplyLayerBits(layer, 7, w7);
    Network15Layer0Bits(v, w1, w2, w3, w4, w5, w6, w7);
  }

  predicate Network15Step1(v: seq<bool>, w: seq<bool>)
  {
    |v| == 15 && |w| == 15 && w[0] == (v[0] && v[2]) && w[1] == (v[1] && v[3]) &&
    w[2] == (v[0] || v[2]) && w[3] == (v[1] || v[3]) && w[4] == (v[4] && v[6]) && w[5] == (v[5] && v[7]) &&
    w[6] == (v[4] || v[6]) && w[7] == (v[5] || v[7]) && w[8] == (v[8] && v[10]) && w[9] == (v[9] && v[11]) &&
    w[10] == (v[8] || v[10]) && w[11] == (v[9] || v[11]) && w[12] == (v[12] && v[14]) && w[13] == v[13] &&
    w[14] == (v[12] || v[14])
  }

  lemma Network15Layer1Bits(w0: seq<bool>, w1: seq<bool>, w2: seq<bool>, w3: seq<bool>, w4: seq<bool>, w5: seq<bool>, w6: seq<bool>, w7: seq<bool>)
    requires |w0| == 15
    requires Swapped(w0, w1, C(0, 2))
    requires Swapped(w1, w2, C(4, 6))
    requires Swapped(w2, w3, C(8, 10))
    requires Swapped(w3, w4, C(12, 14))
    requires Swapped(w4, w5, C(1, 3))
    requires Swapped(w5, w6, C(5, 7))
    requires Swapped(w6, w7, C(9, 11))
    ensures Network15Step1(w0, w7)
  {
  }

  lemma Network15Layer1(layer: seq<Comparator>, v: seq<bool>)
    requires |v| == 15 && layer == [C(0, 2), C(4, 6), C(8, 10), C(12, 14), C(1, 3), C(5, 7), C(9, 11)]
    ensures Network15Step1(v, ApplyLayerBits(layer, 0, v))
  {
    var w1 := CSwapBits(v, C(0, 2));
    CSwapBitsAt(v, C(0, 2));
    assert ApplyLayerBits(layer, 0, v) == ApplyLayerBits(layer, 1, w1);
    var w2 := CSwapBits(w1, C(4, 6));
    CSwapBitsAt(w1, C(4, 6));
    assert ApplyLayerBits(layer, 1, w1) == ApplyLayerBits(layer, 2, w2);
    var w3 := CSwapBits(w2, C(8, 10));
    CSwapBitsAt(w2, C(8, 10));
    assert ApplyLayerBits(layer, 2, w2) == ApplyLayerBits(layer, 3, w3);
    var w4 := CSwapBits(w3, C(12, 14));
    CSwapBitsAt(w3, C(12, 14));
    assert ApplyLayerBits(layer, 3, w3) == ApplyLayerBits(layer, 4, w4);
    var w5 := CSwapBits(w4, C(1, 3));
    CSwapBitsAt(w4, C(1, 3));
    assert ApplyLayerBits(layer, 4, w4) == ApplyLayerBits(layer, 5, w5);
    var w6 := CSwapBits(w5, C(5, 7));
    CSwapBitsAt(w5, C(5, 7));
    assert ApplyLayerBits(layer, 5, w5) == ApplyLayerBits(layer, 6, w6);
    var w7 := CSwapBits(w6, C(9, 11));
    CSwapBitsAt(w6, C(9, 11));
    assert ApplyLayerBits(layer, 6, w6) == ApplyLayerBits(layer, 7, w7);
    Network15Layer1Bits(v, w1, w2, w3, w4, w5, w6, w7);
  }

  predicate Network15Step2(v: seq<bool>, w: seq<bool>)
  {
    |v| == 15 && |w| == 15 && w[0] == (v[0] && v[4]) && w[1] == (v[1] && v[5]) &&
    w[2] == (v[2] && v[6]) && w[3] == (v[3] && v[7]) && w[4] == (v[0] || v[4]) && w[5] == (v[1] || v[5]) &&
    w[6] == (v[2] || v[6]) && w[7] == (v[3] || v[7]) && w[8] == (v[8] && v[12]) && w[9] == (v[9] && v[13]) &&
    w[10] == (v[10] && v[14]) && w[11] == v[11] && w[12] == (v[8] || v[12]) && w[13] == (v[9] || v[13]) &&
    w[14] == (v[10] || v[14])
  }

  lemma Network15Layer2Bits(w0: seq<bool>, w1: seq<bool>, w2: seq<bool>, w3: seq<bool>, w4: seq<bool>, w5: seq<bool>, w6: seq<bool>, w7: seq<bool>)
    requires |w0| == 15
    requires Swapped(w0, w1, C(0, 4))
    requires Swapped(w1, w2, C(8, 12))
    requires Swapped(w2, w3, C(1, 5))
    requires Swapped(w3, w4, C(9, 13))
    requires Swapped(w4, w5, C(2, 6))
    requires Swapped(w5, w6, C(10, 14))
    requires Swapped(w6, w7, C(3, 7))
    ensures Network15Step2(w0, w7)
  {
  }

  lemma Network15Layer2(layer: seq<Comparator>, v: seq<bool>)
    requires |v| == 15 && layer == [C(0, 4), C(8, 12), C(1, 5), C(9, 13), C(2, 6), C(10, 14), C(3, 7)]
    ensures Network15Step2(v, ApplyLayerBits(layer, 0, v))
  {
    var w1 := CSwapBits(v, C(0, 4));
    CSwapBitsAt(v, C(0, 4));
    assert ApplyLayerBits(layer, 0, v) == ApplyLayerBits(layer, 1, w1);
    var w2 := CSwapBits(w1, C(8, 12));
    CSwapBitsAt(w1, C(8, 12));
    assert ApplyLayerBits(layer, 1, w1) == ApplyLayerBits(layer, 2, w2);
    var w3 := CSwapBits(w2, C(1, 5));
    CSwapBitsAt(w2, C(1, 5));
    assert ApplyLayerBits(layer, 2, w2) == ApplyLayerBits(layer, 3, w3);
    var w4 := CSwapBits(w3, C(9, 13));
    CSwapBitsAt(w3, C(9, 13));
    assert ApplyLayerBits(layer, 3, w3) == ApplyLayerBits(layer, 4, w4);
    var w5 := CSwapBits(w4, C(2, 6));
    CSwapBitsAt(w4, C(2, 6));
    assert ApplyLayerBits(layer, 4, w4) == ApplyLayerBits(layer, 5, w5);
    var w6 := CSwapBits(w5, C(10, 14));
    CSwapBitsAt(w5, C(10, 14));
    assert ApplyLayerBits(layer, 5, w5) == ApplyLayerBits(layer, 6, w6);
    var w7 := CSwapBits(w6, C(3, 7));
    CSwapBitsAt(w6, C(3, 7));
    assert ApplyLayerBits(layer, 6, w6) == ApplyLayerBits(layer, 7, w7);
    Network15Layer2Bits(v, w1, w2, w3, w4, w5, w6, w7);
  }

  predicate Network15Step3(v: seq<bool>, w: seq<bool>)
  {
    |v| == 15 && |w| == 15 && w[0] == (v[0] && v[8]) && w[1] == (v[1] && v[9]) &&
    w[2] == (v[2] && v[10]) && w[3] == (v[3] && v[11]) && w[4] == (v[4] && v[12]) && w[5] == (v[5] && v[13]) &&
    w[6] == (v[6] && v[14]) && w[7] == v[7] && w[8] == (v[0] || v[8]) && w[9] == (v[1] || v[9]) &&
    w[10] == (v[2] || v[10]) && w[11] == (v[3] || v[11]) && w[12] == (v[4] || v[12]) && w[13] == (v[5] || v[13]) &&
    w[14] == (v[6] || v[14])
  }

  lemma Network15Layer3Bits(w0: seq<bool>, w1: seq<bool>, w2: seq<bool>, w3: seq<bool>, w4: seq<bool>, w5: seq<bool>, w6: seq<bool>, w7: seq<bool>)
    requires |w0| == 15
    requires Swapped(w0, w1, C(0, 8))
    requires Swapped(w1, w2, C(1, 9))
    requires Swapped(w2, w3, C(2, 10))
    requires Swapped(w3, w4, C(3, 11))
    requires Swapped(w4, w5, C(4, 12))
    requires Swapped(w5, w6, C(5, 13))
    requires Swapped(w6, w7, C(6, 14))
    ensures Network15Step3(w0, w7)
  {
  }

  lemma Network15Layer3(layer: seq<Comparator>, v: seq<bool>)
    requires |v| == 15 && layer == [C(0, 8), C(1, 9), C(2, 10), C(3, 11), C(4, 12), C(5, 13), C(6, 14)]
    ensures Network15Step3(v, ApplyLayerBits(layer, 0, v))
  {
    var w1 := CSwapBits(v, C(0, 8));
    CSwapBitsAt(v, C(0, 8));
    assert ApplyLayerBits(layer, 0, v) == ApplyLayerBits(layer, 1, w1);
    var w2 := CSwapBits(w1, C(1, 9));
    CSwapBitsAt(w1, C(1, 9));
    assert ApplyLayerBits(layer, 1, w1) == ApplyLayerBits(layer, 2, w2);
    var w3 := CSwapBits(w2, C(2, 10));
    CSwapBitsAt(w2, C(2, 10));
    assert ApplyLayerBits(layer, 2, w2) == ApplyLayerBits(layer, 3, w3);
    var w4 := CSwapBits(w3, C(3, 11));
    CSwapBitsAt(w3, C(3, 11));
    assert ApplyLayerBits(layer, 3, w3) == ApplyLayerBits(layer, 4, w4);
    var w5 := CSwapBits(w4, C(4, 12));
    CSwapBitsAt(w4, C(4, 12));
    assert ApplyLayerBits(layer, 4, w4) == ApplyLayerBits(layer, 5, w5);
    var w6 := CSwapBits(w5, C(5, 13));
    CSwapBitsAt(w5, C(5, 13));
    assert ApplyLayerBits(layer, 5, w5) == ApplyLayerBits(layer, 6, w6);
    var w7 := CSwapBits(w6, C(6, 14));
    CSwapBitsAt(w6, C(6, 14));
    assert ApplyLayerBits(layer, 6, w6) == ApplyLayerBits(layer, 7, w7);
    Network15Layer3Bits(v, w1, w2, w3, w4, w5, w6, w7);
  }

  predicate Network15Step4(v: seq<bool>, w: seq<bool>)
  {
    |v| == 15 && |w| == 15 && w[0] == v[0] && w[1] == (v[1] && v[2]) &&
    w[2] == (v[1] || v[2]) && w[3] == (v[3] && v[12]) && w[4] == (v[4] && v[8]) && w[5] == (v[5] && v[10]) &&
    w[6] == (v[6] && v[9]) && w[7] == (v[7] && v[11]) && w[8] == (v[4] || v[8]) && w[9] == (v[6] || v[9]) &&
    w[10] == (v[5] || v[10]) && w[11] == (v[7] || v[11]) && w[12] == (v[3] || v[12]) && w[13] == (v[13] && v[14]) &&
    w[14] == (v[13] || v[14])
  }

  lemma Network15Layer4Bits(w0: seq<bool>, w1: seq<bool>, w2: seq<bool>, w3: seq<bool>, w4: seq<bool>, w5: seq<bool>, w6: seq<bool>, w7: seq<bool>)
    requires |w0| == 15
    requires Swapped(w0, w1, C(5, 10))
    requires Swapped(w1, w2, C(6, 9))
    requires Swapped(w2, w3, C(3, 12))
    requires Swapped(w3, w4, C(13, 14))
    requires Swapped(w4, w5, C(7, 11))
    requires Swapped(w5, w6, C(1, 2))
    requires Swapped(w6, w7, C(4, 8))
    ensures Network15Step4(w0, w7)
  {
  }

  lemma Network15Layer4(layer: seq<Comparator>, v: seq<bool>)
    requires |v| == 15 && layer == [C(5, 10), C(6, 9), C(3, 12), C(13, 14), C(7, 11), C(1, 2), C(4, 8)]
    ensures Network15Step4(v, ApplyLayerBits(layer, 0, v))
  {
    var w1 := CSwapBits(v, C(5, 10));
    CSwapBitsAt(v, C(5, 10));
    assert ApplyLayerBits(layer, 0, v) == ApplyLayerBits(layer, 1, w1);
    var w2 := CSwapBits(w1, C(6, 9));
    CSwapBitsAt(w1, C(6, 9));
    assert ApplyLayerBits(layer, 1, w1) == ApplyLayerBits(layer, 2, w2);
    var w3 := CSwapBits(w2, C(3, 12));
    CSwapBitsAt(w2, C(3, 12));
    assert ApplyLayerBits(layer, 2, w2) == ApplyLayerBits(layer, 3, w3);
    var w4 := CSwapBits(w3, C(13, 14));
    CSwapBitsAt(w3, C(13, 14));
    assert ApplyLayerBits(layer, 3, w3) == ApplyLayerBits(layer, 4, w4);
    var w5 := CSwapBits(w4, C(7, 11));
    CSwapBitsAt(w4, C(7, 11));
    assert ApplyLayerBits(layer, 4, w4) == ApplyLayerBits(layer, 5, w5);
    var w6 := CSwapBits(w5, C(1, 2));
    CSwapBitsAt(w5, C(1, 2));
    assert ApplyLayerBits(layer, 5, w5) == ApplyLayerBits(layer, 6, w6);
    var w7 := CSwapBits(w6, C(4, 8));
    CSwapBitsAt(w6, C(4, 8));
    assert ApplyLayerBits(layer, 6, w6) == ApplyLayerBits(layer, 7, w7);
    Network15Layer4Bits(v, w1, w2, w3, w4, w5, w6, w7);
  }

  predicate Network15Step5(v: seq<bool>, w: seq<bool>)
  {
    |v| == 15 && |w| == 15 && w[0] == v[0] && w[1] == (v[1] && v[4]) &&
    w[2] == (v[2] && v[8]) && w[3] == v[3] && w[4] == (v[1] || v[4]) && w[5] == (v[5] && v[6]) &&
    w[6] == (v[5] || v[6]) && w[7] == (v[7] && v[13]) && w[8] == (v[2] || v[8]) && w[9] == (v[9] && v[10]) &&
    w[10] == (v[9] || v[10]) && w[11] == (v[11] && v[14]) && w[12] == v[12] && w[13] == (v[7] || v[13]) &&
    w[14] == (v[11] || v[14])
  }

  lemma Network15Layer5Bits(w0: seq<bool>, w1: seq<bool>, w2: seq<bool>, w3: seq<bool>, w4: seq<bool>, w5: seq<bool>, w6: seq<bool>)
    requires |w0| == 15
    requires Swapped(w0, w1, C(1, 4))
    requires Swapped(w1, w2, C(7, 13))
    requires Swapped(w2, w3, C(2, 8))
    requires Swapped(w3, w4, C(11, 14))
    requires Swapped(w4, w5, C(5, 6))
    requires Swapped(w5, w6, C(9, 10))
    ensures Network15Step5(w0, w6)
  {
  }

  lemma Network15Layer5(layer: seq<Comparator>, v: seq<bool>)
    requires |v| == 15 && layer == [C(1, 4), C(7, 13), C(2, 8), C(11, 14), C(5, 6), C(9, 10)]
    ensures Network15Step5(v, ApplyLayerBits(layer, 0, v))
  {
    var w1 := CSwapBits(v, C(1, 4));
    CSwapBitsAt(v, C(1, 4));
    assert ApplyLayerBits(layer, 0, v) == ApplyLayerBits(layer, 1, w1);
    var w2 := CSwapBits(w1, C(7, 13));
    CSwapBitsAt(w1, C(7, 13));
    assert ApplyLayerBits(layer, 1, w1) == ApplyLayerBits(layer, 2, w2);
    var w3 := CSwapBits(w2, C(2, 8));
    CSwapBitsAt(w2, C(2, 8));
    assert ApplyLayerBits(layer, 2, w2) == ApplyLayerBits(layer, 3, w3);
    var w4 := CSwapBits(w3, C(11, 14));
    CSwapBitsAt(w3, C(11, 14));
    assert ApplyLayerBits(layer, 3, w3) == ApplyLayerBits(layer, 4, w4);
    var w5 := CSwapBits(w4, C(5, 6));
    CSwapBitsAt(w4, C(5, 6));
    assert ApplyLayerBits(layer, 4, w4) == ApplyLayerBits(layer, 5, w5);
    var w6 := CSwapBits(w5, C(9, 10));
    CSwapBitsAt(w5, C(9, 10));
    assert ApplyLayerBits(layer, 5, w5) == ApplyLayerBits(layer, 6, w6);
    Network15Layer5Bits(v, w1, w2, w3, w4, w5, w6);
  }

  predicate Network15Step6(v: seq<bool>, w: seq<bool>)
  {
    |v| == 15 && |w| == 15 && w[0] == v[0] && w[1] == v[1] &&
    w[2] == (v[2] && v[4]) && w[3] == (v[3] && v[8]) && w[4] == (v[2] || v[4]) && w[5] == v[5] &&
    w[6] == v[6] && w[7] == (v[7] && v[12]) && w[8] == (v[3] || v[8]) && w[9] == v[9] &&
    w[10] == v[10] && w[11] == (v[11] && v[13]) && w[12] == (v[7] || v[12]) && w[13] == (v[11] || v[13]) &&
    w[14] == v[14]
  }

  lemma Network15Layer6Bits(w0: seq<bool>, w1: seq<bool>, w2: seq<bool>, w3: seq<bool>, w4: seq<bool>)
    requires |w0| == 15
    requires Swapped(w0, w1, C(2, 4))
    requires Swapped(w1, w2, C(11, 13))
    requires Swapped(w2, w3, C(3, 8))
    requires Swapped(w3, w4, C(7, 12))
    ensures Network15Step6(w0, w4)
  {
  }

  lemma Network15Layer6(layer: seq<Comparator>, v: seq<bool>)
    requires |v| == 15 && layer == [C(2, 4), C(11, 13), C(3, 8), C(7, 12)]
    ensures Network15Step6(v, ApplyLayerBits(layer, 0, v))
  {
    var w1 := CSwapBits(v, C(2, 4));
    CSwapBitsAt(v, C(2, 4));
    assert ApplyLayerBits(layer, 0, v) == ApplyLayerBits(layer, 1, w1);
    var w2 := CSwapBits(w1, C(11, 13));
    CSwapBitsAt(w1, C(11, 13));
    assert ApplyLayerBits(layer, 1, w1) == ApplyLayerBits(layer, 2, w2);
    var w3 := CSwapBits(w2, C(3, 8));
    CSwapBitsAt(w2, C(3, 8));
    assert ApplyLayerBits(layer, 2, w2) == ApplyLayerBits(layer, 3, w3);
    var w4 := CSwapBits(w3, C(7, 12));
    CSwapBitsAt(w3, C(7, 12));
    assert ApplyLayerBits(layer, 3, w3) == ApplyLayerBits(layer, 4, w4);
    Network15Layer6Bits(v, w1, w2, w3, w4);
  }

  predicate Network15Step7(v: seq<bool>, w: seq<bool>)
  {
    |v| == 15 && |w| == 15 && w[0] == v[0] && w[1] == v[1] &&
    w[2] == v[2] && w[3] == (v[3] && v[5]) && w[4] == v[4] && w[5] == (v[3] || v[5]) &&
    w[6] == (v[6] && v[8]) && w[7] == (v[7] && v[9]) && w[8] == (v[6] || v[8]) && w[9] == (v[7] || v[9]) &&
    w[10] == (v[10] && v[12]) && w[11] == v[11] && w[12] == (v[10] || v[12]) && w[13] == v[13] &&
    w[14] == v[14]
  }

  lemma Network15Layer7Bits(w0: seq<bool>, w1: seq<bool>, w2: seq<bool>, w3: seq<bool>, w4: seq<bool>)
    requires |w0| == 15
    requires Swapped(w0, w1, C(6, 8))
    requires Swapped(w1, w2, C(10, 12))
    requires Swapped(w2, w3, C(3, 5))
    requires Swapped(w3, w4, C(7, 9))
    ensures Network15Step7(w0, w4)
  {
  }

  lemma Network15Layer7(layer: seq<Comparator>, v: seq<bool>)
    requires |v| == 15 && layer == [C(6, 8), C(10, 12), C(3, 5), C(7, 9)]
    ensures Network15Step7(v, ApplyLayerBits(layer, 0, v))
  {
    var w1 := CSwapBits(v, C(6, 8));
    CSwapBitsAt(v, C(6, 8));
    assert ApplyLayerBits(layer, 0, v) == ApplyLayerBits(layer, 1, w1);
    var w2 := CSwapBits(w1, C(10, 12));
    CSwapBitsAt(w1, C(10, 12));
    assert ApplyLayerBits(layer, 1, w1) == ApplyLayerBits(layer, 2, w2);
    var w3 := CSwapBits(w2, C(3, 5));
    CSwapBitsAt(w2, C(3, 5));
    assert ApplyLayerBits(layer, 2, w2) == ApplyLayerBits(layer, 3, w3);
    var w4 := CSwapBits(w3, C(7, 9));
    CSwapBitsAt(w3, C(7, 9));
    assert ApplyLayerBits(layer, 3, w3) == ApplyLayerBits(layer, 4, w4);
    Network15Layer7Bits(v, w1, w2, w3, w4);
  }

  predicate Network15Step8(v: seq<bool>, w: seq<bool>)
  {
    |v| == 15 && |w| == 15 && w[0] == v[0] && w[1] == v[1] &&
    w[2] == v[2] && w[3] == (v[3] && v[4]) && w[4] == (v[3] || v[4]) && w[5] == (v[5] && v[6]) &&
    w[6] == (v[5] || v[6]) && w[7] == (v[7] && v[8]) && w[8] == (v[7] || v[8]) && w[9] == (v[9] && v[10]) &&
    w[10] == (v[9] || v[10]) && w[11] == (v[11] && v[12]) && w[12] == (v[11] || v[12]) && w[13] == v[13] &&
    w[14] == v[14]
  }

  lemma Network15Layer8Bits(w0: seq<bool>, w1: seq<bool>, w2: seq<bool>, w3: seq<bool>, w4: seq<bool>, w5: seq<bool>)
    requires |w0| == 15
    requires Swapped(w0, w1, C(3, 4))
    requires Swapped(w1, w2, C(5, 6))
    requires Swapped(w2, w3, C(7, 8))
    requires Swapped(w3, w4, C(9, 10))
    requires Swapped(w4, w5, C(11, 12))
    ensures Network15Step8(w0, w5)
  {
  }

  lemma Network15Layer8(layer: seq<Comparator>, v: seq<bool>)
    requires |v| == 15 && layer == [C(3, 4), C(5, 6), C(7, 8), C(9, 10), C(11, 12)]
    ensures Network15Step8(v, ApplyLayerBits(layer, 0, v))
  {
    var w1 := CSwapBits(v, C(3, 4));
    CSwapBitsAt(v, C(3, 4));
    assert ApplyLayerBits(layer, 0, v) == ApplyLayerBits(layer, 1, w1);
    var w2 := CSwapBits(w1, C(5, 6));
    CSwapBitsAt(w1, C(5, 6));
    assert ApplyLayerBits(layer, 1, w1) == ApplyLayerBits(layer, 2, w2);
    var w3 := CSwapBits(w2, C(7, 8));
    CSwapBitsAt(w2, C(7, 8));
    assert ApplyLayerBits(layer, 2, w2) == ApplyLayerBits(layer, 3, w3);
    var w4 := CSwapBits(w3, C(9, 10));
    CSwapBitsAt(w3, C(9, 10));
    assert ApplyLayerBits(layer, 3, w3) == ApplyLayerBits(layer, 4, w4);
    var w5 := CSwapBits(w4, C(11, 12));
    CSwapBitsAt(w4, C(11, 12));
    assert ApplyLayerBits(layer, 4, w4) == ApplyLayerBits(layer, 5, w5);
    Network15Layer8Bits(v, w1, w2, w3, w4, w5);
  }

  predicate Network15Step9(v: seq<bool>, w: seq<bool>)
  {
    |v| == 15 && |w| == 15 && w[0] == v[0] && w[1] == v[1] &&
    w[2] == v[2] && w[3] == v[3] && w[4] == v[4] && w[5] == v[5] &&
    w[6] == (v[6] && v[7]) && w[7] == (v[6] || v[7]) && w[8] == (v[8] && v[9]) && w[9] == (v[8] || v[9]) &&
    w[10] == v[10] && w[11] == v[11] && w[12] == v[12] && w[13] == v[13] &&
    w[14] == v[14]
  }

  lemma Network15Layer9Bits(w0: seq<bool>, w1: seq<bool>, w2: seq<bool>)
    requires |w0| == 15
    requires Swapped(w0, w1, C(6, 7))
    requires Swapped(w1, w2, C(8, 9))
    ensures Network15Step9(w0, w2)
  {
  }

  lemma Network15Layer9(layer: seq<Comparator>, v: seq<bool>)
    requires |v| == 15 && layer == [C(6, 7), C(8, 9)]
    ensures Network15Step9(v, ApplyLayerBits(layer, 0, v))
  {
    var w1 := CSwapBits(v, C(6, 7));
    CSwapBitsAt(v, C(6, 7));
    assert ApplyLayerBits(layer, 0, v) == ApplyLayerBits(layer, 1, w1);
    var w2 := CSwapBits(w1, C(8, 9));
    CSwapBitsAt(w1, C(8, 9));
    assert ApplyLayerBits(layer, 1, w1) == ApplyLayerBits(layer, 2, w2);
    Network15Layer9Bits(v, w1, w2);
  }

  lemma Network15Circuit(v0: seq<bool>, v1: seq<bool>, v2: seq<bool>, v3: seq<bool>, v4: seq<bool>, v5: seq<bool>, v6: seq<bool>, v7: seq<bool>, v8: seq<bool>, v9: seq<bool>, v10: seq<bool>)
    requires Network15Step0(v0, v1)
    requires Network15Step1(v1, v2)
    requires Network15Step2(v2, v3)
    requires Network15Step3(v3, v4)
    requires Network15Step4(v4, v5)
    requires Network15Step5(v5, v6)
    requires Network15Step6(v6, v7)
    requires Network15Step7(v7, v8)
    requires Network15Step8(v8, v9)
    requires Network15Step9(v9, v10)
    ensures SortedBits(v10)
  {
  }

  lemma Network15SortsBits(v: seq<bool>)
    requires |v| == 15
    ensures SortedBits(ApplyNetBits(Network15, 0, v))
  {
    var v1 := ApplyLayerBits(Network15[0], 0, v);
    Network15Layer0(Network15[0], v);
    var v2 := ApplyLayerBits(Network15[1], 0, v1);
    Network15Layer1(Network15[1], v1);
    var v3 := ApplyLayerBits(Network15[2], 0, v2);
    Network15Layer2(Network15[2], v2);
    var v4 := ApplyLayerBits(Network15[3], 0, v3);
    Network15Layer3(Network15[3], v3);
    var v5 := ApplyLayerBits(Network15[4], 0, v4);
    Network15Layer4(Network15[4], v4);
    var v6 := ApplyLayerBits(Network15[5], 0, v5);
    Network15Layer5(Network15[5], v5);
    var v7 := ApplyLayerBits(Network15[6], 0, v6);
    Network15Layer6(Network15[6], v6);
    var v8 := ApplyLayerBits(Network15[7], 0, v7);
    Network15Layer7(Network15[7], v7);
    var v9 := ApplyLayerBits(Network15[8], 0, v8);
    Network15Layer8(Network15[8], v8);
    var v10 := ApplyLayerBits(Network15[9], 0, v9);
    Network15Layer9(Network15[9], v9);
    Network15Circuit(v, v1, v2, v3, v4, v5, v6, v7, v8, v9, v10);
    assert ApplyNetBits(Network15, 0, v) == ApplyNetBits(Network15, 1, v1);
    assert ApplyNetBits(Network15, 1, v1) == ApplyNetBits(Network15, 2, v2);
    assert ApplyNetBits(Network15, 2, v2) == ApplyNetBits(Network15, 3, v3);
    assert ApplyNetBits(Network15, 3, v3) == ApplyNetBits(Network15, 4, v4);
    assert ApplyNetBits(Network15, 4, v4) == ApplyNetBits(Network15, 5, v5);
    assert ApplyNetBits(Network15, 5, v5) == ApplyNetBits(Network15, 6, v6);
    assert ApplyNetBits(Network15, 6, v6) == ApplyNetBits(Network15, 7, v7);
    assert ApplyNetBits(Network15, 7, v7) == ApplyNetBits(Network15, 8, v8);
    assert ApplyNetBits(Network15, 8, v8) == ApplyNetBits(Network15, 9, v9);
    assert ApplyNetBits(Network15, 9, v9) == ApplyNetBits(Network15, 10, v10);
  }

  // ---- `bitonic_sort_16` ----

  lemma Network16Oriented()
    ensures Oriented(Network16)
  {
    assert forall q :: 0 <= q < |Network16[0]| ==> Network16[0][q].i < Network16[0][q].j;
    assert forall q :: 0 <= q < |Network16[1]| ==> Network16[1][q].i < Network16[1][q].j;
    assert forall q :: 0 <= q < |Network16[2]| ==> Network16[2][q].i < Network16[2][q].j;
    assert forall q :: 0 <= q < |Network16[3]| ==> Network16[3][q].i < Network16[3][q].j;
    assert forall q :: 0 <= q < |Network16[4]| ==> Network16[4][q].i < Network16[4][q].j;
    assert forall q :: 0 <= q < |Network16[5]| ==> Network16[5][q].i < Network16[5][q].j;
    assert forall q :: 0 <= q < |Network16[6]| ==> Network16[6][q].i < Network16[6][q].j;
    assert forall q :: 0 <= q < |Network16[7]| ==> Network16[7][q].i < Network16[7][q].j;
    assert forall q :: 0 <= q < |Network16[8]| ==> Network16[8][q].i < Network16[8][q].j;
    assert forall q :: 0 <= q < |Network16[9]| ==> Network16[9][q].i < Network16[9][q].j;
  }

  predicate Network16Step0(v: seq<bool>, w: seq<bool>)
  {
    |v| == 16 && |w| == 16 && w[0] == (v[0] && v[1]) && w[1] == (v[0] || v[1]) &&
    w[2] == (v[2] && v[3]) && w[3] == (v[2] || v[3]) && w[4] == (v[4] && v[5]) && w[5] == (v[4] || v[5]) &&
    w[6] == (v[6] && v[7]) && w[7] == (v[6] || v[7]) && w[8] == (v[8] && v[9]) && w[9] == (v[8] || v[9]) &&
    w[10] == (v[10] && v[11]) && w[11] == (v[10] || v[11]) && w[12] == (v[12] && v[13]) && w[13] == (v[12] || v[13]) &&
    w[14] == (v[14] && v[15]) && w[15] == (v[14] || v[15])
  }

  lemma Network16Layer0Bits(w0: seq<bool>, w1: seq<bool>, w2: seq<bool>, w3: seq<bool>, w4: seq<bool>, w5: seq<bool>, w6: seq<bool>, w7: seq<bool>, w8: seq<bool>)
    requires |w0| == 16
    requires Swapped(w0, w1, C(0, 1))
    requires Swapped(w1, w2, C(2, 3))
    requires Swapped(w2, w3, C(4, 5))
    requires Swapped(w3, w4, C(6, 7))
    requires Swapped(w4, w5, C(8, 9))
    requires Swapped(w5, w6, C(10, 11))
    requires Swapped(w6, w7, C(12, 13))
    requires Swapped(w7, w8, C(14, 15))
    ensures Network16Step0(w0, w8)
  {
  }

  lemma Network16Layer0(layer: seq<Comparator>, v: seq<bool>)
    requires |v| == 16 && layer == [C(0, 1), C(2, 3), C(4, 5), C(6, 7), C(8, 9), C(10, 11), C(12, 13), C(14, 15)]
    ensures Network16Step0(v, ApplyLayerBits(layer, 0, v))
  {
    var w1 := CSwapBits(v, C(0, 1));
    CSwapBitsAt(v, C(0, 1));
    assert ApplyLayerBits(layer, 0, v) == ApplyLayerBits(layer, 1, w1);
    var w2 := CSwapBits(w1, C(2, 3));
    CSwapBitsAt(w1, C(2, 3));
    assert ApplyLayerBits(layer, 1, w1) == ApplyLayerBits(layer, 2, w2);
    var w3 := CSwapBits(w2, C(4, 5));
    CSwapBitsAt(w2, C(4, 5));
    assert ApplyLayerBits(layer, 2, w2) == ApplyLayerBits(layer, 3, w3);
    var w4 := CSwapBits(w3, C(6, 7));
    CSwapBitsAt(w3, C(6, 7));
    assert ApplyLayerBits(layer, 3, w3) == ApplyLayerBits(layer, 4, w4);
    var w5 := CSwapBits(w4, C(8, 9));
    CSwapBitsAt(w4, C(8, 9));
    assert ApplyLayerBits(layer, 4, w4) == ApplyLayerBits(layer, 5, w5);
    var w6 := CSwapBits(w5, C(10, 11));
    CSwapBitsAt(w5, C(10, 11));
    assert ApplyLayerBits(layer, 5, w5) == ApplyLayerBits(layer, 6, w6);
    var w7 := CSwapBits(w6, C(12, 13));
    CSwapBitsAt(w6, C(12, 13));
    assert ApplyLayerBits(layer, 6, w6) == ApplyLayerBits(layer, 7, w7);
    var w8 := CSwapBits(w7, C(14, 15));
    CSwapBitsAt(w7, C(14, 15));
    assert ApplyLayerBits(layer, 7, w7) == ApplyLayerBits(layer, 8, w8);
    Network16Layer0Bits(v, w1, w2, w3, w4, w5, w6, w7, w8);
  }

  predicate Network16Step1(v: seq<bool>, w: seq<bool>)
  {
    |v| == 16 && |w| == 16 && w[0] == (v[0] && v[2]) && w[1] == (v[1] && v[3]) &&
    w[2] == (v[0] || v[2]) && w[3] == (v[1] || v[3]) && w[4] == (v[4] && v[6]) && w[5] == (v[5] && v[7]) &&
    w[6] == (v[4] || v[6]) && w[7] == (v[5] || v[7]) && w[8] == (v[8] && v[10]) && w[9] == (v[9] && v[11]) &&
    w[10] == (v[8] || v[10]) && w[11] == (v[9] || v[11]) && w[12] == (v[12] && v[14]) && w[13] == (v[13] && v[15]) &&
    w[14] == (v[12] || v[14]) && w[15] == (v[13] || v[15])
  }

  lemma Network16Layer1Bits(w0: seq<bool>, w1: seq<bool>, w2: seq<bool>, w3: seq<bool>, w4: seq<bool>, w5: seq<bool>, w6: seq<bool>, w7: seq<bool>, w8: seq<bool>)
    requires |w0| == 16
    requires Swapped(w0, w1, C(0, 2))
    requires Swapped(w1, w2, C(4, 6))
    requires Swapped(w2, w3, C(8, 10))
    requires Swapped(w3, w4, C(12, 14))
    requires Swapped(w4, w5, C(1, 3))
    requires Swapped(w5, w6, C(5, 7))
    requires Swapped(w6, w7, C(9, 11))
    requires Swapped(w7, w8, C(13, 15))
    ensures Network16Step1(w0, w8)
  {
  }

  lemma Network16Layer1(layer: seq<Comparator>, v: seq<bool>)
    requires |v| == 16 && layer == [C(0, 2), C(4, 6), C(8, 10), C(12, 14), C(1, 3), C(5, 7), C(9, 11), C(13, 15)]
    ensures Network16Step1(v, ApplyLayerBits(layer, 0, v))
  {
    var w1 := CSwapBits(v, C(0, 2));
    CSwapBitsAt(v, C(0, 2));
    assert ApplyLayerBits(layer, 0, v) == ApplyLayerBits(layer, 1, w1);
    var w2 := CSwapBits(w1, C(4, 6));
    CSwapBitsAt(w1, C(4, 6));
    assert ApplyLayerBits(layer, 1, w1) == ApplyLayerBits(layer, 2, w2);
    var w3 := CSwapBits(w2, C(8, 10));
    CSwapBitsAt(w2, C(8, 10));
    assert ApplyLayerBits(layer, 2, w2) == ApplyLayerBits(layer, 3, w3);
    var w4 := CSwapBits(w3, C(12, 14));
    CSwapBitsAt(w3, C(12, 14));
    assert ApplyLayerBits(layer, 3, w3) == ApplyLayerBits(layer, 4, w4);
    var w5 := CSwapBits(w4, C(1, 3));
    CSwapBitsAt(w4, C(1, 3));
    assert ApplyLayerBits(layer, 4, w4) == ApplyLayerBits(layer, 5, w5);
    var w6 := CSwapBits(w5, C(5, 7));
    CSwapBitsAt(w5, C(5, 7));
    assert ApplyLayerBits(layer, 5, w5) == ApplyLayerBits(layer, 6, w6);
    var w7 := CSwapBits(w6, C(9, 11));
    CSwapBitsAt(w6, C(9, 11));
    assert ApplyLayerBits(layer, 6, w6) == ApplyLayerBits(layer, 7, w7);
    var w8 := CSwapBits(w7, C(13, 15));
    CSwapBitsAt(w7, C(13, 15));
    assert ApplyLayerBits(layer, 7, w7) == ApplyLayerBits(layer, 8, w8);
    Network16Layer1Bits(v, w1, w2, w3, w4, w5, w6, w7, w8);
  }

  predicate Network16Step2(v: seq<bool>, w: seq<bool>)
  {
    |v| == 16 && |w| == 16 && w[0] == (v[0] && v[4]) && w[1] == (v[1] && v[5]) &&
    w[2] == (v[2] && v[6]) && w[3] == (v[3] && v[7]) && w[4] == (v[0] || v[4]) && w[5] == (v[1] || v[5]) &&
    w[6] == (v[2] || v[6]) && w[7] == (v[3] || v[7]) && w[8] == (v[8] && v[12]) && w[9] == (v[9] && v[13]) &&
    w[10] == (v[10] && v[14]) && w[11] == (v[11] && v[15]) && w[12] == (v[8] || v[12]) && w[13] == (v[9] || v[13]) &&
    w[14] == (v[10] || v[14]) && w[15] == (v[11] || v[15])
  }

  lemma Network16Layer2Bits(w0: seq<bool>, w1: seq<bool>, w2: seq<bool>, w3: seq<bool>, w4: seq<bool>, w5: seq<bool>, w6: seq<bool>, w7: seq<bool>, w8: seq<bool>)
    requires |w0| == 16
    requires Swapped(w0, w1, C(0, 4))
    requires Swapped(w1, w2, C(8, 12))
    requires Swapped(w2, w3, C(1, 5))
    requires Swapped(w3, w4, C(9, 13))
    requires Swapped(w4, w5, C(2, 6))
    requires Swapped(w5, w6, C(10, 14))
    requires Swapped(w6, w7, C(3, 7))
    requires Swapped(w7, w8, C(11, 15))
    ensures Network16Step2(w0, w8)
  {
  }

  lemma Network16Layer2(layer: seq<Comparator>, v: seq<bool>)
    requires |v| == 16 && layer == [C(0, 4), C(8, 12), C(1, 5), C(9, 13), C(2, 6), C(10, 14), C(3, 7), C(11, 15)]
    ensures Network16Step2(v, ApplyLayerBits(layer, 0, v))
  {
    var w1 := CSwapBits(v, C(0, 4));
    CSwapBitsAt(v, C(0, 4));
    assert ApplyLayerBits(layer, 0, v) == ApplyLayerBits(layer, 1, w1);
    var w2 := CSwapBits(w1, C(8, 12));
    CSwapBitsAt(w1, C(8, 12));
    assert ApplyLayerBits(layer, 1, w1) == ApplyLayerBits(layer, 2, w2);
    var w3 := CSwapBits(w2, C(1, 5));
    CSwapBitsAt(w2, C(1, 5));
    assert ApplyLayerBits(layer, 2, w2) == ApplyLayerBits(layer, 3, w3);
    var w4 := CSwapBits(w3, C(9, 13));
    CSwapBitsAt(w3, C(9, 13));
    assert ApplyLayerBits(layer, 3, w3) == ApplyLayerBits(layer, 4, w4);
    var w5 := CSwapBits(w4, C(2, 6));
    CSwapBitsAt(w4, C(2, 6));
    assert ApplyLayerBits(layer, 4, w4) == ApplyLayerBits(layer, 5, w5);
    var w6 := CSwapBits(w5, C(10, 14));
    CSwapBitsAt(w5, C(10, 14));
    assert ApplyLayerBits(layer, 5, w5) == ApplyLayerBits(layer, 6, w6);
    var w7 := CSwapBits(w6, C(3, 7));
    CSwapBitsAt(w6, C(3, 7));
    assert ApplyLayerBits(layer, 6, w6) == ApplyLayerBits(layer, 7, w7);
    var w8 := CSwapBits(w7, C(11, 15));
    CSwapBitsAt(w7, C(11, 15));
    assert ApplyLayerBits(layer, 7, w7) == ApplyLayerBits(layer, 8, w8);
    Network16Layer2Bits(v, w1, w2, w3, w4, w5, w6, w7, w8);
  }

  predicate Network16Step3(v: seq<bool>, w: seq<bool>)
  {
    |v| == 16 && |w| == 16 && w[0] == (v[0] && v[8]) && w[1] == (v[1] && v[9]) &&
    w[2] == (v[2] && v[10]) && w[3] == (v[3] && v[11]) && w[4] == (v[4] && v[12]) && w[5] == (v[5] && v[13]) &&
    w[6] == (v[6] && v[14]) && w[7] == (v[7] && v[15]) && w[8] == (v[0] || v[8]) && w[9] == (v[1] || v[9]) &&
    w[10] == (v[2] || v[10]) && w[11] == (v[3] || v[11]) && w[12] == (v[4] || v[12]) && w[13] == (v[5] || v[13]) &&
    w[14] == (v[6] || v[14]) && w[15] == (v[7] || v[15])
  }

  lemma Network16Layer3Bits(w0: seq<bool>, w1: seq<bool>, w2: seq<bool>, w3: seq<bool>, w4: seq<bool>, w5: seq<bool>, w6: seq<bool>, w7: seq<bool>, w8: seq<bool>)
    requires |w0| == 16
    requires Swapped(w0, w1, C(0, 8))
    requires Swapped(w1, w2, C(1, 9))
    requires Swapped(w2, w3, C(2, 10))
    requires Swapped(w3, w4, C(3, 11))
    requires Swapped(w4, w5, C(4, 12))
    requires Swapped(w5, w6, C(5, 13))
    requires Swapped(w6, w7, C(6, 14))
    requires Swapped(w7, w8, C(7, 15))
    ensures Network16Step3(w0, w8)
  {
  }

  lemma Network16Layer3(layer: seq<Comparator>, v: seq<bool>)
    requires |v| == 16 && layer == [C(0, 8), C(1, 9), C(2, 10), C(3, 11), C(4, 12), C(5, 13), C(6, 14), C(7, 15)]
    ensures Network16Step3(v, ApplyLayerBits(layer, 0, v))
  {
    var w1 := CSwapBits(v, C(0, 8));
    CSwapBitsAt(v, C(0, 8));
    assert ApplyLayerBits(layer, 0, v) == ApplyLayerBits(layer, 1, w1);
    var w2 := CSwapBits(w1, C(1, 9));
    CSwapBitsAt(w1, C(1, 9));
    assert ApplyLayerBits(layer, 1, w1) == ApplyLayerBits(layer, 2, w2);
    var w3 := CSwapBits(w2, C(2, 10));
    CSwapBitsAt(w2, C(2, 10));
    assert ApplyLayerBits(layer, 2, w2) == ApplyLayerBits(layer, 3, w3);
    var w4 := CSwapBits(w3, C(3, 11));
    CSwapBitsAt(w3, C(3, 11));
    assert ApplyLayerBits(layer, 3, w3) == ApplyLayerBits(layer, 4, w4);
    var w5 := CSwapBits(w4, C(4, 12));
    CSwapBitsAt(w4, C(4, 12));
    assert ApplyLayerBits(layer, 4, w4) == ApplyLayerBits(layer, 5, w5);
    var w6 := CSwapBits(w5, C(5, 13));
    CSwapBitsAt(w5, C(5, 13));
    assert ApplyLayerBits(layer, 5, w5) == ApplyLayerBits(layer, 6, w6);
    var w7 := CSwapBits(w6, C(6, 14));
    CSwapBitsAt(w6, C(6, 14));
    assert ApplyLayerBits(layer, 6, w6) == ApplyLayerBits(layer, 7, w7);
    var w8 := CSwapBits(w7, C(7, 15));
    CSwapBitsAt(w7, C(7, 15));
    assert ApplyLayerBits(layer, 7, w7) == ApplyLayerBits(layer, 8, w8);
    Network16Layer3Bits(v, w1, w2, w3, w4, w5, w6, w7, w8);
  }

  predicate Network16Step4(v: seq<bool>, w: seq<bool>)
  {
    |v| == 16 && |w| == 16 && w[0] == v[0] && w[1] == (v[1] && v[2]) &&
    w[2] == (v[1] || v[2]) && w[3] == (v[3] && v[12]) && w[4] == (v[4] && v[8]) && w[5] == (v[5] && v[10]) &&
    w[6] == (v[6] && v[9]) && w[7] == (v[7] && v[11]) && w[8] == (v[4] || v[8]) && w[9] == (v[6] || v[9]) &&
    w[10] == (v[5] || v[10]) && w[11] == (v[7] || v[11]) && w[12] == (v[3] || v[12]) && w[13] == (v[13] && v[14]) &&
    w[14] == (v[13] || v[14]) && w[15] == v[15]
  }

  lemma Network16Layer4Bits(w0: seq<bool>, w1: seq<bool>, w2: seq<bool>, w3: seq<bool>, w4: seq<bool>, w5: seq<bool>, w6: seq<bool>, w7: seq<bool>)
    requires |w0| == 16
    requires Swapped(w0, w1, C(5, 10))
    requires Swapped(w1, w2, C(6, 9))
    requires Swapped(w2, w3, C(3, 12))
    requires Swapped(w3, w4, C(13, 14))
    requires Swapped(w4, w5, C(7, 11))
    requires Swapped(w5, w6, C(1, 2))
    requires Swapped(w6, w7, C(4, 8))
    ensures Network16Step4(w0, w7)
  {
  }

  lemma Network16Layer4(layer: seq<Comparator>, v: seq<bool>)
    requires |v| == 16 && layer == [C(5, 10), C(6, 9), C(3, 12), C(13, 14), C(7, 11), C(1, 2), C(4, 8)]
    ensures Network16Step4(v, ApplyLayerBits(layer, 0, v))
  {
    var w1 := CSwapBits(v, C(5, 10));
    CSwapBitsAt(v, C(5, 10));
    assert ApplyLayerBits(layer, 0, v) == ApplyLayerBits(layer, 1, w1);
    var w2 := CSwapBits(w1, C(6, 9));
    CSwapBitsAt(w1, C(6, 9));
    assert ApplyLayerBits(layer, 1, w1) == ApplyLayerBits(layer, 2, w2);
    var w3 := CSwapBits(w2, C(3, 12));
    CSwapBitsAt(w2, C(3, 12));
    assert ApplyLayerBits(layer, 2, w2) == ApplyLayerBits(layer, 3, w3);
    var w4 := CSwapBits(w3, C(13, 14));
    CSwapBitsAt(w3, C(13, 14));
    assert ApplyLayerBits(layer, 3, w3) == ApplyLayerBits(layer, 4, w4);
    var w5 := CSwapBits(w4, C(7, 11));
    CSwapBitsAt(w4, C(7, 11));
    assert ApplyLayerBits(layer, 4, w4) == ApplyLayerBits(layer, 5, w5);
    var w6 := CSwapBits(w5, C(1, 2));
    CSwapBitsAt(w5, C(1, 2));
    assert ApplyLayerBits(layer, 5, w5) == ApplyLayerBits(layer, 6, w6);
    var w7 := CSwapBits(w6, C(4, 8));
    CSwapBitsAt(w6, C(4, 8));
    assert ApplyLayerBits(layer, 6, w6) == ApplyLayerBits(layer, 7, w7);
    Network16Layer4Bits(v, w1, w2, w3, w4, w5, w6, w7);
  }

  predicate Network16Step5(v: seq<bool>, w: seq<bool>)
  {
    |v| == 16 && |w| == 16 && w[0] == v[0] && w[1] == (v[1] && v[4]) &&
    w[2] == (v[2] && v[8]) && w[3] == v[3] && w[4] == (v[1] || v[4]) && w[5] == (v[5] && v[6]) &&
    w[6] == (v[5] || v[6]) && w[7] == (v[7] && v[13]) && w[8] == (v[2] || v[8]) && w[9] == (v[9] && v[10]) &&
    w[10] == (v[9] || v[10]) && w[11] == (v[11] && v[14]) && w[12] == v[12] && w[13] == (v[7] || v[13]) &&
    w[14] == (v[11] || v[14]) && w[15] == v[15]
  }

  lemma Network16Layer5Bits(w0: seq<bool>, w1: seq<bool>, w2: seq<bool>, w3: seq<bool>, w4: seq<bool>, w5: seq<bool>, w6: seq<bool>)
    requires |w0| == 16
    requires Swapped(w0, w1, C(1, 4))
    requires Swapped(w1, w2, C(7, 13))
    requires Swapped(w2, w3, C(2, 8))
    requires Swapped(w3, w4, C(11, 14))
    requires Swapped(w4, w5, C(5, 6))
    requires Swapped(w5, w6, C(9, 10))
    ensures Network16Step5(w0, w6)
  {
  }

  lemma Network16Layer5(layer: seq<Comparator>, v: seq<bool>)
    requires |v| == 16 && layer == [C(1, 4), C(7, 13), C(2, 8), C(11, 14), C(5, 6), C(9, 10)]
    ensures Network16Step5(v, ApplyLayerBits(layer, 0, v))
  {
    var w1 := CSwapBits(v, C(1, 4));
    CSwapBitsAt(v, C(1, 4));
    assert ApplyLayerBits(layer, 0, v) == ApplyLayerBits(layer, 1, w1);
    var w2 := CSwapBits(w1, C(7, 13));
    CSwapBitsAt(w1, C(7, 13));
    assert ApplyLayerBits(layer, 1, w1) == ApplyLayerBits(layer, 2, w2);
    var w3 := CSwapBits(w2, C(2, 8));
    CSwapBitsAt(w2, C(2, 8));
    assert ApplyLayerBits(layer, 2, w2) == ApplyLayerBits(layer, 3, w3);
    var w4 := CSwapBits(w3, C(11, 14));
    CSwapBitsAt(w3, C(11, 14));
    assert ApplyLayerBits(layer, 3, w3) == ApplyLayerBits(layer, 4, w4);
    var w5 := CSwapBits(w4, C(5, 6));
    CSwapBitsAt(w4, C(5, 6));
    assert ApplyLayerBits(layer, 4, w4) == ApplyLayerBits(layer, 5, w5);
    var w6 := CSwapBits(w5, C(9, 10));
    CSwapBitsAt(w5, C(9, 10));
    assert ApplyLayerBits(layer, 5, w5) == ApplyLayerBits(layer, 6, w6);
    Network16Layer5Bits(v, w1, w2, w3, w4, w5, w6);
  }

  predicate Network16Step6(v: seq<bool>, w: seq<bool>)
  {
    |v| == 16 && |w| == 16 && w[0] == v[0] && w[1] == v[1] &&
    w[2] == (v[2] && v[4]) && w[3] == (v[3] && v[8]) && w[4] == (v[2] || v[4]) && w[5] == v[5] &&
    w[6] == v[6] && w[7] == (v[7] && v[12]) && w[8] == (v[3] || v[8]) && w[9] == v[9] &&
    w[10] == v[10] && w[11] == (v[11] && v[13]) && w[12] == (v[7] || v[12]) && w[13] == (v[11] || v[13]) &&
    w[14] == v[14] && w[15] == v[15]
  }

  lemma Network16Layer6Bits(w0: seq<bool>, w1: seq<bool>, w2: seq<bool>, w3: seq<bool>, w4: seq<bool>)
    requires |w0| == 16
    requires Swapped(w0, w1, C(2, 4))
    requires Swapped(w1, w2, C(11, 13))
    requires Swapped(w2, w3, C(3, 8))
    requires Swapped(w3, w4, C(7, 12))
    ensures Network16Step6(w0, w4)
  {
  }

  lemma Network16Layer6(layer: seq<Comparator>, v: seq<bool>)
    requires |v| == 16 && layer == [C(2, 4), C(11, 13), C(3, 8), C(7, 12)]
    ensures Network16Step6(v, ApplyLayerBits(layer, 0, v))
  {
    var w1 := CSwapBits(v, C(2, 4));
    CSwapBitsAt(v, C(2, 4));
    assert ApplyLayerBits(layer, 0, v) == ApplyLayerBits(layer, 1, w1);
    var w2 := CSwapBits(w1, C(11, 13));
    CSwapBitsAt(w1, C(11, 13));
    assert ApplyLayerBits(layer, 1, w1) == ApplyLayerBits(layer, 2, w2);
    var w3 := CSwapBits(w2, C(3, 8));
    CSwapBitsAt(w2, C(3, 8));
    assert ApplyLayerBits(layer, 2, w2) == ApplyLayerBits(layer, 3, w3);
    var w4 := CSwapBits(w3, C(7, 12));
    CSwapBitsAt(w3, C(7, 12));
    assert ApplyLayerBits(layer, 3, w3) == ApplyLayerBits(layer, 4, w4);
    Network16Layer6Bits(v, w1, w2, w3, w4);
  }

  predicate Network16Step7(v: seq<bool>, w: seq<bool>)
  {
    |v| == 16 && |w| == 16 && w[0] == v[0] && w[1] == v[1] &&
    w[2] == v[2] && w[3] == (v[3] && v[5]) && w[4] == v[4] && w[5] == (v[3] || v[5]) &&
    w[6] == (v[6] && v[8]) && w[7] == (v[7] && v[9]) && w[8] == (v[6] || v[8]) && w[9] == (v[7] || v[9]) &&
    w[10] == (v[10] && v[12]) && w[11] == v[11] && w[12] == (v[10] || v[12]) && w[13] == v[13] &&
    w[14] == v[14] && w[15] == v[15]
  }

  lemma Network16Layer7Bits(w0: seq<bool>, w1: seq<bool>, w2: seq<bool>, w3: seq<bool>, w4: seq<bool>)
    requires |w0| == 16
    requires Swapped(w0, w1, C(6, 8))
    requires Swapped(w1, w2, C(10, 12))
    requires Swapped(w2, w3, C(3, 5))
    requires Swapped(w3, w4, C(7, 9))
    ensures Network16Step7(w0, w4)
  {
  }

  lemma Network16Layer7(layer: seq<Comparator>, v: seq<bool>)
    requires |v| == 16 && layer == [C(6, 8), C(10, 12), C(3, 5), C(7, 9)]
    ensures Network16Step7(v, ApplyLayerBits(layer, 0, v))
  {
    var w1 := CSwapBits(v, C(6, 8));
    CSwapBitsAt(v, C(6, 8));
    assert ApplyLayerBits(layer, 0, v) == ApplyLayerBits(layer, 1, w1);
    var w2 := CSwapBits(w1, C(10, 12));
    CSwapBitsAt(w1, C(10, 12));
    assert ApplyLayerBits(layer, 1, w1) == ApplyLayerBits(layer, 2, w2);
    var w3 := CSwapBits(w2, C(3, 5));
    CSwapBitsAt(w2, C(3, 5));
    assert ApplyLayerBits(layer, 2, w2) == ApplyLayerBits(layer, 3, w3);
    var w4 := CSwapBits(w3, C(7, 9));
    CSwapBitsAt(w3, C(7, 9));
    assert ApplyLayerBits(layer, 3, w3) == ApplyLayerBits(layer, 4, w4);
    Network16Layer7Bits(v, w1, w2, w3, w4);
  }

  predicate Network16Step8(v: seq<bool>, w: seq<bool>)
  {
    |v| == 16 && |w| == 16 && w[0] == v[0] && w[1] == v[1] &&
    w[2] == v[2] && w[3] == (v[3] && v[4]) && w[4] == (v[3] || v[4]) && w[5] == (v[5] && v[6]) &&
    w[6] == (v[5] || v[6]) && w[7] == (v[7] && v[8]) && w[8] == (v[7] || v[8]) && w[9] == (v[9] && v[10]) &&
    w[10] == (v[9] || v[10]) && w[11] == (v[11] && v[12]) && w[12] == (v[11] || v[12]) && w[13] == v[13] &&
    w[14] == v[14] && w[15] == v[15]
  }

  lemma Network16Layer8Bits(w0: seq<bool>, w1: seq<bool>, w2: seq<bool>, w3: seq<bool>, w4: seq<bool>, w5: seq<bool>)
    requires |w0| == 16
    requires Swapped(w0, w1, C(3, 4))
    requires Swapped(w1, w2, C(5, 6))
    requires Swapped(w2, w3, C(7, 8))
    requires Swapped(w3, w4, C(9, 10))
    requires Swapped(w4, w5, C(11, 12))
    ensures Network16Step8(w0, w5)
  {
  }

  lemma Network16Layer8(layer: seq<Comparator>, v: seq<bool>)
    requires |v| == 16 && layer == [C(3, 4), C(5, 6), C(7, 8), C(9, 10), C(11, 12)]
    ensures Network16Step8(v, ApplyLayerBits(layer, 0, v))
  {
    var w1 := CSwapBits(v, C(3, 4));
    CSwapBitsAt(v, C(3, 4));
    assert ApplyLayerBits(layer, 0, v) == ApplyLayerBits(layer, 1, w1);
    var w2 := CSwapBits(w1, C(5, 6));
    CSwapBitsAt(w1, C(5, 6));
    assert ApplyLayerBits(layer, 1, w1) == ApplyLayerBits(layer, 2, w2);
    var w3 := CSwapBits(w2, C(7, 8));
    CSwapBitsAt(w2, C(7, 8));
    assert ApplyLayerBits(layer, 2, w2) == ApplyLayerBits(layer, 3, w3);
    var w4 := CSwapBits(w3, C(9, 10));
    CSwapBitsAt(w3, C(9, 10));
    assert ApplyLayerBits(layer, 3, w3) == ApplyLayerBits(layer, 4, w4);
    var w5 := CSwapBits(w4, C(11, 12));
    CSwapBitsAt(w4, C(11, 12));
    assert ApplyLayerBits(layer, 4, w4) == ApplyLayerBits(layer, 5, w5);
    Network16Layer8Bits(v, w1, w2, w3, w4, w5);
  }

  predicate Network16Step9(v: seq<bool>, w: seq<bool>)
  {
    |v| == 16 && |w| == 16 && w[0] == v[0] && w[1] == v[1] &&
    w[2] == v[2] && w[3] == v[3] && w[4] == v[4] && w[5] == v[5] &&
    w[6] == (v[6] && v[7]) && w[7] == (v[6] || v[7]) && w[8] == (v[8] && v[9]) && w[9] == (v[8] || v[9]) &&
    w[10] == v[10] && w[11] == v[11] && w[12] == v[12] && w[13] == v[13] &&
    w[14] == v[14] && w[15] == v[15]
  }

  lemma Network16Layer9Bits(w0: seq<bool>, w1: seq<bool>, w2: seq<bool>)
    requires |w0| == 16
    requires Swapped(w0, w1, C(6, 7))
    requires Swapped(w1, w2, C(8, 9))
    ensures Network16Step9(w0, w2)
  {
  }

  lemma Network16Layer9(layer: seq<Comparator>, v: seq<bool>)
    requires |v| == 16 && layer == [C(6, 7), C(8, 9)]
    ensures Network16Step9(v, ApplyLayerBits(layer, 0, v))
  {
    var w1 := CSwapBits(v, C(6, 7));
    CSwapBitsAt(v, C(6, 7));
    assert ApplyLayerBits(layer, 0, v) == ApplyLayerBits(layer, 1, w1);
    var w2 := CSwapBits(w1, C(8, 9));
    CSwapBitsAt(w1, C(8, 9));
    assert ApplyLayerBits(layer, 1, w1) == ApplyLayerBits(layer, 2, w2);
    Network16Layer9Bits(v, w1, w2);
  }

  lemma Network16Circuit(v0: seq<bool>, v1: seq<bool>, v2: seq<bool>, v3: seq<bool>, v4: seq<bool>, v5: seq<bool>, v6: seq<bool>, v7: seq<bool>, v8: seq<bool>, v9: seq<bool>, v10: seq<bool>)
    requires Network16Step0(v0, v1)
    requires Network16Step1(v1, v2)
    requires Network16Step2(v2, v3)
    requires Network16Step3(v3, v4)
    requires Network16Step4(v4, v5)
    requires Network16Step5(v5, v6)
    requires Network16Step6(v6, v7)
    requires Network16Step7(v7, v8)
    requires Network16Step8(v8, v9)
    requires Network16Step9(v9, v10)
    ensures SortedBits(v10)
  {
  }

  lemma Network16SortsBits(v: seq<bool>)
    requires |v| == 16
    ensures SortedBits(ApplyNetBits(Network16, 0, v))
  {
    var v1 := ApplyLayerBits(Network16[0], 0, v);
    Network16Layer0(Network16[0], v);
    var v2 := ApplyLayerBits(Network16[1], 0, v1);
    Network16Layer1(Network16[1], v1);
    var v3 := ApplyLayerBits(Network16[2], 0, v2);
    Network16Layer2(Network16[2], v2);
    var v4 := ApplyLayerBits(Network16[3], 0, v3);
    Network16Layer3(Network16[3], v3);
    var v5 := ApplyLayerBits(Network16[4], 0, v4);
    Network16Layer4(Network16[4], v4);
    var v6 := ApplyLayerBits(Network16[5], 0, v5);
    Network16Layer5(Network16[5], v5);
    var v7 := ApplyLayerBits(Network16[6], 0, v6);
    Network16Layer6(Network16[6], v6);
    var v8 := ApplyLayerBits(Network16[7], 0, v7);
    Network16Layer7(Network16[7], v7);
    var v9 := ApplyLayerBits(Network16[8], 0, v8);
    Network16Layer8(Network16[8], v8);
    var v10 := ApplyLayerBits(Network16[9], 0, v9);
    Network16Layer9(Network16[9], v9);
    Network16Circuit(v, v1, v2, v3, v4, v5, v6, v7, v8, v9, v10);
    assert ApplyNetBits(Network16, 0, v) == ApplyNetBits(Network16, 1, v1);
    assert ApplyNetBits(Network16, 1, v1) == ApplyNetBits(Network16, 2, v2);
    assert ApplyNetBits(Network16, 2, v2) == ApplyNetBits(Network16, 3, v3);
    assert ApplyNetBits(Network16, 3, v3) == ApplyNetBits(Network16, 4, v4);
    assert ApplyNetBits(Network16, 4, v4) == ApplyNetBits(Network16, 5, v5);
    assert ApplyNetBits(Network16, 5, v5) == ApplyNetBits(Network16, 6, v6);
    assert ApplyNetBits(Network16, 6, v6) == ApplyNetBits(Network16, 7, v7);
    assert ApplyNetBits(Network16, 7, v7) == ApplyNetBits(Network16, 8, v8);
    assert ApplyNetBits(Network16, 8, v8) == ApplyNetBits(Network16, 9, v9);
    assert ApplyNetBits(Network16, 9, v9) == ApplyNetBits(Network16, 10, v10);
  }

  // ---- all sizes ----

  /** Every network of `bitonic_sort` sorts every 0-1 input of its size. */
  lemma NetworkSortsBits(n: nat, v: seq<bool>)
    requires 2 <= n <= 16 && |v| == n
    ensures SortedBits(ApplyNetBits(Network(n), 0, v))
  {
    match n
    case 2 => Network2SortsBits(v);
    case 3 => Network3SortsBits(v);
    case 4 => Network4SortsBits(v);
    case 5 => Network5SortsBits(v);
    case 6 => Network6SortsBits(v);
    case 7 => Network7SortsBits(v);
    case 8 => Network8SortsBits(v);
    case 9 => Network9SortsBits(v);
    case 10 => Network10SortsBits(v);
    case 11 => Network11SortsBits(v);
    case 12 => Network12SortsBits(v);
    case 13 => Network13SortsBits(v);
    case 14 => Network14SortsBits(v);
    case 15 => Network15SortsBits(v);
    case 16 => Network16SortsBits(v);
  }

  /** Every comparator of every network of `bitonic_sort` names its lower position first. */
  lemma NetworkOriented(n: nat)
    requires 2 <= n <= 16
    ensures Oriented(Network(n))
  {
    match n
    case 2 => Network2Oriented();
    case 3 => Network3Oriented();
    case 4 => Network4Oriented();
    case 5 => Network5Oriented();
    case 6 => Network6Oriented();
    case 7 => Network7Oriented();
    case 8 => Network8Oriented();
    case 9 => Network9Oriented();
    case 10 => Network10Oriented();
    case 11 => Network11Oriented();
    case 12 => Network12Oriented();
    case 13 => Network13Oriented();
    case 14 => Network14Oriented();
    case 15 => Network15Oriented();
    case 16 => Network16Oriented();
  }
}

=== FILE: networks.dfy ===
/** The fixed sorting networks `bitonic_sort_2` to `bitonic_sort_16` and the conditional
    swap `SORT_CSWAP` they are made of.

    A network is kept as the list of its layers: maximal groups of consecutive comparators
    that touch pairwise different positions, in the order the source applies them. Running
    the layers one after another is running the source's comparators one after another.

    Sortedness is shown by the 0-1 principle: every comparator commutes with the map that
    sends a key to "is it at least t", so a network that sorts every sequence of 0-1 values
    sorts every sequence of keys. */
module Networks {
  import opened Pairs

  /** One `SORT_CSWAP(x, y, i, j)` of a network. */
  datatype Comparator = C(i: nat, j: nat)

  /** `SORT_CSWAP`: the pairs at `i` and `j` trade places when the key at `i` is larger.
      A position out of range leaves the sequence alone (no network names one). */
  function CSwap(s: seq<Pair>, c: Comparator): (r: seq<Pair>)
    ensures |r| == |s|
  {
    if c.i < |s| && c.j < |s| && s[c.i].key > s[c.j].key then s[c.i := s[c.j]][c.j := s[c.i]]
    else s
  }

  /** The comparators of `layer` from index `k` on, in order. */
  function ApplyLayer(layer: seq<Comparator>, k: nat, s: seq<Pair>): (r: seq<Pair>)
    ensures |r| == |s|
    decreases |layer| - k
  {
    if k >= |layer| then s else ApplyLayer(layer, k + 1, CSwap(s, layer[k]))
  }

  /** The layers of `net` from index `k` on, in order. */
  function ApplyNet(net: seq<seq<Comparator>>, k: nat, s: seq<Pair>): (r: seq<Pair>)
    ensures |r| == |s|
    decreases |net| - k
  {
    if k >= |net| then s else ApplyNet(net, k + 1, ApplyLayer(net[k], 0, s))
  }

  /** `bitonic_sort_2`: 1 comparator in 1 layer. */
  const Network2: seq<seq<Comparator>> := [[C(0, 1)]]

  /** `bitonic_sort_3`: 3 comparators in 3 layers. */
  const Network3: seq<seq<Comparator>> := [
    [C(1, 2)],
    [C(0, 2)],
    [C(0, 1)]
  ]

  /** `bitonic_sort_4`: 5 comparators in 3 layers. */
  const Network4: seq<seq<Comparator>> := [
    [C(0, 1), C(2, 3)],
    [C(0, 2), C(1, 3)],
    [C(1, 2)]
  ]

  /** `bitonic_sort_5`: 9 comparators in 6 layers. */
  const Network5: seq<seq<Comparator>> := [
    [C(0, 1), C(3, 4)],
    [C(2, 4)],
    [C(2, 3), C(1, 4)],
    [C(0, 3)],
    [C(0, 2), C(1, 3)],
    [C(1, 2)]
  ]

  /** `bitonic_sort_6`: 12 comparators in 6 layers. */
  const Network6: seq<seq<Comparator>> := [
    [C(1, 2), C(4, 5)],
    [C(0, 2), C(3, 5)],
    [C(0, 1), C(3, 4), C(2, 5)],
    [C(0, 3), C(1, 4)],
    [C(2, 4), C(1, 3)],
    [C(2, 3)]
  ]

  /** `bitonic_sort_7`: 16 comparators in 7 layers. */
  const Network7: seq<seq<Comparator>> := [
    [C(1, 2), C(3, 4), C(5, 6)],
    [C(0, 2), C(3, 5), C(4, 6)],
    [C(0, 1), C(4, 5), C(2, 6)],
    [C(0, 4), C(1, 5)],
    [C(0, 3), C(2, 5)],
    [C(1, 3), C(2, 4)],
    [C(2, 3)]
  ]

  /** `bitonic_sort_8`: 19 comparators in 7 layers. */
  const Network8: seq<seq<Comparator>> := [
    [C(0, 1), C(2, 3), C(4, 5), C(6, 7)],
    [C(0, 2), C(1, 3), C(4, 6), C(5, 7)],
    [C(1, 2), C(5, 6), C(0, 4), C(3, 7)],
    [C(1, 5), C(2, 6)],
    [C(1, 4), C(3, 6)],
    [C(2, 4), C(3, 5)],
    [C(3, 4)]
  ]

  /** `bitonic_sort_9`: 25 comparators in 9 layers. */
  const Network9: seq<seq<Comparator>> := [
    [C(0, 1), C(3, 4), C(6, 7)],
    [C(1, 2), C(4, 5), C(7, 8)],
    [C(0, 1), C(3, 4), C(6, 7), C(2, 5)],
    [C(0, 3), C(1, 4), C(5, 8)],
    [C(3, 6), C(4, 7), C(2, 5)],
    [C(0, 3), C(1, 4), C(5, 7), C(2, 6)],
    [C(1, 3), C(4, 6)],
    [C(2, 4), C(5, 6)],
    [C(2, 3)]
  ]

  /** `bitonic_sort_10`: 29 comparators in 9 layers. */
  const Network10: seq<seq<Comparator>> := [
    [C(4, 9), C(3, 8), C(2, 7), C(1, 6), C(0, 5)],
    [C(1, 4), C(6, 9), C(0, 3), C(5, 8)],
    [C(0, 2), C(3, 6), C(7, 9)],
    [C(0, 1), C(2, 4), C(5, 7), C(8, 9)],
    [C(1, 2), C(4, 6), C(7, 8), C(3, 5)],
    [C(2, 5), C(6, 8), C(1, 3), C(4, 7)],
    [C(2, 3), C(6, 7)],
    [C(3, 4), C(5, 6)],
    [C(4, 5)]
  ]

  /** `bitonic_sort_11`: 35 comparators in 9 layers. */
  const Network11: seq<seq<Comparator>> := [
    [C(0, 1), C(2, 3), C(4, 5), C(6, 7), C(8, 9)],
    [C(1, 3), C(5, 7), C(0, 2), C(4, 6), C(8, 10)],
    [C(1, 2), C(5, 6), C(9, 10), C(0, 4), C(3, 7)],
    [C(1, 5), C(6, 10), C(4, 8)],
    [C(5, 9), C(2, 6), C(0, 4), C(3, 8)],
    [C(1, 5), C(6, 10), C(2, 3), C(8, 9)],
    [C(1, 4), C(7, 10), C(3, 5), C(6, 8)],
    [C(2, 4), C(7, 9), C(5, 6)],
    [C(3, 4), C(7, 8)]
  ]

  /** `bitonic_sort_12`: 39 comparators in 9 layers. */
  const Network12: seq<seq<Comparator>> := [
    [C(0, 1), C(2, 3), C(4, 5), C(6, 7), C(8, 9), C(10, 11)],
    [C(1, 3), C(5, 7), C(9, 11), C(0, 2), C(4, 6), C(8, 10)],
    [C(1, 2), C(5, 6), C(9, 10), C(0, 4), C(7, 11)],
    [C(1, 5), C(6, 10), C(3, 7), C(4, 8)],
    [C(5, 9), C(2, 6), C(0, 4), C(7, 11), C(3, 8)],
    [C(1, 5), C(6, 10), C(2, 3), C(8, 9)],
    [C(1, 4), C(7, 10), C(3, 5), C(6, 8)],
    [C(2, 4), C(7, 9), C(5, 6)],
    [C(3, 4), C(7, 8)]
  ]

  /** `bitonic_sort_13`: 45 comparators in 10 layers. */
  const Network13: seq<seq<Comparator>> := [
    [C(1, 7), C(9, 11), C(3, 4), C(5, 8), C(0, 12), C(2, 6)],
    [C(0, 1), C(2, 3), C(4, 6), C(8, 11), C(7, 12), C(5, 9)],
    [C(0, 2), C(3, 7), C(10, 11), C(1, 4), C(6, 12)],
    [C(7, 8), C(11, 12), C(4, 9), C(6, 10)],
    [C(3, 4), C(5, 6), C(8, 9), C(10, 11), C(1, 7)],
    [C(2, 6), C(9, 11), C(1, 3), C(4, 7), C(8, 10), C(0, 5)],
    [C(2, 5), C(6, 8), C(9, 10)],
    [C(1, 2), C(3, 5), C(7, 8), C(4, 6)],
    [C(2, 3), C(4, 5), C(6, 7), C(8, 9)],
    [C(3, 4), C(5, 6)]
  ]

  /** `bitonic_sort_14`: 51 comparators in 10 layers. */
  const Network14: seq<seq<Comparator>> := [
    [C(0, 1), C(2, 3), C(4, 5), C(6, 7), C(8, 9), C(10, 11), C(12, 13)],
    [C(0, 2), C(4, 6), C(8, 10), C(1, 3), C(5, 7), C(9, 11)],
    [C(0, 4), C(8, 12), C(1, 5), C(9, 13), C(2, 6), C(3, 7)],
    [C(0, 8), C(1, 9), C(2, 10), C(3, 11), C(4, 12), C(5, 13)],
    [C(5, 10), C(6, 9), C(3, 12), C(7, 11), C(1, 2), C(4, 8)],
    [C(1, 4), C(7, 13), C(2, 8), C(5, 6), C(9, 10)],
    [C(2, 4), C(11, 13), C(3, 8), C(7, 12)],
    [C(6, 8), C(10, 12), C(3, 5), C(7, 9)],
    [C(3, 4), C(5, 6), C(7, 8), C(9, 10), C(11, 12)],
    [C(6, 7), C(8, 9)]
  ]

  /** `bitonic_sort_15`: 56 comparators in 10 layers. */
  const Network15: seq<seq<Comparator>> := [
    [C(0, 1), C(2, 3), C(4, 5), C(6, 7), C(8, 9), C(10, 11), C(12, 13)],
    [C(0, 2), C(4, 6), C(8, 10), C(12, 14), C(1, 3), C(5, 7), C(9, 11)],
    [C(0, 4), C(8, 12), C(1, 5), C(9, 13), C(2, 6), C(10, 14), C(3, 7)],
    [C(0, 8), C(1, 9), C(2, 10), C(3, 11), C(4, 12), C(5, 13), C(6, 14)],
    [C(5, 10), C(6, 9), C(3, 12), C(13, 14), C(7, 11), C(1, 2), C(4, 8)],
    [C(1, 4), C(7, 13), C(2, 8), C(11, 14), C(5, 6), C(9, 10)],
    [C(2, 4), C(11, 13), C(3, 8), C(7, 12)],
    [C(6, 8), C(10, 12), C(3, 5), C(7, 9)],
    [C(3, 4), C(5, 6), C(7, 8), C(9, 10), C(11, 12)],
    [C(6, 7), C(8, 9)]
  ]

  /** `bitonic_sort_16`: 60 comparators in 10 layers. */
  const Network16: seq<seq<Comparator>> := [
    [C(0, 1), C(2, 3), C(4, 5), C(6, 7), C(8, 9), C(10, 11), C(12, 13), C(14, 15)],
    [C(0, 2), C(4, 6), C(8, 10), C(12, 14), C(1, 3), C(5, 7), C(9, 11), C(13, 15)],
    [C(0, 4), C(8, 12), C(1, 5), C(9, 13), C(2, 6), C(10, 14), C(3, 7), C(11, 15)],
    [C(0, 8), C(1, 9), C(2, 10), C(3, 11), C(4, 12), C(5, 13), C(6, 14), C(7, 15)],
    [C(5, 10), C(6, 9), C(3, 12), C(13, 14), C(7, 11), C(1, 2), C(4, 8)],
    [C(1, 4), C(7, 13), C(2, 8), C(11, 14), C(5, 6), C(9, 10)],
    [C(2, 4), C(11, 13), C(3, 8), C(7, 12)],
    [C(6, 8), C(10, 12), C(3, 5), C(7, 9)],
    [C(3, 4), C(5, 6), C(7, 8), C(9, 10), C(11, 12)],
    [C(6, 7), C(8, 9)]
  ]

  /** The network `bitonic_sort` selects for `n` elements. */
  function Network(n: nat): seq<seq<Comparator>>
    requires 2 <= n <= 16
  {
    match n
    case 2 => Network2
    case 3 => Network3
    case 4 => Network4
    case 5 => Network5
    case 6 => Network6
    case 7 => Network7
    case 8 => Network8
    case 9 => Network9
    case 10 => Network10
    case 11 => Network11
    case 12 => Network12
    case 13 => Network13
    case 14 => Network14
    case 15 => Network15
    case 16 => Network16
  }

  /** A conditional swap neither loses nor invents a pair. */
  lemma CSwapPermutation(s: seq<Pair>, c: Comparator)
    ensures multiset(CSwap(s, c)) == multiset(s)
  {
    if c.i < |s| && c.j < |s| && s[c.i].key > s[c.j].key {
      var t := s[c.i := s[c.j]];
      assert multiset(t) == multiset(s) - multiset{s[c.i]} + multiset{s[c.j]};
      assert multiset(t[c.j := s[c.i]]) == multiset(t) - multiset{t[c.j]} + multiset{s[c.i]};
    }
  }

  /** Every network rearranges its input: it is a permutation of the pairs. */
  lemma {:induction false} ApplyLayerPermutation(layer: seq<Comparator>, k: nat, s: seq<Pair>)
    ensures multiset(ApplyLayer(layer, k, s)) == multiset(s)
    decreases |layer| - k
  {
    if k < |layer| {
      CSwapPermutation(s, layer[k]);
      ApplyLayerPermutation(layer, k + 1, CSwap(s, layer[k]));
    }
  }

  lemma {:induction false} ApplyNetPermutation(net: seq<seq<Comparator>>, k: nat, s: seq<Pair>)
    ensures multiset(ApplyNet(net, k, s)) == multiset(s)
    decreases |net| - k
  {
    if k < |net| {
      ApplyLayerPermutation(net[k], 0, s);
      ApplyNetPermutation(net, k + 1, ApplyLayer(net[k], 0, s));
    }
  }

  /** Every comparator of `net` names its lower position first. */
  predicate Oriented(net: seq<seq<Comparator>>)
  {
    forall k, q :: 0 <= k < |net| && 0 <= q < |net[k]| ==> net[k][q].i < net[k][q].j
  }

  /** On sorted keys a comparator whose lower position comes first never fires, so a
      network leaves sorted input exactly as it is, bound values included. */
  lemma {:induction false} ApplyLayerSorted(layer: seq<Comparator>, k: nat, s: seq<Pair>)
    requires Sorted(s)
    requires forall q :: 0 <= q < |layer| ==> layer[q].i < layer[q].j
    ensures ApplyLayer(layer, k, s) == s
    decreases |layer| - k
  {
    if k < |layer| {
      assert CSwap(s, layer[k]) == s;
      ApplyLayerSorted(layer, k + 1, s);
    }
  }

  lemma {:induction false} ApplyNetSorted(net: seq<seq<Comparator>>, k: nat, s: seq<Pair>)
    requires Sorted(s) && Oriented(net)
    ensures ApplyNet(net, k, s) == s
    decreases |net| - k
  {
    if k < |net| {
      ApplyLayerSorted(net[k], 0, s);
      ApplyNetSorted(net, k + 1, s);
    }
  }

  /** The comparator on 0-1 values: the smaller value (`&&`) goes to `i`, the larger
      (`||`) to `j`. */
  function CSwapBits(v: seq<bool>, c: Comparator): (w: seq<bool>)
    ensures |w| == |v|
  {
    if c.i < |v| && c.j < |v| then v[c.i := v[c.i] && v[c.j]][c.j := v[c.i] || v[c.j]] else v
  }

  function ApplyLayerBits(layer: seq<Comparator>, k: nat, v: seq<bool>): (w: seq<bool>)
    ensures |w| == |v|
    decreases |layer| - k
  {
    if k >= |layer| then v else ApplyLayerBits(layer, k + 1, CSwapBits(v, layer[k]))
  }

  function ApplyNetBits(net: seq<seq<Comparator>>, k: nat, v: seq<bool>): (w: seq<bool>)
    ensures |w| == |v|
    decreases |net| - k
  {
    if k >= |net| then v else ApplyNetBits(net, k + 1, ApplyLayerBits(net[k], 0, v))
  }

  /** Falses before trues. */
  predicate SortedBits(v: seq<bool>)
  {
    forall m :: 0 < m < |v| ==> v[m - 1] ==> v[m]
  }

  /** Position `m` holds true when its key is at least `t`. */
  function Threshold(s: seq<Pair>, t: int): (v: seq<bool>)
    ensures |v| == |s|
    ensures forall m :: 0 <= m < |s| ==> (v[m] <==> s[m].key >= t)
  {
    seq(|s|, m requires 0 <= m < |s| => s[m].key >= t)
  }

  /** Swapping and then thresholding is thresholding and then swapping. */
  lemma CSwapThreshold(s: seq<Pair>, c: Comparator, t: int)
    ensures Threshold(CSwap(s, c), t) == CSwapBits(Threshold(s, t), c)
  {
    var a, b := Threshold(CSwap(s, c), t), CSwapBits(Threshold(s, t), c);
    forall m | 0 <= m < |s|
      ensures a[m] == b[m]
    {
    }
  }

  lemma {:induction false} ApplyLayerThreshold(layer: seq<Comparator>, k: nat, s: seq<Pair>, t: int)
    ensures Threshold(ApplyLayer(layer, k, s), t) == ApplyLayerBits(layer, k, Threshold(s, t))
    decreases |layer| - k
  {
    if k < |layer| {
      CSwapThreshold(s, layer[k], t);
      ApplyLayerThreshold(layer, k + 1, CSwap(s, layer[k]), t);
    }
  }

  lemma {:induction false} ApplyNetThreshold(net: seq<seq<Comparator>>, k: nat, s: seq<Pair>, t: int)
    ensures Threshold(ApplyNet(net, k, s), t) == ApplyNetBits(net, k, Threshold(s, t))
    decreases |net| - k
  {
    if k < |net| {
      ApplyLayerThreshold(net[k], 0, s, t);
      ApplyNetThreshold(net, k + 1, ApplyLayer(net[k], 0, s), t);
    }
  }

  /** In sorted 0-1 values a true is followed by trues only. */
  lemma {:induction false} SortedBitsUpward(v: seq<bool>, i: nat, j: nat)
    requires SortedBits(v) && i <= j < |v| && v[i]
    ensures v[j]
    decreases j - i
  {
    if i < j {
      SortedBitsUpward(v, i, j - 1);
    }
  }

  /** The 0-1 principle: a network that sorts every 0-1 input of length `|s|` sorts `s`.
      Were an output key larger than a later one, thresholding at the larger key would
      give a true before a false. */
  lemma ZeroOnePrinciple(net: seq<seq<Comparator>>, s: seq<Pair>)
    requires forall v: seq<bool> :: |v| == |s| ==> SortedBits(ApplyNetBits(net, 0, v))
    ensures Sorted(ApplyNet(net, 0, s))
  {
    var r := ApplyNet(net, 0, s);
    forall i, j | 0 <= i < j < |r|
      ensures r[i].key <= r[j].key
    {
      var t := r[i].key;
      ApplyNetThreshold(net, 0, s, t);
      var w := Threshold(r, t);
      assert w == ApplyNetBits(net, 0, Threshold(s, t));
      SortedBitsUpward(w, i, j);
    }
  }

  /** The effect of comparator `c` on 0-1 values, position by position. */
  predicate Swapped(v: seq<bool>, w: seq<bool>, c: Comparator)
  {
    |w| == |v| && c.i < |v| && c.j < |v| &&
    w[c.i] == (v[c.i] && v[c.j]) && w[c.j] == (v[c.i] || v[c.j]) &&
    forall m :: 0 <= m < |v| && m != c.i && m != c.j ==> w[m] == v[m]
  }

  lemma CSwapBitsAt(v: seq<bool>, c: Comparator)
    requires c.i < |v| && c.j < |v| && c.i != c.j
    ensures Swapped(v, CSwapBits(v, c), c)
  {
  }
}

=== FILE: pairs.dfy ===
/** The element model shared by every layer of the sort.

    The engine sorts a key array and a bound (payload) array in lockstep; here the two
    arrays are one sequence of `Pair`s, so "the bound value stays with its key" holds by
    construction and every statement about pairing becomes a statement about pairs. */
module Pairs {

  /** One position of the two arrays: `key` decides the order, `bound` travels with it. */
  datatype Pair = Pair(key: int, bound: nat)

  /** The smaller of two counts. */
  function Min(a: nat, b: nat): nat
  {
    if a < b then a else b
  }

  /** The keys of `s` are non-decreasing. */
  predicate Sorted(s: seq<Pair>)
  {
    forall i, j :: 0 <= i < j < |s| ==> s[i].key <= s[j].key
  }

  /** The keys of `s[lo..hi)` are non-decreasing (stated on positions of `s`). */
  predicate SortedRange(s: seq<Pair>, lo: nat, hi: nat)
    requires lo <= hi <= |s|
  {
    forall i, j :: lo <= i < j < hi ==> s[i].key <= s[j].key
  }

  /** Sortedness of a range, stated on positions or on the slice, is the same thing. */
  lemma SortedRangeSlice(s: seq<Pair>, lo: nat, hi: nat)
    requires lo <= hi <= |s|
    ensures SortedRange(s, lo, hi) <==> Sorted(s[lo..hi])
  {
    if Sorted(s[lo..hi]) {
      forall i, j | lo <= i < j < hi
        ensures s[i].key <= s[j].key
      {
        assert s[i] == s[lo..hi][i - lo] && s[j] == s[lo..hi][j - lo];
      }
    }
  }

  /** The keys of `s[lo..hi)` are strictly decreasing. */
  predicate StrictlyDescendingRange(s: seq<Pair>, lo: nat, hi: nat)
    requires lo <= hi <= |s|
  {
    forall i, j :: lo <= i < j < hi ==> s[i].key > s[j].key
  }

  /** The elements of `s` whose key is `k`, in their order in `s`. */
  function KeyFilter(s: seq<Pair>, k: int): (f: seq<Pair>)
    ensures |f| <= |s|
    ensures forall i :: 0 <= i < |f| ==> f[i].key == k
  {
    if s == [] then []
    else if s[|s| - 1].key == k then KeyFilter(s[..|s| - 1], k) + [s[|s| - 1]]
    else KeyFilter(s[..|s| - 1], k)
  }

  /** `t` is a stable rearrangement of `s`: for every key, the elements carrying that key
      appear in `t` exactly as (and in the same order as) they appear in `s`. */
  ghost predicate StablePerm(s: seq<Pair>, t: seq<Pair>)
  {
    forall k :: KeyFilter(t, k) == KeyFilter(s, k)
  }

  /** Filtering distributes over concatenation. */
  lemma {:induction false} FilterAppend(a: seq<Pair>, b: seq<Pair>, k: int)
    ensures KeyFilter(a + b, k) == KeyFilter(a, k) + KeyFilter(b, k)
    decreases |b|
  {
    if b == [] {
      assert a + b == a;
    } else {
      var b' := b[..|b| - 1];
      assert (a + b)[..|a + b| - 1] == a + b';
      FilterAppend(a, b', k);
    }
  }

  /** A sequence with no element of key `k` filters to nothing. */
  lemma {:induction false} FilterAbsent(s: seq<Pair>, k: int)
    requires forall i :: 0 <= i < |s| ==> s[i].key != k
    ensures KeyFilter(s, k) == []
    decreases |s|
  {
    if s != [] {
      FilterAbsent(s[..|s| - 1], k);
    }
  }

  /** Filtering on `x.key` keeps every copy of `x`. */
  lemma {:induction false} FilterCount(s: seq<Pair>, x: Pair)
    ensures multiset(KeyFilter(s, x.key))[x] == multiset(s)[x]
    decreases |s|
  {
    if s != [] {
      var s' := s[..|s| - 1];
      assert s == s' + [s[|s| - 1]];
      FilterCount(s', x);
    }
  }

  /** A stable rearrangement is in particular a permutation. */
  lemma StablePermIsPermutation(s: seq<Pair>, t: seq<Pair>)
    requires StablePerm(s, t)
    ensures multiset(s) == multiset(t)
  {
    forall x | true
      ensures multiset(s)[x] == multiset(t)[x]
    {
      FilterCount(s, x);
      FilterCount(t, x);
    }
  }

  /** Stable rearrangements of the parts give a stable rearrangement of the whole. */
  lemma StablePermAppend(a: seq<Pair>, b: seq<Pair>, c: seq<Pair>, d: seq<Pair>)
    requires StablePerm(a, c) && StablePerm(b, d)
    ensures StablePerm(a + b, c + d)
  {
    forall k | true
      ensures KeyFilter(c + d, k) == KeyFilter(a + b, k)
    {
      FilterAppend(a, b, k);
      FilterAppend(c, d, k);
    }
  }

  /** Replacing the slice `s[lo..hi)` by a stable rearrangement of it is a stable
      rearrangement of the whole sequence. */
  lemma StablePermSplice(s: seq<Pair>, t: seq<Pair>, lo: nat, hi: nat)
    requires lo <= hi <= |s| == |t|
    requires t[..lo] == s[..lo] && t[hi..] == s[hi..]
    requires StablePerm(s[lo..hi], t[lo..hi])
    ensures StablePerm(s, t)
  {
    assert s == s[..lo] + s[lo..hi] + s[hi..];
    assert t == t[..lo] + t[lo..hi] + t[hi..];
    StablePermAppend(s[..lo], s[lo..hi], t[..lo], t[lo..hi]);
    StablePermAppend(s[..lo] + s[lo..hi], s[hi..], t[..lo] + t[lo..hi], t[hi..]);
  }

  /** Two parts may trade places without disturbing any key's order when no key occurs
      in both. */
  lemma SwapDisjointParts(a: seq<Pair>, b: seq<Pair>)
    requires forall i, j :: 0 <= i < |a| && 0 <= j < |b| ==> a[i].key != b[j].key
    ensures StablePerm(a + b, b + a)
  {
    forall k | true
      ensures KeyFilter(b + a, k) == KeyFilter(a + b, k)
    {
      FilterAppend(a, b, k);
      FilterAppend(b, a, k);
      if exists i :: 0 <= i < |a| && a[i].key == k {
        FilterAbsent(b, k);
      } else {
        FilterAbsent(a, k);
      }
    }
  }

  /** In a sequence whose keys are pairwise different, the element of key `k` (if any) is
      the whole filter. */
  lemma {:induction false} FilterDistinct(s: seq<Pair>, i: nat)
    requires i < |s|
    requires forall p, q :: 0 <= p < q < |s| ==> s[p].key != s[q].key
    ensures KeyFilter(s, s[i].key) == [s[i]]
    decreases |s|
  {
    var s' := s[..|s| - 1];
    if i == |s| - 1 {
      FilterAbsent(s', s[i].key);
    } else {
      FilterDistinct(s', i);
    }
  }

  /** Two arrangements of the same elements with pairwise different keys are stable
      rearrangements of each other: no two elements share a key, so there is no relative
      order to keep. */
  lemma DistinctKeysStable(s: seq<Pair>, t: seq<Pair>)
    requires multiset(s) == multiset(t)
    requires forall p, q :: 0 <= p < q < |s| ==> s[p].key != s[q].key
    requires forall p, q :: 0 <= p < q < |t| ==> t[p].key != t[q].key
    ensures StablePerm(s, t)
  {
    forall k | true
      ensures KeyFilter(t, k) == KeyFilter(s, k)
    {
      if i :| 0 <= i < |s| && s[i].key == k {
        assert s[i] in multiset(t);
        var j :| 0 <= j < |t| && t[j] == s[i];
        FilterDistinct(s, i);
        FilterDistinct(t, j);
      } else {
        FilterAbsent(s, k);
        forall j | 0 <= j < |t|
          ensures t[j].key != k
        {
          assert t[j] in multiset(s);
        }
        FilterAbsent(t, k);
      }
    }
  }

  /** The last elements of two sorted permutations of each other carry the same key. */
  lemma SortedPermLastKey(a: seq<Pair>, b: seq<Pair>)
    requires Sorted(a) && Sorted(b) && a != []
    requires multiset(a) == multiset(b)
    ensures |b| == |a| && a[|a| - 1].key == b[|b| - 1].key
  {
    assert |a| == |multiset(a)| == |multiset(b)| == |b|;
    var x, y := a[|a| - 1], b[|b| - 1];
    assert x in multiset(b);
    assert y in multiset(a);
  }

  /** Removing equal last elements keeps a stable rearrangement stable. */
  lemma StablePermDropLast(a: seq<Pair>, b: seq<Pair>)
    requires a != [] && b != [] && StablePerm(a, b)
    requires a[|a| - 1].key == b[|b| - 1].key
    ensures a[|a| - 1] == b[|b| - 1]
    ensures StablePerm(a[..|a| - 1], b[..|b| - 1])
  {
    var x, y := a[|a| - 1], b[|b| - 1];
    var a', b' := a[..|a| - 1], b[..|b| - 1];
    var m := x.key;
    assert KeyFilter(a, m) == KeyFilter(a', m) + [x];
    assert KeyFilter(b, m) == KeyFilter(b', m) + [y];
    forall k | true
      ensures KeyFilter(b', k) == KeyFilter(a', k)
    {
      if k == m {
        var fa, fb := KeyFilter(a', k), KeyFilter(b', k);
        assert fa + [x] == fb + [y];
        assert |fa| == |fb|;
        assert fa == (fa + [x])[..|fa|];
        assert fb == (fb + [y])[..|fb|];
      } else {
        assert KeyFilter(a, k) == KeyFilter(a', k);
        assert KeyFilter(b, k) == KeyFilter(b', k);
      }
    }
    assert (KeyFilter(a', m) + [x])[|KeyFilter(a', m)|] == x;
  }

  /** Sorting and keeping every key's order determines the result completely: two sorted
      stable rearrangements of the same elements are equal. */
  lemma {:induction false} SortedStableUnique(a: seq<Pair>, b: seq<Pair>)
    requires Sorted(a) && Sorted(b)
    requires StablePerm(a, b)
    ensures a == b
    decreases |a|
  {
    StablePermIsPermutation(a, b);
    if a == [] {
      assert |b| == |multiset(b)| == 0;
    } else {
      SortedPermLastKey(a, b);
      StablePermDropLast(a, b);
      var n := |a| - 1;
      SortedStableUnique(a[..n], b[..n]);
      assert a == a[..n] + [a[n]] && b == b[..n] + [b[n]];
    }
  }
}

=== FILE: reference.dfy ===
/** Reference definitions the engine is measured against: the stable merge of two runs,
    the stable insertion of one element into a sorted run, and the stable sort built from
    it. They are written for clarity, not speed; the engine's loops are proved to compute
    exactly these. */
module Reference {
  import opened Pairs

  /** Stable merge: on equal keys the element of `a` comes first. */
  function Merge(a: seq<Pair>, b: seq<Pair>): seq<Pair>
    decreases |a| + |b|
  {
    if a == [] then b
    else if b == [] then a
    else if b[0].key < a[0].key then [b[0]] + Merge(a, b[1..])
    else [a[0]] + Merge(a[1..], b)
  }

  /** Insert `v` into `p` after every element whose key is at most `v.key`. */
  function Insert(p: seq<Pair>, v: Pair): seq<Pair>
    decreases |p|
  {
    if p == [] then [v]
    else if p[|p| - 1].key <= v.key then p + [v]
    else Insert(p[..|p| - 1], v) + [p[|p| - 1]]
  }

  /** Stable insertion sort, one element at a time from the left. */
  function StableSort(s: seq<Pair>): seq<Pair>
    decreases |s|
  {
    if s == [] then [] else Insert(StableSort(s[..|s| - 1]), s[|s| - 1])
  }

  /** Merging loses and invents nothing. */
  lemma {:induction false} MergePermutation(a: seq<Pair>, b: seq<Pair>)
    ensures multiset(Merge(a, b)) == multiset(a) + multiset(b)
    decreases |a| + |b|
  {
    if a != [] && b != [] {
      if b[0].key < a[0].key {
        MergePermutation(a, b[1..]);
        assert b == [b[0]] + b[1..];
      } else {
        MergePermutation(a[1..], b);
        assert a == [a[0]] + a[1..];
      }
    }
  }

  /** Every key of `s` is at least `k`. */
  predicate AllAtLeast(s: seq<Pair>, k: int)
  {
    forall i :: 0 <= i < |s| ==> k <= s[i].key
  }

  /** A sorted sequence stays sorted when an element no larger than all of it is put
      in front. */
  lemma SortedCons(x: Pair, r: seq<Pair>)
    requires Sorted(r) && AllAtLeast(r, x.key)
    ensures Sorted([x] + r)
  {
    var m := [x] + r;
    forall i, j | 0 <= i < j < |m|
      ensures m[i].key <= m[j].key
    {
      if i > 0 {
        assert m[i] == r[i - 1] && m[j] == r[j - 1];
      }
    }
  }

  /** A lower bound of both runs is a lower bound of their merge. */
  lemma {:induction false} MergeAtLeast(a: seq<Pair>, b: seq<Pair>, k: int)
    requires AllAtLeast(a, k) && AllAtLeast(b, k)
    ensures AllAtLeast(Merge(a, b), k)
    decreases |a| + |b|
  {
    if a != [] && b != [] {
      if b[0].key < a[0].key {
        MergeAtLeast(a, b[1..], k);
      } else {
        MergeAtLeast(a[1..], b, k);
      }
    }
  }

  /** The merge of two sorted runs is sorted. */
  lemma {:induction false} MergeSorted(a: seq<Pair>, b: seq<Pair>)
    requires Sorted(a) && Sorted(b)
    ensures Sorted(Merge(a, b))
    decreases |a| + |b|
  {
    if a != [] && b != [] {
      if b[0].key < a[0].key {
        MergeSorted(a, b[1..]);
        MergeAtLeast(a, b[1..], b[0].key);
        SortedCons(b[0], Merge(a, b[1..]));
      } else {
        MergeSorted(a[1..], b);
        MergeAtLeast(a[1..], b, a[0].key);
        SortedCons(a[0], Merge(a[1..], b));
      }
    }
  }

  /** The merge keeps, for every key, the elements of `a` before those of `b`. */
  lemma {:induction false} MergeStable(a: seq<Pair>, b: seq<Pair>)
    requires Sorted(a)
    ensures StablePerm(a + b, Merge(a, b))
    decreases |a| + |b|
  {
    if a == [] {
      assert a + b == b;
    } else if b == [] {
      assert a + b == a;
    } else if b[0].key < a[0].key {
      MergeStable(a, b[1..]);
      // b[0] may move in front of all of `a`: every key of `a` is larger.
      SwapDisjointParts(a, [b[0]]);
      StablePermAppend([b[0]], a + b[1..], [b[0]], Merge(a, b[1..]));
      StablePermAppend(a + [b[0]], b[1..], [b[0]] + a, b[1..]);
      assert a + b == (a + [b[0]]) + b[1..];
      assert [b[0]] + (a + b[1..]) == ([b[0]] + a) + b[1..];
    } else {
      MergeStable(a[1..], b);
      StablePermAppend([a[0]], a[1..] + b, [a[0]], Merge(a[1..], b));
      assert a + b == [a[0]] + (a[1..] + b);
    }
  }

  /** Inserting into a sorted run gives a sorted run. */
  lemma {:induction false} InsertSorted(p: seq<Pair>, v: Pair)
    requires Sorted(p)
    ensures Sorted(Insert(p, v))
    decreases |p|
  {
    if p == [] {
    } else if p[|p| - 1].key <= v.key {
      var q := p + [v];
      forall i, j | 0 <= i < j < |q|
        ensures q[i].key <= q[j].key
      {
        if j < |p| {
          assert q[i] == p[i] && q[j] == p[j];
        } else {
          assert q[i] == p[i] && p[i].key <= p[|p| - 1].key;
        }
      }
    } else {
      var p', last := p[..|p| - 1], p[|p| - 1];
      InsertSorted(p', v);
      InsertAtMost(p', v, last.key);
      var q := Insert(p', v);
      var r := q + [last];
      forall i, j | 0 <= i < j < |r|
        ensures r[i].key <= r[j].key
      {
        if j < |q| {
          assert r[i] == q[i] && r[j] == q[j];
        } else {
          assert r[i] == q[i];
        }
      }
    }
  }

  /** An upper bound of a sorted run and of `v` bounds the insertion too. */
  lemma {:induction false} InsertAtMost(p: seq<Pair>, v: Pair, k: int)
    requires Sorted(p) && v.key <= k
    requires forall i :: 0 <= i < |p| ==> p[i].key <= k
    ensures forall i :: 0 <= i < |Insert(p, v)| ==> Insert(p, v)[i].key <= k
    decreases |p|
  {
    if p != [] && p[|p| - 1].key > v.key {
      InsertAtMost(p[..|p| - 1], v, k);
    }
  }

  /** Insertion keeps `v` after every element of `p` with the same key. */
  lemma {:induction false} InsertStable(p: seq<Pair>, v: Pair)
    ensures StablePerm(p + [v], Insert(p, v))
    decreases |p|
  {
    if p != [] && p[|p| - 1].key > v.key {
      var p', last := p[..|p| - 1], p[|p| - 1];
      InsertStable(p', v);
      SwapDisjointParts([last], [v]);
      StablePermAppend(p', [last] + [v], p', [v] + [last]);
      StablePermAppend(p' + [v], [last], Insert(p', v), [last]);
      assert p + [v] == p' + ([last] + [v]);
      assert p' + ([v] + [last]) == (p' + [v]) + [last];
    }
  }

  /** Placing `v` at the first position whose key exceeds `v.key` is `Insert`. */
  lemma {:induction false} InsertAt(p: seq<Pair>, v: Pair, loc: nat)
    requires loc <= |p|
    requires forall m :: 0 <= m < loc ==> p[m].key <= v.key
    requires forall m :: loc <= m < |p| ==> p[m].key > v.key
    ensures p[..loc] + [v] + p[loc..] == Insert(p, v)
    decreases |p|
  {
    if loc == |p| {
      assert p[..loc] == p && p[loc..] == [];
    } else {
      var p' := p[..|p| - 1];
      InsertAt(p', v, loc);
      assert p[..loc] == p'[..loc];
      assert p[loc..] == p'[loc..] + [p[|p| - 1]];
    }
  }

  /** The reference sort sorts, and keeps equal keys in input order. */
  lemma {:induction false} StableSortCorrect(s: seq<Pair>)
    ensures Sorted(StableSort(s))
    ensures StablePerm(s, StableSort(s))
    decreases |s|
  {
    if s != [] {
      var s', last := s[..|s| - 1], s[|s| - 1];
      StableSortCorrect(s');
      InsertSorted(StableSort(s'), last);
      InsertStable(StableSort(s'), last);
      StablePermAppend(s', [last], StableSort(s'), [last]);
      assert s == s' + [last];
    }
  }

  /** Being sorted and a stable rearrangement of `s` characterises the reference sort of
      `s`: the sort is correct iff it agrees with `StableSort`. */
  lemma SortedStableIsStableSort(s: seq<Pair>, t: seq<Pair>)
    ensures Sorted(t) && StablePerm(s, t) <==> t == StableSort(s)
  {
    StableSortCorrect(s);
    if Sorted(t) && StablePerm(s, t) {
      SortedStableUnique(StableSort(s), t);
    }
  }

  /** A sorted sequence is its own stable sort. */
  lemma SortedIsFixpoint(s: seq<Pair>)
    requires Sorted(s)
    ensures StableSort(s) == s
  {
    SortedStableIsStableSort(s, s);
  }

  /** The stable merge of two sorted runs is the stable sort of their concatenation: the
      merge step may replace sorting without changing the result. */
  lemma MergeIsStableSort(a: seq<Pair>, b: seq<Pair>)
    requires Sorted(a) && Sorted(b)
    ensures Merge(a, b) == StableSort(a + b)
  {
    MergeSorted(a, b);
    MergeStable(a, b);
    SortedStableIsStableSort(a + b, Merge(a, b));
  }
}

=== FILE: runs.dfy ===
/** Natural runs: `reverse_elements` and `count_run`, which find the next already ordered
    stretch of the input and turn a descending one around. */
module Runs {
  import opened Pairs
  import opened Reference
  import opened Networks

  /** The elements of `s` in the opposite order. */
  function Reversed(s: seq<Pair>): (r: seq<Pair>)
    ensures |r| == |s|
    decreases |s|
  {
    if s == [] then [] else [s[|s| - 1]] + Reversed(s[..|s| - 1])
  }

  /** Position `i` of the reversal holds position `|s| - 1 - i` of the original. */
  lemma {:induction false} ReversedAt(s: seq<Pair>)
    ensures forall i :: 0 <= i < |s| ==> Reversed(s)[i] == s[|s| - 1 - i]
    decreases |s|
  {
    if s != [] {
      var s' := s[..|s| - 1];
      ReversedAt(s');
      assert forall i :: 1 <= i < |s| ==> Reversed(s)[i] == Reversed(s')[i - 1];
    }
  }

  /** Turning around loses and invents nothing. */
  lemma {:induction false} ReversedPermutation(s: seq<Pair>)
    ensures multiset(Reversed(s)) == multiset(s)
    decreases |s|
  {
    if s != [] {
      ReversedPermutation(s[..|s| - 1]);
      assert s == s[..|s| - 1] + [s[|s| - 1]];
    }
  }

  /** A strictly descending stretch, turned around, is sorted; and since no two of its
      keys are equal, turning it around keeps every key's order. */
  lemma ReversedDescending(s: seq<Pair>)
    requires StrictlyDescendingRange(s, 0, |s|)
    ensures Sorted(Reversed(s)) && StablePerm(s, Reversed(s))
    ensures Reversed(s) == StableSort(s)
  {
    var r := Reversed(s);
    ReversedAt(s);
    ReversedPermutation(s);
    DistinctKeysStable(s, r);
    SortedStableIsStableSort(s, r);
  }

  /** `reverse_elements(x, y, start, end)`: the pairs at positions `lo..hi`, both ends
      included, are turned around by swapping from the outside in. An empty or one-element
      range (`lo >= hi`) is left alone. */
  method ReverseElements(s: seq<Pair>, lo: nat, hi: nat) returns (r: seq<Pair>)
    requires lo < hi ==> hi < |s|
    ensures |r| == |s|
    ensures lo < hi ==> r[lo..hi + 1] == Reversed(s[lo..hi + 1])
    ensures forall m :: 0 <= m < |s| && !(lo <= m <= hi) ==> r[m] == s[m]
    ensures lo >= hi ==> r == s
  {
    r := s;
    var a: nat, b: nat := lo, hi;
    while a < b
      invariant lo <= a && b <= hi && a - lo == hi - b
      invariant a < b + 2 || (a == lo && b == hi)
      invariant lo < hi ==> hi < |s|
      invariant |r| == |s|
      invariant forall m :: lo <= m < a ==> r[m] == s[lo + hi - m]
      invariant forall m :: b < m <= hi ==> r[m] == s[lo + hi - m]
      invariant forall m :: 0 <= m < |s| && !(lo <= m < a) && !(b < m <= hi) ==> r[m] == s[m]
      decreases b - a
    {
      r := r[a := r[b]][b := r[a]];
      a, b := a + 1, b - 1;
    }
    if lo < hi {
      var t := s[lo..hi + 1];
      ReversedAt(t);
      assert forall m :: 0 <= m < |t| ==> r[lo..hi + 1][m] == Reversed(t)[m];
    }
  }

  /** What `count_run` leaves behind: a run of `len` pairs from `start`, at least two
      when two remain and never reaching the last element when three or more remain,
      rearranged into exactly its stable sort, with nothing outside it touched. An
      ascending run (first two keys in order) is non-decreasing and left in place; a
      descending one is strictly decreasing and turned around. Either way the run stops
      at the first pair that breaks its pattern, or one position before the end. */
  ghost predicate CountedRun(s: seq<Pair>, start: nat, len: nat, r: seq<Pair>)
    requires start < |s|
  {
    && 1 <= len <= |s| - start
    && (|s| - start >= 2 ==> len >= 2)
    && (|s| - start >= 3 ==> len <= |s| - 1 - start)
    && |r| == |s|
    && r[..start] == s[..start] && r[start + len..] == s[start + len..]
    && r[start..start + len] == StableSort(s[start..start + len])
    && (|s| - start >= 3 && s[start].key <= s[start + 1].key ==>
          r == s && SortedRange(s, start, start + len)
          && (start + len == |s| - 1 || s[start + len - 1].key > s[start + len].key))
    && (|s| - start >= 3 && s[start].key > s[start + 1].key ==>
          StrictlyDescendingRange(s, start, start + len)
          && r[start..start + len] == Reversed(s[start..start + len])
          && (start + len == |s| - 1 || s[start + len - 1].key <= s[start + len].key))
  }

  /** `count_run`: finds the natural run starting at `start` and makes it ascending.
      Two elements left are put in order by one conditional swap; a descending run is
      turned around, which keeps it stable because its keys are pairwise different. */
  method CountRun(s: seq<Pair>, start: nat) returns (len: nat, r: seq<Pair>)
    requires start < |s|
    ensures 1 <= len <= |s| - start
    ensures |s| - start >= 2 ==> len >= 2
    ensures |s| - start >= 3 ==> len <= |s| - 1 - start
    ensures |r| == |s|
    ensures r[..start] == s[..start] && r[start + len..] == s[start + len..]
    ensures r[start..start + len] == StableSort(s[start..start + len])
    ensures |s| - start >= 3 && s[start].key <= s[start + 1].key ==>
              r == s && SortedRange(s, start, start + len)
              && (start + len == |s| - 1 || s[start + len - 1].key > s[start + len].key)
    ensures |s| - start >= 3 && s[start].key > s[start + 1].key ==>
              StrictlyDescendingRange(s, start, start + len)
              && r[start..start + len] == Reversed(s[start..start + len])
              && (start + len == |s| - 1 || s[start + len - 1].key <= s[start + len].key)
  {
    if |s| - start == 1 {
      len, r := 1, s;
      AscendingRunSorted(s, start, 1);
    } else if start >= |s| - 2 {
      len, r := LastTwo(s, start);
    } else if s[start].key <= s[start + 1].key {
      len, r := KeptRun(s, start);
    } else {
      len, r := ReversedRun(s, start);
    }
    CountedRunFacts(s, start, len, r);
  }

  /** Unfolds `CountedRun` into its conjuncts. Unfolding it once, in a lemma of its own,
      keeps the proof of `CountRun` within the solver's budget. */
  lemma CountedRunFacts(s: seq<Pair>, start: nat, len: nat, r: seq<Pair>)
    requires start < |s| && CountedRun(s, start, len, r)
    ensures 1 <= len <= |s| - start
    ensures |s| - start >= 2 ==> len >= 2
    ensures |s| - start >= 3 ==> len <= |s| - 1 - start
    ensures |r| == |s|
    ensures r[..start] == s[..start] && r[start + len..] == s[start + len..]
    ensures r[start..start + len] == StableSort(s[start..start + len])
    ensures |s| - start >= 3 && s[start].key <= s[start + 1].key ==>
              r == s && SortedRange(s, start, start + len)
              && (start + len == |s| - 1 || s[start + len - 1].key > s[start + len].key)
    ensures |s| - start >= 3 && s[start].key > s[start + 1].key ==>
              StrictlyDescendingRange(s, start, start + len)
              && r[start..start + len] == Reversed(s[start..start + len])
              && (start + len == |s| - 1 || s[start + len - 1].key <= s[start + len].key)
  {
  }

  /** An ascending run, found and left where it is. */
  method KeptRun(s: seq<Pair>, start: nat) returns (len: nat, r: seq<Pair>)
    requires start + 3 <= |s| && s[start].key <= s[start + 1].key
    ensures CountedRun(s, start, len, r)
  {
    len := AscendingRun(s, start);
    r := s;
    AscendingRunSorted(s, start, len);
  }

  /** A strictly descending run, found and turned around in place. */
  method ReversedRun(s: seq<Pair>, start: nat) returns (len: nat, r: seq<Pair>)
    requires start + 3 <= |s| && s[start].key > s[start + 1].key
    ensures CountedRun(s, start, len, r)
  {
    len := DescendingRun(s, start);
    r := ReverseElements(s, start, start + len - 1);
    assert r[..start] == s[..start];
    assert r[start + len..] == s[start + len..];
    DescendingRunSorted(s, r, start, len);
  }

  /** The last two pairs of the array: one conditional swap orders them, stably, since it
      only swaps different keys. */
  method LastTwo(s: seq<Pair>, start: nat) returns (len: nat, r: seq<Pair>)
    requires start + 2 == |s|
    ensures CountedRun(s, start, len, r)
  {
    len := 2;
    r := CSwap(s, C(|s| - 2, |s| - 1));
    var t, u := s[start..start + 2], r[start..start + 2];
    if s[start].key > s[start + 1].key {
      assert t == [s[start]] + [s[start + 1]] && u == [s[start + 1]] + [s[start]];
      SwapDisjointParts([s[start]], [s[start + 1]]);
    } else {
      assert u == t;
    }
    SortedStableIsStableSort(t, u);
  }

  /** An ascending run is its own stable sort. */
  lemma AscendingRunSorted(s: seq<Pair>, start: nat, len: nat)
    requires start + len <= |s| && SortedRange(s, start, start + len)
    ensures s[start..start + len] == StableSort(s[start..start + len])
    ensures Sorted(s[start..start + len]) && StablePerm(s[start..start + len], s[start..start + len])
  {
    SortedRangeSlice(s, start, start + len);
    SortedIsFixpoint(s[start..start + len]);
    StableSortCorrect(s[start..start + len]);
  }

  /** A strictly descending run, turned around, is its stable sort. */
  lemma DescendingRunSorted(s: seq<Pair>, r: seq<Pair>, start: nat, len: nat)
    requires start + len <= |s| == |r| && StrictlyDescendingRange(s, start, start + len)
    requires r[start..start + len] == Reversed(s[start..start + len])
    ensures r[start..start + len] == StableSort(s[start..start + len])
    ensures Sorted(r[start..start + len]) && StablePerm(s[start..start + len], r[start..start + len])
  {
    var t := s[start..start + len];
    assert StrictlyDescendingRange(t, 0, |t|);
    ReversedDescending(t);
  }

  /** The scan of `count_run` for an ascending run: it extends while keys do not drop,
      stopping one short of the end of the array. */
  method AscendingRun(s: seq<Pair>, start: nat) returns (len: nat)
    requires start + 3 <= |s| && s[start].key <= s[start + 1].key
    ensures 2 <= len <= |s| - 1 - start
    ensures SortedRange(s, start, start + len)
    ensures start + len == |s| - 1 || s[start + len - 1].key > s[start + len].key
  {
    var curr := start + 2;
    while curr != |s| - 1
      invariant start + 2 <= curr <= |s| - 1
      invariant SortedRange(s, start, curr)
      decreases |s| - 1 - curr
    {
      if s[curr - 1].key > s[curr].key {
        break;
      }
      curr := curr + 1;
    }
    len := curr - start;
  }

  /** The scan of `count_run` for a descending run: it extends while keys strictly drop,
      stopping one short of the end of the array. */
  method DescendingRun(s: seq<Pair>, start: nat) returns (len: nat)
    requires start + 3 <= |s| && s[start].key > s[start + 1].key
    ensures 2 <= len <= |s| - 1 - start
    ensures StrictlyDescendingRange(s, start, start + len)
    ensures start + len == |s| - 1 || s[start + len - 1].key <= s[start + len].key
  {
    var curr := start + 2;
    while curr != |s| - 1
      invariant start + 2 <= curr <= |s| - 1
      invariant StrictlyDescendingRange(s, start, curr)
      decreases |s| - 1 - curr
    {
      if s[curr - 1].key <= s[curr].key {
        break;
      }
      curr := curr + 1;
    }
    len := curr - start;
  }
}

=== FILE: timsort.dfy ===
/** `push_next` and `tim_sort`: the driver that finds runs, pushes them on the stack,
    keeps the stack balanced and finally merges everything into one sorted run. */
module TimSorting {
  import opened Pairs
  import opened Reference
  import opened MinRun
  import opened Insertion
  import opened Networks
  import opened Runs
  import opened Bitonic
  import opened Merging
  import opened Collapsing

  /** Stable rearrangements of each other have the same stable sort. */
  lemma StableSortOfStablePerm(s: seq<Pair>, t: seq<Pair>)
    requires StablePerm(s, t)
    ensures StableSort(s) == StableSort(t)
  {
    StableSortCorrect(t);
    StablePermTrans(s, t, StableSort(t));
    SortedStableIsStableSort(s, StableSort(t));
  }

  /** Replacing the front of a slice by its stable sort leaves the stable sort of the whole
      slice unchanged. */
  lemma SortedFrontSameSort(x: seq<Pair>, t: seq<Pair>, lo: nat, mid: nat, hi: nat)
    requires lo <= mid <= hi <= |x| == |t|
    requires t[lo..mid] == StableSort(x[lo..mid]) && t[mid..] == x[mid..]
    ensures StableSort(t[lo..hi]) == StableSort(x[lo..hi])
  {
    StableSortCorrect(x[lo..mid]);
    assert t[mid..hi] == t[mid..][..hi - mid] == x[mid..][..hi - mid] == x[mid..hi];
    assert x[lo..hi] == x[lo..mid] + x[mid..hi];
    assert t[lo..hi] == t[lo..mid] + t[mid..hi];
    StablePermAppend(x[lo..mid], x[mid..hi], t[lo..mid], t[mid..hi]);
    StableSortOfStablePerm(x[lo..hi], t[lo..hi]);
  }

  /** `t` holds the input `x` with the `len` pairs from `curr` replaced by their stable
      sort. */
  ghost predicate SortedRun(x: seq<Pair>, t: seq<Pair>, curr: nat, len: nat)
  {
    && curr + len <= |x| == |t|
    && t[..curr] == x[..curr] && t[curr + len..] == x[curr + len..]
    && t[curr..curr + len] == StableSort(x[curr..curr + len])
  }

  /** The run `push_next` pushes: the natural run at `curr`, extended by binary insertion
      to `minrun` pairs (or to the end of the array, if nearer) when it is shorter. The run
      becomes the stable sort of its pairs and nothing else moves. */
  method NextRun(x: seq<Pair>, curr: nat, minrun: nat) returns (len: nat, t: seq<Pair>)
    requires curr < |x|
    ensures 1 <= len <= |x| - curr
    ensures Min(minrun, |x| - curr) <= len
    ensures |t| == |x| && t[..curr] == x[..curr] && t[curr + len..] == x[curr + len..]
    ensures t[curr..curr + len] == StableSort(x[curr..curr + len])
  {
    len, t := CountRun(x, curr);
    assert SortedRun(x, t, curr, len);
    var run := minrun;
    if run > |x| - curr {
      run := |x| - curr;
    }
    if run > len {
      len, t := ExtendRun(x, t, curr, len, run);
    }
    SortedRunFacts(x, t, curr, len);
  }

  /** Unfolds `SortedRun` into its conjuncts. Unfolding it once, in a lemma of its own,
      keeps the proof of `NextRun` within the solver's budget. */
  lemma SortedRunFacts(x: seq<Pair>, t: seq<Pair>, curr: nat, len: nat)
    requires SortedRun(x, t, curr, len)
    ensures |t| == |x| && t[..curr] == x[..curr] && t[curr + len..] == x[curr + len..]
    ensures t[curr..curr + len] == StableSort(x[curr..curr + len])
  {
  }

  /** The extension step of `push_next`: binary insertion sort, told that the first `len`
      pairs from `curr` are already sorted, sorts `run` pairs. */
  method ExtendRun(x: seq<Pair>, t: seq<Pair>, curr: nat, len: nat, run: nat)
    returns (len': nat, t': seq<Pair>)
    requires SortedRun(x, t, curr, len) && 1 <= len < run && curr + run <= |x|
    ensures len' == run && SortedRun(x, t', curr, run)
  {
    StableSortCorrect(x[curr..curr + len]);
    SortedRangeSlice(t, curr, curr + len);
    t' := SortStart(t, curr, len, run);
    SortedFrontSameSort(x, t, curr, curr + len, curr + run);
    SuffixKept(x, t, curr + len, curr + run);
    len' := run;
  }

  /** The run's sorted stable rearrangement makes the whole array a stable
      rearrangement of the input. */
  lemma RunIsStable(x: seq<Pair>, t: seq<Pair>, lo: nat, hi: nat)
    requires lo <= hi <= |x| == |t| && t[..lo] == x[..lo] && t[hi..] == x[hi..]
    requires t[lo..hi] == StableSort(x[lo..hi])
    ensures StablePerm(x, t) && SortedRange(t, lo, hi)
  {
    StableSortCorrect(x[lo..hi]);
    StablePermSplice(x, t, lo, hi);
    SortedRangeSlice(t, lo, hi);
  }

  /** Pushing a sorted run that starts where the stack ends keeps the stack well formed. */
  lemma PushWellFormed(x: seq<Pair>, t: seq<Pair>, stack: seq<Run>, curr: nat, len: nat)
    requires WellFormed(x, stack, curr) && curr + len <= |x| == |t|
    requires t[..curr] == x[..curr] && SortedRange(t, curr, curr + len)
    ensures WellFormed(t, stack + [Run(curr, len)], curr + len)
  {
    var s := stack + [Run(curr, len)];
    assert forall i :: 0 <= i < |stack| ==> s[i] == stack[i];
    forall i | 0 <= i < |stack|
      ensures End(stack[i]) <= curr && SortedRange(t, stack[i].start, End(stack[i]))
    {
      if i < |stack| - 1 {
        assert End(stack[i]) <= stack[|stack| - 1].start;
      }
      SortedRangeKept(x, t, stack[i].start, End(stack[i]), curr, |x|);
    }
  }

  /** The final clean-up of `push_next` once the last run is pushed: the top two runs are
      merged until a single run, the whole array, is left. */
  method MergeAll(x: seq<Pair>, stack: seq<Run>, store: Storage)
    returns (r: seq<Pair>, stack': seq<Run>, store': Storage)
    requires WellFormed(x, stack, |x|) && stack != []
    ensures stack' == [Run(0, |x|)]
    ensures WellFormed(r, stack', |x|)
    ensures Sorted(r) && StablePerm(x, r)
  {
    r, stack', store' := x, stack, store;
    while |stack'| > 1
      invariant WellFormed(r, stack', |x|) && stack' != [] && StablePerm(x, r) && |r| == |x|
      decreases |stack'|
    {
      var r', s', t' := MergeAndPop(r, stack', |stack'|, |x|, store');
      StablePermTrans(x, r, r');
      r, stack', store' := r', s', t';
    }
    assert stack'[0] == Run(0, |x|);
    assert SortedRange(r, 0, |x|);
    SortedRangeSlice(r, 0, |x|);
    assert r[0..|x|] == r;
  }

  /** `push_next`: pushes the next run, of at least `minrun` pairs unless the array ends
      first. It answers whether more remains; when nothing does, the stack has been
      merged into the single run `[0, |x|)`, which is sorted, and the buffer released. */
  method PushNext(x: seq<Pair>, stack: seq<Run>, curr: nat, store: Storage, minrun: nat)
    returns (r: seq<Pair>, stack': seq<Run>, curr': nat, store': Storage, more: bool)
    requires WellFormed(x, stack, curr) && curr < |x|
    ensures curr < curr' <= |x|
    ensures more <==> curr' < |x|
    ensures Min(minrun, |x| - curr) <= curr' - curr
    ensures StablePerm(x, r) && WellFormed(r, stack', curr')
    ensures more ==> stack' == stack + [Run(curr, curr' - curr)] && store' == store
    ensures more ==> r[..curr] == x[..curr] && r[curr'..] == x[curr'..]
    ensures more ==> r[curr..curr'] == StableSort(x[curr..curr'])
    ensures !more ==> stack' == [Run(0, |x|)] && Sorted(r) && !store'.held
  {
    var len;
    len, r := NextRun(x, curr, minrun);
    RunIsStable(x, r, curr, curr + len);
    PushWellFormed(x, r, stack, curr, len);
    stack', curr', store' := stack + [Run(curr, len)], curr + len, store;
    if curr' == |x| {
      var r';
      r', stack', store' := MergeAll(r, stack', store');
      StablePermTrans(x, r, r');
      r := r';
      store' := store'.(held := false);
      more := false;
    } else {
      more := true;
    }
  }

  /** A sorted stable rearrangement of the input is its stable sort, and leaves sorted
      input as it was. */
  lemma Finished(x: seq<Pair>, r: seq<Pair>)
    requires Sorted(r) && StablePerm(x, r)
    ensures r == StableSort(x) && multiset(r) == multiset(x)
    ensures Sorted(x) ==> r == x
  {
    SortedStableIsStableSort(x, r);
    StablePermIsPermutation(x, r);
    if Sorted(x) {
      SortedIsFixpoint(x);
    }
  }

  /** `tim_sort`: sorts the pairs by key. Up to one pair nothing happens; below 64 pairs
      `bitonic_sort` does the work (a sorting network up to 16 pairs, which is not
      stable); from 64 pairs on, runs of at least `compute_minrun` pairs are pushed and
      merged. Beyond 16 pairs the result is the stable sort, and sorted input always
      comes back unchanged. */
  method TimSort(x: seq<Pair>) returns (r: seq<Pair>)
    requires |x| < U64
    ensures Sorted(r) && multiset(r) == multiset(x)
    ensures |x| <= 1 ==> r == x
    ensures 2 <= |x| <= 16 ==> r == ApplyNet(Network(|x|), 0, x)
    ensures |x| > 16 ==> r == StableSort(x)
    ensures Sorted(x) ==> r == x
  {
    if |x| <= 1 {
      r := x;
      assert Sorted(r);
      return;
    }
    if |x| < 64 {
      r := BitonicSort(x);
      return;
    }
    MinrunRange(|x|);
    var minrun: nat := ComputeMinrun(|x|);
    var store := Storage(false, 0);
    var stack: seq<Run> := [];
    var curr: nat := 0;
    var more: bool;
    r := x;

    r, stack, curr, store, more := PushNext(r, stack, curr, store, minrun);
    if !more {
      Finished(x, r);
      return;
    }
    var r1;
    r1, stack, curr, store, more := PushNext(r, stack, curr, store, minrun);
    StablePermTrans(x, r, r1);
    r := r1;
    if !more {
      Finished(x, r);
      return;
    }
    r1, stack, curr, store, more := PushNext(r, stack, curr, store, minrun);
    StablePermTrans(x, r, r1);
    r := r1;
    if !more {
      Finished(x, r);
      return;
    }

    while true
      invariant WellFormed(r, stack, curr) && curr < |x| && StablePerm(x, r) && |r| == |x|
      decreases |x| - curr, |stack|
    {
      if !CheckInvariant(stack) {
        r1, stack, store := Collapse(r, stack, curr, store);
        StablePermTrans(x, r, r1);
        r := r1;
        continue;
      }
      r1, stack, curr, store, more := PushNext(r, stack, curr, store, minrun);
      StablePermTrans(x, r, r1);
      r := r1;
      if !more {
        Finished(x, r);
        return;
      }
    }
  }
}
